=== FILE: README.md ===
# SAT benchmark suite: a Dafny model of its modelling-language compiler and pure rules

The repository is a SAT-solver benchmarking suite with a web back end. Its
core is a small modelling language, modelled here from `sat_modeler.py`:
`var bool:` declarations, `constraint` formulas over `not`, `/\`, `\/`,
`->`, `<->` and `xor(...)`, the cardinality constraints `atmost`, `atleast`
and `exactly`, and `solve satisfy`. The language is compiled to CNF by a
Tseitin gate encoding plus a pairwise or sequential-counter encoding for
cardinality. The CNF is written as DIMACS text, and a solver's `v` lines
are decoded back into an assignment of the user's variables.

Around this core the model covers the pure rules of the rest of the
back end:

- the DIMACS extraction from an assistant's reply (`ai_assistant.py`), with a
  round trip against the compiler's writer;
- the verdict classifiers of the solver plugins and of the suite's runner
  (`base.py`, `solver_runner.py`), with the runner's refusal checks,
  memory override and pending-run plan;
- the stable solver-id assignment of the plugin registry (`registry.py`);
- CNF header parsing, family and difficulty classification and the upload
  filter (`cnf_parser.py`, `benchmarks.py`);
- pagination arithmetic and column whitelists of the web back end's
  database layer, and the PAR-2 default, duplicate selection and batch
  deletion rules of the suite's database layer (both `database.py`);
- the string formatters of `helpers.py`;
- the filename normaliser and best-match rule of the results migration
  script (`migrate_results_to_minisat.py`).

## Layout

One module per file, named after it:

- `Outcomes`: `Option` and `Result`.
- `Text`: the Python string methods the code uses. Whitespace is
  `str.isspace`; letters, digits and case mapping are ASCII.
- `Verdicts`: the result labels every runner stores.
- `Syntax`, `Lexer`, `Parser` and `Printer`: the tokenizer and the
  recursive-descent parser, with a printer that the parser reads back.
- `Chains`: how `->` and `<->` chains nest. Bare variables nest to the
  right, because `_atom` hands a variable before an arrow the rest of the
  expression; parenthesised operands fold to the left.
- `Cnf`, `Gates`, `Cardinality` and `Counting`: CNF, its semantics, and the
  meaning of each gate and cardinality clause set.
- `Compiler`, `Numbering`, `Semantics` and `Equisat`: the compiler state
  threaded through pure functions, its variable numbering, the meaning of
  the emitted clauses, and the equisatisfiability theorem.
- `Dimacs`, `Solve`, `Reader` and `RoundTrip`: DIMACS writing, assignment
  parsing and decoding, the verdict of a finished solver run, the reader,
  and the write/read round trip.
- `Plugin`, `Runner`, `Registry`, `Benchmarks`, `Store`, `Suite`, `Helpers`
  and `Migrate`: the secondary rules, one module per source file.

The compiler state (`_var_map`, `_next_id`, `_clauses`) is an immutable
`CState` threaded through the encoders. Every Python exception the core
raises becomes a `Result` error value.

## Notes on the code

- `xor` is call syntax, `xor(a, b, ...)`, parsed as an atom
  (sat_modeler.py:432-439). It is not a binary operator with a precedence
  level.
- `SolverRunResult.to_dict` writes eleven fixed keys before merging
  `extra_stats` (base.py:91-103), and the model counts eleven.
- `atleast(k, L)` with `k > |L|` is modelled as the code behaves, not ruled
  out by a precondition. `combinations` with a negative size raises
  ValueError, and the sequential counter's `R[0][0]` raises IndexError. Both
  are `CompileError` values.

## Model

| member | source | states |
|---|---|---|
| Lexer.LookupFinds | sat-benchmark-react/backend/app/api/sat_modeler.py:96-111 | a keyword lookup yields the first table entry for the word, and fails exactly when no entry has that word |
| Lexer.DigitsEnd | sat-benchmark-react/backend/app/api/sat_modeler.py:183-184 | the digit run stops at the end of the text or at the first non-digit, never before its start |
| Lexer.DigitsEndDigits | sat-benchmark-react/backend/app/api/sat_modeler.py:183-184 | every character the digit run passes over is a digit |
| Lexer.WordEnd | sat-benchmark-react/backend/app/api/sat_modeler.py:192-193 | the word run stops at the end of the text or at the first character that is not a letter, digit or underscore |
| Lexer.WordEndChars | sat-benchmark-react/backend/app/api/sat_modeler.py:192-193 | every character the word run passes over is a letter, digit or underscore |
| Lexer.LineEnd | sat-benchmark-react/backend/app/api/sat_modeler.py:150-151 | a comment runs to the next newline or to the end of the text |
| Lexer.Scan | sat-benchmark-react/backend/app/api/sat_modeler.py:135-200 | one turn of the loop either skips forward without moving the position backwards, or produces a token that consumes exactly its own text, or is stuck |
| Lexer.ScanProduces | sat-benchmark-react/backend/app/api/sat_modeler.py:155-198 | a produced token is a lexeme of its kind, taken verbatim from the text at the current line and column |
| Lexer.LexEnd | sat-benchmark-react/backend/app/api/sat_modeler.py:202-203 | at the end of the text the tokenizer yields exactly one EOF token with empty text at the current position |
| Lexer.LexSkip | sat-benchmark-react/backend/app/api/sat_modeler.py:138-152 | whitespace, newlines and comments are passed over and produce nothing |
| Lexer.LexProduce | sat-benchmark-react/backend/app/api/sat_modeler.py:155-198 | a produced token is followed by the tokens of the rest of the text, with the column advanced by the token's length |
| Lexer.LexStuck | sat-benchmark-react/backend/app/api/sat_modeler.py:200 | a character that starts no token makes the whole result a SyntaxError at that character's line and column |
| Lexer.LexWellFormed | sat-benchmark-react/backend/app/api/sat_modeler.py:127-203 | any token list the loop returns holds valid lexeme tokens in strictly increasing positions and ends in exactly one EOF; an error is never reported before the starting position |
| Lexer.Tokenize | sat-benchmark-react/backend/app/api/sat_modeler.py:127-203 | a successful result is well formed (valid tokens, strictly increasing positions, one final EOF); an error lies at or after line 1, column 1 |
| Lexer.StrayCharacter | sat-benchmark-react/backend/app/api/sat_modeler.py:200 | any non-whitespace character that begins no operator, punctuation, number or word is a lexing error at its own position |
| Lexer.CommentSkipped | sat-benchmark-react/backend/app/api/sat_modeler.py:148-152 | a `%` or `//` comment produces no token and lexing resumes at the end of its line without moving the column |
| Lexer.ScanLexeme | sat-benchmark-react/backend/app/api/sat_modeler.py:155-198 | a complete lexeme followed by a space or the end of the text is scanned as exactly that one token; `<->`, `->`, `/\\` and `\\/` become single operator tokens |
| Lexer.LexLexemeSpace | sat-benchmark-react/backend/app/api/sat_modeler.py:138-198 | a lexeme followed by a space lexes to its token and then to whatever follows the space |
| Lexer.LexSpelled | sat-benchmark-react/backend/app/api/sat_modeler.py:127-203 | tokens written out separated by spaces lex back to the same kinds and texts at the columns where they were written |
| Lexer.SpellRoundTrip | sat-benchmark-react/backend/app/api/sat_modeler.py:127-203 | tokenizing the space-separated spelling of valid tokens returns those tokens, placed on line 1, followed by one EOF |
| Lexer.WordKindLower | sat-benchmark-react/backend/app/api/sat_modeler.py:195 | a word's kind does not depend on its letter case |
| Lexer.ScanLower | sat-benchmark-react/backend/app/api/sat_modeler.py:135-200 | one loop turn on the lower-cased text does the same as on the original, with the produced text lower-cased |
| Lexer.LexLower | sat-benchmark-react/backend/app/api/sat_modeler.py:127-203 | letter case never changes how a text is tokenized: same kinds and positions, and an error at the same place |
| Parser.Expect | sat-benchmark-react/backend/app/api/sat_modeler.py:301-308 | `expect` succeeds exactly when the current token has the wanted kind, consuming that one token; otherwise it fails naming the wanted kind and the token found |
| Parser.Statement | sat-benchmark-react/backend/app/api/sat_modeler.py:317-328 | a statement parse consumes at least one token, carries the line of its first token, and fails for any leading token other than `var`, `constraint` or `solve` |
| Parser.VarDeclStmt | sat-benchmark-react/backend/app/api/sat_modeler.py:330-339 | `var bool: id (, id)* ;` yields a declaration of at least one name on the line of `var` |
| Parser.NameList | sat-benchmark-react/backend/app/api/sat_modeler.py:334-337 | the comma loop only appends to the names already read and stops on a token that is not a comma |
| Parser.ConstraintStmt | sat-benchmark-react/backend/app/api/sat_modeler.py:341-345 | `constraint e ;` yields a constraint on the line of `constraint` |
| Parser.SolveStmt | sat-benchmark-react/backend/app/api/sat_modeler.py:347-351 | `solve satisfy ;` yields exactly the solve statement on the line of `solve` |
| Parser.ParseExpr | sat-benchmark-react/backend/app/api/sat_modeler.py:354-355 | every parsed expression consumes tokens and has n-ary `and`/`or` nodes of at least two operands and non-empty cardinality lists |
| Parser.IffLoop | sat-benchmark-react/backend/app/api/sat_modeler.py:357-363 | the `<->` loop keeps the tree shaped and never moves backwards |
| Parser.ImplLoop | sat-benchmark-react/backend/app/api/sat_modeler.py:365-371 | the `->` loop keeps the tree shaped and never moves backwards |
| Parser.OrLoop | sat-benchmark-react/backend/app/api/sat_modeler.py:373-378 | the `or` loop only adds operands, all shaped |
| Parser.AndLoop | sat-benchmark-react/backend/app/api/sat_modeler.py:380-385 | the `and` loop only adds operands, all shaped |
| Parser.NotExpr | sat-benchmark-react/backend/app/api/sat_modeler.py:387-391 | the `not` level consumes tokens and builds a shaped tree |
| Parser.Atom | sat-benchmark-react/backend/app/api/sat_modeler.py:393-430 | an atom consumes tokens and builds a shaped tree; a token that starts no atom is an error |
| Parser.XorCall | sat-benchmark-react/backend/app/api/sat_modeler.py:432-439 | `xor(a, b)` consumes tokens and builds a shaped tree |
| Parser.Cardinality | sat-benchmark-react/backend/app/api/sat_modeler.py:441-458 | `atmost`/`atleast`/`exactly(k, [x, ...])` builds a cardinality node of the keyword's kind with a non-empty list of bare names |
| Chains.ExprStops | sat-benchmark-react/backend/app/api/sat_modeler.py:354-385 | a parsed expression ends on a token that none of the `and`, `or`, `->` and `<->` loops continues on |
| Chains.ArrowCaptures | sat-benchmark-react/backend/app/api/sat_modeler.py:415-425 | a variable followed by `->` or `<->` parses as that arrow with the variable on the left and the whole rest of the expression on the right, and an error in the rest is the error of the whole |
| Chains.VarChainNestsRight | sat-benchmark-react/backend/app/api/sat_modeler.py:415-425 | a chain of bare variables joined by arrows nests to the right, `x0 op (x1 op (... xn))`, and ends after the last variable |
| Chains.IffChainNestsRight | sat-benchmark-react/backend/app/api/sat_modeler.py:415-425 | `a <-> b <-> c` parses as `a <-> (b <-> c)` |
| Chains.ImplRestFolds | sat-benchmark-react/backend/app/api/sat_modeler.py:367-370 | over parenthesised operands the `->` loop wraps the tree built so far once per further operand |
| Chains.IffRestFolds | sat-benchmark-react/backend/app/api/sat_modeler.py:359-362 | over parenthesised operands the `<->` loop wraps the tree built so far once per further operand |
| Chains.ParenImplFoldsLeft | sat-benchmark-react/backend/app/api/sat_modeler.py:365-371 | with every operand but the last in parentheses, a `->` chain folds to the left, `((x0 -> x1) -> ...) -> xn` |
| Chains.ParenIffFoldsLeft | sat-benchmark-react/backend/app/api/sat_modeler.py:357-363 | with every operand but the last in parentheses, a `<->` chain folds to the left |
| Chains.ParenIffChainFoldsLeft | sat-benchmark-react/backend/app/api/sat_modeler.py:357-363 | `(a) <-> (b) <-> c` parses as `(a <-> b) <-> c` |
| Printer.LiftAll | sat-benchmark-react/backend/app/api/sat_modeler.py:354-391 | a tree the `not` level returns in front of a token that continues no operator level is returned unchanged by every level above it |
| Printer.NamesParse | sat-benchmark-react/backend/app/api/sat_modeler.py:334-337 | a printed name list is read back by the first `expect(IDENT)` and the comma loop |
| Printer.CardinalityParse | sat-benchmark-react/backend/app/api/sat_modeler.py:441-458 | a printed cardinality constraint is read back as the same node |
| Printer.XorParse | sat-benchmark-react/backend/app/api/sat_modeler.py:432-439 | a printed `xor(a, b)` is read back as the same node |
| Printer.AtomicParse | sat-benchmark-react/backend/app/api/sat_modeler.py:393-430 | `true`, `false`, a variable not followed by an arrow, `xor` and cardinality atoms are read back by `_atom` |
| Printer.AndLoopParse | sat-benchmark-react/backend/app/api/sat_modeler.py:380-385 | the `and` loop reads the printed operands back in order |
| Printer.OrLoopParse | sat-benchmark-react/backend/app/api/sat_modeler.py:373-378 | the `or` loop reads the printed operands back in order |
| Printer.CaptureParse | sat-benchmark-react/backend/app/api/sat_modeler.py:417-426 | an identifier directly followed by `->` or `<->` takes the whole remaining expression as its right operand |
| Printer.ExprParse | sat-benchmark-react/backend/app/api/sat_modeler.py:354-430 | the printed tokens of a shaped tree, followed by a token that continues no operator, parse back to the same tree, ending at that token |
| Printer.StmtParse | sat-benchmark-react/backend/app/api/sat_modeler.py:317-351 | a printed statement is parsed back to itself |
| Printer.StatementsParse | sat-benchmark-react/backend/app/api/sat_modeler.py:311-315 | the statement loop reads a printed program back up to the end marker |
| Printer.ExprRoundTrip | sat-benchmark-react/backend/app/api/sat_modeler.py:354-430 | a shaped expression, printed and closed by an end marker, parses back to itself and stops at the end marker |
| Printer.ParsePrinted | sat-benchmark-react/backend/app/api/sat_modeler.py:311-351 | `parse` returns the statements whose printed program it is given |
| Compiler.VarId | sat-benchmark-react/backend/app/api/sat_modeler.py:473-477 | a known name keeps its id and changes nothing; a new name gets the current next id, which then advances by one; no other entry changes and no clause is added |
| Compiler.Aux | sat-benchmark-react/backend/app/api/sat_modeler.py:479-483 | an auxiliary id is the current next id, which advances by one, with the map and the clauses unchanged |
| Compiler.LookupAll | sat-benchmark-react/backend/app/api/sat_modeler.py:611-615 | the listed names resolve to one id each, and resolution fails, naming an undeclared entry, exactly when some listed name is undeclared |
| Compiler.EncodeAll | sat-benchmark-react/backend/app/api/sat_modeler.py:537-556 | the children of an `and`/`or` yield one literal each |
| Gates.ImpliesEachSat | sat-benchmark-react/backend/app/api/sat_modeler.py:542-543 | the clauses `aux -> l` for every operand hold exactly when aux implies that every operand holds |
| Gates.ImpliedByEachSat | sat-benchmark-react/backend/app/api/sat_modeler.py:554-555 | the clauses `l -> aux` for every operand hold exactly when any true operand forces aux |
| Gates.AndGate | sat-benchmark-react/backend/app/api/sat_modeler.py:537-546 | the `and` clauses hold exactly when aux equals the conjunction of the child literals |
| Gates.OrGate | sat-benchmark-react/backend/app/api/sat_modeler.py:548-556 | the `or` clauses hold exactly when aux equals the disjunction of the child literals |
| Gates.ImplGate | sat-benchmark-react/backend/app/api/sat_modeler.py:558-566 | the three `->` clauses hold exactly when aux equals `not a or b` |
| Gates.IffGate | sat-benchmark-react/backend/app/api/sat_modeler.py:568-577 | the four `<->` clauses hold exactly when aux equals `a == b` |
| Gates.XorGate | sat-benchmark-react/backend/app/api/sat_modeler.py:579-587 | the four `xor` clauses hold exactly when aux equals `a != b` |
| Gates.BothGate | sat-benchmark-react/backend/app/api/sat_modeler.py:596-604 | the three `exactly` clauses hold exactly when aux equals the conjunction of the `atmost` and `atleast` literals |
| Cardinality.CombShape | sat-benchmark-react/backend/app/api/sat_modeler.py:640 | every subset `combinations(lits, r)` yields has r entries, each taken from the list |
| Cardinality.CombHit | sat-benchmark-react/backend/app/api/sat_modeler.py:640-641 | with at least r true literals some r-subset is all true |
| Cardinality.CombCount | sat-benchmark-react/backend/app/api/sat_modeler.py:640-641 | an all-true r-subset means at least r true literals |
| Cardinality.NoneGate | sat-benchmark-react/backend/app/api/sat_modeler.py:623-630 | the `atmost(0)` clauses hold exactly when aux says that no listed literal is true |
| Cardinality.EveryGate | sat-benchmark-react/backend/app/api/sat_modeler.py:690-695 | the `atleast(len(L))` clauses hold exactly when aux says that every listed literal is true |
| Cardinality.PairwiseGate | sat-benchmark-react/backend/app/api/sat_modeler.py:637-645 | once aux holds, the pairwise clauses are satisfied exactly when fewer than k+1 listed literals are true |
| Cardinality.CounterSat | sat-benchmark-react/backend/app/api/sat_modeler.py:647-675 | the sequential-counter clauses hold exactly when the register relations they spell out hold |
| Cardinality.CounterUp | sat-benchmark-react/backend/app/api/sat_modeler.py:658-671 | along the rows, a register is true whenever its count is reached, so no prefix of the list exceeds k |
| Cardinality.CounterSound | sat-benchmark-react/backend/app/api/sat_modeler.py:647-675 | any assignment satisfying the counter clauses makes at most k listed literals true |
| Cardinality.RegRange | sat-benchmark-react/backend/app/api/sat_modeler.py:650 | the n·k registers occupy exactly the ids from the first one allocated onwards |
| Cardinality.RegDecode | sat-benchmark-react/backend/app/api/sat_modeler.py:650 | each register id determines its row and column |
| Cardinality.CounterComplete | sat-benchmark-react/backend/app/api/sat_modeler.py:647-675 | with at most k true literals the registers can be chosen so that every counter clause holds, changing no other variable |
| Numbering.AuxGood | sat-benchmark-react/backend/app/api/sat_modeler.py:479-483 | allocating an aux keeps ids distinct and below the counter and only grows the state |
| Numbering.VarIdGood | sat-benchmark-react/backend/app/api/sat_modeler.py:473-477 | looking up or allocating a user name keeps ids distinct, returns an id in 1..next-1, and only grows the state |
| Numbering.LookupAllGood | sat-benchmark-react/backend/app/api/sat_modeler.py:611-615 | resolving declared names changes nothing and returns each name's existing id |
| Numbering.GateGood | sat-benchmark-react/backend/app/api/sat_modeler.py:537-604 | every gate takes the next id as its aux, advances the counter by one, and emits clauses over allocated ids only |
| Numbering.TrueLitGood | sat-benchmark-react/backend/app/api/sat_modeler.py:518-521 | `true` allocates the next id and pins it with a unit clause over allocated ids |
| Numbering.FalseLitGood | sat-benchmark-react/backend/app/api/sat_modeler.py:523-526 | `false` allocates the next id and pins it with a unit clause over allocated ids |
| Numbering.CounterGood | sat-benchmark-react/backend/app/api/sat_modeler.py:647-675 | the sequential counter allocates its registers and its aux from the counter and keeps every literal below it |
| Numbering.AtMostLitsGood | sat-benchmark-react/backend/app/api/sat_modeler.py:617-635 | every `atmost` branch only grows the state, adds no map entry, and returns a literal over an allocated id |
| Numbering.NegHelperNumbered | sat-benchmark-react/backend/app/api/sat_modeler.py:700-706 | a new `__neg_<v>` helper takes the next id, and exactly the two clauses `neg or v` and `not neg or not v` are appended |
| Numbering.NegHelperGood | sat-benchmark-react/backend/app/api/sat_modeler.py:699-707 | after the helper step `__neg_<v>` is in the map, every helper stays tied to its variable, and only helper names are added |
| Numbering.NegHelpersGood | sat-benchmark-react/backend/app/api/sat_modeler.py:697-707 | the helper loop maps every listed name's `__neg_` helper and adds only helper names |
| Numbering.AtLeastNamesGood | sat-benchmark-react/backend/app/api/sat_modeler.py:677-710 | `atleast` keeps numbering distinct and below the counter and adds only helper names to the map |
| Numbering.ExactlyGood | sat-benchmark-react/backend/app/api/sat_modeler.py:596-604 | `exactly` keeps numbering distinct and below the counter and adds only helper names |
| Numbering.EncodeGood | sat-benchmark-react/backend/app/api/sat_modeler.py:515-606 | encoding any expression only grows the state, keeps ids distinct and below the counter, returns a literal over an allocated id, and adds only helper names to the map |
| Numbering.DeclareOk | sat-benchmark-react/backend/app/api/sat_modeler.py:494-499 | a declaration succeeds exactly when its names are new and pairwise distinct; otherwise it fails naming a redeclared name and the line; on success the declared set gains exactly those names |
| Numbering.DeclareGood | sat-benchmark-react/backend/app/api/sat_modeler.py:494-499 | for declared names outside the `__` prefix (`!Reserved`), declaring them pre-allocates their ids, adds no clause and keeps the numbering invariant |
| Numbering.CompileFromGood | sat-benchmark-react/backend/app/api/sat_modeler.py:492-505 | for programs whose declared names avoid the `__` prefix (`UserNames`), the statement loop keeps the numbering invariant throughout |
| Numbering.CompileNumbering | sat-benchmark-react/backend/app/api/sat_modeler.py:490-511 | the variable map is injective, every id lies in 1..next_id-1, and so does the variable of every literal of every clause |
| Semantics.GateExact | sat-benchmark-react/backend/app/api/sat_modeler.py:537-604 | each gate's clauses hold exactly when its aux equals the Boolean function of its operand literals |
| Semantics.GateSound | sat-benchmark-react/backend/app/api/sat_modeler.py:537-587 | in every model of the clauses after a gate, the earlier clauses hold and the gate literal has the gate's value |
| Semantics.GateComplete | sat-benchmark-react/backend/app/api/sat_modeler.py:537-587 | every model of the earlier clauses extends, on the new aux only, to a model of the gate clauses |
| Semantics.ConstSound | sat-benchmark-react/backend/app/api/sat_modeler.py:518-526 | the unit clause of `true` forces its literal true, and that of `false` (with the pinned variable as its literal) forces it false |
| Semantics.ConstComplete | sat-benchmark-react/backend/app/api/sat_modeler.py:518-526 | either constant's clauses can be satisfied by choosing the fresh variable only |
| Semantics.FalseLitAsWrittenHolds | sat-benchmark-react/backend/app/api/sat_modeler.py:523-526 | the literal the code returns for `false` is true in every model of its clauses |
| Semantics.EncodeSound | sat-benchmark-react/backend/app/api/sat_modeler.py:515-606 | for formulas over the connectives, in every model of the emitted clauses that agrees with an assignment of the names, the root literal has the formula's value |
| Semantics.EncodeBinarySound | sat-benchmark-react/backend/app/api/sat_modeler.py:558-587 | the same for `->`, `<->` and `xor`: left operand, right operand, then the gate |
| Semantics.EncodeAllSound | sat-benchmark-react/backend/app/api/sat_modeler.py:537-556 | the children's literals are all/any true exactly when the children all/any evaluate to true |
| Semantics.EncodeComplete | sat-benchmark-react/backend/app/api/sat_modeler.py:515-606 | for gate formulas (`GateOnly`), every model of the earlier clauses extends, on fresh variables only, to a model of the new clauses giving the root literal the formula's value |
| Semantics.GroupComplete | sat-benchmark-react/backend/app/api/sat_modeler.py:537-556 | the children of `and`/`or` are completed left to right, then the gate |
| Semantics.EncodeBinaryComplete | sat-benchmark-react/backend/app/api/sat_modeler.py:558-587 | completion for `->`, `<->` and `xor` |
| Semantics.EncodeAllComplete | sat-benchmark-react/backend/app/api/sat_modeler.py:537-556 | completion for a list of children |
| Counting.CountNames | sat-benchmark-react/backend/app/api/sat_modeler.py:611-615 | the true literals counted through the map are the true names, repeats counted each time |
| Counting.LookupCount | sat-benchmark-react/backend/app/api/sat_modeler.py:611-615 | the resolved literals have as many true entries as the listed names |
| Counting.AtMostLitsSound | sat-benchmark-react/backend/app/api/sat_modeler.py:610-635 | asserting the `atmost` root literal forces at most k true literals, in every branch |
| Counting.CounterSound2 | sat-benchmark-react/backend/app/api/sat_modeler.py:647-675 | the sequential counter enforces at most k true literals unconditionally, whatever its aux |
| Counting.AtMostLitsComplete | sat-benchmark-react/backend/app/api/sat_modeler.py:610-635 | any assignment with at most k true literals extends to a model asserting the `atmost` root |
| Counting.CounterComplete2 | sat-benchmark-react/backend/app/api/sat_modeler.py:647-675 | with at most k true literals the counter's registers can be chosen to satisfy its clauses |
| Counting.AtMostNamesSound | sat-benchmark-react/backend/app/api/sat_modeler.py:610-635 | a model asserting `atmost(k, L)` makes at most k listed names true |
| Counting.AtMostNamesComplete | sat-benchmark-react/backend/app/api/sat_modeler.py:610-635 | an assignment making at most k listed names true extends to a model asserting `atmost(k, L)` |
| Counting.NegValues | sat-benchmark-react/backend/app/api/sat_modeler.py:700-706 | in every model each `__neg_<v>` helper has the opposite value of v |
| Counting.NegHelpersComplete | sat-benchmark-react/backend/app/api/sat_modeler.py:697-707 | any model of the earlier clauses extends to one of the helper clauses |
| Counting.NegStage | sat-benchmark-react/backend/app/api/sat_modeler.py:697-710 | for `0 < k != n`, `atleast(k)` is `atmost(n-k)` over the helpers' literals |
| Counting.NegLits | sat-benchmark-react/backend/app/api/sat_modeler.py:697-710 | the helpers' true count is n minus the names' true count |
| Counting.AtLeastNamesSound | sat-benchmark-react/backend/app/api/sat_modeler.py:677-710 | a model asserting `atleast(k, L)` makes at least k listed names true |
| Counting.AtLeastNamesComplete | sat-benchmark-react/backend/app/api/sat_modeler.py:677-710 | an assignment making at least k listed names true extends to a model asserting `atleast(k, L)` |
| Counting.ExactlySound | sat-benchmark-react/backend/app/api/sat_modeler.py:596-604 | a model asserting `exactly(k, L)` makes exactly k listed names true |
| Counting.ExactlyComplete | sat-benchmark-react/backend/app/api/sat_modeler.py:596-604 | an assignment making exactly k listed names true extends to a model asserting `exactly(k, L)` |
| Counting.CardinalitySound | sat-benchmark-react/backend/app/api/sat_modeler.py:589-604 | an asserted cardinality root makes the stated count condition hold |
| Counting.CardinalityComplete | sat-benchmark-react/backend/app/api/sat_modeler.py:589-604 | a cardinality constraint that holds can have its root asserted |
| Equisat.Decode | sat-benchmark-react/backend/app/api/sat_modeler.py:783-791 | the decoded assignment gives every mapped name its variable's value |
| Equisat.TopSound | sat-benchmark-react/backend/app/api/sat_modeler.py:500-503 | for a gate formula or a top-level cardinality constraint (`GateOnly` or `IsCardinality`), with the root as a unit clause every model satisfies the constraint |
| Equisat.TopComplete | sat-benchmark-react/backend/app/api/sat_modeler.py:500-503 | for a gate formula or a top-level cardinality constraint (`GateOnly` or `IsCardinality`) that holds, any model of the earlier clauses extends to one with its root asserted |
| Equisat.DeclareComplete | sat-benchmark-react/backend/app/api/sat_modeler.py:494-499 | for declared names outside the `__` prefix (`!Reserved`), pre-allocating them keeps a model in agreement with the assignment of the names |
| Equisat.CompileFromSound | sat-benchmark-react/backend/app/api/sat_modeler.py:492-505 | for programs whose declared names avoid the `__` prefix and whose constraints are gate formulas or top-level cardinality constraints (`UserNames` and `Supported`), every model of the emitted clauses, read through the map, satisfies every constraint; `solve satisfy` adds nothing |
| Equisat.CompileFromComplete | sat-benchmark-react/backend/app/api/sat_modeler.py:492-505 | for programs with `UserNames` and `Supported`, an assignment satisfying every constraint extends to a model of the emitted clauses |
| Equisat.CompileEquisatisfiable | sat-benchmark-react/backend/app/api/sat_modeler.py:490-505 | with `false` represented by its pinned variable, and for programs whose names avoid the helpers' `__` prefix, the clauses `compile` emits have a model exactly when some assignment of the names satisfies every constraint |
| Equisat.CompileDecodes | sat-benchmark-react/backend/app/api/sat_modeler.py:783-791 | every model of the emitted clauses, decoded through the variable map, satisfies the program |
| Equisat.FalseConstraintAsWritten | sat-benchmark-react/backend/app/api/sat_modeler.py:523-526 | `compile` as written turns `constraint false;` into the DIMACS text of `[[-1], [-1]]` with an empty variable map; those clauses have a model although no assignment satisfies the program |
| Equisat.FalseConstraintUnsat | sat-benchmark-react/backend/app/api/sat_modeler.py:523-526 | with `false` represented by the pinned variable itself, `constraint false;` compiles to clauses without a model |
| Compiler.EncodeAsWrittenFlips | sat-benchmark-react/backend/app/api/sat_modeler.py:515-606 | `_encode` as written is the corrected encoder applied to the expression with every `false` read as `not false` |
| Compiler.CompileFromAsWrittenFlips | sat-benchmark-react/backend/app/api/sat_modeler.py:492-505 | the statement loop as written emits exactly what the corrected loop emits for the program with every `false` read as `not false` |
| Equisat.CompileAsWrittenEquisatisfiable | sat-benchmark-react/backend/app/api/sat_modeler.py:490-511 | `compile` as written, for programs whose names avoid the `__` prefix, emits clauses that have a model exactly when the program with every `false` read as `true` has a solution |
| Equisat.EncodeNegatedVar | sat-benchmark-react/backend/app/api/sat_modeler.py:533-535 | `not x` for a declared x is minus x's id, with no clause emitted |
| Equisat.ConstraintStep | sat-benchmark-react/backend/app/api/sat_modeler.py:500-503 | a constraint statement emits its expression's clauses and then its literal as a unit clause |
| Equisat.ReservedNameClash | sat-benchmark-react/backend/app/api/sat_modeler.py:697-707 | a user variable named `__neg_a` is taken for the negation helper of `a`: `var a, b, __neg_a; constraint atleast(1, [a, b]); constraint not a; constraint not b;` compiles, its clauses have a model, and no assignment satisfies it |
| Equisat.CompileChecked | sat-benchmark-react/backend/app/api/sat_modeler.py:494-499 | a compiler that rejects declared names with the `__` prefix accepts exactly the programs without them that `compile` accepts, and reports the prefix otherwise |
| Equisat.CompileCheckedEquisatisfiable | sat-benchmark-react/backend/app/api/sat_modeler.py:490-505 | for `Supported` programs, whatever the guarded compiler accepts compiles to clauses that have a model exactly when some assignment satisfies every constraint |
| Equisat.NegatedPairwiseClash | sat-benchmark-react/backend/app/api/sat_modeler.py:637-645 | the pairwise encoding forces its aux true only when no literal is true, so `var bool: a, b; constraint not atmost(1, [a, b]); constraint not b;` compiles to clauses with a model although no assignment satisfies it |
| Equisat.NegatedCounterClash | sat-benchmark-react/backend/app/api/sat_modeler.py:673-675 | the sequential counter pins its aux true and bounds the count unconditionally, so `constraint not atmost(k, L)` over more than ten distinct names with 1 < k < n compiles to clauses with no model although making every name true satisfies it |
| Equisat.UnitClash | sat-benchmark-react/backend/app/api/sat_modeler.py:673-675 | clauses holding both the unit clause `[l]` and `[-l]` have no model |
| Equisat.CompileGuarded | sat-benchmark-react/backend/app/api/sat_modeler.py:490-505 | a compiler that also rejects cardinality constraints below a connective accepts exactly the `Supported` programs without `__` names that `compile` accepts, reporting `CardinalityUnderGate` otherwise |
| Equisat.CompileGuardedEquisatisfiable | sat-benchmark-react/backend/app/api/sat_modeler.py:490-505 | whatever the fully guarded compiler accepts compiles to clauses that have a model exactly when some assignment satisfies every constraint, with no hypothesis on the program |
| Equisat.GuardRejects | sat-benchmark-react/backend/app/api/sat_modeler.py:490-505 | the fully guarded compiler rejects both negated-cardinality counterexamples |
| Solve.FinishedVerdict | sat-benchmark-react/backend/app/api/sat_modeler.py:748-752 | a finished run is classified SAT, UNSAT or UNKNOWN only |
| Solve.VerdictRules | sat-benchmark-react/backend/app/api/sat_modeler.py:748-752 | the verdict ignores letter case; exit code 20 or `UNSATISFIABLE` gives UNSAT; SAT exactly when neither holds and exit code 10 or `SATISFIABLE` does; UNKNOWN exactly when no code and no word applies |
| Solve.RunSolver | sat-benchmark-react/backend/app/api/sat_modeler.py:727-764 | a timeout gives exactly TIMEOUT and an exception exactly ERROR; an assignment is attached only to a SAT verdict and only when it is non-empty |
| Solve.TokenLits | sat-benchmark-react/backend/app/api/sat_modeler.py:773-779 | the kept tokens are nonzero integers, never more than the tokens given |
| Solve.LinesLits | sat-benchmark-react/backend/app/api/sat_modeler.py:770-779 | only nonzero literals are collected across the lines |
| Solve.ParseAssignment | sat-benchmark-react/backend/app/api/sat_modeler.py:767-780 | `_parse_assignment` returns nonzero literals only |
| Solve.TokenLitsOfWords | sat-benchmark-react/backend/app/api/sat_modeler.py:773-779 | the words of nonzero literals and a closing `0` read back to those literals |
| Solve.ParseModelLine | sat-benchmark-react/backend/app/api/sat_modeler.py:767-780 | a `v` line as solvers print it reads back to its nonzero literals |
| Solve.VLine | sat-benchmark-react/backend/app/api/sat_modeler.py:770-773 | a single `v <body>` line contributes the literals of its body |
| Solve.Inverse | sat-benchmark-react/backend/app/api/sat_modeler.py:785 | the inverse map holds exactly the ids of the names that do not start with `__`, each mapped back to its name |
| Solve.DecodeLitsMeaning | sat-benchmark-react/backend/app/api/sat_modeler.py:783-791 | the decoded names are exactly the non-`__` names whose variable some literal mentions, each with the sign of the last such literal |
| Solve.ModelLits | sat-benchmark-react/backend/app/api/sat_modeler.py:767-780 | a full model's literal list has one literal per variable 1..n, positive exactly when the variable is true |
| Solve.DecodeModel | sat-benchmark-react/backend/app/api/sat_modeler.py:783-791 | decoding a full model gives every user name its variable's value, the same as reading the model through the map, and drops the `__` names |
| Solve.Answer | sat-benchmark-react/backend/app/api/sat_modeler.py:1038-1041 | an assignment is decoded exactly when the verdict is SAT and literals were collected |
| Verdicts.Name | sat-benchmark-react/backend/app/solvers/base.py:76 | every verdict is stored as a non-empty label |
| Verdicts.Parse | sat-benchmark-react/backend/app/solvers/base.py:76 | a label reads back only to the verdict it names |
| Verdicts.NameParse | sat-benchmark-react/backend/app/solvers/base.py:76 | the six labels are distinct and each reads back to its verdict |
| Verdicts.ContainsUnsatisfiable | sat-benchmark-react/backend/app/solvers/base.py:379-381 | any text containing `UNSATISFIABLE` contains `SATISFIABLE` |
| Plugin.ParseResult | sat-benchmark-react/backend/app/solvers/base.py:373-385 | `parse_result` only ever answers SAT, UNSAT or UNKNOWN |
| Plugin.ParseResultRules | sat-benchmark-react/backend/app/solvers/base.py:373-385 | the verdict depends only on the upper-cased output; `UNSATISFIABLE` gives UNSAT whatever the exit code; SAT exactly for exit code 10 or `SATISFIABLE` without `UNSATISFIABLE`, even with exit code 20; UNSAT exactly for `UNSATISFIABLE` or exit code 20 without `SATISFIABLE` |
| Plugin.ToDict | sat-benchmark-react/backend/app/solvers/base.py:90-106 | the dictionary's keys are the eleven fixed keys plus the extra statistics, and every extra statistic keeps its value |
| Plugin.FixedKeyCount | sat-benchmark-react/backend/app/solvers/base.py:91-103 | `to_dict` writes eleven fixed keys |
| Plugin.ToDictFields | sat-benchmark-react/backend/app/solvers/base.py:90-106 | without same-named extra statistics every fixed key reads back its field |
| Plugin.ExtraOverrides | sat-benchmark-react/backend/app/solvers/base.py:104-105 | an extra statistic that shares a fixed key's name replaces the field and adds no key |
| Plugin.GetStatus | sat-benchmark-react/backend/app/solvers/base.py:215-220 | READY exactly when installed; ERROR exactly when not installed but the solver directory `Path(solvers_base) / key` exists; otherwise NOT_INSTALLED |
| Plugin.Uninstall | sat-benchmark-react/backend/app/solvers/base.py:274-284 | after `uninstall` the solver directory `Path(solvers_base) / key` is gone and nothing new exists |
| Plugin.UninstallStatus | sat-benchmark-react/backend/app/solvers/base.py:274-284 | after `uninstall` the plugin reports NOT_INSTALLED and its default version |
| Plugin.JoinChild | sat-benchmark-react/backend/app/solvers/base.py:197-200 | with a plain key, `Path(base) / key` is the text of `Path(base)`, one separator and the key: no separator after the current directory `.` and no second one after a root |
| Plugin.SolverDirDefault | sat-benchmark-react/backend/app/solvers/base.py:192-200 | without `SOLVERS_DIR` the solver directory is `/app/solvers/<key>` |
| Plugin.SolverDirEmpty | sat-benchmark-react/backend/app/solvers/base.py:192-200 | an empty `SOLVERS_DIR` is the current directory, so the solver directory is the bare, relative key |
| Plugin.SolverDirTrailingSlash | sat-benchmark-react/backend/app/solvers/base.py:192-200 | a `SOLVERS_DIR` with a trailing `/` names the same solver directory as the one without it |
| Plugin.TextChild | sat-benchmark-react/backend/app/solvers/base.py:197-200 | appending a part to a path's text adds exactly one separator, none after `.` or a root |
| Plugin.PathSnoc | sat-benchmark-react/backend/app/solvers/base.py:192-194 | a trailing separator changes neither the anchor nor the parts pathlib reads from a path |
| Plugin.AbsoluteText | sat-benchmark-react/backend/app/solvers/base.py:192-194 | an absolute path in pathlib's own form keeps its text |
| Plugin.VersionFlags | sat-benchmark-react/backend/app/solvers/base.py:247 | at least one flag is always tried |
| Plugin.FirstVersion | sat-benchmark-react/backend/app/solvers/base.py:247-262 | the first flag whose probe yields a version supplies it; none exactly when no flag's probe yields one |
| Plugin.DetectVersion | sat-benchmark-react/backend/app/solvers/base.py:239-262 | a cached version is returned as is; an uninstalled plugin gives its default version; otherwise a version is cached exactly when some flag's probe yields one, and the default is returned when none does |
| Plugin.DetectVersionCached | sat-benchmark-react/backend/app/solvers/base.py:241-258 | once a probe has succeeded, later calls return the same version without probing |
| Plugin.Run | sat-benchmark-react/backend/app/solvers/base.py:295-369 | never MEMOUT; an uninstalled plugin gives ERROR with exit code -1 without launching; TIMEOUT exactly on a timeout; a finished process gives `parse_result` on at most 10000 characters of output, with `returncode or 0` as exit code |
| Runner.ParseSolverResult | sat-benchmark-suite/app/core/solver_runner.py:359-380 | `_parse_solver_result` never answers MEMOUT |
| Runner.ParseSolverResultRules | sat-benchmark-suite/app/core/solver_runner.py:359-380 | letter case never matters; `UNSATISFIABLE` gives UNSAT and `SATISFIABLE` alone gives SAT whatever the exit code; without either word 10 is SAT, 20 UNSAT, 124 TIMEOUT, any other nonzero code ERROR and 0 UNKNOWN (each stated as an if-and-only-if) |
| Runner.ClassifiersAgree | sat-benchmark-suite/app/core/solver_runner.py:359-380 | this classifier and `parse_result` of the web back end agree whenever this one says SAT or UNSAT or the exit code is 0; otherwise `parse_result` says UNKNOWN |
| Runner.BaseName | sat-benchmark-suite/app/core/solver_runner.py:93 | the last path component is no longer than the path |
| Runner.AfterLastSlash | sat-benchmark-suite/app/core/solver_runner.py:93 | the text after the last slash is a suffix of the path holding no slash |
| Runner.LastDot | sat-benchmark-suite/app/core/solver_runner.py:93 | the position found holds the last dot; none exactly when there is no dot |
| Runner.Suffix | sat-benchmark-suite/app/core/solver_runner.py:93 | a non-empty suffix starts with a dot and has at least one more character |
| Runner.Refusal | sat-benchmark-suite/app/core/solver_runner.py:68-134 | the executable is accepted exactly when it exists, its suffix is not `.h`, `.hpp`, `.c` or `.cpp`, and it may be executed |
| Runner.MemoryThresholdKb | sat-benchmark-suite/app/core/solver_runner.py:278 | the threshold `memory_limit // 1024` is the limit in megabytes times 1024 |
| Runner.RunSolver | sat-benchmark-suite/app/core/solver_runner.py:43-291 | a refused executable gives ERROR with exit code -1; a timeout gives TIMEOUT without the verdict parser; a completed process gets `_parse_solver_result`; a peak above mb·1024 KB sets `memory_exceeded` and turns any verdict other than TIMEOUT or ERROR into MEMOUT; MEMOUT only arises that way |
| Runner.MemoryCheck | sat-benchmark-suite/app/core/solver_runner.py:278-281 | the memory check only sets the flag and only turns verdicts other than TIMEOUT and ERROR into MEMOUT, changing nothing else |
| Runner.RefusalFirst | sat-benchmark-suite/app/core/solver_runner.py:68-134 | a refused executable gives the same result whatever the process would have done |
| Runner.AllRuns | sat-benchmark-suite/app/core/solver_runner.py:451 | the cross product has one run per solver and benchmark |
| Runner.AllRunsAt | sat-benchmark-suite/app/core/solver_runner.py:451 | in solver-major order the run at `i * len(benchmarks) + j` pairs solver i with benchmark j |
| Runner.AllRunsContain | sat-benchmark-suite/app/core/solver_runner.py:451 | a run is scheduled exactly when its solver and its benchmark are listed |
| Runner.Without | sat-benchmark-suite/app/core/solver_runner.py:454 | the filter keeps exactly the runs not already recorded |
| Runner.WithoutConcat | sat-benchmark-suite/app/core/solver_runner.py:454 | filtering keeps the original order: it distributes over concatenation |
| Runner.WithoutCount | sat-benchmark-suite/app/core/solver_runner.py:454 | pending plus recorded runs are all the runs |
| Runner.PendingRuns | sat-benchmark-suite/app/core/solver_runner.py:430-458 | the pending runs are exactly the listed combinations not yet recorded |
| Runner.AllRunsMembers | sat-benchmark-suite/app/core/solver_runner.py:451 | the cross product holds exactly the pairs of a listed solver and a listed benchmark |
| Runner.PlanRuns | sat-benchmark-suite/app/core/solver_runner.py:485-494 | the total is the number of solvers times the number of benchmarks; with resume, already_completed is the total minus the pending count, i.e. the recorded scheduled runs; without resume everything is pending and nothing counts as done |
| Registry.LegacyShape | sat-benchmark-react/backend/app/solvers/registry.py:24-29 | every historical id in the legacy table is positive and no two solvers share one |
| Registry.Register | sat-benchmark-react/backend/app/solvers/registry.py:98-105 | an already registered key leaves the registry unchanged; a new key is appended; distinct keys stay distinct and the key is registered afterwards |
| Registry.RegisterIdempotent | sat-benchmark-react/backend/app/solvers/registry.py:98-105 | registering again under a key already present changes nothing, whatever the second plugin is |
| Registry.Sort | sat-benchmark-react/backend/app/solvers/registry.py:129 | `sorted` of the keys: a permutation of them in ascending code-point order |
| Registry.SortDistinct | sat-benchmark-react/backend/app/solvers/registry.py:129 | sorting distinct keys keeps them distinct |
| Registry.MaxLegacy | sat-benchmark-react/backend/app/solvers/registry.py:125-126 | `max(used_ids, default=0)`: 0 or the largest legacy id among the registered keys, bounding all of them |
| Registry.Skip | sat-benchmark-react/backend/app/solvers/registry.py:131-132 | the skipping loop ends at an id no smaller than where it started and not yet used |
| Registry.AssignKeeps | sat-benchmark-react/backend/app/solvers/registry.py:129-136 | the sorted pass keeps every id given so far, gives an id to every key, and keeps the two maps inverse |
| Registry.AssignNumbers | sat-benchmark-react/backend/app/solvers/registry.py:129-136 | distinct keys without an id get `next`, `next + 1`, ... in their order |
| Registry.LegacyIds | sat-benchmark-react/backend/app/solvers/registry.py:117-122 | the legacy pass gives exactly the registered legacy keys, each its historical id |
| Registry.LegacyReady | sat-benchmark-react/backend/app/solvers/registry.py:117-126 | after the legacy pass the maps are inverse and every used id lies below `max + 1` |
| Registry.RebuildInverse | sat-benchmark-react/backend/app/solvers/registry.py:107-136 | after `_rebuild_id_map` exactly the registered keys have ids, a legacy key its historical one, and `id_to_key` is the inverse of `key_to_id` |
| Registry.RebuildNumbers | sat-benchmark-react/backend/app/solvers/registry.py:124-136 | the keys outside the legacy table, in ascending order, get `max(legacy ids, 0) + 1`, `+ 2`, ... with no gaps |
| Registry.InverseInjective | sat-benchmark-react/backend/app/solvers/registry.py:114-136 | inverse maps make `key_to_id` injective: no two solvers share an id |
| Registry.UnassignedSorted | sat-benchmark-react/backend/app/solvers/registry.py:129-130 | the keys still without an id, taken from a sorted list, stay sorted |
| Registry.RegisterAll | sat-benchmark-react/backend/app/solvers/registry.py:67-87 | registering a module's plugins keeps keys distinct, registers every plugin's key, keeps earlier keys, adds no other plugin, and leaves the id maps alone |
| Registry.Loadable | sat-benchmark-react/backend/app/solvers/registry.py:63-66 | a plugin is imported exactly when its module's name does not start with `_` |
| Registry.Discover | sat-benchmark-react/backend/app/solvers/registry.py:50-91 | once loaded nothing changes; without a plugins directory only the flag is set; otherwise every plugin of a module not starting with `_` is registered and nothing from an underscore module is |
| Registry.DiscoverIds | sat-benchmark-react/backend/app/solvers/registry.py:88-91 | after discovery every registered key has an id and the two maps are inverse |
| Registry.NameOf | sat-benchmark-react/backend/app/solvers/registry.py:190-193 | the display name comes from the plugin registered under that key |
| Registry.GetNameMap | sat-benchmark-react/backend/app/solvers/registry.py:190-193 | `get_name_map` has exactly the assigned ids as keys, each mapped to its plugin's display name |
| Registry.ListSolvers | sat-benchmark-react/backend/app/solvers/registry.py:162-170 | one entry per plugin, each with the key's assigned id, covering every key, in ascending key order |
| Reader.SpaceRunAt | sat-benchmark-react/backend/app/api/ai_assistant.py:153 | the `\s*` run ends inside the text, at a character that is not whitespace or at the end |
| Reader.DigitRunAt | sat-benchmark-react/backend/app/api/ai_assistant.py:183 | the `\d+` run ends inside the text, at a non-digit or at the end |
| Reader.DigitRunDigits | sat-benchmark-react/backend/app/api/ai_assistant.py:183 | every character of the run is a digit |
| Reader.FindFrom | sat-benchmark-react/backend/app/api/ai_assistant.py:153 | the lazy `.*?` stops at the first closing fence from the given offset, and at none if there is none |
| Reader.TagLength | sat-benchmark-react/backend/app/api/ai_assistant.py:153 | the optional tag takes 0, 3 (`cnf`) or 6 (`dimacs`) characters and stays inside the text |
| Reader.FenceAt | sat-benchmark-react/backend/app/api/ai_assistant.py:153-157 | a fence match starts with three backquotes and its group begins `p cnf`, letter case ignored |
| Reader.FenceFrom | sat-benchmark-react/backend/app/api/ai_assistant.py:153-154 | `re.search`: a match exists exactly when the pattern matches at some offset, and the result is the leftmost one |
| Reader.HeaderAt | sat-benchmark-react/backend/app/api/ai_assistant.py:183 | a header match starts with `p cnf ` |
| Reader.HeaderFrom | sat-benchmark-react/backend/app/api/ai_assistant.py:183-185 | `re.search`: a header is found exactly when one matches at some offset, and the result is the leftmost one |
| Reader.FirstProblemLine | sat-benchmark-react/backend/app/api/ai_assistant.py:164-167 | the first stripped line beginning `p cnf`, with no earlier one |
| Reader.FirstStop | sat-benchmark-react/backend/app/api/ai_assistant.py:172-175 | the first line at which the scanner stops, with no earlier one |
| Reader.KeptBetween | sat-benchmark-react/backend/app/api/ai_assistant.py:170-171 | every line collected looks like CNF: it starts `c `, `p cnf` or a number |
| Reader.ScanCollecting | sat-benchmark-react/backend/app/api/ai_assistant.py:168-175 | once collecting, the scanner appends the kept lines up to the first stopping line |
| Reader.ScanIdle | sat-benchmark-react/backend/app/api/ai_assistant.py:164-168 | before the first problem line nothing is collected |
| Reader.ScanWindow | sat-benchmark-react/backend/app/api/ai_assistant.py:159-180 | the scanner returns the problem line and the kept lines after it up to the first stopping line, and returns something exactly when some stripped line begins `p cnf` |
| Reader.Ints | sat-benchmark-react/backend/app/api/ai_assistant.py:198 | `[int(lit) for lit in ...]`: every token parsed in order, or the first token `int()` rejects |
| Reader.ClausesMeaning | sat-benchmark-react/backend/app/api/ai_assistant.py:191-199 | the clause loop fails exactly when some line's `int()` fails, with that line's token; otherwise it yields at most one clause per line, each the clause of some line |
| Reader.Extract | sat-benchmark-react/backend/app/api/ai_assistant.py:150-206 | the counts come verbatim from the first header match in the chosen content; the result is None exactly when no content is found or the content has no header |
| RoundTrip.WriteLines | sat-benchmark-react/backend/app/api/sat_modeler.py:507-511 | the compiler's DIMACS text splits at newlines into the problem line with the variable count and the clause count, one line per clause in order, and the empty piece after the final newline |
| RoundTrip.ClauseTextStripped | sat-benchmark-react/backend/app/api/sat_modeler.py:507-511 | a written clause line is its own strip and begins with a number |
| RoundTrip.WrittenUnfenced | sat-benchmark-react/backend/app/api/sat_modeler.py:507-511 | the writer's text holds no backquote, so the fence pattern never matches it |
| RoundTrip.ScanWritten | sat-benchmark-react/backend/app/api/ai_assistant.py:159-180 | scanning the written text keeps the header and every clause line, stripped |
| RoundTrip.HeaderReads | sat-benchmark-react/backend/app/api/ai_assistant.py:183-188 | the written header line reads back as its two counts |
| RoundTrip.IntsRead | sat-benchmark-react/backend/app/api/ai_assistant.py:198 | parsing the words of a clause gives the clause back |
| RoundTrip.ClauseRead | sat-benchmark-react/backend/app/api/ai_assistant.py:192-199 | the clause of a written clause line is the clause that was written |
| RoundTrip.ClausesRead | sat-benchmark-react/backend/app/api/ai_assistant.py:191-199 | the clause loop over written clause lines gives back the clauses in order |
| RoundTrip.ReadClaimed | sat-benchmark-react/backend/app/api/ai_assistant.py:182-206 | the header's counts come back verbatim whatever clause count it claims, and the clauses come back in order |
| RoundTrip.ReadWritten | sat-benchmark-react/backend/app/api/ai_assistant.py:157-206 | `parse_cnf_from_response` applied to the compiler's DIMACS output returns its variable count, its clause count and its clauses in order |
| Benchmarks.Ratio | sat-benchmark-react/backend/app/api/benchmarks.py:51 | the ratio is 0 when the variable count is not positive, and otherwise the number that times the variable count gives the clause count |
| Benchmarks.Round2 | sat-benchmark-react/backend/app/api/benchmarks.py:55 | `round(ratio, 2)`: a whole number of hundredths, at most half a hundredth from the quotient, a tie going to the even neighbour, never negative for a non-negative quotient |
| Benchmarks.TinyRatioRoundsToZero | sat-benchmark-suite/app/utils/cnf_parser.py:32-37 | a clause/variable ratio below half a hundredth is stored as `0.0` |
| Benchmarks.ParseLines | sat-benchmark-suite/app/utils/cnf_parser.py:20-45 | either no header at all or all three fields; the first stripped `p cnf` line with at least four fields decides, and its counts are returned with the rounded ratio; an unparsable count there gives no header |
| Benchmarks.FirstProblemShift | sat-benchmark-suite/app/utils/cnf_parser.py:22-28 | a leading line that is not a problem line is skipped and scanning continues |
| Benchmarks.ParseHeader | sat-benchmark-suite/app/utils/cnf_parser.py:47-53 | a file that cannot be read gives no header; otherwise its lines decide |
| Benchmarks.ProblemLineOf | sat-benchmark-suite/app/utils/cnf_parser.py:26-30 | a line `p cnf a b` whose two words parse is a problem line with those counts |
| Benchmarks.HeaderOfWritten | sat-benchmark-suite/app/utils/cnf_parser.py:13-38 | the DIMACS text the compiler writes has the header it was written with and the rounded ratio |
| Benchmarks.Classify | sat-benchmark-suite/app/utils/cnf_parser.py:67-73 | the first family in mapping order whose pattern occurs in the lower-cased name, or `other` when none does |
| Benchmarks.ClassifyNames | sat-benchmark-suite/app/utils/cnf_parser.py:67-73 | the result is `other` or the name of a family that matches |
| Benchmarks.ClassifyFamily | sat-benchmark-react/backend/app/api/benchmarks.py:63-81 | `classify_family` answers `other` or one of its nine family names |
| Benchmarks.ClassifyIgnoresCase | sat-benchmark-react/backend/app/api/benchmarks.py:77 | names equal up to letter case get the same family |
| Benchmarks.BmcBonusNotVerification | sat-benchmark-react/backend/app/api/benchmarks.py:73-74 | a name containing `bmcbonus` is never classified verification, because industrial is matched first |
| Benchmarks.Label | sat-benchmark-suite/app/utils/cnf_parser.py:87-95 | a difficulty is stored as exactly one of `unknown`, `easy`, `medium` and `hard`, and the label reads back to that difficulty |
| Benchmarks.ReadLabel | sat-benchmark-suite/app/utils/cnf_parser.py:87-95 | a text names a difficulty exactly when it is one of the four labels |
| Benchmarks.LabelInjective | sat-benchmark-suite/app/utils/cnf_parser.py:87-95 | distinct difficulties get distinct labels |
| Benchmarks.Grade | sat-benchmark-suite/app/utils/cnf_parser.py:90-95 | never unknown; easy exactly when fewer than 1000 variables or a nonzero ratio below 3.0; medium exactly when not easy and fewer than 10000 variables or a nonzero ratio below 5.0 |
| Benchmarks.EstimateDifficulty | sat-benchmark-suite/app/utils/cnf_parser.py:76-95 | unknown exactly when either count is missing; otherwise the shared thresholds |
| Benchmarks.EstimateDifficultyApi | sat-benchmark-react/backend/app/api/benchmarks.py:84-94 | unknown exactly when the variable count is missing; otherwise the shared thresholds |
| Benchmarks.DifficultyVariants | sat-benchmark-react/backend/app/api/benchmarks.py:84-94 | the two `estimate_difficulty` variants differ exactly when the variable count is known and the clause count is not |
| Benchmarks.GradeMonotone | sat-benchmark-suite/app/utils/cnf_parser.py:90-95 | with a zero or missing ratio, more variables never make a benchmark easier |
| Benchmarks.HeaderDifficulty | sat-benchmark-suite/app/utils/cnf_parser.py:87-88 | a parsed header always yields a known difficulty, and no header yields unknown |
| Benchmarks.UploadOne | sat-benchmark-react/backend/app/api/benchmarks.py:230-287 | a name not ending in `.cnf` fails with `Not a CNF file`; a success carries the id `add_benchmark` returned, never 0, with the name's family and the parsed variable count |
| Benchmarks.Sift | sat-benchmark-react/backend/app/api/benchmarks.py:224-228 | every entry lands in a list matching its kind, and the three lengths add up to the number of entries |
| Benchmarks.UploadAll | sat-benchmark-react/backend/app/api/benchmarks.py:230-289 | one report entry per uploaded file, each file's entry in one of the lists |
| Benchmarks.SiftKeepsOrder | sat-benchmark-react/backend/app/api/benchmarks.py:224-228 | each of the three lists is exactly the entries of its kind, in the order the files were uploaded |
| Benchmarks.NonCnfRejected | sat-benchmark-react/backend/app/api/benchmarks.py:231-236 | a file whose name does not end in `.cnf` is always reported failed |
| Store.FloorDiv | sat-benchmark-react/backend/app/core/database.py:329 | Python's `//`: the quotient rounded toward negative infinity for either sign of the divisor, and `ZeroDivisionError` exactly when it is 0 |
| Store.Offset | sat-benchmark-react/backend/app/core/database.py:321 | any page up to 1 reads from offset 0, and page p > 1 from (p - 1) times the page size |
| Store.Pages | sat-benchmark-react/backend/app/core/database.py:329 | the page count is at least 1, even with no rows, and is missing exactly when the page size is 0 |
| Store.PagesCover | sat-benchmark-react/backend/app/core/database.py:321-329 | with a positive page size the pages cover every row, the last page starts at a row when there is one, and the count is the rounded-up quotient |
| Store.Window | sat-benchmark-react/backend/app/core/database.py:322-326 | `LIMIT ? OFFSET ?`: at most `limit` rows when it is non-negative, none from an offset past the end, otherwise the slice from the offset; a negative offset reads from the start and a negative limit sets no bound |
| Store.Paginate | sat-benchmark-react/backend/app/core/database.py:296-335 | a zero page size raises; otherwise the total is the matching row count, at least one page, the page echoed, and the items are the window at the computed offset |
| Store.PaginateNegative | sat-benchmark-react/backend/app/core/database.py:321-326 | a negative page size returns every matching row on any page |
| Store.ReadPagesPrefix | sat-benchmark-react/backend/app/core/database.py:321-326 | reading pages 1 to k in turn gives the first k times page-size rows |
| Store.PagesPartition | sat-benchmark-react/backend/app/core/database.py:321-329 | reading every page in turn returns every matching row exactly once, in order |
| Store.Kept | sat-benchmark-react/backend/app/core/database.py:233-234 | the arguments kept are exactly those on the whitelist, no more of them than given |
| Store.Update | sat-benchmark-react/backend/app/core/database.py:231-245 | no statement exactly when no argument is on the whitelist; otherwise the query is `UPDATE <table> SET f1 = ?, f2 = ?, ... WHERE id = ?` with one `f = ?` per kept argument in argument order, the values align with those fields, and the id comes last |
| Store.UpdateSolver | sat-benchmark-react/backend/app/core/database.py:222-245 | `update_solver` returns False without an update exactly when no argument is one of its ten fields; otherwise the id is the last parameter |
| Store.UpdateExperiment | sat-benchmark-react/backend/app/core/database.py:484-503 | `update_experiment` returns False without an update exactly when no argument is one of its twelve fields; otherwise the id is the last parameter |
| Store.KeptConcat | sat-benchmark-react/backend/app/core/database.py:233-234 | the whitelist keeps argument order: filtering a concatenation filters each part |
| Store.Present | sat-benchmark-react/backend/app/core/database.py:538-541 | the fields added are exactly the whitelisted ones present in the arguments |
| Store.PresentConcat | sat-benchmark-react/backend/app/core/database.py:538-541 | present fields come in whitelist order: the filter distributes over concatenation |
| Store.Marks | sat-benchmark-react/backend/app/core/database.py:543 | one `?` per column |
| Store.AddRunWith | sat-benchmark-react/backend/app/core/database.py:529-543 | the four fixed columns and values first, then each present whitelisted field with its own value, one placeholder per column |
| Store.AddRun | sat-benchmark-react/backend/app/core/database.py:523-544 | `add_run`: columns and values align, one placeholder each, and the columns after the first four are exactly the present run fields |
| Store.InsertQueryMarks | sat-benchmark-react/backend/app/core/database.py:544 | when no column name contains `?`, the only `?` marks in the insert statement are its placeholders |
| Store.AddRunQueryMarks | sat-benchmark-react/backend/app/core/database.py:523-544 | `add_run`'s statement has exactly one `?` per bound value |
| Suite.Par2 | sat-benchmark-suite/app/core/database.py:415-424 | an explicit `par2_score` is kept; without one, a run whose result is TIMEOUT, MEMOUT or ERROR is charged twice its timeout (5000 s when none is given), and any other run, one with no result included, its CPU time (0 when none is given) |
| Suite.Par2Penalty | sat-benchmark-suite/app/core/database.py:421-424 | a failed run is charged at least twice its CPU time when that is within the timeout, a solved one exactly its CPU time |
| Suite.Score | sat-benchmark-suite/app/core/database.py:861-866 | the completeness score is at most 5 |
| Suite.Best | sat-benchmark-suite/app/core/database.py:869-879 | the version kept comes first under score descending then id ascending, ahead of every other version |
| Suite.Others | sat-benchmark-suite/app/core/database.py:880 | the ids deleted are exactly those of the other versions |
| Suite.OthersCount | sat-benchmark-suite/app/core/database.py:880-890 | with distinct versions, all but the kept one are deleted |
| Suite.KeepBest | sat-benchmark-suite/app/core/database.py:846-890 | at most one version deletes nothing and returns 0; otherwise the best version stays, every other version is deleted, and the count returned is the number deleted |
| Suite.BestUnique | sat-benchmark-suite/app/core/database.py:869 | the kept version is the only one that precedes every other, so the choice does not depend on row order |
| Suite.CleanupAll | sat-benchmark-suite/app/core/database.py:892-912 | `total_duplicates` counts every duplicated filename; `benchmarks_cleaned` counts those with more than one version and never exceeds either other tally; `versions_deleted` counts all but one version of each |
| Suite.CleanupLeavesOne | sat-benchmark-suite/app/core/database.py:905-909 | after the cleanup exactly one version per filename is left |
| Suite.DeleteBatch | sat-benchmark-suite/app/core/database.py:782-844 | `deleted` counts the ids deleted, exactly those with no runs and a `DELETE` that went through; `has_runs` counts the ids with runs; with no query raising, every id is either deleted or has runs and none failed; an id with runs whose name lookup succeeds is reported with its run count |
| Suite.KeepsBenchmarksWithRuns | sat-benchmark-suite/app/core/database.py:811-825 | a benchmark that has runs is never deleted, and once its name is looked up it is reported as having that many runs |
| Suite.DeleteOne | sat-benchmark-suite/app/core/database.py:803-838 | one id only appends to the errors and the deleted ids; an id with runs whose name lookup succeeds adds the `Has <n> existing runs` error last |
| Helpers.RoundHalfEven | sat-benchmark-suite/app/utils/helpers.py:31-37 | the nearest integer, within one half, a tie going to the even one, never negative for a non-negative number |
| Helpers.Digits | sat-benchmark-suite/app/utils/helpers.py:31-37 | exactly the requested number of digits, zero-padded, spelling the value |
| Helpers.RenderLastDigit | sat-benchmark-suite/app/utils/helpers.py:31-37 | a rendered fixed-point number ends in a digit |
| Helpers.FixedLastDigit | sat-benchmark-suite/app/utils/helpers.py:31-37 | `f"{x:.nf}"` ends in a digit |
| Helpers.RenderReadsBack | sat-benchmark-suite/app/utils/helpers.py:31-37 | reading a fixed-point rendering gives back its sign, whole part, fraction and number of places |
| Helpers.FixedReadsBack | sat-benchmark-suite/app/utils/helpers.py:31-37 | `f"{x:.nf}"` has exactly n digits after the point, a minus exactly when x is negative, and reads back as x in units of its last place, rounded half to even |
| Helpers.TimeUnit | sat-benchmark-suite/app/utils/helpers.py:28-41 | milliseconds below 1 s, seconds below 60, minutes and seconds below 3600, hours and minutes from there on, each an if-and-only-if; the parts put back together give the duration, hours and minutes to the minute |
| Helpers.FormatTimeSuffix | sat-benchmark-suite/app/utils/helpers.py:28-41 | the text ends in `ms` exactly below one second and in `m` exactly from one hour on |
| Helpers.Suffix | sat-benchmark-suite/app/utils/helpers.py:31-41 | a digit before the unit decides how the text ends |
| Helpers.Trunc | sat-benchmark-suite/app/utils/helpers.py:49 | `int(x)` of a float truncates toward zero |
| Helpers.ToInt | sat-benchmark-suite/app/utils/helpers.py:46-51 | an integer converts to itself; `None` and NaN do not convert |
| Helpers.UngroupConcat | sat-benchmark-suite/app/utils/helpers.py:49 | deleting commas distributes over concatenation |
| Helpers.GroupUngroup | sat-benchmark-suite/app/utils/helpers.py:49 | grouping digits only inserts commas: deleting them gives the digits back |
| Helpers.GroupLength | sat-benchmark-suite/app/utils/helpers.py:49 | one comma per full group of three after the first group |
| Helpers.GroupCommas | sat-benchmark-suite/app/utils/helpers.py:49 | counting from the right, every fourth character is a comma and no other is |
| Helpers.FormatNumber | sat-benchmark-suite/app/utils/helpers.py:44-51 | `N/A` exactly for what `int()` cannot convert, `None` and NaN included |
| Helpers.GroupedDigits | sat-benchmark-suite/app/utils/helpers.py:49 | deleting the commas of `f"{i:,}"` gives `str(i)` |
| Helpers.FormatNumberDigits | sat-benchmark-suite/app/utils/helpers.py:44-51 | deleting the commas of `format_number(i)` gives `str(i)` |
| Helpers.FormatNumberNumeral | sat-benchmark-suite/app/utils/helpers.py:48-49 | a numeral string formats like the integer it spells |
| Helpers.MemoryUnit | sat-benchmark-suite/app/utils/helpers.py:60-65 | KB below 1024, MB below 1024 squared, GB from there on, each an if-and-only-if, the value rescaled exactly |
| Helpers.FormatMemoryUnits | sat-benchmark-suite/app/utils/helpers.py:54-67 | `0 KB` for `None` and zero, `N/A` for NaN; a count below 1024 prints as itself in KB, and larger ones end in MB or GB by size |
| Helpers.SafeDivide | sat-benchmark-suite/app/utils/helpers.py:93-97 | the default for a zero denominator, otherwise the quotient |
| Helpers.SliceEnd | sat-benchmark-suite/app/utils/helpers.py:129 | Python's `s[:k]` end: never past the string, and k itself when it is in range |
| Helpers.Truncate | sat-benchmark-suite/app/utils/helpers.py:125-129 | a string that fits is unchanged; with a length of at least 1 the string is unchanged exactly when it fits; a longer string ends in `...` after a prefix of it, and with room for the ellipsis is exactly the first max_length - 3 characters and `...` |
| Helpers.TruncateZeroKeepsEllipsis | sat-benchmark-suite/app/utils/helpers.py:127-129 | with a maximum length of 0, any string ending in `...` comes back unchanged though it does not fit |
| Helpers.TruncateIdempotent | sat-benchmark-suite/app/utils/helpers.py:125-129 | with room for the ellipsis, truncating twice is truncating once |
| Migrate.ReplaceIsJoinOfSplit | sat-benchmark-suite/migrate_results_to_minisat.py:56 | `s.replace(p, q)` is `q.join(s.split(p))` |
| Migrate.ReplaceBySelf | sat-benchmark-suite/migrate_results_to_minisat.py:55-56 | a correction whose replacement equals its pattern, as `hwmcc20` does, changes nothing |
| Migrate.ReplaceAbsent | sat-benchmark-suite/migrate_results_to_minisat.py:55-56 | a correction whose pattern does not occur changes nothing |
| Migrate.CorrectionsValid | sat-benchmark-suite/migrate_results_to_minisat.py:25-53 | every pattern of the correction table is non-empty |
| Migrate.CorrectInOrder | sat-benchmark-suite/migrate_results_to_minisat.py:55-56 | the corrections are applied one after another, in table order, each to the whole string |
| Migrate.NoDoubleContains | sat-benchmark-suite/migrate_results_to_minisat.py:62-65 | having no two neighbouring copies of a character is not containing the doubled character |
| Migrate.Collapse | sat-benchmark-suite/migrate_results_to_minisat.py:62-65 | `re.sub(cc+, c)` leaves no double, keeps both ends, and never lengthens the string |
| Migrate.CollapseFixed | sat-benchmark-suite/migrate_results_to_minisat.py:62-65 | collapsing leaves exactly the strings without a double unchanged |
| Migrate.CollapseKeeps | sat-benchmark-suite/migrate_results_to_minisat.py:62-65 | collapsing runs of one character creates no doubles of another |
| Migrate.HalveEnds | sat-benchmark-suite/migrate_results_to_minisat.py:68 | `re.sub('##', '#')` keeps the first and last characters |
| Migrate.HalveKeeps | sat-benchmark-suite/migrate_results_to_minisat.py:68 | replacing `##` creates no doubles of another character |
| Migrate.TidyStripped | sat-benchmark-suite/migrate_results_to_minisat.py:59-68 | after stripping and collapsing, neither end is whitespace |
| Migrate.TidyNoDoubles | sat-benchmark-suite/migrate_results_to_minisat.py:59-68 | after stripping and collapsing, no `__` and no `..` is left |
| Migrate.NormalizeStripped | sat-benchmark-suite/migrate_results_to_minisat.py:18-70 | a normalised name has no whitespace at either end |
| Migrate.NormalizeNoDoubles | sat-benchmark-suite/migrate_results_to_minisat.py:18-70 | a normalised name contains neither `__` nor `..` |
| Migrate.SelectBest | sat-benchmark-suite/migrate_results_to_minisat.py:76-89 | no match exactly when no candidate scores at least the threshold and above zero; otherwise a candidate with the greatest score, the earliest of those |
| Migrate.FindBestMatch | sat-benchmark-suite/migrate_results_to_minisat.py:73-89 | `find_best_match`: the selection run on the target's normalised, lower-cased name against each lower-cased candidate |

## Left out

- Lexer.Tokenize: letters, digits and case follow ASCII, where Python's `isalpha`, `isalnum`, `isdigit` and `lower` follow Unicode. So `var bool: é;` is a lexing error in the model, but the code accepts it.
- Text.ParseInt: accepts ASCII digits only, where Python's `int()` also reads other Unicode decimal digits, such as `int("٣") == 3`. The same holds for the upper-casing behind the verdict tests (`Text.Upper`).
- Equisat.CompileEquisatisfiable: proved only for programs whose declared names avoid the `__` prefix (`UserNames`). The code does not enforce this, and the finding below shows what goes wrong without it.
- Equisat.CompileEquisatisfiable: proved only for constraints that are gate formulas or a single top-level cardinality constraint (`Supported`). The code itself breaks equisatisfiability outside this class. The pairwise encoding's backward clause and the sequential counter are not biconditionals, so a cardinality constraint below `not` can compile to clauses with the wrong satisfiability (the third and fourth findings below). Equisat.CompileGuardedEquisatisfiable proves the theorem with no hypothesis for the compiler that rejects such programs.
- Equisat.CompileAsWrittenEquisatisfiable: carries the same two restrictions as Equisat.CompileEquisatisfiable.
- Equisat.CompileDecodes: carries the same two restrictions as Equisat.CompileEquisatisfiable.
- Numbering.CompileNumbering: requires `UserNames`. A user `__neg_<v>` shares its id with the helper `atleast` would otherwise allocate.
- Benchmarks.Round2: rounds the exact quotient half to even at two decimals. The code rounds the binary double, so it can differ exactly at a tie that the double does not represent.
- Helpers.Truncate: the "unchanged exactly when short enough" direction is stated for `max_length >= 1`. For `max_length` of 0 or less, a long string that already ends in `...` can come back unchanged (Helpers.TruncateZeroKeepsEllipsis).
- Benchmarks.Classify: lower-cases the name with ASCII case folding, where Python's `str.lower()` also folds other letters, such as `"\u212A"` (Kelvin sign) to `k`. The same holds for Benchmarks.ClassifyFamily.
- Benchmarks.ClassifyFamily: inherits the ASCII lower-casing of Benchmarks.Classify.
- Migrate.FindBestMatch: compares names lower-cased with ASCII case folding, where Python folds Unicode letters too.
- Reader.DigitRunAt: `\d` is the ASCII digits here, while Python's `re` matches every Unicode decimal digit in a `str` pattern.
- Reader.KeptBetween: the `\d` in its line test is read the same way, as ASCII digits only.
- Runner.BaseName: takes the text after the last `/`, with no path normalisation, so it differs from `pathlib` on paths such as one ending in `/.` or `/`.
- Runner.Suffix: works on that same text component, so it inherits the same difference from `pathlib`.
- Reader.HeaderAt: reads the header's counts as ASCII digit runs, for the same reason as Reader.DigitRunAt.
- Plugin.GetStatus: the file system is a set of path texts as pathlib prints them. A relative solver directory (from an empty or relative `SOLVERS_DIR`) is looked up by its text, not resolved against the working directory, and `..` is not collapsed, just as pathlib leaves it.
- Floating point: times, memory sizes and ratios are exact reals. Only the `.1f` and `.2f` renderings are modelled. NaN is a case of the helpers' `Number` type; infinities are not modelled.
- Regular expressions: only the patterns the code uses are modelled, as hand-written scanners (the DIMACS fence, header and clause lines, the family word alternations). General regex semantics is not modelled.
- Processes, threads and the clock: the solver process, the timeout timer, the psutil monitor thread, `_run_solver_on_cnf`'s process handling and the plugins' `install`, `_run_shell` and `run` process parts. How a process ended and the peak memory are inputs.
- The runner's Windows branches (`os.name == 'nt'`) are not modelled. The executable check is the POSIX one, with the execute permission an input.
- SQL execution in both `database.py` files: the rows a query returns are inputs, already filtered and ordered. Schema creation, `export_to_csv`, statistics queries and the other lookups are not modelled.
- File I/O and foreign computations: reading and writing files, MD5 checksums, file sizes, `json.dumps` and `difflib`'s similarity ratio, which is a parameter of `Migrate.FindBestMatch`.
- Async code, HTTP endpoints and the assistant's Ollama client. Saved-model files and the example programs of `sat_modeler.py` are not modelled.
- Registry: module import, `install`, `uninstall`, `get_comparison_matrix`, `_extract_feature_flags`, and the lookups `get_by_id`, `get_solver_info` and `get_solver_info_by_key`. Discovery receives module names and their plugins as input.
- Helpers: `get_system_info`, `validate_cnf_file`, the timestamp conversions, `ensure_dir`, `get_available_cores` and the logging setup. These are I/O or clock functions.
- Migration script: the CSV reading, the database writes and `safe_float`/`safe_int` of `migrate_with_name_fixing` are not modelled. The normaliser and the best-match rule are.
- Plugin version probing: `_parse_version` and `parse_stats` scrape external output. The probe's result is an input to `Plugin.DetectVersion`.

## Findings

| source | as written | input that shows it | evidently intended | confidence | as-written member | corrected member |
|---|---|---|---|---|---|---|
| sat-benchmark-react/backend/app/api/sat_modeler.py:523-526 | `false` allocates `v`, adds the unit clause `[-v]` and returns `-v`, which is true in every model | `constraint false;` compiles to `p cnf 1 2` with clauses `-1 0` and `-1 0`, which is satisfiable | the always-false literal `v`, so `constraint false;` has no model | not executed | Equisat.FalseConstraintAsWritten | Equisat.FalseConstraintUnsat |
| sat-benchmark-react/backend/app/api/sat_modeler.py:697-707 | `atleast` reuses a variable already named `__neg_<v>` as the negation helper of `v`, without tying it to `v`. User names may start with `__` | `var bool: a, b, __neg_a; constraint atleast(1, [a, b]); constraint not a; constraint not b;` compiles to satisfiable clauses, though no assignment satisfies the program | declared names with the helpers' `__` prefix are rejected, so every accepted program compiles to equisatisfiable clauses | not executed | Equisat.ReservedNameClash | Equisat.CompileCheckedEquisatisfiable |
| sat-benchmark-react/backend/app/api/sat_modeler.py:637-645 | `_atmost_pairwise` forbids every (k+1)-subset under the aux but ties the aux back only through `[aux] + lits`, so once some literal is true the aux may be false even when at most k are true; `not` is `-child` | `var bool: a, b; constraint not atmost(1, [a, b]); constraint not b;` compiles to satisfiable clauses (aux false, `a` true), though no assignment satisfies the program | a cardinality constraint below a connective is rejected (or fully encoded), so every accepted program compiles to equisatisfiable clauses | not executed | Equisat.NegatedPairwiseClash | Equisat.CompileGuardedEquisatisfiable |
| sat-benchmark-react/backend/app/api/sat_modeler.py:673-675 | `_atmost_sequential_counter` enforces the bound unconditionally and returns an aux pinned true by `[aux]` | `var bool: x1, ..., x11; constraint not atmost(2, [x1, ..., x11]);` compiles to clauses holding both `[aux]` and `[-aux]`, which have no model, though making every variable true satisfies the program | as above: cardinality below a connective is rejected, so accepted programs compile to equisatisfiable clauses | not executed | Equisat.NegatedCounterClash | Equisat.CompileGuardedEquisatisfiable |

=== FILE: benchmarks.dfy ===
/**
 * Benchmark metadata: the DIMACS problem line read by `parse_cnf_header`
 * (identical in utils/cnf_parser.py and api/benchmarks.py), the family
 * classification by filename patterns, the difficulty heuristic in its two
 * variants, and the `.cnf` filter of the upload endpoint.
 *
 * A file is given as its lines; `None` stands for a file that cannot be
 * opened. Family patterns are alternations of literal words, which is all
 * the patterns in the code base use, so `re.search` becomes "contains one
 * of the words".
 */
module Benchmarks {
  import opened Outcomes
  import opened Text
  import Dimacs
  import Helpers

  /** `{'num_variables', 'num_clauses', 'clause_variable_ratio'}`. */
  datatype Header = Header(numVariables: Option<int>, numClauses: Option<int>, ratio: Option<real>)

  const NoHeader := Header(None, None, None)

  /** `num_clauses / num_vars if num_vars > 0 else 0`. */
  function Ratio(numVars: int, numClauses: int): (q: real)
    ensures numVars <= 0 ==> q == 0.0
    ensures numVars > 0 ==> q * numVars as real == numClauses as real
  {
    if numVars > 0 then numClauses as real / numVars as real else 0.0
  }

  /** A whole number of hundredths. */
  predicate Hundredths(r: real) {
    (r * 100.0).Floor as real == r * 100.0
  }

  /**
   * `round(ratio, 2)`: the nearest whole number of hundredths, a tie going
   * to the even one.
   */
  function Round2(q: real): (r: real)
    ensures Hundredths(r)
    ensures -0.005 <= r - q <= 0.005
    ensures (r - q == 0.005 || q - r == 0.005) ==> (r * 100.0).Floor % 2 == 0
    ensures q >= 0.0 ==> r >= 0.0
  {
    var n := Helpers.RoundHalfEven(q * 100.0);
    assert (n as real / 100.0) * 100.0 == n as real;
    n as real / 100.0
  }

  /** The stored ratio: the quotient rounded to hundredths. */
  function RoundedRatio(numVars: int, numClauses: int): real {
    Round2(Ratio(numVars, numClauses))
  }

  lemma QuotientBelow(c: real, v: real, b: real)
    requires v > 0.0 && 0.0 <= c < b * v
    ensures 0.0 <= c / v < b
  {
  }

  /** A ratio below half a hundredth is stored as `0.0`, which Python reads as false. */
  lemma TinyRatioRoundsToZero(numVars: int, numClauses: int)
    requires numVars > 0 && 0 <= numClauses && 200 * numClauses < numVars
    ensures RoundedRatio(numVars, numClauses) == 0.0
  {
    var q := Ratio(numVars, numClauses);
    QuotientBelow(numClauses as real, numVars as real, 0.005);
    assert 0.0 <= q < 0.005;
    var r := Round2(q);
    assert -0.005 < r < 0.01;
    var m := (r * 100.0).Floor;
    assert m as real == r * 100.0;
    assert -0.5 < m as real < 1.0;
    assert m == 0;
  }

  /** A stripped line starting `p cnf` with at least four fields: the line the scan stops at. */
  predicate ProblemLine(line: string) {
    StartsWith(Strip(line), "p cnf") && |SplitWs(Strip(line))| >= 4
  }

  /** `int(parts[2])`, `int(parts[3])` of a problem line; `None` is the `ValueError`. */
  function Counts(line: string): (r: Option<(int, int)>)
    requires ProblemLine(line)
  {
    var parts := SplitWs(Strip(line));
    match (ParseInt(parts[2]), ParseInt(parts[3]))
    case (Some(v), Some(c)) => Some((v, c))
    case _ => None
  }

  /** The problem line's counts: the first problem line decides, and a bad count is no header at all. */
  function ParseLines(lines: seq<string>): (h: Header)
    ensures h == NoHeader || (h.numVariables.Some? && h.numClauses.Some? && h.ratio.Some?)
    ensures h.numVariables.Some? ==> h.ratio == Some(RoundedRatio(h.numVariables.value, h.numClauses.value))
    ensures h != NoHeader <==> exists i :: 0 <= i < |lines| && FirstProblem(lines, i) && Counts(lines[i]).Some?
    ensures forall i :: 0 <= i < |lines| && FirstProblem(lines, i) && Counts(lines[i]).Some? ==>
      (h.numVariables.value, h.numClauses.value) == Counts(lines[i]).value
  {
    if |lines| == 0 then NoHeader
    else if ProblemLine(lines[0]) then
      match Counts(lines[0])
      case Some((v, c)) => Header(Some(v), Some(c), Some(RoundedRatio(v, c)))
      case None => NoHeader
    else
      var h := ParseLines(lines[1..]);
      FirstProblemShift(lines);
      h
  }

  /** Line `i` is a problem line and none before it is. */
  predicate FirstProblem(lines: seq<string>, i: int)
    requires 0 <= i < |lines|
  {
    ProblemLine(lines[i]) && forall j :: 0 <= j < i ==> !ProblemLine(lines[j])
  }

  lemma FirstProblemShift(lines: seq<string>)
    requires |lines| > 0 && !ProblemLine(lines[0])
    ensures forall i :: 1 <= i < |lines| ==> (FirstProblem(lines, i) <==> FirstProblem(lines[1..], i - 1))
    ensures !FirstProblem(lines, 0)
  {
    forall i | 1 <= i < |lines| ensures FirstProblem(lines, i) <==> FirstProblem(lines[1..], i - 1) {
      assert forall j :: 0 <= j < i - 1 ==> lines[1..][j] == lines[j + 1];
      if FirstProblem(lines[1..], i - 1) {
        forall j | 0 <= j < i ensures !ProblemLine(lines[j]) {
          if j > 0 {
            assert lines[j] == lines[1..][j - 1];
          }
        }
      }
    }
  }

  /** `parse_cnf_header`: a file that cannot be read has no header. */
  function ParseHeader(file: Option<seq<string>>): (h: Header)
    ensures file.None? ==> h == NoHeader
    ensures file.Some? ==> h == ParseLines(file.value)
  {
    match file
    case None => NoHeader
    case Some(lines) => ParseLines(lines)
  }

  /** `p cnf a b` for two words is already stripped and splits into its four words. */
  lemma ProblemWords(line: string, a: string, b: string)
    requires line == "p cnf " + a + " " + b && Word(a) && Word(b)
    ensures Strip(line) == line && StartsWith(line, "p cnf") && SplitWs(line) == ["p", "cnf", a, b]
  {
    var words := ["p", "cnf", a, b];
    assert line == Join(" ", words) by {
      assert words[1..] == ["cnf", a, b] && words[1..][1..] == [a, b];
      assert Join(" ", [a, b]) == a + " " + b;
      assert Join(" ", ["cnf", a, b]) == "cnf" + " " + (a + " " + b);
    }
    assert line[|line| - 1] == b[|b| - 1];
    StripNoSpace(line);
    SplitWsJoin(words);
    assert line[..5] == "p cnf";
  }

  /** A line `p cnf a b` whose two counts parse. */
  lemma ProblemLineOf(line: string, a: string, b: string, v: int, c: int)
    requires line == "p cnf " + a + " " + b && Word(a) && Word(b)
    requires ParseInt(a) == Some(v) && ParseInt(b) == Some(c)
    ensures ProblemLine(line) && Counts(line) == Some((v, c))
  {
    ProblemWords(line, a, b);
  }

  /** The text the compiler writes has the header it was written with. */
  lemma HeaderOfWritten(numVars: int, cs: seq<seq<int>>)
    ensures ParseLines(Dimacs.Lines(numVars, cs)) == Header(Some(numVars), Some(|cs|), Some(RoundedRatio(numVars, |cs|)))
  {
    var a, b := IntToString(numVars), IntToString(|cs|);
    IntToStringChars(numVars);
    IntToStringChars(|cs|);
    ParseIntOfString(numVars);
    ParseIntOfString(|cs|);
    var lines := Dimacs.Lines(numVars, cs);
    assert lines[0] == "p cnf " + a + " " + b;
    ProblemLineOf(lines[0], a, b, numVars, |cs|);
  }

  // ---------------------------------------------------------------------
  // Families

  /** A family and the words of its pattern `(w1|w2|...)`. */
  datatype Family = Family(name: string, words: seq<string>)

  predicate Matches(f: Family, s: string) {
    exists i :: 0 <= i < |f.words| && Contains(s, f.words[i])
  }

  /** `classify_benchmark_family`: the first family in mapping order whose pattern occurs in the lower-cased name. */
  function Classify(filename: string, families: seq<Family>): (name: string)
    ensures (forall i :: 0 <= i < |families| ==> !Matches(families[i], Lower(filename))) ==> name == "other"
    ensures forall i :: (0 <= i < |families| && Matches(families[i], Lower(filename)) &&
      (forall j :: 0 <= j < i ==> !Matches(families[j], Lower(filename)))) ==> name == families[i].name
  {
    ClassifyLower(Lower(filename), families)
  }

  function ClassifyLower(s: string, families: seq<Family>): (name: string)
    ensures (forall i :: 0 <= i < |families| ==> !Matches(families[i], s)) ==> name == "other"
    ensures forall i :: (0 <= i < |families| && Matches(families[i], s) &&
      (forall j :: 0 <= j < i ==> !Matches(families[j], s))) ==> name == families[i].name
  {
    if |families| == 0 then "other"
    else if Matches(families[0], s) then families[0].name
    else
      var name := ClassifyLower(s, families[1..]);
      assert forall i :: 1 <= i < |families| ==> families[i] == families[1..][i - 1];
      name
  }

  /** The result is "other" or the name of a family that matches. */
  lemma ClassifyNames(filename: string, families: seq<Family>)
    ensures var name := Classify(filename, families);
      name == "other" || exists i :: 0 <= i < |families| && families[i].name == name && Matches(families[i], Lower(filename))
  {
    var s := Lower(filename);
    if exists i :: 0 <= i < |families| && Matches(families[i], s) {
      var i := FirstMatching(s, families);
      assert families[i].name == Classify(filename, families);
    }
  }

  /** The index of the first matching family, when one matches. */
  lemma FirstMatching(s: string, families: seq<Family>) returns (i: nat)
    requires exists i :: 0 <= i < |families| && Matches(families[i], s)
    ensures i < |families| && Matches(families[i], s)
    ensures forall j :: 0 <= j < i ==> !Matches(families[j], s)
  {
    i := 0;
    while !Matches(families[i], s)
      invariant i < |families|
      invariant forall j :: 0 <= j < i ==> !Matches(families[j], s)
      invariant exists k :: i <= k < |families| && Matches(families[k], s)
      decreases |families| - i
    {
      i := i + 1;
    }
  }

  /** The patterns `classify_family` tests, in its order. */
  const Families: seq<Family> := [
    Family("circuit", ["circuit", "lec", "mult", "add", "barrel"]),
    Family("crypto", ["crypto", "aes", "des", "md5", "sha", "hash"]),
    Family("planning", ["planning", "block", "gripper", "hanoi"]),
    Family("graph", ["graph", "color", "clique", "ramsey"]),
    Family("scheduling", ["schedule", "job", "task", "timetable"]),
    Family("random", ["random", "rnd", "uniform"]),
    Family("crafted", ["pigeon", "php", "parity", "queen"]),
    Family("industrial", ["bmcbonus", "velev", "ibm", "intel"]),
    Family("verification", ["verify", "bmc", "safety", "reach"])
  ]

  /** `classify_family` of the upload endpoint. */
  function ClassifyFamily(filename: string): (name: string)
    ensures name == "other" || exists i :: 0 <= i < |Families| && Families[i].name == name
  {
    ClassifyNames(filename, Families);
    Classify(filename, Families)
  }

  /** Names that agree up to letter case get the same family. */
  lemma ClassifyIgnoresCase(a: string, b: string)
    requires Lower(a) == Lower(b)
    ensures ClassifyFamily(a) == ClassifyFamily(b)
  {
  }

  /** A matching family bounds the position of the family chosen. */
  lemma {:induction false} ClassifyNoLater(s: string, families: seq<Family>, k: int)
    requires 0 <= k < |families| && Matches(families[k], s)
    ensures exists j :: 0 <= j <= k && ClassifyLower(s, families) == families[j].name
  {
    if !Matches(families[0], s) {
      ClassifyNoLater(s, families[1..], k - 1);
      var j :| 0 <= j <= k - 1 && ClassifyLower(s, families[1..]) == families[1..][j].name;
      assert families[1..][j] == families[j + 1];
    }
  }

  /** A family chosen from the first `k + 1` only; none of them is called `name`. */
  lemma ClassifyNotNamed(s: string, families: seq<Family>, k: int, name: string)
    requires 0 <= k < |families| && Matches(families[k], s)
    requires forall j :: 0 <= j <= k ==> families[j].name != name
    ensures ClassifyLower(s, families) != name
  {
    ClassifyNoLater(s, families, k);
  }

  lemma IndustrialBeforeVerification()
    ensures Families[7].words[0] == "bmcbonus"
    ensures forall j :: 0 <= j <= 7 ==> Families[j].name != "verification"
  {
    assert forall j :: 0 <= j <= 7 ==> Families[j].name[0] != 'v';
  }

  /** `bmcbonus` also contains `bmc`, but industrial is tested before verification. */
  lemma BmcBonusNotVerification(filename: string)
    requires Contains(Lower(filename), "bmcbonus")
    ensures ClassifyFamily(filename) != "verification"
  {
    var s := Lower(filename);
    IndustrialBeforeVerification();
    assert Matches(Families[7], s);
    ClassifyNotNamed(s, Families, 7, "verification");
  }

  // ---------------------------------------------------------------------
  // Difficulty

  datatype Difficulty = Unknown | Easy | Medium | Hard

  /** The stored label: one of four distinct words, so distinct difficulties never share one. */
  function Label(d: Difficulty): (s: string)
    ensures s == "unknown" || s == "easy" || s == "medium" || s == "hard"
    ensures ReadLabel(s) == Some(d)
  {
    match d
    case Unknown => "unknown"
    case Easy => "easy"
    case Medium => "medium"
    case Hard => "hard"
  }

  /** Reads a stored label back; anything but the four words is no difficulty. */
  function ReadLabel(s: string): (r: Option<Difficulty>)
    ensures r.Some? <==> s == "unknown" || s == "easy" || s == "medium" || s == "hard"
  {
    if s == "unknown" then Some(Unknown)
    else if s == "easy" then Some(Easy)
    else if s == "medium" then Some(Medium)
    else if s == "hard" then Some(Hard)
    else None
  }

  /** Two difficulties with the same label are the same difficulty. */
  lemma LabelInjective(d1: Difficulty, d2: Difficulty)
    requires Label(d1) == Label(d2)
    ensures d1 == d2
  {
  }

  /** Python truthiness of the ratio: present and nonzero. */
  predicate Truthy(ratio: Option<real>) {
    ratio.Some? && ratio.value != 0.0
  }

  /** The thresholds both variants share, once the variable count is known. */
  function Grade(numVariables: int, ratio: Option<real>): (d: Difficulty)
    ensures d != Unknown
    ensures d == Easy <==> numVariables < 1000 || (Truthy(ratio) && ratio.value < 3.0)
    ensures d == Medium <==> d != Easy && (numVariables < 10000 || (Truthy(ratio) && ratio.value < 5.0))
  {
    if numVariables < 1000 || (Truthy(ratio) && ratio.value < 3.0) then Easy
    else if numVariables < 10000 || (Truthy(ratio) && ratio.value < 5.0) then Medium
    else Hard
  }

  /** `estimate_difficulty` in utils/cnf_parser.py: unknown when either count is missing. */
  function EstimateDifficulty(numVariables: Option<int>, numClauses: Option<int>, ratio: Option<real>): (d: Difficulty)
    ensures d == Unknown <==> numVariables.None? || numClauses.None?
    ensures d != Unknown ==> d == Grade(numVariables.value, ratio)
  {
    if numVariables.None? || numClauses.None? then Unknown else Grade(numVariables.value, ratio)
  }

  /** `estimate_difficulty` in api/benchmarks.py: unknown only when the variable count is missing. */
  function EstimateDifficultyApi(numVariables: Option<int>, numClauses: Option<int>, ratio: Option<real>): (d: Difficulty)
    ensures d == Unknown <==> numVariables.None?
    ensures d != Unknown ==> d == Grade(numVariables.value, ratio)
  {
    if numVariables.None? then Unknown else Grade(numVariables.value, ratio)
  }

  /** The two variants differ exactly when the variable count is known and the clause count is not. */
  lemma DifficultyVariants(numVariables: Option<int>, numClauses: Option<int>, ratio: Option<real>)
    ensures EstimateDifficulty(numVariables, numClauses, ratio) != EstimateDifficultyApi(numVariables, numClauses, ratio)
      <==> numVariables.Some? && numClauses.None?
  {
  }

  /** With a zero or missing ratio, more variables never make a benchmark easier. */
  lemma GradeMonotone(a: int, b: int, ratio: Option<real>)
    requires a <= b && !Truthy(ratio)
    ensures Grade(a, ratio) == Hard ==> Grade(b, ratio) == Hard
    ensures Grade(b, ratio) == Easy ==> Grade(a, ratio) == Easy
  {
  }

  /** A parsed header always yields a known difficulty; no header yields unknown. */
  lemma HeaderDifficulty(file: Option<seq<string>>)
    ensures var h := ParseHeader(file);
      (EstimateDifficulty(h.numVariables, h.numClauses, h.ratio) == Unknown) <==> h == NoHeader
  {
  }

  // ---------------------------------------------------------------------
  // Upload

  /**
   * One uploaded file: its name, its lines once saved, and what
   * `add_benchmark` answers: the new id, or `None` for a duplicate.
   * `Err` is an exception while saving or registering it.
   */
  datatype Upload = Upload(filename: string, lines: seq<string>, added: Result<Option<int>, string>)

  datatype Entry =
    | Success(id: int, filename: string, family: string, difficulty: Difficulty,
              variables: Option<int>, clauses: Option<int>)
    | Failed(filename: string, error: string)
    | Skipped(filename: string, reason: string)

  /** What happens to one uploaded file. */
  function UploadOne(u: Upload): (e: Entry)
    ensures !EndsWith(u.filename, ".cnf") ==> e == Failed(u.filename, "Not a CNF file")
    ensures e.Success? ==> EndsWith(u.filename, ".cnf") && u.added == Ok(Some(e.id)) && e.id != 0
    ensures e.Success? ==> e.family == ClassifyFamily(u.filename) && e.variables == ParseLines(u.lines).numVariables
    ensures e.filename == u.filename
  {
    if !EndsWith(u.filename, ".cnf") then Failed(u.filename, "Not a CNF file")
    else
      var h := ParseLines(u.lines);
      var family := ClassifyFamily(u.filename);
      var difficulty := EstimateDifficultyApi(h.numVariables, h.numClauses, h.ratio);
      match u.added
      case Err(msg) => Failed(u.filename, msg)
      case Ok(Some(id)) =>
        if id != 0 then Success(id, u.filename, family, difficulty, h.numVariables, h.numClauses)
        else Skipped(u.filename, "Already exists")
      case Ok(None) => Skipped(u.filename, "Already exists")
  }

  datatype Report = Report(success: seq<Entry>, failed: seq<Entry>, skipped: seq<Entry>)

  /** Entries sorted into the three lists, each keeping upload order. */
  function Sift(es: seq<Entry>): (r: Report)
    ensures |r.success| + |r.failed| + |r.skipped| == |es|
    ensures forall e :: e in r.success ==> e.Success?
    ensures forall e :: e in r.failed ==> e.Failed?
    ensures forall e :: e in r.skipped ==> e.Skipped?
    ensures forall e :: e in es ==> e in r.success || e in r.failed || e in r.skipped
  {
    if |es| == 0 then Report([], [], [])
    else
      var rest := Sift(es[1..]);
      var e := es[0];
      assert forall x :: x in es ==> x == e || x in es[1..];
      if e.Success? then rest.(success := [e] + rest.success)
      else if e.Failed? then rest.(failed := [e] + rest.failed)
      else rest.(skipped := [e] + rest.skipped)
  }

  /** Which of the three lists an entry belongs in. */
  function ListOf(e: Entry): nat
  {
    match e
    case Success(_, _, _, _, _, _) => 0
    case Failed(_, _) => 1
    case Skipped(_, _) => 2
  }

  /** The entries of one kind, in the order they came. */
  function OfKind(es: seq<Entry>, k: nat): (r: seq<Entry>)
    ensures |r| <= |es|
    ensures forall e :: e in r ==> e in es && ListOf(e) == k
  {
    if |es| == 0 then []
    else if ListOf(es[0]) == k then [es[0]] + OfKind(es[1..], k)
    else OfKind(es[1..], k)
  }

  /** Each list holds exactly the entries of its kind, in upload order. */
  lemma {:induction false} SiftKeepsOrder(es: seq<Entry>)
    ensures Sift(es).success == OfKind(es, 0)
    ensures Sift(es).failed == OfKind(es, 1)
    ensures Sift(es).skipped == OfKind(es, 2)
  {
    if |es| > 0 {
      SiftKeepsOrder(es[1..]);
    }
  }

  /** The upload endpoint: each file lands in exactly one of the three lists. */
  function UploadAll(us: seq<Upload>): (r: Report)
    ensures |r.success| + |r.failed| + |r.skipped| == |us|
    ensures forall i :: 0 <= i < |us| ==> UploadOne(us[i]) in r.success || UploadOne(us[i]) in r.failed || UploadOne(us[i]) in r.skipped
  {
    var es := seq(|us|, i requires 0 <= i < |us| => UploadOne(us[i]));
    assert forall i :: 0 <= i < |us| ==> es[i] == UploadOne(us[i]) && es[i] in es;
    Sift(es)
  }

  /** A name not ending in `.cnf` is always reported failed, never saved or registered. */
  lemma NonCnfRejected(us: seq<Upload>, i: int)
    requires 0 <= i < |us| && !EndsWith(us[i].filename, ".cnf")
    ensures Failed(us[i].filename, "Not a CNF file") in UploadAll(us).failed
  {
    var r := UploadAll(us);
    var e := UploadOne(us[i]);
    assert e in r.success || e in r.failed || e in r.skipped;
    assert e.Failed? && e in r.failed;
  }
}

=== FILE: cardinality.dfy ===
/**
 * The clause sets of the cardinality encodings in
 * `CNFCompiler._encode_atmost`, `_atmost_pairwise`,
 * `_atmost_sequential_counter` and `_encode_atleast`, over literals, and
 * what each enforces about the number of true literals.
 */
module Cardinality {
  import opened Cnf
  import opened Gates

  // ---------------------------------------------------------------------
  // Subsets in the order `itertools.combinations` yields them

  function PrependAll(h: int, cs: seq<seq<int>>): (r: seq<seq<int>>)
    ensures |r| == |cs|
    ensures forall i :: 0 <= i < |cs| ==> r[i] == [h] + cs[i]
  {
    seq(|cs|, i requires 0 <= i < |cs| => [h] + cs[i])
  }

  /**
   * The `r`-element subsequences of `s`, in lexicographic order of their
   * positions: those that use `s[0]` first, then those that do not.
   */
  function Comb(s: seq<int>, r: nat): seq<seq<int>>
    decreases |s|
  {
    if r == 0 then [[]]
    else if |s| < r then []
    else PrependAll(s[0], Comb(s[1..], r - 1)) + Comb(s[1..], r)
  }

  /** Every subset has `r` entries, each taken from `s`. */
  lemma {:induction false} CombShape(s: seq<int>, r: nat, i: int)
    requires 0 <= i < |Comb(s, r)|
    ensures |Comb(s, r)[i]| == r
    ensures forall j :: 0 <= j < r ==> Comb(s, r)[i][j] in s
    decreases |s|
  {
    if r > 0 && |s| >= r {
      var left := Comb(s[1..], r - 1);
      var c := Comb(s, r)[i];
      if i < |left| {
        CombShape(s[1..], r - 1, i);
        assert c == [s[0]] + left[i];
        assert forall j :: 1 <= j < r ==> c[j] == left[i][j - 1];
      } else {
        CombShape(s[1..], r, i - |left|);
        assert c == Comb(s[1..], r)[i - |left|];
      }
    }
  }

  /** With at least `r` true entries, some `r`-subset is all true. */
  lemma {:induction false} CombHit(a: Assignment, s: seq<int>, r: nat) returns (i: nat)
    requires CountTrue(a, s) >= r
    ensures i < |Comb(s, r)| && AllTrue(a, Comb(s, r)[i])
    decreases |s|
  {
    if r == 0 {
      i := 0;
      assert Comb(s, r) == [[]];
    } else {
      assert |s| >= r;
      var left := Comb(s[1..], r - 1);
      var right := Comb(s[1..], r);
      assert Comb(s, r) == PrependAll(s[0], left) + right;
      if Val(a, s[0]) {
        assert CountTrue(a, s[1..]) >= r - 1;
        var i' := CombHit(a, s[1..], r - 1);
        i := i';
        var c := Comb(s, r)[i];
        assert c == [s[0]] + left[i'];
        forall j | 0 <= j < |c| ensures Val(a, c[j]) {
          if j > 0 {
            assert c[j] == left[i'][j - 1];
          }
        }
      } else {
        assert CountTrue(a, s[1..]) >= r;
        var i' := CombHit(a, s[1..], r);
        i := |left| + i';
        assert Comb(s, r)[i] == right[i'];
      }
    }
  }

  /** An all-true `r`-subset means at least `r` true entries. */
  lemma {:induction false} CombCount(a: Assignment, s: seq<int>, r: nat, i: int)
    requires 0 <= i < |Comb(s, r)| && AllTrue(a, Comb(s, r)[i])
    ensures CountTrue(a, s) >= r
    decreases |s|
  {
    if r > 0 && |s| >= r {
      var left := Comb(s[1..], r - 1);
      var c := Comb(s, r)[i];
      if i < |left| {
        assert c == [s[0]] + left[i];
        assert c[0] == s[0];
        assert forall j :: 0 <= j < |left[i]| ==> left[i][j] == c[j + 1];
        CombCount(a, s[1..], r - 1, i);
      } else {
        CombCount(a, s[1..], r, i - |left|);
      }
    }
  }

  // ---------------------------------------------------------------------
  // atmost(0, L) and atleast(|L|, L)

  /** `aux -> not l` for each literal, then `aux or l1 or ... or ln`. */
  function NoneClauses(x: int, ls: seq<int>): seq<Clause> {
    ImpliesEach(x, Negs(ls)) + [[x] + ls]
  }

  lemma NegsNegs(ls: seq<int>)
    ensures Negs(Negs(ls)) == ls
  {
  }

  /** The `atmost(0)` clauses hold exactly when aux says that no literal is true. */
  lemma NoneGate(a: Assignment, x: int, ls: seq<int>)
    requires x != 0 && NonZero(ls)
    ensures Sat(a, NoneClauses(x, ls)) <==> (Val(a, x) == (CountTrue(a, ls) == 0))
  {
    var ns := Negs(ls);
    NegsNegs(ls);
    assert NoneClauses(x, ls) == ImpliesEach(x, ns) + [[x] + Negs(ns)];
    AndGate(a, x, ns);
    CountAll(a, ls);
    forall i | 0 <= i < |ls| ensures Val(a, ns[i]) == !Val(a, ls[i]) {
      ValNeg(a, ls[i]);
    }
  }

  /** The `atleast(|L|)` clauses (the `and` gate) hold exactly when aux says all are true. */
  lemma EveryGate(a: Assignment, x: int, ls: seq<int>)
    requires x != 0 && NonZero(ls)
    ensures Sat(a, AndClauses(x, ls)) <==> (Val(a, x) == (CountTrue(a, ls) == |ls|))
  {
    AndGate(a, x, ls);
    CountAll(a, ls);
  }

  // ---------------------------------------------------------------------
  // Pairwise encoding

  function ForbidClauses(x: int, cs: seq<seq<int>>): (r: seq<Clause>)
    ensures |r| == |cs|
    ensures forall i :: 0 <= i < |cs| ==> r[i] == [-x] + Negs(cs[i])
  {
    seq(|cs|, i requires 0 <= i < |cs| => [-x] + Negs(cs[i]))
  }

  /** One clause `not aux or not l...` per `r`-subset, then `aux or l1 or ... or ln`. */
  function PairwiseClauses(x: int, ls: seq<int>, r: nat): seq<Clause> {
    ForbidClauses(x, Comb(ls, r)) + [[x] + ls]
  }

  lemma CombNonZero(ls: seq<int>, r: nat, i: int)
    requires NonZero(ls) && 0 <= i < |Comb(ls, r)|
    ensures NonZero(Comb(ls, r)[i])
  {
    CombShape(ls, r, i);
  }

  /**
   * Once aux holds, the pairwise clauses are satisfied exactly when fewer
   * than `r` literals are true, i.e. no `r` of them are true together.
   */
  lemma PairwiseGate(a: Assignment, x: int, ls: seq<int>, r: nat)
    requires x != 0 && NonZero(ls) && Val(a, x)
    ensures Sat(a, PairwiseClauses(x, ls, r)) <==> CountTrue(a, ls) < r
  {
    var cs := Comb(ls, r);
    var f := ForbidClauses(x, cs);
    SatConcat(a, f, [[x] + ls]);
    Sat1(a, [x] + ls);
    ClauseConcat(a, [x], ls);
    Clause1(a, x);
    forall i | 0 <= i < |cs| ensures SatClause(a, f[i]) <==> !AllTrue(a, cs[i]) {
      CombNonZero(ls, r, i);
      ClauseConcat(a, [-x], Negs(cs[i]));
      Clause1(a, -x);
      NegsClause(a, cs[i]);
    }
    if CountTrue(a, ls) >= r {
      var i := CombHit(a, ls, r);
      assert !SatClause(a, f[i]);
    } else {
      forall i | 0 <= i < |cs| ensures SatClause(a, f[i]) {
        if AllTrue(a, cs[i]) {
          CombCount(a, ls, r, i);
        }
      }
    }
  }

  // ---------------------------------------------------------------------
  // Sequential counter (Sinz 2005)

  /** Register `R[i][j]`, allocated row by row from `base`: "at least j+1 of l0..li are true". */
  function Reg(base: int, k: int, i: int, j: int): int {
    base + i * k + j
  }

  /** The clauses for the first literal: `R[0][0] <-> l0`, and `not R[0][j]` for j >= 1. */
  function FirstClauses(ls: seq<int>, base: int, k: int): seq<Clause>
    requires |ls| > 0
  {
    [[-ls[0], Reg(base, k, 0, 0)], [ls[0], -Reg(base, k, 0, 0)]]
    + seq(if k > 1 then k - 1 else 0, j requires 0 <= j => [-Reg(base, k, 0, j + 1)])
  }

  /** The four clauses per register `R[i][j]`, j >= 1, for row `i` from column `j` on. */
  function MidClauses(ls: seq<int>, base: int, k: int, i: int, j: int): seq<Clause>
    requires 1 <= i < |ls|
    decreases k - j
  {
    if j >= k then []
    else
      var l, p, q, r := ls[i], Reg(base, k, i - 1, j - 1), Reg(base, k, i - 1, j), Reg(base, k, i, j);
      [[-l, -p, r], [-q, r], [l, q, -r], [p, -r]] + MidClauses(ls, base, k, i, j + 1)
  }

  /** Row `i` >= 1: column 0, the middle columns, then the clause forbidding k+1 true. */
  function RowClauses(ls: seq<int>, base: int, k: int, i: int): seq<Clause>
    requires 1 <= i < |ls|
  {
    var l, p, r := ls[i], Reg(base, k, i - 1, 0), Reg(base, k, i, 0);
    [[-l, r], [-p, r], [l, p, -r]] + MidClauses(ls, base, k, i, 1)
    + [[-l, -Reg(base, k, i - 1, k - 1)]]
  }

  function RowsFrom(ls: seq<int>, base: int, k: int, i: int): seq<Clause>
    requires 1 <= i <= |ls|
    decreases |ls| - i
  {
    if i == |ls| then [] else RowClauses(ls, base, k, i) + RowsFrom(ls, base, k, i + 1)
  }

  /** Every clause of the sequential counter, in emission order. */
  function CounterClauses(ls: seq<int>, base: int, k: int): seq<Clause>
    requires |ls| > 0
  {
    FirstClauses(ls, base, k) + RowsFrom(ls, base, k, 1)
  }

  /** The clauses of one register `R[i][j]`, j >= 1, read as implications. */
  ghost predicate MidHolds(a: Assignment, ls: seq<int>, base: int, k: int, i: int, j: int)
    requires 1 <= i < |ls|
  {
    var l, p, q, r := Val(a, ls[i]), Val(a, Reg(base, k, i - 1, j - 1)),
                      Val(a, Reg(base, k, i - 1, j)), Val(a, Reg(base, k, i, j));
    (l && p ==> r) && (q ==> r) && (r ==> l || q) && (r ==> p)
  }

  ghost predicate RowHolds(a: Assignment, ls: seq<int>, base: int, k: int, i: int)
    requires 1 <= i < |ls|
  {
    var l, p, r := Val(a, ls[i]), Val(a, Reg(base, k, i - 1, 0)), Val(a, Reg(base, k, i, 0));
    (l ==> r) && (p ==> r) && (r ==> l || p)
    && (forall j :: 1 <= j < k ==> MidHolds(a, ls, base, k, i, j))
    && !(l && Val(a, Reg(base, k, i - 1, k - 1)))
  }

  ghost predicate FirstHolds(a: Assignment, ls: seq<int>, base: int, k: int)
    requires |ls| > 0
  {
    (Val(a, ls[0]) <==> Val(a, Reg(base, k, 0, 0)))
    && forall j :: 1 <= j < k ==> !Val(a, Reg(base, k, 0, j))
  }

  ghost predicate CounterHolds(a: Assignment, ls: seq<int>, base: int, k: int)
    requires |ls| > 0
  {
    FirstHolds(a, ls, base, k) && forall i :: 1 <= i < |ls| ==> RowHolds(a, ls, base, k, i)
  }

  /** Registers are positive variables when counting starts at a positive id. */
  lemma RegPositive(base: int, k: int, i: int, j: int)
    requires base >= 1 && k >= 1 && i >= 0 && j >= 0
    ensures Reg(base, k, i, j) >= base
  {
    assert i * k >= 0;
  }

  lemma MidOne(a: Assignment, ls: seq<int>, base: int, k: int, i: int, j: int)
    requires 1 <= i < |ls| && NonZero(ls) && base >= 1 && k >= 1 && j >= 1
    ensures var l, p, q, r := ls[i], Reg(base, k, i - 1, j - 1), Reg(base, k, i - 1, j), Reg(base, k, i, j);
            Sat(a, [[-l, -p, r], [-q, r], [l, q, -r], [p, -r]]) <==> MidHolds(a, ls, base, k, i, j)
  {
    var l, p, q, r := ls[i], Reg(base, k, i - 1, j - 1), Reg(base, k, i - 1, j), Reg(base, k, i, j);
    RegPositive(base, k, i - 1, j - 1);
    RegPositive(base, k, i - 1, j);
    RegPositive(base, k, i, j);
    Sat4(a, [-l, -p, r], [-q, r], [l, q, -r], [p, -r]);
    Clause3(a, -l, -p, r);
    Clause2(a, -q, r);
    Clause3(a, l, q, -r);
    Clause2(a, p, -r);
  }

  lemma {:induction false} MidSat(a: Assignment, ls: seq<int>, base: int, k: int, i: int, j: int)
    requires 1 <= i < |ls| && NonZero(ls) && base >= 1 && k >= 1 && j >= 1
    ensures Sat(a, MidClauses(ls, base, k, i, j)) <==>
            forall j' :: j <= j' < k ==> MidHolds(a, ls, base, k, i, j')
    decreases k - j
  {
    if j < k {
      var l, p, q, r := ls[i], Reg(base, k, i - 1, j - 1), Reg(base, k, i - 1, j), Reg(base, k, i, j);
      var four := [[-l, -p, r], [-q, r], [l, q, -r], [p, -r]];
      SatConcat(a, four, MidClauses(ls, base, k, i, j + 1));
      MidOne(a, ls, base, k, i, j);
      MidSat(a, ls, base, k, i, j + 1);
      if Sat(a, MidClauses(ls, base, k, i, j)) {
        forall j' | j <= j' < k ensures MidHolds(a, ls, base, k, i, j') {
        }
      }
    }
  }

  lemma RowSat(a: Assignment, ls: seq<int>, base: int, k: int, i: int)
    requires 1 <= i < |ls| && NonZero(ls) && base >= 1 && k >= 1
    ensures Sat(a, RowClauses(ls, base, k, i)) <==> RowHolds(a, ls, base, k, i)
  {
    var l, p, r := ls[i], Reg(base, k, i - 1, 0), Reg(base, k, i, 0);
    var q := Reg(base, k, i - 1, k - 1);
    RegPositive(base, k, i - 1, 0);
    RegPositive(base, k, i, 0);
    RegPositive(base, k, i - 1, k - 1);
    var head := [[-l, r], [-p, r], [l, p, -r]];
    var mid := MidClauses(ls, base, k, i, 1);
    SatConcat(a, head + mid, [[-l, -q]]);
    SatConcat(a, head, mid);
    Sat3(a, [-l, r], [-p, r], [l, p, -r]);
    Clause2(a, -l, r);
    Clause2(a, -p, r);
    Clause3(a, l, p, -r);
    MidSat(a, ls, base, k, i, 1);
    Sat1(a, [-l, -q]);
    Clause2(a, -l, -q);
  }

  lemma {:induction false} RowsSat(a: Assignment, ls: seq<int>, base: int, k: int, i: int)
    requires 1 <= i <= |ls| && NonZero(ls) && base >= 1 && k >= 1
    ensures Sat(a, RowsFrom(ls, base, k, i)) <==>
            forall i' :: i <= i' < |ls| ==> RowHolds(a, ls, base, k, i')
    decreases |ls| - i
  {
    if i < |ls| {
      SatConcat(a, RowClauses(ls, base, k, i), RowsFrom(ls, base, k, i + 1));
      RowSat(a, ls, base, k, i);
      RowsSat(a, ls, base, k, i + 1);
    }
  }

  lemma FirstSat(a: Assignment, ls: seq<int>, base: int, k: int)
    requires |ls| > 0 && NonZero(ls) && base >= 1 && k >= 1
    ensures Sat(a, FirstClauses(ls, base, k)) <==> FirstHolds(a, ls, base, k)
  {
    var r := Reg(base, k, 0, 0);
    var pair := [[-ls[0], r], [ls[0], -r]];
    var rest := seq(if k > 1 then k - 1 else 0, j requires 0 <= j => [-Reg(base, k, 0, j + 1)]);
    SatConcat(a, pair, rest);
    Sat2(a, [-ls[0], r], [ls[0], -r]);
    RegPositive(base, k, 0, 0);
    Clause2(a, -ls[0], r);
    Clause2(a, ls[0], -r);
    forall j | 0 <= j < |rest| ensures SatClause(a, rest[j]) <==> !Val(a, Reg(base, k, 0, j + 1)) {
      RegPositive(base, k, 0, j + 1);
      Clause1(a, -Reg(base, k, 0, j + 1));
    }
    if !Sat(a, rest) {
      var j :| 0 <= j < |rest| && !SatClause(a, rest[j]);
      assert Val(a, Reg(base, k, 0, j + 1));
    }
    if !FirstHolds(a, ls, base, k) && (Val(a, ls[0]) <==> Val(a, r)) {
      var j :| 1 <= j < k && Val(a, Reg(base, k, 0, j));
      assert !SatClause(a, rest[j - 1]);
    }
  }

  /** The counter clauses say exactly what the register predicates say. */
  lemma CounterSat(a: Assignment, ls: seq<int>, base: int, k: int)
    requires |ls| > 0 && NonZero(ls) && base >= 1 && k >= 1
    ensures Sat(a, CounterClauses(ls, base, k)) <==> CounterHolds(a, ls, base, k)
  {
    SatConcat(a, FirstClauses(ls, base, k), RowsFrom(ls, base, k, 1));
    FirstSat(a, ls, base, k);
    RowsSat(a, ls, base, k, 1);
  }

  /** How many of `l0..li` are true. */
  function Pre(a: Assignment, ls: seq<int>, i: int): nat
    requires 0 <= i < |ls|
  {
    CountTrue(a, ls[..i + 1])
  }

  lemma PreFirst(a: Assignment, ls: seq<int>)
    requires |ls| > 0
    ensures Pre(a, ls, 0) == if Val(a, ls[0]) then 1 else 0
  {
    assert ls[..1][1..] == [];
  }

  lemma PreStep(a: Assignment, ls: seq<int>, i: int)
    requires 1 <= i < |ls|
    ensures Pre(a, ls, i) == Pre(a, ls, i - 1) + if Val(a, ls[i]) then 1 else 0
  {
    assert ls[..i + 1] == ls[..i] + [ls[i]];
    CountAppend(a, ls[..i], [ls[i]]);
    assert [ls[i]][1..] == [];
  }

  lemma PreBound(a: Assignment, ls: seq<int>, i: int)
    requires 0 <= i < |ls|
    ensures Pre(a, ls, i) <= CountTrue(a, ls)
    ensures i == |ls| - 1 ==> Pre(a, ls, i) == CountTrue(a, ls)
  {
    assert ls == ls[..i + 1] + ls[i + 1..];
    CountAppend(a, ls[..i + 1], ls[i + 1..]);
  }

  /**
   * Soundness, by induction along the rows: a register is true whenever
   * its count is reached, so no prefix ever exceeds `k`.
   */
  lemma {:induction false} CounterUp(a: Assignment, ls: seq<int>, base: int, k: int, i: int)
    requires 0 <= i < |ls| && k >= 1 && CounterHolds(a, ls, base, k)
    ensures Pre(a, ls, i) <= k
    ensures forall j :: 0 <= j < k && Pre(a, ls, i) >= j + 1 ==> Val(a, Reg(base, k, i, j))
    decreases i
  {
    if i == 0 {
      PreFirst(a, ls);
    } else {
      CounterUp(a, ls, base, k, i - 1);
      PreStep(a, ls, i);
      assert RowHolds(a, ls, base, k, i);
      forall j | 0 <= j < k && Pre(a, ls, i) >= j + 1 ensures Val(a, Reg(base, k, i, j)) {
        if j > 0 {
          assert MidHolds(a, ls, base, k, i, j);
        }
      }
    }
  }

  /** The sequential counter clauses allow at most `k` true literals. */
  lemma CounterSound(a: Assignment, ls: seq<int>, base: int, k: int)
    requires |ls| > 0 && k >= 1 && CounterHolds(a, ls, base, k)
    ensures CountTrue(a, ls) <= k
  {
    CounterUp(a, ls, base, k, |ls| - 1);
    PreBound(a, ls, |ls| - 1);
  }

  /** The row of the register at offset `off` from `base` in a counter with `k` columns. */
  function RowOf(off: nat, k: int): nat
    requires k >= 1
    decreases off
  {
    if off < k then 0 else 1 + RowOf(off - k, k)
  }

  function ColOf(off: nat, k: int): nat
    requires k >= 1
    decreases off
  {
    if off < k then off else ColOf(off - k, k)
  }

  lemma {:induction false} RegDecode(k: int, i: nat, j: nat)
    requires k >= 1 && j < k
    ensures RowOf(i * k + j, k) == i && ColOf(i * k + j, k) == j
    decreases i
  {
    if i > 0 {
      assert i * k + j - k == (i - 1) * k + j;
      RegDecode(k, i - 1, j);
    }
  }

  lemma {:induction false} RowBound(k: int, n: nat, off: nat)
    requires k >= 1
    ensures RowOf(off, k) < n <==> off < n * k
    decreases n
  {
    if n > 0 && off >= k {
      assert n * k - k == (n - 1) * k;
      RowBound(k, n - 1, off - k);
    }
  }

  /** Every register lies in `[base, base + n*k)`. */
  lemma RegRange(base: int, k: int, n: nat, i: nat, j: nat)
    requires k >= 1 && i < n && j < k
    ensures base <= Reg(base, k, i, j) < base + n * k
  {
    RegDecode(k, i, j);
    RowBound(k, n, i * k + j);
  }

  /** The registers set to their intended meaning, every other variable left alone. */
  ghost function CounterExt(a: Assignment, ls: seq<int>, base: int, k: int): Assignment
    requires k >= 1
  {
    x => if base <= x && RowOf(x - base, k) < |ls| then
           Pre(a, ls, RowOf(x - base, k)) >= ColOf(x - base, k) + 1
         else a(x)
  }

  lemma CounterExtReg(a: Assignment, ls: seq<int>, base: int, k: int, i: int, j: int)
    requires k >= 1 && base >= 1 && 0 <= i < |ls| && 0 <= j < k
    ensures Val(CounterExt(a, ls, base, k), Reg(base, k, i, j)) == (Pre(a, ls, i) >= j + 1)
  {
    RegDecode(k, i, j);
    RegPositive(base, k, i, j);
  }

  lemma RowComplete(a: Assignment, b: Assignment, ls: seq<int>, base: int, k: int, h: int, i: int)
    requires k >= 1 && base >= 1 && 1 <= i < |ls| && h == i - 1 && CountTrue(a, ls) <= k
    requires Val(b, ls[i]) == Val(a, ls[i])
    requires forall j :: 0 <= j < k ==> Val(b, Reg(base, k, i, j)) == (Pre(a, ls, i) >= j + 1)
    requires forall j :: 0 <= j < k ==> Val(b, Reg(base, k, h, j)) == (Pre(a, ls, h) >= j + 1)
    ensures RowHolds(b, ls, base, k, i)
  {
    PreStep(a, ls, i);
    PreBound(a, ls, i);
    forall j | 1 <= j < k ensures MidHolds(b, ls, base, k, i, j) {
      assert Val(b, Reg(base, k, i - 1, j - 1)) == (Pre(a, ls, i - 1) >= j);
    }
  }

  /** Row `i` of `b` holds the intended register values. */
  ghost predicate RegsMeant(a: Assignment, b: Assignment, ls: seq<int>, base: int, k: int, i: int)
    requires 0 <= i < |ls|
  {
    forall j :: 0 <= j < k ==> Val(b, Reg(base, k, i, j)) == (Pre(a, ls, i) >= j + 1)
  }

  /** Completeness: with at most `k` true literals the registers can be chosen to satisfy every clause. */
  lemma CounterComplete(a: Assignment, ls: seq<int>, base: int, k: int) returns (b: Assignment)
    requires |ls| > 0 && k >= 1 && base >= 1 && CountTrue(a, ls) <= k
    requires forall i :: 0 <= i < |ls| ==> 0 < Abs(ls[i]) < base
    ensures Below(a, b, base) && CounterHolds(b, ls, base, k)
    ensures forall x :: x >= base + |ls| * k ==> b(x) == a(x)
  {
    b := CounterExt(a, ls, base, k);
    forall x | x >= base + |ls| * k ensures b(x) == a(x) {
      RowBound(k, |ls|, x - base);
    }
    forall i | 0 <= i < |ls| ensures Val(b, ls[i]) == Val(a, ls[i]) {
      assert 0 < Abs(ls[i]) < base;
    }
    PreFirst(a, ls);
    forall i | 0 <= i < |ls| ensures RegsMeant(a, b, ls, base, k, i) {
      forall j | 0 <= j < k ensures Val(b, Reg(base, k, i, j)) == (Pre(a, ls, i) >= j + 1) {
        CounterExtReg(a, ls, base, k, i, j);
      }
    }
    forall i | 1 <= i < |ls| ensures RowHolds(b, ls, base, k, i) {
      var h := i - 1;
      assert RegsMeant(a, b, ls, base, k, h) && RegsMeant(a, b, ls, base, k, i);
      RowComplete(a, b, ls, base, k, h, i);
    }
  }
}

=== FILE: chains.dfy ===
/**
 * How chains of `->` and `<->` actually nest. The two loops fold to the
 * left, but `_atom` hands a variable directly followed by an arrow the
 * whole rest of the expression as its right operand. So a chain whose
 * operands are bare variables nests to the right, and the loops fold to
 * the left only when no operand before the last is a bare variable.
 */
module Chains {
  import opened Outcomes
  import opened Lexer
  import opened Syntax
  import opened Parser
  import opened Printer

  /** The node an arrow token builds. */
  function ArrowNode(op: TokenKind, a: Expr, b: Expr): Expr
    requires Arrow(op)
  {
    if op == ImplOp then Impl(a, b) else Iff(a, b)
  }

  // ------------------------------------------------------- where levels end

  lemma {:induction false} AndLoopStops(toks: seq<Token>, acc: seq<Expr>, pos: nat)
    requires Terminated(toks) && pos < |toks| && |acc| > 0 && AllShaped(acc)
    requires AndLoop(toks, acc, pos).Ok?
    ensures toks[AndLoop(toks, acc, pos).value.pos].kind != AndOp
    decreases |toks| - pos
  {
    if toks[pos].kind == AndOp {
      var c := NotExpr(toks, pos + 1).value;
      AndLoopStops(toks, acc + [c.value], c.pos);
    }
  }

  lemma {:induction false} AndExprStops(toks: seq<Token>, pos: nat)
    requires Terminated(toks) && pos < |toks| && AndExpr(toks, pos).Ok?
    ensures toks[AndExpr(toks, pos).value.pos].kind != AndOp
  {
    var first := NotExpr(toks, pos).value;
    AndLoopStops(toks, [first.value], first.pos);
  }

  lemma {:induction false} OrLoopStops(toks: seq<Token>, acc: seq<Expr>, pos: nat)
    requires Terminated(toks) && pos < |toks| && |acc| > 0 && AllShaped(acc)
    requires toks[pos].kind != AndOp && OrLoop(toks, acc, pos).Ok?
    ensures var k := toks[OrLoop(toks, acc, pos).value.pos].kind; k != AndOp && k != OrOp
    decreases |toks| - pos
  {
    if toks[pos].kind == OrOp {
      var c := AndExpr(toks, pos + 1).value;
      AndExprStops(toks, pos + 1);
      OrLoopStops(toks, acc + [c.value], c.pos);
    }
  }

  lemma {:induction false} OrExprStops(toks: seq<Token>, pos: nat)
    requires Terminated(toks) && pos < |toks| && OrExpr(toks, pos).Ok?
    ensures var k := toks[OrExpr(toks, pos).value.pos].kind; k != AndOp && k != OrOp
  {
    var first := AndExpr(toks, pos).value;
    AndExprStops(toks, pos);
    OrLoopStops(toks, [first.value], first.pos);
  }

  lemma {:induction false} ImplLoopStops(toks: seq<Token>, left: Expr, pos: nat)
    requires Terminated(toks) && pos < |toks| && Shaped(left)
    requires toks[pos].kind != AndOp && toks[pos].kind != OrOp && ImplLoop(toks, left, pos).Ok?
    ensures var k := toks[ImplLoop(toks, left, pos).value.pos].kind; k != AndOp && k != OrOp && k != ImplOp
    decreases |toks| - pos
  {
    if toks[pos].kind == ImplOp {
      var right := OrExpr(toks, pos + 1).value;
      OrExprStops(toks, pos + 1);
      ImplLoopStops(toks, Impl(left, right.value), right.pos);
    }
  }

  lemma {:induction false} ImplExprStops(toks: seq<Token>, pos: nat)
    requires Terminated(toks) && pos < |toks| && ImplExpr(toks, pos).Ok?
    ensures var k := toks[ImplExpr(toks, pos).value.pos].kind; k != AndOp && k != OrOp && k != ImplOp
  {
    var left := OrExpr(toks, pos).value;
    OrExprStops(toks, pos);
    ImplLoopStops(toks, left.value, left.pos);
  }

  lemma {:induction false} IffLoopStops(toks: seq<Token>, left: Expr, pos: nat)
    requires Terminated(toks) && pos < |toks| && Shaped(left)
    requires toks[pos].kind != AndOp && toks[pos].kind != OrOp && toks[pos].kind != ImplOp
    requires IffLoop(toks, left, pos).Ok?
    ensures Stopper(toks[IffLoop(toks, left, pos).value.pos].kind)
    decreases |toks| - pos
  {
    if toks[pos].kind == IffOp {
      var right := ImplExpr(toks, pos + 1).value;
      ImplExprStops(toks, pos + 1);
      IffLoopStops(toks, Iff(left, right.value), right.pos);
    }
  }

  /** A whole expression ends on a token that continues none of the operator levels. */
  lemma {:induction false} ExprStops(toks: seq<Token>, pos: nat)
    requires Terminated(toks) && pos < |toks| && ParseExpr(toks, pos).Ok?
    ensures Stopper(toks[ParseExpr(toks, pos).value.pos].kind)
  {
    var left := ImplExpr(toks, pos).value;
    ImplExprStops(toks, pos);
    IffLoopStops(toks, left.value, left.pos);
  }

  // ------------------------------------------------- variables nest to the right

  /**
   * A variable directly followed by an arrow: whatever the rest of the
   * expression parses to becomes the arrow's right operand, and an error in
   * the rest is the error of the whole.
   */
  lemma {:induction false} ArrowCaptures(toks: seq<Token>, pos: nat)
    requires Terminated(toks) && pos + 1 < |toks| && toks[pos].kind == Ident && Arrow(toks[pos + 1].kind)
    ensures pos + 2 < |toks|
    ensures ParseExpr(toks, pos + 2).Err? ==> ParseExpr(toks, pos) == ParseExpr(toks, pos + 2)
    ensures ParseExpr(toks, pos + 2).Ok? ==>
      ParseExpr(toks, pos) == Ok(Parsed(ArrowNode(toks[pos + 1].kind, VarRef(toks[pos].value), ParseExpr(toks, pos + 2).value.value),
                                        ParseExpr(toks, pos + 2).value.pos))
  {
    assert pos + 1 != |toks| - 1;
    var rest := ParseExpr(toks, pos + 2);
    if rest.Ok? {
      var e := ArrowNode(toks[pos + 1].kind, VarRef(toks[pos].value), rest.value.value);
      ExprStops(toks, pos + 2);
      StepCapture(toks, pos, e, rest.value.pos);
      StepAtom(toks, pos, e, rest.value.pos);
      LiftAll(toks, pos, e, rest.value.pos);
    } else {
      CaptureFails(toks, pos);
    }
  }

  lemma {:induction false} CaptureFails(toks: seq<Token>, pos: nat)
    requires Terminated(toks) && pos + 2 < |toks| && toks[pos].kind == Ident && Arrow(toks[pos + 1].kind)
    requires ParseExpr(toks, pos + 2).Err?
    ensures ParseExpr(toks, pos) == ParseExpr(toks, pos + 2)
  {
    var err := ParseExpr(toks, pos + 2);
    assert Atom(toks, pos) == err;
    assert NotExpr(toks, pos) == err;
    assert AndExpr(toks, pos) == err;
    assert OrExpr(toks, pos) == err;
    assert ImplExpr(toks, pos) == err;
    assert IffExpr(toks, pos) == err;
  }

  /** Variables `x0 op0 x1 op1 ... xn` with arrows between them, followed by a stopper. */
  predicate VarChainAt(toks: seq<Token>, pos: nat, names: seq<string>, ops: seq<TokenKind>)
    decreases |ops|
  {
    |names| == |ops| + 1 && IdentAt(toks, pos, names[0]) &&
    if |ops| == 0 then pos + 1 < |toks| && Stopper(toks[pos + 1].kind)
    else KindAt(toks, pos + 1, ops[0]) && Arrow(ops[0]) && VarChainAt(toks, pos + 2, names[1..], ops[1..])
  }

  /** `x0 op0 (x1 op1 (... xn))`. */
  function RightNest(names: seq<string>, ops: seq<TokenKind>): Expr
    requires |names| == |ops| + 1 && forall i :: 0 <= i < |ops| ==> Arrow(ops[i])
    decreases |ops|
  {
    if |ops| == 0 then VarRef(names[0])
    else ArrowNode(ops[0], VarRef(names[0]), RightNest(names[1..], ops[1..]))
  }

  lemma {:induction false} VarChainArrows(toks: seq<Token>, pos: nat, names: seq<string>, ops: seq<TokenKind>)
    requires VarChainAt(toks, pos, names, ops)
    ensures forall i :: 0 <= i < |ops| ==> Arrow(ops[i])
    decreases |ops|
  {
    if |ops| > 0 {
      VarChainArrows(toks, pos + 2, names[1..], ops[1..]);
      assert forall i :: 1 <= i < |ops| ==> ops[i] == ops[1..][i - 1];
    }
  }

  /** A chain of bare variables nests to the right, whatever mix of arrows joins them. */
  lemma {:induction false} VarChainNestsRight(toks: seq<Token>, pos: nat, names: seq<string>, ops: seq<TokenKind>)
    requires Terminated(toks) && VarChainAt(toks, pos, names, ops)
    ensures forall i :: 0 <= i < |ops| ==> Arrow(ops[i])
    ensures ParseExpr(toks, pos) == Ok(Parsed(RightNest(names, ops), pos + 2 * |ops| + 1))
    decreases |ops|
  {
    VarChainArrows(toks, pos, names, ops);
    if |ops| == 0 {
      StepAtom(toks, pos, VarRef(names[0]), pos + 1);
      LiftAll(toks, pos, VarRef(names[0]), pos + 1);
    } else {
      VarChainNestsRight(toks, pos + 2, names[1..], ops[1..]);
      ArrowCaptures(toks, pos);
    }
  }

  // ---------------------------------------- parenthesised operands fold left

  /** `( x )` reads as the variable, three tokens on. */
  lemma {:induction false} ParenVar(toks: seq<Token>, p: nat, x: string)
    requires Terminated(toks) && KindAt(toks, p, LParen) && IdentAt(toks, p + 1, x) && KindAt(toks, p + 2, RParen)
    ensures NotExpr(toks, p) == Ok(Parsed(VarRef(x), p + 3))
  {
    StepAtom(toks, p + 1, VarRef(x), p + 2);
    LiftAll(toks, p + 1, VarRef(x), p + 2);
    StepParen(toks, p, VarRef(x), p + 2);
    StepAtom(toks, p, VarRef(x), p + 3);
  }

  /** A bare variable before a stopper reads as itself. */
  lemma {:induction false} BareVar(toks: seq<Token>, p: nat, x: string)
    requires Terminated(toks) && IdentAt(toks, p, x) && p + 1 < |toks| && Stopper(toks[p + 1].kind)
    ensures NotExpr(toks, p) == Ok(Parsed(VarRef(x), p + 1))
  {
    StepAtom(toks, p, VarRef(x), p + 1);
  }

  /**
   * The loop's view of the rest of a parenthesised chain: `op (x0) op (x1)
   * ... op xn`, the last variable bare and followed by a stopper.
   */
  predicate ParenRestAt(toks: seq<Token>, p: nat, names: seq<string>, op: TokenKind)
    decreases |names|
  {
    |names| > 0 && KindAt(toks, p, op) &&
    if |names| == 1 then IdentAt(toks, p + 1, names[0]) && p + 2 < |toks| && Stopper(toks[p + 2].kind)
    else KindAt(toks, p + 1, LParen) && IdentAt(toks, p + 2, names[0]) && KindAt(toks, p + 3, RParen) &&
         ParenRestAt(toks, p + 4, names[1..], op)
  }

  /** `(x0) op (x1) op ... op xn`: every operand but the last in parentheses. */
  predicate ParenChainAt(toks: seq<Token>, pos: nat, names: seq<string>, op: TokenKind) {
    |names| >= 2 && KindAt(toks, pos, LParen) && IdentAt(toks, pos + 1, names[0]) && KindAt(toks, pos + 2, RParen) &&
    ParenRestAt(toks, pos + 3, names[1..], op)
  }

  /** `((left op x0) op x1) ... op xn`. */
  function LeftFold(left: Expr, names: seq<string>, op: TokenKind): Expr
    requires Arrow(op)
    decreases |names|
  {
    if |names| == 0 then left else LeftFold(ArrowNode(op, left, VarRef(names[0])), names[1..], op)
  }

  /** A variable operand of `->` before a token that ends the `or` level. */
  lemma {:induction false} ImplOperand(toks: seq<Token>, p: nat, x: string, q: nat)
    requires Terminated(toks) && p < |toks| && NotExpr(toks, p) == Ok(Parsed(VarRef(x), q))
    requires toks[q].kind != AndOp && toks[q].kind != OrOp
    ensures OrExpr(toks, p) == Ok(Parsed(VarRef(x), q))
  {
    LiftNot(toks, p, VarRef(x), q);
    LiftAnd(toks, p, VarRef(x), q);
  }

  /** A variable operand of `<->` before a token that ends the `->` level. */
  lemma {:induction false} IffOperand(toks: seq<Token>, p: nat, x: string, q: nat)
    requires Terminated(toks) && p < |toks| && NotExpr(toks, p) == Ok(Parsed(VarRef(x), q))
    requires toks[q].kind != AndOp && toks[q].kind != OrOp && toks[q].kind != ImplOp
    ensures ImplExpr(toks, p) == Ok(Parsed(VarRef(x), q))
  {
    ImplOperand(toks, p, x, q);
    LiftOr(toks, p, VarRef(x), q);
  }

  lemma {:induction false} ImplRestFolds(toks: seq<Token>, left: Expr, p: nat, names: seq<string>)
    requires Terminated(toks) && Shaped(left) && ParenRestAt(toks, p, names, ImplOp)
    ensures ImplLoop(toks, left, p) == Ok(Parsed(LeftFold(left, names, ImplOp), p + 4 * |names| - 2))
    decreases |names|
  {
    if |names| == 1 {
      ImplRestLast(toks, left, p, names[0]);
      assert LeftFold(left, names, ImplOp) == Impl(left, VarRef(names[0]));
    } else {
      ImplRestShape(toks, left, p, names);
      ImplRestFolds(toks, Impl(left, VarRef(names[0])), p + 4, names[1..]);
      ImplRestStep(toks, left, p, names);
    }
  }

  lemma {:induction false} ImplRestShape(toks: seq<Token>, left: Expr, p: nat, names: seq<string>)
    requires Shaped(left) && |names| > 1 && ParenRestAt(toks, p, names, ImplOp)
    ensures Shaped(Impl(left, VarRef(names[0]))) && ParenRestAt(toks, p + 4, names[1..], ImplOp)
  {
  }

  /** One turn of the loop over a parenthesised operand, given the rest of the fold. */
  lemma {:induction false} ImplRestStep(toks: seq<Token>, left: Expr, p: nat, names: seq<string>)
    requires Terminated(toks) && Shaped(left) && |names| > 1 && ParenRestAt(toks, p, names, ImplOp)
    requires p + 4 < |toks| && ImplLoop(toks, Impl(left, VarRef(names[0])), p + 4)
               == Ok(Parsed(LeftFold(Impl(left, VarRef(names[0])), names[1..], ImplOp), p + 4 + 4 * |names[1..]| - 2))
    ensures ImplLoop(toks, left, p) == Ok(Parsed(LeftFold(left, names, ImplOp), p + 4 * |names| - 2))
  {
    ImplRestNext(toks, left, p, names);
  }

  lemma {:induction false} ImplRestLast(toks: seq<Token>, left: Expr, p: nat, x: string)
    requires Terminated(toks) && Shaped(left) && KindAt(toks, p, ImplOp)
    requires IdentAt(toks, p + 1, x) && p + 2 < |toks| && Stopper(toks[p + 2].kind)
    ensures ImplLoop(toks, left, p) == Ok(Parsed(Impl(left, VarRef(x)), p + 2))
  {
    BareVar(toks, p + 1, x);
    ImplOperand(toks, p + 1, x, p + 2);
    StepImplLoop(toks, left, p, VarRef(x), p + 2);
    StepImplStop(toks, Impl(left, VarRef(x)), p + 2);
  }

  lemma {:induction false} ImplRestNext(toks: seq<Token>, left: Expr, p: nat, names: seq<string>)
    requires Terminated(toks) && Shaped(left) && |names| > 1 && ParenRestAt(toks, p, names, ImplOp)
    ensures p + 4 < |toks| && ImplLoop(toks, left, p) == ImplLoop(toks, Impl(left, VarRef(names[0])), p + 4)
  {
    ParenRestEnd(toks, p + 4, names[1..], ImplOp);
    ParenVar(toks, p + 1, names[0]);
    ImplOperand(toks, p + 1, names[0], p + 4);
    StepImplLoop(toks, left, p, VarRef(names[0]), p + 4);
  }

  lemma {:induction false} IffRestFolds(toks: seq<Token>, left: Expr, p: nat, names: seq<string>)
    requires Terminated(toks) && Shaped(left) && ParenRestAt(toks, p, names, IffOp)
    ensures IffLoop(toks, left, p) == Ok(Parsed(LeftFold(left, names, IffOp), p + 4 * |names| - 2))
    decreases |names|
  {
    if |names| == 1 {
      IffRestLast(toks, left, p, names[0]);
      assert LeftFold(left, names, IffOp) == Iff(left, VarRef(names[0]));
    } else {
      IffRestShape(toks, left, p, names);
      IffRestFolds(toks, Iff(left, VarRef(names[0])), p + 4, names[1..]);
      IffRestStep(toks, left, p, names);
    }
  }

  lemma {:induction false} IffRestShape(toks: seq<Token>, left: Expr, p: nat, names: seq<string>)
    requires Shaped(left) && |names| > 1 && ParenRestAt(toks, p, names, IffOp)
    ensures Shaped(Iff(left, VarRef(names[0]))) && ParenRestAt(toks, p + 4, names[1..], IffOp)
  {
  }

  /** One turn of the loop over a parenthesised operand, given the rest of the fold. */
  lemma {:induction false} IffRestStep(toks: seq<Token>, left: Expr, p: nat, names: seq<string>)
    requires Terminated(toks) && Shaped(left) && |names| > 1 && ParenRestAt(toks, p, names, IffOp)
    requires p + 4 < |toks| && IffLoop(toks, Iff(left, VarRef(names[0])), p + 4)
               == Ok(Parsed(LeftFold(Iff(left, VarRef(names[0])), names[1..], IffOp), p + 4 + 4 * |names[1..]| - 2))
    ensures IffLoop(toks, left, p) == Ok(Parsed(LeftFold(left, names, IffOp), p + 4 * |names| - 2))
  {
    IffRestNext(toks, left, p, names);
  }

  lemma {:induction false} IffRestLast(toks: seq<Token>, left: Expr, p: nat, x: string)
    requires Terminated(toks) && Shaped(left) && KindAt(toks, p, IffOp)
    requires IdentAt(toks, p + 1, x) && p + 2 < |toks| && Stopper(toks[p + 2].kind)
    ensures IffLoop(toks, left, p) == Ok(Parsed(Iff(left, VarRef(x)), p + 2))
  {
    BareVar(toks, p + 1, x);
    IffOperand(toks, p + 1, x, p + 2);
    StepIffLoop(toks, left, p, VarRef(x), p + 2);
    StepIffStop(toks, Iff(left, VarRef(x)), p + 2);
  }

  lemma {:induction false} IffRestNext(toks: seq<Token>, left: Expr, p: nat, names: seq<string>)
    requires Terminated(toks) && Shaped(left) && |names| > 1 && ParenRestAt(toks, p, names, IffOp)
    ensures p + 4 < |toks| && IffLoop(toks, left, p) == IffLoop(toks, Iff(left, VarRef(names[0])), p + 4)
  {
    ParenRestEnd(toks, p + 4, names[1..], IffOp);
    ParenVar(toks, p + 1, names[0]);
    IffOperand(toks, p + 1, names[0], p + 4);
    StepIffLoop(toks, left, p, VarRef(names[0]), p + 4);
  }

  /** With every operand but the last in parentheses, a `->` chain folds to the left. */
  lemma {:induction false} ParenImplFoldsLeft(toks: seq<Token>, pos: nat, names: seq<string>)
    requires Terminated(toks) && ParenChainAt(toks, pos, names, ImplOp)
    ensures ParseExpr(toks, pos) == Ok(Parsed(LeftFold(VarRef(names[0]), names[1..], ImplOp), pos + 4 * |names| - 3))
  {
    var q := pos + 4 * |names| - 3;
    assert pos + 3 + 4 * |names[1..]| - 2 == q;
    ParenFirstImpl(toks, pos, names);
    ImplRestFolds(toks, VarRef(names[0]), pos + 3, names[1..]);
    ParenRestEnd(toks, pos + 3, names[1..], ImplOp);
    LiftImpl(toks, pos, LeftFold(VarRef(names[0]), names[1..], ImplOp), q);
  }

  lemma {:induction false} ParenFirstImpl(toks: seq<Token>, pos: nat, names: seq<string>)
    requires Terminated(toks) && ParenChainAt(toks, pos, names, ImplOp)
    ensures pos + 3 < |toks| && ImplExpr(toks, pos) == ImplLoop(toks, VarRef(names[0]), pos + 3)
  {
    ParenVar(toks, pos, names[0]);
    ImplOperand(toks, pos, names[0], pos + 3);
    StepImplExpr(toks, pos, VarRef(names[0]), pos + 3);
  }

  /** With every operand but the last in parentheses, a `<->` chain folds to the left. */
  lemma {:induction false} ParenIffFoldsLeft(toks: seq<Token>, pos: nat, names: seq<string>)
    requires Terminated(toks) && ParenChainAt(toks, pos, names, IffOp)
    ensures ParseExpr(toks, pos) == Ok(Parsed(LeftFold(VarRef(names[0]), names[1..], IffOp), pos + 4 * |names| - 3))
  {
    assert pos + 3 + 4 * |names[1..]| - 2 == pos + 4 * |names| - 3;
    ParenFirstIff(toks, pos, names);
    IffRestFolds(toks, VarRef(names[0]), pos + 3, names[1..]);
  }

  lemma {:induction false} ParenFirstIff(toks: seq<Token>, pos: nat, names: seq<string>)
    requires Terminated(toks) && ParenChainAt(toks, pos, names, IffOp)
    ensures pos + 3 < |toks| && ParseExpr(toks, pos) == IffLoop(toks, VarRef(names[0]), pos + 3)
  {
    ParenVar(toks, pos, names[0]);
    IffOperand(toks, pos, names[0], pos + 3);
    StepIffExpr(toks, pos, VarRef(names[0]), pos + 3);
  }

  /** The token after a parenthesised chain's rest is its stopper. */
  lemma {:induction false} ParenRestEnd(toks: seq<Token>, p: nat, names: seq<string>, op: TokenKind)
    requires ParenRestAt(toks, p, names, op)
    ensures p + 4 * |names| - 2 < |toks| && Stopper(toks[p + 4 * |names| - 2].kind)
    decreases |names|
  {
    if |names| > 1 {
      ParenRestEnd(toks, p + 4, names[1..], op);
    }
  }

  // ---------------------------------------------------------------- examples

  const A := Tok(Ident, "a")
  const B := Tok(Ident, "b")
  const C := Tok(Ident, "c")
  const End := Tok(EndOfInput, "")

  /** `a <-> b <-> c` is `a <-> (b <-> c)`. */
  lemma IffChainNestsRight()
    ensures ParseExpr([A, IffTok, B, IffTok, C, End], 0)
         == Ok(Parsed(Iff(VarRef("a"), Iff(VarRef("b"), VarRef("c"))), 5))
  {
    var toks := [A, IffTok, B, IffTok, C, End];
    assert VarChainAt(toks, 4, ["c"], []);
    assert VarChainAt(toks, 2, ["b", "c"], [IffOp]);
    assert VarChainAt(toks, 0, ["a", "b", "c"], [IffOp, IffOp]);
    VarChainNestsRight(toks, 0, ["a", "b", "c"], [IffOp, IffOp]);
  }

  /** `(a) <-> (b) <-> c` is `(a <-> b) <-> c`. */
  lemma ParenIffChainFoldsLeft()
    ensures ParseExpr([OpenTok, A, CloseTok, IffTok, OpenTok, B, CloseTok, IffTok, C, End], 0)
         == Ok(Parsed(Iff(Iff(VarRef("a"), VarRef("b")), VarRef("c")), 9))
  {
    var toks := [OpenTok, A, CloseTok, IffTok, OpenTok, B, CloseTok, IffTok, C, End];
    assert ParenRestAt(toks, 7, ["c"], IffOp);
    assert ParenRestAt(toks, 3, ["b", "c"], IffOp);
    ParenIffFoldsLeft(toks, 0, ["a", "b", "c"]);
  }
}

=== FILE: cnf.dfy ===
/**
 * Clauses in DIMACS form and what it means to satisfy them.  A literal is
 * a nonzero integer: `v` asserts variable `v`, `-v` its negation.
 */
module Cnf {

  type Clause = seq<int>

  /** Truth values for variable ids (positive integers). */
  type Assignment = int -> bool

  function Abs(l: int): nat {
    if l < 0 then -l else l
  }

  /** The truth value of literal `l`. */
  function Val(a: Assignment, l: int): bool {
    if l > 0 then a(l) else !a(-l)
  }

  /** Some literal of the clause is true (the empty clause is false). */
  predicate SatClause(a: Assignment, c: Clause) {
    exists i :: 0 <= i < |c| && Val(a, c[i])
  }

  /** Every clause is satisfied. */
  predicate Sat(a: Assignment, cs: seq<Clause>) {
    forall i :: 0 <= i < |cs| ==> SatClause(a, cs[i])
  }

  ghost predicate Satisfiable(cs: seq<Clause>) {
    exists a :: Sat(a, cs)
  }

  /** Every literal of every clause is nonzero and names a variable below `n`. */
  predicate LitsBelow(cs: seq<Clause>, n: int) {
    forall i, j :: 0 <= i < |cs| && 0 <= j < |cs[i]| ==> 0 < Abs(cs[i][j]) < n
  }

  /** `b` agrees with `a` on every variable below `n`. */
  predicate Below(a: Assignment, b: Assignment, n: int) {
    forall x :: 0 < x < n ==> b(x) == a(x)
  }

  /** `a` changed at variable `v` only. */
  function Set(a: Assignment, v: int, value: bool): (b: Assignment)
    ensures b(v) == value
    ensures forall x :: x != v ==> b(x) == a(x)
  {
    x => if x == v then value else a(x)
  }

  // ---------------------------------------------------------------------
  // Clause-level facts

  lemma Clause1(a: Assignment, p: int)
    ensures SatClause(a, [p]) <==> Val(a, p)
  {
    if Val(a, p) {
      assert [p][0] == p;
    }
  }

  lemma Clause2(a: Assignment, p: int, q: int)
    ensures SatClause(a, [p, q]) <==> Val(a, p) || Val(a, q)
  {
    var c := [p, q];
    if Val(a, p) {
      assert c[0] == p;
    } else if Val(a, q) {
      assert c[1] == q;
    }
  }

  lemma Clause3(a: Assignment, p: int, q: int, r: int)
    ensures SatClause(a, [p, q, r]) <==> Val(a, p) || Val(a, q) || Val(a, r)
  {
    var c := [p, q, r];
    if Val(a, p) {
      assert c[0] == p;
    } else if Val(a, q) {
      assert c[1] == q;
    } else if Val(a, r) {
      assert c[2] == r;
    }
  }

  lemma ClauseConcat(a: Assignment, c: Clause, d: Clause)
    ensures SatClause(a, c + d) <==> SatClause(a, c) || SatClause(a, d)
  {
    if SatClause(a, c + d) {
      var i :| 0 <= i < |c + d| && Val(a, (c + d)[i]);
      if i >= |c| {
        assert d[i - |c|] == (c + d)[i];
      }
    }
    if SatClause(a, c) {
      var i :| 0 <= i < |c| && Val(a, c[i]);
      assert (c + d)[i] == c[i];
    } else if SatClause(a, d) {
      var i :| 0 <= i < |d| && Val(a, d[i]);
      assert (c + d)[|c| + i] == d[i];
    }
  }

  /** The literals negated one by one, in order. */
  function Negs(ls: seq<int>): (r: seq<int>)
    ensures |r| == |ls|
    ensures forall i :: 0 <= i < |ls| ==> r[i] == -ls[i]
  {
    seq(|ls|, i requires 0 <= i < |ls| => -ls[i])
  }

  predicate AllTrue(a: Assignment, ls: seq<int>) {
    forall i :: 0 <= i < |ls| ==> Val(a, ls[i])
  }

  lemma ValNeg(a: Assignment, l: int)
    requires l != 0
    ensures Val(a, -l) == !Val(a, l)
  {
  }

  /** A clause of negated literals holds exactly when some literal is false. */
  lemma NegsClause(a: Assignment, ls: seq<int>)
    requires forall i :: 0 <= i < |ls| ==> ls[i] != 0
    ensures SatClause(a, Negs(ls)) <==> !AllTrue(a, ls)
  {
    var n := Negs(ls);
    if !AllTrue(a, ls) {
      var i :| 0 <= i < |ls| && !Val(a, ls[i]);
      ValNeg(a, ls[i]);
      assert Val(a, n[i]);
    }
    if SatClause(a, n) {
      var i :| 0 <= i < |n| && Val(a, n[i]);
      ValNeg(a, ls[i]);
    }
  }

  // ---------------------------------------------------------------------
  // Clause-set facts

  lemma SatConcat(a: Assignment, x: seq<Clause>, y: seq<Clause>)
    ensures Sat(a, x + y) <==> Sat(a, x) && Sat(a, y)
  {
    if Sat(a, x + y) {
      forall i | 0 <= i < |x| ensures SatClause(a, x[i]) {
        assert (x + y)[i] == x[i];
      }
      forall i | 0 <= i < |y| ensures SatClause(a, y[i]) {
        assert (x + y)[|x| + i] == y[i];
      }
    }
    if Sat(a, x) && Sat(a, y) {
      forall i | 0 <= i < |x + y| ensures SatClause(a, (x + y)[i]) {
        if i < |x| {
          assert (x + y)[i] == x[i];
        } else {
          assert (x + y)[i] == y[i - |x|];
        }
      }
    }
  }

  lemma SatPrefix(a: Assignment, x: seq<Clause>, y: seq<Clause>)
    requires x <= y && Sat(a, y)
    ensures Sat(a, x)
  {
    forall i | 0 <= i < |x| ensures SatClause(a, x[i]) {
      assert x[i] == y[i];
    }
  }

  lemma Sat1(a: Assignment, c: Clause)
    ensures Sat(a, [c]) <==> SatClause(a, c)
  {
    assert [c][0] == c;
  }

  lemma Sat2(a: Assignment, c: Clause, d: Clause)
    ensures Sat(a, [c, d]) <==> SatClause(a, c) && SatClause(a, d)
  {
    var s := [c, d];
    assert s[0] == c && s[1] == d;
  }

  lemma Sat3(a: Assignment, c: Clause, d: Clause, e: Clause)
    ensures Sat(a, [c, d, e]) <==> SatClause(a, c) && SatClause(a, d) && SatClause(a, e)
  {
    var s := [c, d, e];
    assert s[0] == c && s[1] == d && s[2] == e;
  }

  lemma Sat4(a: Assignment, c: Clause, d: Clause, e: Clause, f: Clause)
    ensures Sat(a, [c, d, e, f]) <==>
            SatClause(a, c) && SatClause(a, d) && SatClause(a, e) && SatClause(a, f)
  {
    var s := [c, d, e, f];
    assert s[0] == c && s[1] == d && s[2] == e && s[3] == f;
  }

  /** Changing variables at or above `n` does not affect clauses over variables below `n`. */
  lemma SatFrame(a: Assignment, b: Assignment, cs: seq<Clause>, n: int)
    requires LitsBelow(cs, n) && Below(a, b, n)
    ensures Sat(a, cs) <==> Sat(b, cs)
  {
    forall i, j | 0 <= i < |cs| && 0 <= j < |cs[i]| ensures Val(a, cs[i][j]) == Val(b, cs[i][j]) {
      assert 0 < Abs(cs[i][j]) < n;
    }
    forall i | 0 <= i < |cs| ensures SatClause(a, cs[i]) <==> SatClause(b, cs[i]) {
      if SatClause(a, cs[i]) {
        var j :| 0 <= j < |cs[i]| && Val(a, cs[i][j]);
        assert Val(b, cs[i][j]);
      }
      if SatClause(b, cs[i]) {
        var j :| 0 <= j < |cs[i]| && Val(b, cs[i][j]);
        assert Val(a, cs[i][j]);
      }
    }
  }

  lemma ValFrame(a: Assignment, b: Assignment, l: int, n: int)
    requires 0 < Abs(l) < n && Below(a, b, n)
    ensures Val(a, l) == Val(b, l)
  {
  }

  lemma BelowTrans(a: Assignment, b: Assignment, c: Assignment, n: int, m: int)
    requires Below(a, b, n) && Below(b, c, m) && n <= m
    ensures Below(a, c, n)
  {
  }

  // ---------------------------------------------------------------------
  // Counting true literals

  /** How many entries of `ls` are true under `a` (repeats count each time). */
  function CountTrue(a: Assignment, ls: seq<int>): (n: nat)
    ensures n <= |ls|
  {
    if |ls| == 0 then 0 else (if Val(a, ls[0]) then 1 else 0) + CountTrue(a, ls[1..])
  }

  lemma {:induction false} CountAll(a: Assignment, ls: seq<int>)
    ensures CountTrue(a, ls) == |ls| <==> AllTrue(a, ls)
    ensures CountTrue(a, ls) == 0 <==> forall i :: 0 <= i < |ls| ==> !Val(a, ls[i])
    decreases |ls|
  {
    if |ls| > 0 {
      CountAll(a, ls[1..]);
      assert forall i :: 1 <= i < |ls| ==> ls[i] == ls[1..][i - 1];
    }
  }

  lemma {:induction false} CountAppend(a: Assignment, x: seq<int>, y: seq<int>)
    ensures CountTrue(a, x + y) == CountTrue(a, x) + CountTrue(a, y)
    decreases |x|
  {
    if |x| == 0 {
      assert x + y == y;
    } else {
      assert (x + y)[0] == x[0];
      assert (x + y)[1..] == x[1..] + y;
      CountAppend(a, x[1..], y);
    }
  }

  /** Counting the negated literals counts the false ones. */
  lemma {:induction false} CountNegs(a: Assignment, ls: seq<int>, ns: seq<int>)
    requires |ns| == |ls|
    requires forall i :: 0 <= i < |ls| ==> Val(a, ns[i]) == !Val(a, ls[i])
    ensures CountTrue(a, ns) == |ls| - CountTrue(a, ls)
    decreases |ls|
  {
    if |ls| > 0 {
      assert forall i :: 0 <= i < |ls| - 1 ==> ls[1..][i] == ls[i + 1] && ns[1..][i] == ns[i + 1];
      CountNegs(a, ls[1..], ns[1..]);
    }
  }

  lemma {:induction false} CountFrame(a: Assignment, b: Assignment, ls: seq<int>)
    requires forall i :: 0 <= i < |ls| ==> Val(a, ls[i]) == Val(b, ls[i])
    ensures CountTrue(a, ls) == CountTrue(b, ls)
    decreases |ls|
  {
    if |ls| > 0 {
      assert forall i :: 0 <= i < |ls| - 1 ==> ls[1..][i] == ls[i + 1];
      CountFrame(a, b, ls[1..]);
    }
  }
}

=== FILE: compiler.dfy ===
/**
 * `CNFCompiler` of sat_modeler.py: one pass over the statements in
 * program order, threading the variable map, the next free id and the
 * clause list through pure functions.  User variables and auxiliary
 * (Tseitin) variables share one counter.  Errors the Python code raises
 * are returned as `CompileError` values.
 */
module Compiler {
  import opened Outcomes
  import opened Text
  import opened Syntax
  import opened Cnf
  import opened Gates
  import opened Cardinality
  import Dimacs

  /** `_var_map`, `_next_id` and `_clauses`. */
  datatype CState = CState(vars: map<string, int>, next: int, clauses: seq<Clause>)

  /** A fresh compiler. */
  const Init := CState(map[], 1, [])

  datatype CompileError =
    | AlreadyDeclared(name: string, line: int)  // ValueError from `compile`
    | Undeclared(name: string)                  // ValueError from `_encode` and the cardinality encoders
    | NegativeSubsetSize                        // ValueError from `combinations(lits, k + 1)` with k + 1 < 0
    | RegisterIndex                             // IndexError from `R[0][0]` in the sequential counter
    | ReservedName                              // a declared name with the helpers' `__` prefix (not raised by the code)
    | CardinalityUnderGate                      // a cardinality constraint below a connective (not raised by the code)

  /** A literal and the state after producing it. */
  datatype Step = Step(lit: int, st: CState)

  /** Literals of a list of operands and the state after producing them. */
  datatype Lits = Lits(lits: seq<int>, st: CState)

  // ---------------------------------------------------------------------
  // Allocation

  /** `var_id`: the name's id, allocating the next one on first use. */
  function VarId(st: CState, name: string): (r: Step)
    ensures name in r.st.vars && r.st.vars[name] == r.lit
    ensures r.st.clauses == st.clauses
    ensures name in st.vars ==> r.st == st
    ensures name !in st.vars ==> r.lit == st.next && r.st.next == st.next + 1
    ensures forall x :: x in st.vars ==> x in r.st.vars && r.st.vars[x] == st.vars[x]
  {
    if name in st.vars then Step(st.vars[name], st)
    else Step(st.next, CState(st.vars[name := st.next], st.next + 1, st.clauses))
  }

  /** `_aux`: a fresh auxiliary id, not entered in the variable map. */
  function Aux(st: CState): (r: Step)
    ensures r.lit == st.next && r.st.next == st.next + 1
    ensures r.st.vars == st.vars && r.st.clauses == st.clauses
  {
    Step(st.next, st.(next := st.next + 1))
  }

  function AddClauses(st: CState, cs: seq<Clause>): CState {
    st.(clauses := st.clauses + cs)
  }

  /** The ids of the listed names, each of which must be declared. */
  function LookupAll(st: CState, names: seq<string>, declared: set<string>): (r: Result<Lits, CompileError>)
    ensures r.Ok? ==> |r.value.lits| == |names|
    ensures r.Err? ==> exists i :: 0 <= i < |names| && r.error == Undeclared(names[i]) && names[i] !in declared
    ensures r.Ok? <==> forall i :: 0 <= i < |names| ==> names[i] in declared
    decreases |names|
  {
    if |names| == 0 then Ok(Lits([], st))
    else if names[0] !in declared then Err(Undeclared(names[0]))
    else
      var s := VarId(st, names[0]);
      var rest :- LookupAll(s.st, names[1..], declared);
      assert forall i :: 1 <= i < |names| ==> names[i] == names[1..][i - 1];
      Ok(Lits([s.lit] + rest.lits, rest.st))
  }

  // ---------------------------------------------------------------------
  // Gates

  datatype GateKind = GAnd | GOr | GImpl | GIff | GXor | GBoth

  predicate Arity(g: GateKind, ops: seq<int>) {
    g.GAnd? || g.GOr? || |ops| == 2
  }

  function GateClauses(g: GateKind, x: int, ops: seq<int>): seq<Clause>
    requires Arity(g, ops)
  {
    match g
    case GAnd => AndClauses(x, ops)
    case GOr => OrClauses(x, ops)
    case GImpl => ImplClauses(x, ops[0], ops[1])
    case GIff => IffClauses(x, ops[0], ops[1])
    case GXor => XorClauses(x, ops[0], ops[1])
    case GBoth => BothClauses(x, ops[0], ops[1])
  }

  /** A fresh aux for the gate, then the gate's clauses in emission order. */
  function Gate(st: CState, g: GateKind, ops: seq<int>): Step
    requires Arity(g, ops)
  {
    var x := Aux(st);
    Step(x.lit, AddClauses(x.st, GateClauses(g, x.lit, ops)))
  }

  // ---------------------------------------------------------------------
  // Expressions

  /** `true`: a fresh variable pinned true by a unit clause. */
  function TrueLit(st: CState): Step {
    var v := Aux(st);
    Step(v.lit, AddClauses(v.st, [[v.lit]]))
  }

  /**
   * `false`: a fresh variable pinned false by the unit clause `[-v]`,
   * represented by `v` itself (see `FalseLitAsWritten` for the code's `-v`).
   */
  function FalseLit(st: CState): Step {
    var v := Aux(st);
    Step(v.lit, AddClauses(v.st, [[-v.lit]]))
  }

  /** `false` exactly as sat_modeler.py encodes it: it returns `-v` after pinning `v` false. */
  function FalseLitAsWritten(st: CState): Step {
    var v := Aux(st);
    Step(-v.lit, AddClauses(v.st, [[-v.lit]]))
  }

  /** `_encode`: the literal representing `e`, after emitting its clauses. */
  function Encode(st: CState, e: Expr, declared: set<string>): Result<Step, CompileError>
    decreases e
  {
    match e
    case LitTrue => Ok(TrueLit(st))
    case LitFalse => Ok(FalseLit(st))
    case VarRef(x) => if x !in declared then Err(Undeclared(x)) else Ok(VarId(st, x))
    case Not(c) =>
      var r :- Encode(st, c, declared);
      Ok(Step(-r.lit, r.st))
    case And(cs) =>
      var r :- EncodeAll(st, cs, declared);
      Ok(Gate(r.st, GAnd, r.lits))
    case Or(cs) =>
      var r :- EncodeAll(st, cs, declared);
      Ok(Gate(r.st, GOr, r.lits))
    case Impl(p, q) => EncodeBinary(st, GImpl, e, p, q, declared)
    case Iff(p, q) => EncodeBinary(st, GIff, e, p, q, declared)
    case Xor(p, q) => EncodeBinary(st, GXor, e, p, q, declared)
    case AtMost(k, vs) => AtMostNames(st, k, vs, declared)
    case AtLeast(k, vs) => AtLeastNames(st, k, vs, declared)
    case Exactly(k, vs) => ExactlyNames(st, k, vs, declared)
  }

  /** Left operand, right operand, then the gate. */
  function EncodeBinary(st: CState, g: GateKind, e: Expr, p: Expr, q: Expr, declared: set<string>)
    : Result<Step, CompileError>
    requires (g == GImpl && e == Impl(p, q)) || (g == GIff && e == Iff(p, q)) || (g == GXor && e == Xor(p, q))
    decreases e, 0
  {
    var a :- Encode(st, p, declared);
    var b :- Encode(a.st, q, declared);
    Ok(Gate(b.st, g, [a.lit, b.lit]))
  }

  /** The children of an `and`/`or`, left to right. */
  function EncodeAll(st: CState, cs: seq<Expr>, declared: set<string>): (r: Result<Lits, CompileError>)
    ensures r.Ok? ==> |r.value.lits| == |cs|
    decreases cs
  {
    if |cs| == 0 then Ok(Lits([], st))
    else
      var h :- Encode(st, cs[0], declared);
      var t :- EncodeAll(h.st, cs[1..], declared);
      Ok(Lits([h.lit] + t.lits, t.st))
  }

  // ---------------------------------------------------------------------
  // Cardinality

  /** `_encode_atmost`. */
  function AtMostNames(st: CState, k: int, names: seq<string>, declared: set<string>): Result<Step, CompileError> {
    var r :- LookupAll(st, names, declared);
    AtMostLits(r.st, k, r.lits)
  }

  /** `_encode_atmost` after the names are resolved: trivial, all-false, pairwise or counter. */
  function AtMostLits(st: CState, k: int, ls: seq<int>): Result<Step, CompileError> {
    if k >= |ls| then Ok(TrueLit(st))
    else if k == 0 then
      var x := Aux(st);
      Ok(Step(x.lit, AddClauses(x.st, NoneClauses(x.lit, ls))))
    else if |ls| <= 10 || k == 1 then Pairwise(st, k, ls)
    else SequentialCounter(st, k, ls)
  }

  /** `_atmost_pairwise`. */
  function Pairwise(st: CState, k: int, ls: seq<int>): Result<Step, CompileError> {
    if k + 1 < 0 then Err(NegativeSubsetSize)
    else
      var x := Aux(st);
      Ok(Step(x.lit, AddClauses(x.st, PairwiseClauses(x.lit, ls, k + 1))))
  }

  /**
   * `_atmost_sequential_counter`: `|ls|*k` registers allocated row by row,
   * their clauses, then an aux pinned true by a unit clause.
   */
  function SequentialCounter(st: CState, k: int, ls: seq<int>): Result<Step, CompileError> {
    if |ls| == 0 || k <= 0 then Err(RegisterIndex)
    else
      var base := st.next;
      var x := base + |ls| * k;
      Ok(Step(x, CState(st.vars, x + 1, st.clauses + CounterClauses(ls, base, k) + [[x]])))
  }

  /** The helper name `atleast` uses for the negation of `v`. */
  function NegName(v: string): string {
    "__neg_" + v
  }

  function NegNames(names: seq<string>): (r: seq<string>)
    ensures |r| == |names|
    ensures forall i :: 0 <= i < |names| ==> r[i] == NegName(names[i])
  {
    seq(|names|, i requires 0 <= i < |names| => NegName(names[i]))
  }

  /**
   * One name of `atleast`'s helper loop: unless `__neg_<v>` is already in the
   * map, a fresh id entered under it, then the clauses `neg or v` and
   * `not neg or not v`.
   */
  function NegHelper(st: CState, v: string): CState {
    var n := NegName(v);
    if n in st.vars then st
    else
      var neg := Aux(st);
      var orig := VarId(neg.st.(vars := neg.st.vars[n := neg.lit]), v);
      AddClauses(orig.st, [[neg.lit, orig.lit], [-neg.lit, -orig.lit]])
  }

  function NegHelpers(st: CState, names: seq<string>): CState
    decreases |names|
  {
    if |names| == 0 then st else NegHelpers(NegHelper(st, names[0]), names[1..])
  }

  /** `_encode_atleast`. */
  function AtLeastNames(st: CState, k: int, names: seq<string>, declared: set<string>): Result<Step, CompileError> {
    var r :- LookupAll(st, names, declared);
    if k <= 0 then Ok(TrueLit(r.st))
    else if k == |r.lits| then Ok(Gate(r.st, GAnd, r.lits))
    else
      var s := NegHelpers(r.st, names);
      var negs := NegNames(names);
      AtMostNames(s, |names| - k, negs, declared + set i | 0 <= i < |negs| :: negs[i])
  }

  /** `exactly`: the `atmost` literal, the `atleast` literal, then a gate for their conjunction. */
  function ExactlyNames(st: CState, k: int, names: seq<string>, declared: set<string>): Result<Step, CompileError> {
    var m :- AtMostNames(st, k, names, declared);
    var l :- AtLeastNames(m.st, k, names, declared);
    Ok(Gate(l.st, GBoth, [m.lit, l.lit]))
  }

  // ---------------------------------------------------------------------
  // Statements

  /** A `var` declaration: each name must be new; its id is allocated at once. */
  function Declare(st: CState, declared: set<string>, names: seq<string>, line: int)
    : Result<(CState, set<string>), CompileError>
    decreases |names|
  {
    if |names| == 0 then Ok((st, declared))
    else if names[0] in declared then Err(AlreadyDeclared(names[0], line))
    else Declare(VarId(st, names[0]).st, declared + {names[0]}, names[1..], line)
  }

  /** The statement loop of `compile`: each constraint's root literal becomes a unit clause. */
  function CompileFrom(st: CState, declared: set<string>, ss: seq<Stmt>): Result<CState, CompileError>
    decreases |ss|
  {
    if |ss| == 0 then Ok(st)
    else
      match ss[0]
      case VarDecl(names, line) =>
        var d :- Declare(st, declared, names, line);
        CompileFrom(d.0, d.1, ss[1..])
      case Constraint(e, _) =>
        var r :- Encode(st, e, declared);
        CompileFrom(AddClauses(r.st, [[r.lit]]), declared, ss[1..])
      case SolveSatisfy(_) => CompileFrom(st, declared, ss[1..])
  }

  datatype Compiled = Compiled(dimacs: string, varMap: map<string, int>)

  /**
   * `compile` with `false` represented by its pinned variable: the DIMACS
   * text and the variable map of a fresh compiler run.
   */
  function Compile(ss: seq<Stmt>): Result<Compiled, CompileError> {
    var st :- CompileFrom(Init, {}, ss);
    Ok(Compiled(Dimacs.Write(st.next - 1, st.clauses), st.vars))
  }

  // ---------------------------------------------------------------------
  // The compiler as written

  /** `_encode` as sat_modeler.py has it: `false` yields `FalseLitAsWritten`. */
  function EncodeAsWritten(st: CState, e: Expr, declared: set<string>): Result<Step, CompileError>
    decreases e
  {
    match e
    case LitTrue => Ok(TrueLit(st))
    case LitFalse => Ok(FalseLitAsWritten(st))
    case VarRef(x) => if x !in declared then Err(Undeclared(x)) else Ok(VarId(st, x))
    case Not(c) =>
      var r :- EncodeAsWritten(st, c, declared);
      Ok(Step(-r.lit, r.st))
    case And(cs) =>
      var r :- EncodeAllAsWritten(st, cs, declared);
      Ok(Gate(r.st, GAnd, r.lits))
    case Or(cs) =>
      var r :- EncodeAllAsWritten(st, cs, declared);
      Ok(Gate(r.st, GOr, r.lits))
    case Impl(p, q) => EncodeBinaryAsWritten(st, GImpl, e, p, q, declared)
    case Iff(p, q) => EncodeBinaryAsWritten(st, GIff, e, p, q, declared)
    case Xor(p, q) => EncodeBinaryAsWritten(st, GXor, e, p, q, declared)
    case AtMost(k, vs) => AtMostNames(st, k, vs, declared)
    case AtLeast(k, vs) => AtLeastNames(st, k, vs, declared)
    case Exactly(k, vs) => ExactlyNames(st, k, vs, declared)
  }

  function EncodeBinaryAsWritten(st: CState, g: GateKind, e: Expr, p: Expr, q: Expr, declared: set<string>)
    : Result<Step, CompileError>
    requires (g == GImpl && e == Impl(p, q)) || (g == GIff && e == Iff(p, q)) || (g == GXor && e == Xor(p, q))
    decreases e, 0
  {
    var a :- EncodeAsWritten(st, p, declared);
    var b :- EncodeAsWritten(a.st, q, declared);
    Ok(Gate(b.st, g, [a.lit, b.lit]))
  }

  function EncodeAllAsWritten(st: CState, cs: seq<Expr>, declared: set<string>): (r: Result<Lits, CompileError>)
    ensures r.Ok? ==> |r.value.lits| == |cs|
    decreases cs
  {
    if |cs| == 0 then Ok(Lits([], st))
    else
      var h :- EncodeAsWritten(st, cs[0], declared);
      var t :- EncodeAllAsWritten(h.st, cs[1..], declared);
      Ok(Lits([h.lit] + t.lits, t.st))
  }

  /** The statement loop of `compile` over `EncodeAsWritten`. */
  function CompileFromAsWritten(st: CState, declared: set<string>, ss: seq<Stmt>): Result<CState, CompileError>
    decreases |ss|
  {
    if |ss| == 0 then Ok(st)
    else
      match ss[0]
      case VarDecl(names, line) =>
        var d :- Declare(st, declared, names, line);
        CompileFromAsWritten(d.0, d.1, ss[1..])
      case Constraint(e, _) =>
        var r :- EncodeAsWritten(st, e, declared);
        CompileFromAsWritten(AddClauses(r.st, [[r.lit]]), declared, ss[1..])
      case SolveSatisfy(_) => CompileFromAsWritten(st, declared, ss[1..])
  }

  /** `compile` exactly as sat_modeler.py has it. */
  function CompileAsWritten(ss: seq<Stmt>): Result<Compiled, CompileError> {
    var st :- CompileFromAsWritten(Init, {}, ss);
    Ok(Compiled(Dimacs.Write(st.next - 1, st.clauses), st.vars))
  }

  /** The expression with every `false` replaced by `not false`. */
  function FlipFalse(e: Expr): (r: Expr)
    decreases e
  {
    match e
    case LitFalse => Not(LitFalse)
    case Not(c) => Not(FlipFalse(c))
    case And(cs) => And(FlipFalseAll(cs))
    case Or(cs) => Or(FlipFalseAll(cs))
    case Impl(p, q) => Impl(FlipFalse(p), FlipFalse(q))
    case Iff(p, q) => Iff(FlipFalse(p), FlipFalse(q))
    case Xor(p, q) => Xor(FlipFalse(p), FlipFalse(q))
    case _ => e
  }

  function FlipFalseAll(cs: seq<Expr>): (r: seq<Expr>)
    ensures |r| == |cs|
    decreases cs
  {
    if |cs| == 0 then [] else [FlipFalse(cs[0])] + FlipFalseAll(cs[1..])
  }

  /** The program with every `false` in a constraint replaced by `not false`. */
  function FlipFalseStmts(ss: seq<Stmt>): (r: seq<Stmt>)
    ensures |r| == |ss|
    ensures forall i :: 0 <= i < |ss| ==> r[i].VarDecl? == ss[i].VarDecl? && r[i].Constraint? == ss[i].Constraint?
    ensures forall i :: 0 <= i < |ss| && ss[i].VarDecl? ==> r[i] == ss[i]
    ensures forall i :: 0 <= i < |ss| && ss[i].Constraint? ==> r[i].expr == FlipFalse(ss[i].expr)
  {
    seq(|ss|, i requires 0 <= i < |ss| =>
      match ss[i]
      case Constraint(e, l) => Constraint(FlipFalse(e), l)
      case _ => ss[i])
  }

  /**
   * The code's `false` is the corrected encoder's `not false`: encoding an
   * expression as written emits exactly what the corrected encoder emits
   * for the expression with every `false` negated.
   */
  lemma {:induction false} EncodeAsWrittenFlips(st: CState, e: Expr, declared: set<string>)
    ensures EncodeAsWritten(st, e, declared) == Encode(st, FlipFalse(e), declared)
    decreases e
  {
    match e
    case Not(c) => EncodeAsWrittenFlips(st, c, declared);
    case And(cs) => EncodeAllAsWrittenFlips(st, cs, declared);
    case Or(cs) => EncodeAllAsWrittenFlips(st, cs, declared);
    case Impl(p, q) => EncodeBinaryAsWrittenFlips(st, GImpl, e, p, q, declared);
    case Iff(p, q) => EncodeBinaryAsWrittenFlips(st, GIff, e, p, q, declared);
    case Xor(p, q) => EncodeBinaryAsWrittenFlips(st, GXor, e, p, q, declared);
    case _ =>
  }

  lemma {:induction false} EncodeBinaryAsWrittenFlips(st: CState, g: GateKind, e: Expr, p: Expr, q: Expr, declared: set<string>)
    requires (g == GImpl && e == Impl(p, q)) || (g == GIff && e == Iff(p, q)) || (g == GXor && e == Xor(p, q))
    ensures EncodeBinaryAsWritten(st, g, e, p, q, declared)
      == EncodeBinary(st, g, FlipFalse(e), FlipFalse(p), FlipFalse(q), declared)
    decreases e, 0
  {
    EncodeAsWrittenFlips(st, p, declared);
    var a := EncodeAsWritten(st, p, declared);
    if a.Ok? {
      EncodeAsWrittenFlips(a.value.st, q, declared);
    }
  }

  lemma {:induction false} EncodeAllAsWrittenFlips(st: CState, cs: seq<Expr>, declared: set<string>)
    ensures EncodeAllAsWritten(st, cs, declared) == EncodeAll(st, FlipFalseAll(cs), declared)
    decreases cs
  {
    if |cs| > 0 {
      var fs := FlipFalseAll(cs);
      assert fs[0] == FlipFalse(cs[0]) && fs[1..] == FlipFalseAll(cs[1..]);
      EncodeAsWrittenFlips(st, cs[0], declared);
      var h := EncodeAsWritten(st, cs[0], declared);
      if h.Ok? {
        EncodeAllAsWrittenFlips(h.value.st, cs[1..], declared);
      }
    }
  }

  /** Compiling as written is compiling the flipped program with the corrected encoder. */
  lemma {:induction false} CompileFromAsWrittenFlips(st: CState, declared: set<string>, ss: seq<Stmt>)
    ensures CompileFromAsWritten(st, declared, ss) == CompileFrom(st, declared, FlipFalseStmts(ss))
    decreases |ss|
  {
    if |ss| > 0 {
      var fs := FlipFalseStmts(ss);
      assert fs[1..] == FlipFalseStmts(ss[1..]);
      match ss[0]
      case VarDecl(names, line) =>
        var d := Declare(st, declared, names, line);
        if d.Ok? {
          CompileFromAsWrittenFlips(d.value.0, d.value.1, ss[1..]);
        }
      case Constraint(e, _) =>
        EncodeAsWrittenFlips(st, e, declared);
        var r := EncodeAsWritten(st, e, declared);
        if r.Ok? {
          CompileFromAsWrittenFlips(AddClauses(r.value.st, [[r.value.lit]]), declared, ss[1..]);
        }
      case SolveSatisfy(_) =>
        CompileFromAsWrittenFlips(st, declared, ss[1..]);
    }
  }
}

=== FILE: counting.dfy ===
/**
 * What the cardinality encodings of `CNFCompiler` mean when their root
 * literal is asserted, as `compile` does for a top-level constraint: in
 * every model of the clauses with the root literal true the count bound
 * holds (soundness), and every assignment of the user variables meeting
 * the bound extends to such a model (completeness).
 */
module Counting {
  import opened Outcomes
  import opened Syntax
  import opened Cnf
  import opened Gates
  import opened Cardinality
  import opened Compiler
  import opened Numbering
  import opened Semantics

  /** The true literals counted through the name map are the true names. */
  lemma {:induction false} CountNames(a: Assignment, env: Env, names: seq<string>, ls: seq<int>)
    requires |ls| == |names|
    requires forall i :: 0 <= i < |names| ==> Val(a, ls[i]) == env(names[i])
    ensures CountTrue(a, ls) == Count(names, env)
    decreases |names|
  {
    if |names| > 0 {
      assert forall i :: 0 <= i < |names| - 1 ==> ls[1..][i] == ls[i + 1] && names[1..][i] == names[i + 1];
      CountNames(a, env, names[1..], ls[1..]);
    }
  }

  lemma LookupCount(st: CState, names: seq<string>, declared: set<string>, a: Assignment, env: Env)
    requires Good(st) && DeclaredIn(st, declared) && LookupAll(st, names, declared).Ok?
    requires Agrees(a, env, st, declared)
    ensures CountTrue(a, LookupAll(st, names, declared).value.lits) == Count(names, env)
  {
    var ls := LookupAll(st, names, declared).value.lits;
    LookupAllGood(st, names, declared);
    forall i | 0 <= i < |names| ensures Val(a, ls[i]) == env(names[i]) {
      assert names[i] in declared;
      assert 0 < ls[i];
    }
    CountNames(a, env, names, ls);
  }

  // ---------------------------------------------------------------------
  // atmost over literals

  /** Asserting the root literal of `_encode_atmost` forces at most `k` true literals. */
  lemma AtMostLitsSound(st: CState, k: int, ls: seq<int>, a: Assignment)
    requires Good(st) && LitsIn(ls, st.next) && AtMostLits(st, k, ls).Ok?
    requires Sat(a, AtMostLits(st, k, ls).value.st.clauses) && Val(a, AtMostLits(st, k, ls).value.lit)
    ensures Sat(a, st.clauses) && CountTrue(a, ls) <= k
  {
    var x := st.next;
    LitsInNonZero(ls, x);
    if k >= |ls| {
      ConstSound(st, a);
    } else if k == 0 {
      SatConcat(a, st.clauses, NoneClauses(x, ls));
      NoneGate(a, x, ls);
    } else if |ls| <= 10 || k == 1 {
      SatConcat(a, st.clauses, PairwiseClauses(x, ls, k + 1));
      PairwiseGate(a, x, ls, k + 1);
    } else {
      CounterSound2(st, k, ls, a);
    }
  }

  lemma CounterSound2(st: CState, k: int, ls: seq<int>, a: Assignment)
    requires Good(st) && LitsIn(ls, st.next) && SequentialCounter(st, k, ls).Ok?
    requires Sat(a, SequentialCounter(st, k, ls).value.st.clauses)
    ensures Sat(a, st.clauses) && CountTrue(a, ls) <= k
  {
    var cc := CounterClauses(ls, st.next, k);
    var x := st.next + |ls| * k;
    SatConcat(a, st.clauses + cc, [[x]]);
    SatConcat(a, st.clauses, cc);
    LitsInNonZero(ls, st.next);
    CounterSat(a, ls, st.next, k);
    CounterSound(a, ls, st.next, k);
  }

  /** Any assignment with at most `k` true literals extends to a model asserting the root. */
  lemma AtMostLitsComplete(st: CState, k: int, ls: seq<int>, a: Assignment) returns (b: Assignment)
    requires Good(st) && LitsIn(ls, st.next) && AtMostLits(st, k, ls).Ok?
    requires Sat(a, st.clauses) && CountTrue(a, ls) <= k
    ensures Below(a, b, st.next)
    ensures Sat(b, AtMostLits(st, k, ls).value.st.clauses) && Val(b, AtMostLits(st, k, ls).value.lit)
  {
    var x := st.next;
    LitsInNonZero(ls, x);
    if k >= |ls| {
      b := ConstComplete(st, a, true);
    } else if k == 0 || |ls| <= 10 || k == 1 {
      b := Set(a, x, true);
      SatFrame(a, b, st.clauses, x);
      forall i | 0 <= i < |ls| ensures Val(a, ls[i]) == Val(b, ls[i]) {
        ValFrame(a, b, ls[i], x);
      }
      CountFrame(a, b, ls);
      if k == 0 {
        NoneGate(b, x, ls);
        SatConcat(b, st.clauses, NoneClauses(x, ls));
      } else {
        PairwiseGate(b, x, ls, k + 1);
        SatConcat(b, st.clauses, PairwiseClauses(x, ls, k + 1));
      }
    } else {
      b := CounterComplete2(st, k, ls, a);
    }
  }

  lemma CounterComplete2(st: CState, k: int, ls: seq<int>, a: Assignment) returns (b: Assignment)
    requires Good(st) && LitsIn(ls, st.next) && SequentialCounter(st, k, ls).Ok?
    requires Sat(a, st.clauses) && CountTrue(a, ls) <= k
    ensures Below(a, b, st.next)
    ensures Sat(b, SequentialCounter(st, k, ls).value.st.clauses) && Val(b, SequentialCounter(st, k, ls).value.lit)
  {
    var base := st.next;
    var cc := CounterClauses(ls, base, k);
    var x := base + |ls| * k;
    RegRange(base, k, |ls|, 0, 0);
    var c := CounterComplete(a, ls, base, k);
    LitsInNonZero(ls, base);
    CounterSat(c, ls, base, k);
    SatFrame(a, c, st.clauses, base);
    b := Set(c, x, true);
    CounterLits(ls, base, k);
    SatFrame(c, b, cc, x);
    LitsBelowMono(st.clauses, base, x);
    SatFrame(c, b, st.clauses, x);
    Sat1(b, [x]);
    Clause1(b, x);
    SatConcat(b, st.clauses, cc);
    SatConcat(b, st.clauses + cc, [[x]]);
  }

  lemma AtMostNamesSound(st: CState, k: int, names: seq<string>, declared: set<string>, a: Assignment, env: Env)
    requires Good(st) && DeclaredIn(st, declared) && AtMostNames(st, k, names, declared).Ok?
    requires Agrees(a, env, st, declared)
    requires Sat(a, AtMostNames(st, k, names, declared).value.st.clauses)
    requires Val(a, AtMostNames(st, k, names, declared).value.lit)
    ensures Sat(a, st.clauses) && Count(names, env) <= k
  {
    LookupAllGood(st, names, declared);
    LookupAllIn(st, names, declared);
    LookupCount(st, names, declared, a, env);
    AtMostLitsSound(st, k, LookupAll(st, names, declared).value.lits, a);
  }

  lemma AtMostNamesComplete(st: CState, k: int, names: seq<string>, declared: set<string>, a: Assignment, env: Env)
    returns (b: Assignment)
    requires Good(st) && DeclaredIn(st, declared) && AtMostNames(st, k, names, declared).Ok?
    requires Agrees(a, env, st, declared) && Sat(a, st.clauses) && Count(names, env) <= k
    ensures Below(a, b, st.next)
    ensures Sat(b, AtMostNames(st, k, names, declared).value.st.clauses)
    ensures Val(b, AtMostNames(st, k, names, declared).value.lit)
  {
    LookupAllGood(st, names, declared);
    LookupAllIn(st, names, declared);
    LookupCount(st, names, declared, a, env);
    b := AtMostLitsComplete(st, k, LookupAll(st, names, declared).value.lits, a);
  }

  // ---------------------------------------------------------------------
  // atleast

  lemma SatIn(a: Assignment, c: Clause, cs: seq<Clause>)
    requires Sat(a, cs) && c in cs
    ensures SatClause(a, c)
  {
    var i :| 0 <= i < |cs| && cs[i] == c;
  }

  /** In a model of the clauses every helper `__neg_<v>` has the opposite value of `v`. */
  lemma NegValues(s: CState, names: seq<string>, a: Assignment)
    requires Good(s) && Sat(a, s.clauses)
    requires forall i :: 0 <= i < |names| ==> NegName(names[i]) in s.vars
    ensures forall i :: 0 <= i < |names| ==>
      names[i] in s.vars && Val(a, s.vars[NegName(names[i])]) == !Val(a, s.vars[names[i]])
  {
    forall i | 0 <= i < |names|
      ensures names[i] in s.vars && Val(a, s.vars[NegName(names[i])]) == !Val(a, s.vars[names[i]])
    {
      var v := names[i];
      var n, o := s.vars[NegName(v)], s.vars[v];
      SatIn(a, [n, o], s.clauses);
      SatIn(a, [-n, -o], s.clauses);
      Clause2(a, n, o);
      Clause2(a, -n, -o);
    }
  }

  lemma NegHelperComplete(st: CState, v: string, a: Assignment) returns (b: Assignment)
    requires Good(st) && v in st.vars && Sat(a, st.clauses)
    ensures Below(a, b, st.next) && Sat(b, NegHelper(st, v).clauses)
  {
    if NegName(v) in st.vars {
      b := a;
    } else {
      NegHelperNumbered(st, v);
      var n, o := st.next, st.vars[v];
      b := Set(a, n, !a(o));
      SatFrame(a, b, st.clauses, n);
      Clause2(b, n, o);
      Clause2(b, -n, -o);
      Sat2(b, [n, o], [-n, -o]);
      SatConcat(b, st.clauses, [[n, o], [-n, -o]]);
    }
  }

  lemma {:induction false} NegHelpersComplete(st: CState, names: seq<string>, a: Assignment) returns (b: Assignment)
    requires Good(st) && Sat(a, st.clauses) && forall i :: 0 <= i < |names| ==> names[i] in st.vars
    ensures Below(a, b, st.next) && Sat(b, NegHelpers(st, names).clauses)
    decreases |names|
  {
    if |names| == 0 {
      b := a;
    } else {
      var s := NegHelper(st, names[0]);
      NegHelperGood(st, names[0]);
      var c := NegHelperComplete(st, names[0], a);
      assert forall i :: 1 <= i < |names| ==> names[i] == names[1..][i - 1];
      b := NegHelpersComplete(s, names[1..], c);
      BelowTrans(a, c, b, st.next, s.next);
    }
  }

  /**
   * The helper step of `_encode_atleast` for `0 < k != |names|`: the state
   * after the helpers, and the literals of the helper names, which the
   * remaining `atmost` is taken over.
   */
  lemma NegStage(st: CState, k: int, names: seq<string>, declared: set<string>) returns (s: CState, m: int, ns: seq<int>)
    requires Good(st) && DeclaredIn(st, declared) && AtLeastNames(st, k, names, declared).Ok?
    requires k > 0 && k != |names|
    ensures s == NegHelpers(st, names) && Good(s) && Grows(st, s) && |ns| == |names| && LitsIn(ns, s.next)
    ensures m == |names| - k && AtLeastNames(st, k, names, declared) == AtMostLits(s, m, ns)
    ensures forall i :: 0 <= i < |names| ==> NegName(names[i]) in s.vars && ns[i] == s.vars[NegName(names[i])]
  {
    LookupAllGood(st, names, declared);
    NegHelpersGood(st, names);
    s := NegHelpers(st, names);
    var negs := NegNames(names);
    var ext := declared + set i | 0 <= i < |negs| :: negs[i];
    assert DeclaredIn(s, ext);
    assert LookupAll(s, negs, ext).Ok?;
    LookupAllGood(s, negs, ext);
    LookupAllIn(s, negs, ext);
    ns := LookupAll(s, negs, ext).value.lits;
    m := |names| - k;
  }

  /** The literals of the helpers are the negations of the literals of the names. */
  lemma NegLits(st: CState, s: CState, names: seq<string>, ls: seq<int>, ns: seq<int>, a: Assignment)
    requires Good(s) && Grows(st, s) && Sat(a, s.clauses) && |ls| == |names| && |ns| == |names|
    requires forall i :: 0 <= i < |names| ==> names[i] in st.vars && ls[i] == st.vars[names[i]]
    requires forall i :: 0 <= i < |names| ==> NegName(names[i]) in s.vars && ns[i] == s.vars[NegName(names[i])]
    ensures CountTrue(a, ns) == |ls| - CountTrue(a, ls)
  {
    NegValues(s, names, a);
    CountNegs(a, ls, ns);
  }

  lemma AtLeastNamesSound(st: CState, k: int, names: seq<string>, declared: set<string>, a: Assignment, env: Env)
    requires Good(st) && DeclaredIn(st, declared) && AtLeastNames(st, k, names, declared).Ok?
    requires Agrees(a, env, st, declared)
    requires Sat(a, AtLeastNames(st, k, names, declared).value.st.clauses)
    requires Val(a, AtLeastNames(st, k, names, declared).value.lit)
    ensures Sat(a, st.clauses) && Count(names, env) >= k
  {
    LookupAllGood(st, names, declared);
    LookupAllIn(st, names, declared);
    LookupCount(st, names, declared, a, env);
    var ls := LookupAll(st, names, declared).value.lits;
    if k <= 0 {
      ConstSound(st, a);
    } else if k == |ls| {
      GateSound(st, GAnd, ls, a);
      CountAll(a, ls);
    } else {
      var s, m, ns := NegStage(st, k, names, declared);
      NegSound(st, s, m, names, ls, ns, a);
    }
  }

  /** Asserting the `atmost |ls|-k` over the helpers forces at least `k` true literals. */
  lemma NegSound(st: CState, s: CState, m: int, names: seq<string>, ls: seq<int>, ns: seq<int>, a: Assignment)
    requires Good(s) && Grows(st, s) && |ls| == |names| && |ns| == |names| && LitsIn(ns, s.next)
    requires forall i :: 0 <= i < |names| ==> names[i] in st.vars && ls[i] == st.vars[names[i]]
    requires forall i :: 0 <= i < |names| ==> NegName(names[i]) in s.vars && ns[i] == s.vars[NegName(names[i])]
    requires AtMostLits(s, m, ns).Ok?
    requires Sat(a, AtMostLits(s, m, ns).value.st.clauses) && Val(a, AtMostLits(s, m, ns).value.lit)
    ensures Sat(a, st.clauses) && CountTrue(a, ls) >= |names| - m
  {
    AtMostLitsSound(s, m, ns, a);
    NegLits(st, s, names, ls, ns, a);
    SatPrefix(a, st.clauses, s.clauses);
  }

  lemma AtLeastNamesComplete(st: CState, k: int, names: seq<string>, declared: set<string>, a: Assignment, env: Env)
    returns (b: Assignment)
    requires Good(st) && DeclaredIn(st, declared) && AtLeastNames(st, k, names, declared).Ok?
    requires Agrees(a, env, st, declared) && Sat(a, st.clauses) && Count(names, env) >= k
    ensures Below(a, b, st.next)
    ensures Sat(b, AtLeastNames(st, k, names, declared).value.st.clauses)
    ensures Val(b, AtLeastNames(st, k, names, declared).value.lit)
  {
    LookupAllGood(st, names, declared);
    LookupAllIn(st, names, declared);
    LookupCount(st, names, declared, a, env);
    var ls := LookupAll(st, names, declared).value.lits;
    if k <= 0 {
      b := ConstComplete(st, a, true);
    } else if k == |ls| {
      CountAll(a, ls);
      b := GateComplete(st, GAnd, ls, a);
    } else {
      var s, m, ns := NegStage(st, k, names, declared);
      b := NegAtMostComplete(st, s, m, names, ls, ns, a);
    }
  }

  lemma NegAtMostComplete(st: CState, s: CState, m: int, names: seq<string>, ls: seq<int>, ns: seq<int>, a: Assignment)
    returns (b: Assignment)
    requires Good(st) && s == NegHelpers(st, names) && Good(s) && Grows(st, s) && Sat(a, st.clauses)
    requires |ls| == |names| && |ns| == |names| && LitsIn(ls, st.next) && LitsIn(ns, s.next)
    requires forall i :: 0 <= i < |names| ==> names[i] in st.vars && ls[i] == st.vars[names[i]]
    requires forall i :: 0 <= i < |names| ==> NegName(names[i]) in s.vars && ns[i] == s.vars[NegName(names[i])]
    requires AtMostLits(s, m, ns).Ok? && CountTrue(a, ls) >= |names| - m
    ensures Below(a, b, st.next)
    ensures Sat(b, AtMostLits(s, m, ns).value.st.clauses) && Val(b, AtMostLits(s, m, ns).value.lit)
  {
    var c := NegComplete(st, s, names, ls, ns, a);
    b := AtMostLitsComplete(s, m, ns, c);
    BelowTrans(a, c, b, st.next, s.next);
  }

  /** Setting every fresh helper to the negation of its name, the negated count is `|ls|` minus the count. */
  lemma NegComplete(st: CState, s: CState, names: seq<string>, ls: seq<int>, ns: seq<int>, a: Assignment)
    returns (b: Assignment)
    requires Good(st) && s == NegHelpers(st, names) && Good(s) && Grows(st, s) && Sat(a, st.clauses)
    requires |ls| == |names| && |ns| == |names| && LitsIn(ls, st.next)
    requires forall i :: 0 <= i < |names| ==> names[i] in st.vars && ls[i] == st.vars[names[i]]
    requires forall i :: 0 <= i < |names| ==> NegName(names[i]) in s.vars && ns[i] == s.vars[NegName(names[i])]
    ensures Below(a, b, st.next) && Sat(b, s.clauses)
    ensures CountTrue(b, ns) == |ls| - CountTrue(a, ls)
  {
    b := NegHelpersComplete(st, names, a);
    forall i | 0 <= i < |ls| ensures Val(a, ls[i]) == Val(b, ls[i]) {
      ValFrame(a, b, ls[i], st.next);
    }
    CountFrame(a, b, ls);
    NegLits(st, s, names, ls, ns, b);
  }

  // ---------------------------------------------------------------------
  // exactly, and the three together

  lemma ExactlySound(st: CState, k: int, vs: seq<string>, declared: set<string>, a: Assignment, env: Env)
    requires Good(st) && DeclaredIn(st, declared) && ExactlyNames(st, k, vs, declared).Ok?
    requires Agrees(a, env, st, declared)
    requires Sat(a, ExactlyNames(st, k, vs, declared).value.st.clauses)
    requires Val(a, ExactlyNames(st, k, vs, declared).value.lit)
    ensures Sat(a, st.clauses) && Count(vs, env) == k
  {
    var m := AtMostNames(st, k, vs, declared).value;
    AtMostNamesGood(st, k, vs, declared);
    var l := AtLeastNames(m.st, k, vs, declared).value;
    AtLeastNamesGood(m.st, k, vs, declared);
    Lits2(m.lit, l.lit, l.st.next);
    GateSound(l.st, GBoth, [m.lit, l.lit], a);
    AgreesGrows(a, env, st, m.st, declared);
    AtLeastNamesSound(m.st, k, vs, declared, a, env);
    AtMostNamesSound(st, k, vs, declared, a, env);
  }

  lemma ExactlyComplete(st: CState, k: int, vs: seq<string>, declared: set<string>, a: Assignment, env: Env)
    returns (b: Assignment)
    requires Good(st) && DeclaredIn(st, declared) && ExactlyNames(st, k, vs, declared).Ok?
    requires Agrees(a, env, st, declared) && Sat(a, st.clauses) && Count(vs, env) == k
    ensures Below(a, b, st.next)
    ensures Sat(b, ExactlyNames(st, k, vs, declared).value.st.clauses)
    ensures Val(b, ExactlyNames(st, k, vs, declared).value.lit)
  {
    var m := AtMostNames(st, k, vs, declared).value;
    AtMostNamesGood(st, k, vs, declared);
    var b1 := AtMostNamesComplete(st, k, vs, declared, a, env);
    AgreesBelow(a, b1, env, st, declared);
    AgreesGrows(b1, env, st, m.st, declared);
    var l := AtLeastNames(m.st, k, vs, declared).value;
    AtLeastNamesGood(m.st, k, vs, declared);
    var b2 := AtLeastNamesComplete(m.st, k, vs, declared, b1, env);
    ValFrame(b1, b2, m.lit, m.st.next);
    Lits2(m.lit, l.lit, l.st.next);
    b := GateComplete(l.st, GBoth, [m.lit, l.lit], b2);
    BelowTrans(a, b1, b2, st.next, m.st.next);
    BelowTrans(a, b2, b, st.next, l.st.next);
  }

  /** A cardinality constraint whose root literal is asserted holds, in every model. */
  lemma CardinalitySound(st: CState, e: Expr, declared: set<string>, a: Assignment, env: Env)
    requires Good(st) && DeclaredIn(st, declared) && IsCardinality(e) && Encode(st, e, declared).Ok?
    requires Agrees(a, env, st, declared)
    requires Sat(a, Encode(st, e, declared).value.st.clauses) && Val(a, Encode(st, e, declared).value.lit)
    ensures Sat(a, st.clauses) && Eval(e, env)
  {
    match e
    case AtMost(k, vs) => AtMostNamesSound(st, k, vs, declared, a, env);
    case AtLeast(k, vs) => AtLeastNamesSound(st, k, vs, declared, a, env);
    case Exactly(k, vs) => ExactlySound(st, k, vs, declared, a, env);
  }

  /** A cardinality constraint that holds can have its root literal asserted. */
  lemma CardinalityComplete(st: CState, e: Expr, declared: set<string>, a: Assignment, env: Env)
    returns (b: Assignment)
    requires Good(st) && DeclaredIn(st, declared) && IsCardinality(e) && Encode(st, e, declared).Ok?
    requires Agrees(a, env, st, declared) && Sat(a, st.clauses) && Eval(e, env)
    ensures Below(a, b, st.next)
    ensures Sat(b, Encode(st, e, declared).value.st.clauses) && Val(b, Encode(st, e, declared).value.lit)
  {
    match e
    case AtMost(k, vs) => b := AtMostNamesComplete(st, k, vs, declared, a, env);
    case AtLeast(k, vs) => b := AtLeastNamesComplete(st, k, vs, declared, a, env);
    case Exactly(k, vs) => b := ExactlyComplete(st, k, vs, declared, a, env);
  }
}

=== FILE: dimacs.dfy ===
/**
 * DIMACS CNF text as `CNFCompiler.compile` writes it: a problem line
 * `p cnf <variables> <clauses>`, then one line per clause, literals
 * separated by single spaces and terminated by ` 0`, every line ended by a
 * newline, and no comment lines.
 */
module Dimacs {
  import opened Text

  function Words(c: seq<int>): (r: seq<string>)
    ensures |r| == |c|
    ensures forall i :: 0 <= i < |c| ==> r[i] == IntToString(c[i])
  {
    seq(|c|, i requires 0 <= i < |c| => IntToString(c[i]))
  }

  /** One clause line: the literals joined by spaces, then ` 0`. */
  function ClauseLine(c: seq<int>): string {
    Join(" ", Words(c)) + " 0"
  }

  function HeaderLine(numVars: int, numClauses: int): string {
    "p cnf " + IntToString(numVars) + " " + IntToString(numClauses)
  }

  function ClauseLines(cs: seq<seq<int>>): (r: seq<string>)
    ensures |r| == |cs|
    ensures forall i :: 0 <= i < |cs| ==> r[i] == ClauseLine(cs[i])
  {
    seq(|cs|, i requires 0 <= i < |cs| => ClauseLine(cs[i]))
  }

  /** The lines of the text, in order. */
  function Lines(numVars: int, cs: seq<seq<int>>): seq<string> {
    [HeaderLine(numVars, |cs|)] + ClauseLines(cs)
  }

  /** The whole text: the lines joined by newlines, plus a final newline. */
  function Write(numVars: int, cs: seq<seq<int>>): string {
    Join("\n", Lines(numVars, cs)) + "\n"
  }
}

=== FILE: equisat.dfy ===
/**
 * The correctness of `CNFCompiler.compile` as a whole: for programs whose
 * constraints are Boolean formulas or top-level cardinality constraints,
 * and whose declared names avoid the compiler's reserved `__` prefix, the
 * emitted clauses are satisfiable exactly when some assignment of the
 * declared variables satisfies every constraint, and reading any model
 * back through the variable map gives such an assignment.
 */
module Equisat {
  import opened Outcomes
  import opened Syntax
  import opened Cnf
  import opened Compiler
  import opened Numbering
  import opened Semantics
  import opened Counting
  import Dimacs
  import opened Cardinality

  /** Every constraint is a formula over the connectives or a cardinality constraint. */
  predicate Supported(ss: seq<Stmt>) {
    forall i :: 0 <= i < |ss| && ss[i].Constraint? ==> GateOnly(ss[i].expr) || IsCardinality(ss[i].expr)
  }

  /** `env` is the assignment `a` read back through the variable map. */
  predicate Reads(a: Assignment, env: Env, st: CState) {
    forall x :: x in st.vars ==> env(x) == a(st.vars[x])
  }

  /** The assignment `_decode_assignment` reads from a model: mapped names get their variable's value. */
  function Decode(a: Assignment, st: CState): (env: Env)
    ensures Reads(a, env, st)
  {
    x => if x in st.vars then a(st.vars[x]) else false
  }

  lemma Tail(ss: seq<Stmt>, env: Env)
    requires |ss| > 0
    ensures UserNames(ss) ==> UserNames(ss[1..])
    ensures Supported(ss) ==> Supported(ss[1..])
    ensures Holds(ss, env) <==> (ss[0].Constraint? ==> Eval(ss[0].expr, env)) && Holds(ss[1..], env)
  {
    assert forall i :: 0 <= i < |ss| - 1 ==> ss[1..][i] == ss[i + 1];
    if (ss[0].Constraint? ==> Eval(ss[0].expr, env)) && Holds(ss[1..], env) {
      forall i | 0 <= i < |ss| && ss[i].Constraint? ensures Eval(ss[i].expr, env) {
        if i > 0 { assert ss[i] == ss[1..][i - 1]; }
      }
    }
  }

  lemma DeclNames(ss: seq<Stmt>)
    requires |ss| > 0 && ss[0].VarDecl? && UserNames(ss)
    ensures forall j :: 0 <= j < |ss[0].names| ==> !Reserved(ss[0].names[j])
  {
  }

  // ---------------------------------------------------------------------
  // One constraint

  /** A model of the clauses with the constraint's root literal asserted satisfies the constraint. */
  lemma TopSound(st: CState, e: Expr, declared: set<string>, a: Assignment, env: Env)
    requires Good(st) && DeclaredIn(st, declared) && (GateOnly(e) || IsCardinality(e))
    requires Encode(st, e, declared).Ok? && Agrees(a, env, st, declared)
    requires Sat(a, AddClauses(Encode(st, e, declared).value.st, [[Encode(st, e, declared).value.lit]]).clauses)
    ensures Sat(a, st.clauses) && Eval(e, env)
  {
    var r := Encode(st, e, declared).value;
    SatConcat(a, r.st.clauses, [[r.lit]]);
    Sat1(a, [r.lit]);
    Clause1(a, r.lit);
    if GateOnly(e) {
      EncodeSound(st, e, declared, a, env);
    } else {
      CardinalitySound(st, e, declared, a, env);
    }
  }

  /** A constraint that holds lets any model of the earlier clauses extend to one with it asserted. */
  lemma TopComplete(st: CState, e: Expr, declared: set<string>, a: Assignment, env: Env) returns (b: Assignment)
    requires Good(st) && DeclaredIn(st, declared) && (GateOnly(e) || IsCardinality(e))
    requires Encode(st, e, declared).Ok? && Agrees(a, env, st, declared)
    requires Sat(a, st.clauses) && Eval(e, env)
    ensures Below(a, b, st.next)
    ensures Sat(b, AddClauses(Encode(st, e, declared).value.st, [[Encode(st, e, declared).value.lit]]).clauses)
  {
    var r := Encode(st, e, declared).value;
    if GateOnly(e) {
      b := EncodeComplete(st, e, declared, a, env);
    } else {
      b := CardinalityComplete(st, e, declared, a, env);
    }
    SatConcat(b, r.st.clauses, [[r.lit]]);
    Sat1(b, [r.lit]);
    Clause1(b, r.lit);
  }

  // ---------------------------------------------------------------------
  // Declarations

  lemma {:induction false} DeclareComplete(st: CState, declared: set<string>, names: seq<string>, line: int,
                                           a: Assignment, env: Env) returns (b: Assignment)
    requires Good(st) && Scoped(st, declared) && Declare(st, declared, names, line).Ok?
    requires forall i :: 0 <= i < |names| ==> !Reserved(names[i])
    requires Agrees(a, env, st, declared)
    ensures Below(a, b, st.next)
    ensures Agrees(b, env, Declare(st, declared, names, line).value.0, Declare(st, declared, names, line).value.1)
    decreases |names|
  {
    if |names| == 0 {
      b := a;
    } else {
      var n := names[0];
      assert n !in st.vars;
      var s := VarId(st, n).st;
      VarIdGood(st, n);
      var c := Set(a, st.next, env(n));
      assert Agrees(c, env, s, declared + {n}) by {
        forall x | x in declared + {n} ensures x in s.vars && c(s.vars[x]) == env(x) {
          if x != n {
            assert 0 < st.vars[x] < st.next;
          }
        }
      }
      assert forall i :: 1 <= i < |names| ==> names[i] == names[1..][i - 1];
      b := DeclareComplete(s, declared + {n}, names[1..], line, c, env);
      BelowTrans(a, c, b, st.next, s.next);
    }
  }

  // ---------------------------------------------------------------------
  // Programs

  lemma {:induction false} CompileFromSound(st: CState, declared: set<string>, ss: seq<Stmt>, a: Assignment, env: Env)
    requires Good(st) && Scoped(st, declared) && UserNames(ss) && Supported(ss)
    requires CompileFrom(st, declared, ss).Ok?
    requires Sat(a, CompileFrom(st, declared, ss).value.clauses) && Reads(a, env, CompileFrom(st, declared, ss).value)
    ensures Sat(a, st.clauses) && Holds(ss, env)
    decreases |ss|
  {
    if |ss| > 0 {
      Tail(ss, env);
      var fin := CompileFrom(st, declared, ss).value;
      match ss[0]
      case VarDecl(names, line) =>
        DeclNames(ss);
        var d := Declare(st, declared, names, line).value;
        DeclareGood(st, declared, names, line);
        CompileFromSound(d.0, d.1, ss[1..], a, env);
      case Constraint(e, _) =>
        var r := Encode(st, e, declared).value;
        EncodeGood(st, e, declared);
        var s := AddClauses(r.st, [[r.lit]]);
        ClauseIn([r.lit], r.st.next);
        AddClausesGood(r.st, [[r.lit]]);
        assert Scoped(s, declared);
        CompileFromSound(s, declared, ss[1..], a, env);
        CompileFromGood(s, declared, ss[1..]);
        GrowsTrans(st, s, fin);
        assert Agrees(a, env, st, declared);
        TopSound(st, e, declared, a, env);
      case SolveSatisfy(_) =>
        CompileFromSound(st, declared, ss[1..], a, env);
    }
  }

  lemma {:induction false} CompileFromComplete(st: CState, declared: set<string>, ss: seq<Stmt>, a: Assignment, env: Env)
    returns (b: Assignment)
    requires Good(st) && Scoped(st, declared) && UserNames(ss) && Supported(ss)
    requires CompileFrom(st, declared, ss).Ok?
    requires Agrees(a, env, st, declared) && Sat(a, st.clauses) && Holds(ss, env)
    ensures Below(a, b, st.next) && Sat(b, CompileFrom(st, declared, ss).value.clauses)
    decreases |ss|
  {
    if |ss| == 0 {
      b := a;
    } else {
      Tail(ss, env);
      match ss[0]
      case VarDecl(names, line) =>
        DeclNames(ss);
        var d := Declare(st, declared, names, line).value;
        DeclareGood(st, declared, names, line);
        var c := DeclareComplete(st, declared, names, line, a, env);
        SatFrame(a, c, st.clauses, st.next);
        b := CompileFromComplete(d.0, d.1, ss[1..], c, env);
        BelowTrans(a, c, b, st.next, d.0.next);
      case Constraint(e, _) =>
        var r := Encode(st, e, declared).value;
        EncodeGood(st, e, declared);
        var s := AddClauses(r.st, [[r.lit]]);
        ClauseIn([r.lit], r.st.next);
        AddClausesGood(r.st, [[r.lit]]);
        assert Scoped(s, declared);
        var c := TopComplete(st, e, declared, a, env);
        AgreesBelow(a, c, env, st, declared);
        AgreesGrows(c, env, st, s, declared);
        b := CompileFromComplete(s, declared, ss[1..], c, env);
        BelowTrans(a, c, b, st.next, s.next);
      case SolveSatisfy(_) =>
        b := CompileFromComplete(st, declared, ss[1..], a, env);
    }
  }

  /**
   * Equisatisfiability: the clauses `compile` emits have a model exactly
   * when some assignment of the variables satisfies every constraint.
   */
  lemma CompileEquisatisfiable(ss: seq<Stmt>)
    requires UserNames(ss) && Supported(ss) && CompileFrom(Init, {}, ss).Ok?
    ensures Satisfiable(CompileFrom(Init, {}, ss).value.clauses) <==> exists env: Env :: Holds(ss, env)
  {
    var fin := CompileFrom(Init, {}, ss).value;
    if Satisfiable(fin.clauses) {
      var a :| Sat(a, fin.clauses);
      CompileDecodes(ss, a);
    }
    if exists env: Env :: Holds(ss, env) {
      var env: Env :| Holds(ss, env);
      var b := CompileFromComplete(Init, {}, ss, x => false, env);
    }
  }

  /** Every model of the emitted clauses, read back through the variable map, satisfies the program. */
  lemma CompileDecodes(ss: seq<Stmt>, a: Assignment)
    requires UserNames(ss) && Supported(ss) && CompileFrom(Init, {}, ss).Ok?
    requires Sat(a, CompileFrom(Init, {}, ss).value.clauses)
    ensures Holds(ss, Decode(a, CompileFrom(Init, {}, ss).value))
  {
    var fin := CompileFrom(Init, {}, ss).value;
    CompileFromSound(Init, {}, ss, a, Decode(a, fin));
  }

  // ---------------------------------------------------------------------
  // The compiler as written

  lemma {:induction false} FlipGateOnly(e: Expr)
    ensures GateOnly(e) ==> GateOnly(FlipFalse(e))
    ensures IsCardinality(e) ==> FlipFalse(e) == e
    decreases e
  {
    match e
    case Not(c) => FlipGateOnly(c);
    case And(cs) => FlipGateOnlyAll(cs);
    case Or(cs) => FlipGateOnlyAll(cs);
    case Impl(p, q) => FlipGateOnly(p); FlipGateOnly(q);
    case Iff(p, q) => FlipGateOnly(p); FlipGateOnly(q);
    case Xor(p, q) => FlipGateOnly(p); FlipGateOnly(q);
    case _ =>
  }

  lemma {:induction false} FlipGateOnlyAll(cs: seq<Expr>)
    ensures AllGateOnly(cs) ==> AllGateOnly(FlipFalseAll(cs))
    decreases cs
  {
    if |cs| > 0 {
      var fs := FlipFalseAll(cs);
      assert fs[0] == FlipFalse(cs[0]) && fs[1..] == FlipFalseAll(cs[1..]);
      FlipGateOnly(cs[0]);
      FlipGateOnlyAll(cs[1..]);
    }
  }

  lemma FlipSupported(ss: seq<Stmt>)
    ensures UserNames(ss) ==> UserNames(FlipFalseStmts(ss))
    ensures Supported(ss) ==> Supported(FlipFalseStmts(ss))
  {
    var fs := FlipFalseStmts(ss);
    forall i | 0 <= i < |ss| && ss[i].Constraint?
      ensures GateOnly(ss[i].expr) ==> GateOnly(fs[i].expr)
      ensures IsCardinality(ss[i].expr) ==> IsCardinality(fs[i].expr)
    {
      FlipGateOnly(ss[i].expr);
    }
  }

  /**
   * `compile` as written is equisatisfiable with the program in which every
   * `false` reads as `not false`, that is as `true`.
   */
  lemma CompileAsWrittenEquisatisfiable(ss: seq<Stmt>)
    requires UserNames(ss) && Supported(ss) && CompileFromAsWritten(Init, {}, ss).Ok?
    ensures Satisfiable(CompileFromAsWritten(Init, {}, ss).value.clauses) <==>
      exists env: Env :: Holds(FlipFalseStmts(ss), env)
  {
    CompileFromAsWrittenFlips(Init, {}, ss);
    FlipSupported(ss);
    CompileEquisatisfiable(FlipFalseStmts(ss));
  }

  // ---------------------------------------------------------------------
  // `constraint false;`

  /**
   * As written, `constraint false;` compiles to `[[-1], [-1]]`: the
   * variable pinned false, then the returned literal `-1` asserted.  Those
   * clauses have a model although no assignment satisfies the program.
   */
  lemma FalseConstraintAsWritten()
    ensures CompileFromAsWritten(Init, {}, [Constraint(LitFalse, 1)]) == Ok(CState(map[], 2, [[-1], [-1]]))
    ensures CompileAsWritten([Constraint(LitFalse, 1)]) == Ok(Compiled(Dimacs.Write(1, [[-1], [-1]]), map[]))
    ensures Sat(x => false, [[-1], [-1]])
    ensures !exists env: Env :: Holds([Constraint(LitFalse, 1)], env)
  {
    var ss := [Constraint(LitFalse, 1)];
    assert ss[1..] == [];
    var r := FalseLitAsWritten(Init);
    assert r == Step(-1, CState(map[], 2, [[-1]]));
    assert EncodeAsWritten(Init, LitFalse, {}) == Ok(r);
    var st := AddClauses(r.st, [[r.lit]]);
    assert st == CState(map[], 2, [[-1], [-1]]);
    assert CompileFromAsWritten(st, {}, ss[1..]) == Ok(st);
    var a: Assignment := x => false;
    Clause1(a, -1);
    Sat2(a, [-1], [-1]);
    forall env: Env ensures !Holds(ss, env) {
      assert ss[0].Constraint? && !Eval(ss[0].expr, env);
    }
  }

  /** With `false` represented by the pinned variable itself, the same program compiles to unsatisfiable clauses. */
  lemma FalseConstraintUnsat()
    ensures CompileFrom(Init, {}, [Constraint(LitFalse, 1)]).Ok?
    ensures !Satisfiable(CompileFrom(Init, {}, [Constraint(LitFalse, 1)]).value.clauses)
  {
    var ss := [Constraint(LitFalse, 1)];
    assert ss[1..] == [];
    assert CompileFrom(Init, {}, ss).Ok?;
    FalseConstraintAsWritten();
    CompileEquisatisfiable(ss);
  }

  // ---------------------------------------------------------------------
  // User names with the `__` prefix

  /** `var a, b, __neg_a; constraint atleast(1, [a, b]); constraint not a; constraint not b;` */
  const ClashProgram := [VarDecl(["a", "b", "__neg_a"], 1), Constraint(AtLeast(1, ["a", "b"]), 2),
                         Constraint(Not(VarRef("a")), 3), Constraint(Not(VarRef("b")), 4)]

  const ClashDeclared := {"a", "b", "__neg_a"}

  /** The state after the declaration: `a`, `b`, `__neg_a` get ids 1, 2, 3. */
  const ClashDeclaredState := CState(map["a" := 1, "b" := 2, "__neg_a" := 3], 4, [])

  /** The state after `atleast`: helper 4 for `b` only, the pairwise aux 5. */
  const ClashAtLeastState :=
    CState(map["a" := 1, "b" := 2, "__neg_a" := 3, "__neg_b" := 4], 6,
           [[4, 2], [-4, -2], [-5, -3, -4], [5, 3, 4]])

  lemma ClashDeclare()
    ensures Declare(Init, {}, ["a", "b", "__neg_a"], 1) == Ok((ClashDeclaredState, ClashDeclared))
  {
    var names := ["a", "b", "__neg_a"];
    assert names[1..] == ["b", "__neg_a"] && names[1..][1..] == ["__neg_a"] && names[1..][1..][1..] == [];
    var st1 := CState(map["a" := 1], 2, []);
    var st2 := CState(map["a" := 1, "b" := 2], 3, []);
    assert "b" != "a" && "__neg_a" != "a" && "__neg_a" != "b";
    assert VarId(Init, "a").st == st1;
    assert VarId(st1, "b").st == st2;
    assert VarId(st2, "__neg_a").st == ClashDeclaredState;
    assert {} + {"a"} + {"b"} + {"__neg_a"} == ClashDeclared;
    assert Declare(ClashDeclaredState, ClashDeclared, [], 1) == Ok((ClashDeclaredState, ClashDeclared));
  }

  /** Only `b` gets a negation helper: `__neg_a` is already the user's variable. */
  lemma ClashHelpers()
    ensures NegHelpers(ClashDeclaredState, ["a", "b"])
      == CState(ClashAtLeastState.vars, 5, [[4, 2], [-4, -2]])
  {
    var st1 := ClashDeclaredState;
    var vars2 := ClashAtLeastState.vars;
    var st2 := CState(vars2, 5, [[4, 2], [-4, -2]]);
    assert NegName("a") == "__neg_a" by {
      assert forall i :: 0 <= i < 7 ==> NegName("a")[i] == "__neg_a"[i];
    }
    assert NegName("b") == "__neg_b" by {
      assert forall i :: 0 <= i < 7 ==> NegName("b")[i] == "__neg_b"[i];
    }
    assert "__neg_b" !in st1.vars by {
      assert "__neg_b" != "a" && "__neg_b" != "b";
      assert "__neg_b"[6] != "__neg_a"[6];
    }
    assert NegHelper(st1, "a") == st1;
    assert VarId(CState(vars2, 5, []), "b") == Step(2, CState(vars2, 5, []));
    assert NegHelper(st1, "b") == st2;
    assert ["a", "b"][1..] == ["b"] && ["b"][1..] == [];
  }

  lemma ClashAtMost()
    ensures var negs := NegNames(["a", "b"]);
      AtMostNames(CState(ClashAtLeastState.vars, 5, [[4, 2], [-4, -2]]), 1, negs,
                  ClashDeclared + set i | 0 <= i < |negs| :: negs[i])
      == Ok(Step(5, ClashAtLeastState))
  {
    var st2 := CState(ClashAtLeastState.vars, 5, [[4, 2], [-4, -2]]);
    var negs := NegNames(["a", "b"]);
    assert negs == ["__neg_a", "__neg_b"] by {
      assert NegName("a") == "__neg_a" by {
        assert forall i :: 0 <= i < 7 ==> NegName("a")[i] == "__neg_a"[i];
      }
      assert NegName("b") == "__neg_b" by {
        assert forall i :: 0 <= i < 7 ==> NegName("b")[i] == "__neg_b"[i];
      }
      assert negs[0] == NegName("a") && negs[1] == NegName("b");
    }
    var d2 := ClashDeclared + set i | 0 <= i < |negs| :: negs[i];
    assert negs[1] in d2;
    assert "__neg_a" in d2 && "__neg_b" in d2;
    assert LookupAll(st2, negs, d2) == Ok(Lits([3, 4], st2)) by {
      assert negs[1..] == ["__neg_b"] && negs[1..][1..] == [];
      assert VarId(st2, "__neg_a") == Step(3, st2);
      assert VarId(st2, "__neg_b") == Step(4, st2);
      assert LookupAll(st2, [], d2) == Ok(Lits([], st2));
      assert [3] + [4] == [3, 4];
      assert LookupAll(st2, ["__neg_b"], d2).value.lits == [4] + [];
      assert [4] + [] == [4];
    }
    assert Comb([3, 4], 2) == [[3, 4]] by {
      assert [3, 4][1..] == [4] && [4][1..] == [];
      assert Comb([4], 1) == [[4]];
      assert Comb([4], 2) == [];
    }
    assert ForbidClauses(5, [[3, 4]]) == [[-5, -3, -4]] by {
      assert Negs([3, 4]) == [-3, -4];
      assert ForbidClauses(5, [[3, 4]])[0] == [-5] + [-3, -4];
      assert [-5] + [-3, -4] == [-5, -3, -4];
    }
    assert PairwiseClauses(5, [3, 4], 2) == [[-5, -3, -4], [5, 3, 4]] by {
      assert [5] + [3, 4] == [5, 3, 4];
    }
    assert st2.clauses + [[-5, -3, -4], [5, 3, 4]] == ClashAtLeastState.clauses;
    assert Pairwise(st2, 1, [3, 4]) == Ok(Step(5, ClashAtLeastState));
  }

  lemma ClashAtLeast()
    ensures AtLeastNames(ClashDeclaredState, 1, ["a", "b"], ClashDeclared) == Ok(Step(5, ClashAtLeastState))
  {
    var st1 := ClashDeclaredState;
    assert LookupAll(st1, ["a", "b"], ClashDeclared) == Ok(Lits([1, 2], st1)) by {
      assert ["a", "b"][1..] == ["b"] && ["b"][1..] == [];
      assert VarId(st1, "a") == Step(1, st1);
      assert VarId(st1, "b") == Step(2, st1);
      assert LookupAll(st1, [], ClashDeclared) == Ok(Lits([], st1));
      assert [1] + [2] == [1, 2];
      assert LookupAll(st1, ["b"], ClashDeclared).value.lits == [2] + [];
      assert [2] + [] == [2];
    }
    ClashHelpers();
    ClashAtMost();
  }

  /** A negated declared variable compiles to its id negated, emitting nothing. */
  lemma EncodeNegatedVar(st: CState, x: string, declared: set<string>)
    requires x in declared && x in st.vars
    ensures EncodeAsWritten(st, Not(VarRef(x)), declared) == Ok(Step(-st.vars[x], st))
  {
  }

  /** One constraint of the statement loop: its clauses, then its literal as a unit clause. */
  lemma ConstraintStep(st: CState, declared: set<string>, e: Expr, line: int, rest: seq<Stmt>, r: Step)
    requires EncodeAsWritten(st, e, declared) == Ok(r)
    ensures CompileFromAsWritten(st, declared, [Constraint(e, line)] + rest)
      == CompileFromAsWritten(AddClauses(r.st, [[r.lit]]), declared, rest)
  {
    assert ([Constraint(e, line)] + rest)[1..] == rest;
  }

  const ClashAtLeast1 := Constraint(AtLeast(1, ["a", "b"]), 2)
  const ClashNotA := Constraint(Not(VarRef("a")), 3)
  const ClashNotB := Constraint(Not(VarRef("b")), 4)

  lemma ClashTail()
    ensures ClashProgram[1..] == [ClashAtLeast1] + ([ClashNotA] + ([ClashNotB] + []))
  {
  }

  /** The three constraints after the declaration. */
  lemma ClashConstraints()
    ensures CompileFromAsWritten(ClashDeclaredState, ClashDeclared, ClashProgram[1..])
      == Ok(AddClauses(ClashAtLeastState, [[5], [-1], [-2]]))
  {
    var st4 := AddClauses(ClashAtLeastState, [[5]]);
    var st5 := AddClauses(st4, [[-1]]);
    ClashAtLeast();
    EncodeNegatedVar(st4, "a", ClashDeclared);
    EncodeNegatedVar(st5, "b", ClashDeclared);
    ClashTail();
    ConstraintStep(ClashDeclaredState, ClashDeclared, AtLeast(1, ["a", "b"]), 2, [ClashNotA] + ([ClashNotB] + []),
                   Step(5, ClashAtLeastState));
    ConstraintStep(st4, ClashDeclared, Not(VarRef("a")), 3, [ClashNotB] + [], Step(-1, st4));
    ConstraintStep(st5, ClashDeclared, Not(VarRef("b")), 4, [], Step(-2, st5));
    assert ClashAtLeastState.clauses + [[5]] + [[-1]] + [[-2]] == ClashAtLeastState.clauses + [[5], [-1], [-2]];
  }

  /** The clauses of `ClashProgram`, as `compile` emits them. */
  lemma ClashCompiles()
    ensures CompileFromAsWritten(Init, {}, ClashProgram)
      == Ok(AddClauses(ClashAtLeastState, [[5], [-1], [-2]]))
  {
    ClashDeclare();
    ClashConstraints();
  }

  /**
   * A user variable named `__neg_a` stands in for the negation helper of
   * `a`: `atleast` then builds on a variable nothing ties to `not a`, and
   * `ClashProgram`, which has no solution, compiles to clauses with a model.
   */
  lemma ReservedNameClash()
    ensures CompileFromAsWritten(Init, {}, ClashProgram).Ok?
    ensures Satisfiable(CompileFromAsWritten(Init, {}, ClashProgram).value.clauses)
    ensures !exists env: Env :: Holds(ClashProgram, env)
  {
    ClashCompiles();
    assert AddClauses(ClashAtLeastState, [[5], [-1], [-2]]).clauses == ClashClauses;
    ClashSat();
    forall env: Env ensures !Holds(ClashProgram, env) {
      ClashUnsat(env);
    }
  }

  const ClashClauses: seq<Clause> := [[4, 2], [-4, -2], [-5, -3, -4], [5, 3, 4], [5], [-1], [-2]]

  lemma ClashSat()
    ensures Sat(x => x == 4 || x == 5, ClashClauses)
  {
    var cs := ClashClauses;
    var a: Assignment := x => x == 4 || x == 5;
    assert SatClause(a, cs[0]) by { assert Val(a, cs[0][0]); }
    assert SatClause(a, cs[1]) by { assert Val(a, cs[1][1]); }
    assert SatClause(a, cs[2]) by { assert Val(a, cs[2][1]); }
    assert SatClause(a, cs[3]) by { assert Val(a, cs[3][0]); }
    assert SatClause(a, cs[4]) by { assert Val(a, cs[4][0]); }
    assert SatClause(a, cs[5]) by { assert Val(a, cs[5][0]); }
    assert SatClause(a, cs[6]) by { assert Val(a, cs[6][0]); }
  }

  lemma ClashUnsat(env: Env)
    ensures !Holds(ClashProgram, env)
  {
    var ss := ClashProgram;
    if env("a") {
      assert !Eval(ss[2].expr, env);
    } else if env("b") {
      assert !Eval(ss[3].expr, env);
    } else {
      assert ["a", "b"][1..] == ["b"] && ["b"][1..] == [];
      assert !Eval(ss[1].expr, env);
    }
  }

  /** `compile` with declared `__` names rejected, the evidently intended guard. */
  function CompileChecked(ss: seq<Stmt>): (r: Result<Compiled, CompileError>)
    ensures r.Ok? <==> UserNames(ss) && CompileFrom(Init, {}, ss).Ok?
    ensures !UserNames(ss) ==> r == Err(ReservedName)
  {
    if !UserNames(ss) then Err(ReservedName) else Compile(ss)
  }

  /** Whatever the guarded compiler accepts, it compiles to equisatisfiable clauses. */
  lemma CompileCheckedEquisatisfiable(ss: seq<Stmt>)
    requires Supported(ss) && CompileChecked(ss).Ok?
    ensures Satisfiable(CompileFrom(Init, {}, ss).value.clauses) <==> exists env: Env :: Holds(ss, env)
  {
    CompileEquisatisfiable(ss);
  }

  // ---------------------------------------------------------------------
  // Cardinality below a connective

  /** A clause list holding both unit clauses `[l]` and `[-l]` has no model. */
  lemma UnitClash(cs: seq<Clause>, l: int)
    requires l != 0 && [l] in cs && [-l] in cs
    ensures !Satisfiable(cs)
  {
    forall a: Assignment ensures !Sat(a, cs) {
      var i :| 0 <= i < |cs| && cs[i] == [l];
      var j :| 0 <= j < |cs| && cs[j] == [-l];
      assert Val(a, -l) == !Val(a, l);
      if Val(a, l) {
        assert !SatClause(a, cs[j]) by { assert forall t :: 0 <= t < |cs[j]| ==> cs[j][t] == -l; }
      } else {
        assert !SatClause(a, cs[i]) by { assert forall t :: 0 <= t < |cs[i]| ==> cs[i][t] == l; }
      }
    }
  }

  /** `var bool: a, b; constraint not atmost(1, [a, b]); constraint not b;` */
  const PairProgram := [VarDecl(["a", "b"], 1), Constraint(Not(AtMost(1, ["a", "b"])), 2),
                        Constraint(Not(VarRef("b")), 3)]

  const PairDeclared := {"a", "b"}

  /** `a` and `b` get ids 1 and 2, the pairwise aux 3. */
  const PairState := CState(map["a" := 1, "b" := 2], 4, [[-3, -1, -2], [3, 1, 2]])

  const PairClauses: seq<Clause> := [[-3, -1, -2], [3, 1, 2], [-3], [-2]]

  lemma PairDeclare()
    ensures Declare(Init, {}, ["a", "b"], 1) == Ok((CState(PairState.vars, 3, []), PairDeclared))
  {
    var names := ["a", "b"];
    assert names[1..] == ["b"] && names[1..][1..] == [];
    var st1 := CState(map["a" := 1], 2, []);
    assert "b" != "a";
    assert VarId(Init, "a").st == st1;
    assert VarId(st1, "b").st == CState(PairState.vars, 3, []);
    assert {} + {"a"} + {"b"} == PairDeclared;
  }

  /** `atmost(1, [a, b])` takes the pairwise branch: one forbidding clause and the backward clause. */
  lemma PairAtMost()
    ensures AtMostNames(CState(PairState.vars, 3, []), 1, ["a", "b"], PairDeclared) == Ok(Step(3, PairState))
  {
    var st := CState(PairState.vars, 3, []);
    assert LookupAll(st, ["a", "b"], PairDeclared) == Ok(Lits([1, 2], st)) by {
      assert ["a", "b"][1..] == ["b"] && ["b"][1..] == [];
      assert VarId(st, "a") == Step(1, st);
      assert VarId(st, "b") == Step(2, st);
      assert LookupAll(st, [], PairDeclared) == Ok(Lits([], st));
      assert LookupAll(st, ["b"], PairDeclared).value.lits == [2] + [];
      assert [1] + [2] == [1, 2] && [2] + [] == [2];
    }
    assert Comb([1, 2], 2) == [[1, 2]] by {
      assert [1, 2][1..] == [2] && [2][1..] == [];
      assert Comb([2], 1) == [[2]];
      assert Comb([2], 2) == [];
    }
    assert ForbidClauses(3, [[1, 2]]) == [[-3, -1, -2]] by {
      assert Negs([1, 2]) == [-1, -2];
      assert ForbidClauses(3, [[1, 2]])[0] == [-3] + [-1, -2];
      assert [-3] + [-1, -2] == [-3, -1, -2];
    }
    assert PairwiseClauses(3, [1, 2], 2) == [[-3, -1, -2], [3, 1, 2]] by {
      assert [3] + [1, 2] == [3, 1, 2];
    }
    assert [] + [[-3, -1, -2], [3, 1, 2]] == PairState.clauses;
    assert Pairwise(st, 1, [1, 2]) == Ok(Step(3, PairState));
  }

  /** The clauses of `PairProgram`, as `compile` emits them. */
  lemma PairCompiles()
    ensures CompileFromAsWritten(Init, {}, PairProgram) == Ok(AddClauses(PairState, [[-3], [-2]]))
  {
    PairDeclare();
    PairAtMost();
    var st0 := CState(PairState.vars, 3, []);
    var c1 := PairProgram[1];
    var c2 := PairProgram[2];
    assert PairProgram[1..] == [c1] + ([c2] + []);
    assert EncodeAsWritten(st0, c1.expr, PairDeclared) == Ok(Step(-3, PairState));
    var st1 := AddClauses(PairState, [[-3]]);
    var st2 := AddClauses(st1, [[-2]]);
    ConstraintStep(st0, PairDeclared, c1.expr, 2, [c2] + [], Step(-3, PairState));
    EncodeNegatedVar(st1, "b", PairDeclared);
    ConstraintStep(st1, PairDeclared, c2.expr, 3, [], Step(-2, st1));
    assert PairState.clauses + [[-3]] + [[-2]] == PairState.clauses + [[-3], [-2]];
  }

  lemma PairSat()
    ensures Sat(x => x == 1, PairClauses)
  {
    var cs := PairClauses;
    var a: Assignment := x => x == 1;
    assert SatClause(a, cs[0]) by { assert Val(a, cs[0][0]); }
    assert SatClause(a, cs[1]) by { assert Val(a, cs[1][1]); }
    assert SatClause(a, cs[2]) by { assert Val(a, cs[2][0]); }
    assert SatClause(a, cs[3]) by { assert Val(a, cs[3][0]); }
  }

  lemma PairUnsat(env: Env)
    ensures !Holds(PairProgram, env)
  {
    var ss := PairProgram;
    if env("b") {
      assert !Eval(ss[2].expr, env);
    } else {
      assert ["a", "b"][1..] == ["b"] && ["b"][1..] == [];
      assert !Eval(ss[1].expr, env);
    }
  }

  /**
   * The pairwise encoding only forces its aux to false when no literal is
   * true, so `not atmost(1, [a, b])` is met by `a` alone: `PairProgram`,
   * which has no solution, compiles to clauses with a model.
   */
  lemma NegatedPairwiseClash()
    ensures CompileFromAsWritten(Init, {}, PairProgram).Ok?
    ensures Satisfiable(CompileFromAsWritten(Init, {}, PairProgram).value.clauses)
    ensures !exists env: Env :: Holds(PairProgram, env)
  {
    PairCompiles();
    assert AddClauses(PairState, [[-3], [-2]]).clauses == PairClauses;
    PairSat();
    forall env: Env ensures !Holds(PairProgram, env) {
      PairUnsat(env);
    }
  }

  /** `var bool: names; constraint not atmost(k, names);` */
  function CounterProgram(k: int, names: seq<string>): seq<Stmt> {
    [VarDecl(names, 1), Constraint(Not(AtMost(k, names)), 2)]
  }

  /** A declaration maps every declared name and never lowers the counter. */
  lemma {:induction false} DeclareNext(st: CState, declared: set<string>, names: seq<string>, line: int)
    requires DeclaredIn(st, declared) && Declare(st, declared, names, line).Ok?
    ensures Declare(st, declared, names, line).value.0.next >= st.next
    ensures DeclaredIn(Declare(st, declared, names, line).value.0, Declare(st, declared, names, line).value.1)
    decreases |names|
  {
    if |names| > 0 {
      DeclareNext(VarId(st, names[0]).st, declared + {names[0]}, names[1..], line);
    }
  }

  lemma {:induction false} CountAllTrue(vs: seq<string>)
    ensures Count(vs, _ => true) == |vs|
    decreases |vs|
  {
    if |vs| > 0 {
      CountAllTrue(vs[1..]);
    }
  }

  /**
   * The sequential counter pins its aux true and enforces the bound
   * whatever the aux, so `not atmost(k, names)` over more than ten
   * distinct names, with 1 < k < n, compiles to the unit clauses `[x]`
   * and `[-x]`: the clauses have no model, though making every name true
   * satisfies the program.
   */
  lemma NegatedCounterClash(k: int, names: seq<string>)
    requires Distinct(names) && |names| > 10 && 1 < k < |names|
    ensures CompileFromAsWritten(Init, {}, CounterProgram(k, names)).Ok?
    ensures !Satisfiable(CompileFromAsWritten(Init, {}, CounterProgram(k, names)).value.clauses)
    ensures Holds(CounterProgram(k, names), _ => true)
  {
    var ss := CounterProgram(k, names);
    DeclareOk(Init, {}, names, 1);
    DeclareNext(Init, {}, names, 1);
    var d := Declare(Init, {}, names, 1).value;
    var x := d.0.next + |names| * k;
    CounterEncode(d.0, d.1, k, names);
    var r := EncodeAsWritten(d.0, ss[1].expr, d.1).value;
    assert ss[1..] == [ss[1]] + [];
    ConstraintStep(d.0, d.1, ss[1].expr, 2, [], r);
    var fin := AddClauses(r.st, [[-x]]);
    assert CompileFromAsWritten(Init, {}, ss) == Ok(fin);
    assert fin.clauses[|fin.clauses| - 2] == [x] && fin.clauses[|fin.clauses| - 1] == [-x];
    UnitClash(fin.clauses, x);
    CountAllTrue(names);
  }

  /** `not atmost(k, names)` on the counter branch: the negated pinned aux, after the unit clause pinning it. */
  lemma CounterEncode(st: CState, declared: set<string>, k: int, names: seq<string>)
    requires DeclaredIn(st, declared) && st.next >= 1
    requires (forall i :: 0 <= i < |names| ==> names[i] in declared) && |names| > 10 && 1 < k < |names|
    ensures var r := EncodeAsWritten(st, Not(AtMost(k, names)), declared);
      var x := st.next + |names| * k;
      r.Ok? && r.value.lit == -x && x > 0 && |r.value.st.clauses| > 0 && r.value.st.clauses[|r.value.st.clauses| - 1] == [x]
  {
    var r := LookupAll(st, names, declared).value;
    LookupAllGood(st, names, declared);
    assert |names| * k > 0 by { assert |names| * k >= |names|; }
    assert AtMostLits(r.st, k, r.lits) == SequentialCounter(r.st, k, r.lits);
  }

  /** The two gaps above are the programs `Supported` rules out; the guard rejects them. */
  function CompileGuarded(ss: seq<Stmt>): (r: Result<Compiled, CompileError>)
    ensures r.Ok? <==> Supported(ss) && UserNames(ss) && CompileFrom(Init, {}, ss).Ok?
    ensures !Supported(ss) ==> r == Err(CardinalityUnderGate)
    ensures Supported(ss) ==> r == CompileChecked(ss)
  {
    if !Supported(ss) then Err(CardinalityUnderGate) else CompileChecked(ss)
  }

  /** Whatever the fully guarded compiler accepts, it compiles to equisatisfiable clauses. */
  lemma CompileGuardedEquisatisfiable(ss: seq<Stmt>)
    requires CompileGuarded(ss).Ok?
    ensures Satisfiable(CompileFrom(Init, {}, ss).value.clauses) <==> exists env: Env :: Holds(ss, env)
  {
    CompileCheckedEquisatisfiable(ss);
  }

  /** The guard rejects both counterexamples. */
  lemma GuardRejects(k: int, names: seq<string>)
    ensures CompileGuarded(PairProgram) == Err(CardinalityUnderGate)
    ensures CompileGuarded(CounterProgram(k, names)) == Err(CardinalityUnderGate)
  {
    assert !GateOnly(PairProgram[1].expr) && !IsCardinality(PairProgram[1].expr);
    assert !GateOnly(CounterProgram(k, names)[1].expr);
  }
}

=== FILE: gates.dfy ===
/**
 * The Tseitin clauses `CNFCompiler._encode` emits for each Boolean gate,
 * in emission order, and the biconditional each set of clauses enforces
 * between the gate's auxiliary variable and its operand literals.
 */
module Gates {
  import opened Cnf

  /** `x -> l` for every operand, in order. */
  function ImpliesEach(x: int, ls: seq<int>): (r: seq<Clause>)
    ensures |r| == |ls|
    ensures forall i :: 0 <= i < |ls| ==> r[i] == [-x, ls[i]]
  {
    seq(|ls|, i requires 0 <= i < |ls| => [-x, ls[i]])
  }

  /** `l -> x` for every operand, in order. */
  function ImpliedByEach(x: int, ls: seq<int>): (r: seq<Clause>)
    ensures |r| == |ls|
    ensures forall i :: 0 <= i < |ls| ==> r[i] == [x, -ls[i]]
  {
    seq(|ls|, i requires 0 <= i < |ls| => [x, -ls[i]])
  }

  function AndClauses(x: int, ls: seq<int>): seq<Clause> {
    ImpliesEach(x, ls) + [[x] + Negs(ls)]
  }

  function OrClauses(x: int, ls: seq<int>): seq<Clause> {
    [[-x] + ls] + ImpliedByEach(x, ls)
  }

  function ImplClauses(x: int, p: int, q: int): seq<Clause> {
    [[-x, -p, q], [x, p], [x, -q]]
  }

  function IffClauses(x: int, p: int, q: int): seq<Clause> {
    [[-x, -p, q], [-x, p, -q], [x, p, q], [x, -p, -q]]
  }

  function XorClauses(x: int, p: int, q: int): seq<Clause> {
    [[-x, p, q], [-x, -p, -q], [x, -p, q], [x, p, -q]]
  }

  function BothClauses(x: int, p: int, q: int): seq<Clause> {
    [[-x, p], [-x, q], [x, -p, -q]]
  }

  ghost predicate AnyTrue(a: Assignment, ls: seq<int>) {
    exists i :: 0 <= i < |ls| && Val(a, ls[i])
  }

  predicate NonZero(ls: seq<int>) {
    forall i :: 0 <= i < |ls| ==> ls[i] != 0
  }

  lemma ImpliesEachSat(a: Assignment, x: int, ls: seq<int>)
    requires x != 0 && NonZero(ls)
    ensures Sat(a, ImpliesEach(x, ls)) <==> (Val(a, x) ==> AllTrue(a, ls))
  {
    var r := ImpliesEach(x, ls);
    forall i | 0 <= i < |ls| ensures SatClause(a, r[i]) <==> (Val(a, x) ==> Val(a, ls[i])) {
      Clause2(a, -x, ls[i]);
    }
    if !Sat(a, r) {
      var i :| 0 <= i < |r| && !SatClause(a, r[i]);
      assert !Val(a, ls[i]);
    }
  }

  lemma ImpliedByEachSat(a: Assignment, x: int, ls: seq<int>)
    requires x != 0 && NonZero(ls)
    ensures Sat(a, ImpliedByEach(x, ls)) <==> (AnyTrue(a, ls) ==> Val(a, x))
  {
    var r := ImpliedByEach(x, ls);
    forall i | 0 <= i < |ls| ensures SatClause(a, r[i]) <==> (Val(a, ls[i]) ==> Val(a, x)) {
      Clause2(a, x, -ls[i]);
    }
    if !Sat(a, r) {
      var i :| 0 <= i < |r| && !SatClause(a, r[i]);
      assert Val(a, ls[i]);
    }
    if AnyTrue(a, ls) && !Val(a, x) {
      var i :| 0 <= i < |ls| && Val(a, ls[i]);
      assert !SatClause(a, r[i]);
    }
  }

  /** The `and` clauses hold exactly when aux equals the conjunction of the operands. */
  lemma AndGate(a: Assignment, x: int, ls: seq<int>)
    requires x != 0 && NonZero(ls)
    ensures Sat(a, AndClauses(x, ls)) <==> (Val(a, x) == AllTrue(a, ls))
  {
    SatConcat(a, ImpliesEach(x, ls), [[x] + Negs(ls)]);
    ImpliesEachSat(a, x, ls);
    Sat1(a, [x] + Negs(ls));
    ClauseConcat(a, [x], Negs(ls));
    Clause1(a, x);
    NegsClause(a, ls);
  }

  /** The `or` clauses hold exactly when aux equals the disjunction of the operands. */
  lemma OrGate(a: Assignment, x: int, ls: seq<int>)
    requires x != 0 && NonZero(ls)
    ensures Sat(a, OrClauses(x, ls)) <==> (Val(a, x) == AnyTrue(a, ls))
  {
    SatConcat(a, [[-x] + ls], ImpliedByEach(x, ls));
    ImpliedByEachSat(a, x, ls);
    Sat1(a, [-x] + ls);
    ClauseConcat(a, [-x], ls);
    Clause1(a, -x);
  }

  lemma ImplGate(a: Assignment, x: int, p: int, q: int)
    requires x != 0 && p != 0 && q != 0
    ensures Sat(a, ImplClauses(x, p, q)) <==> (Val(a, x) == (!Val(a, p) || Val(a, q)))
  {
    Sat3(a, [-x, -p, q], [x, p], [x, -q]);
    Clause3(a, -x, -p, q);
    Clause2(a, x, p);
    Clause2(a, x, -q);
  }

  lemma IffGate(a: Assignment, x: int, p: int, q: int)
    requires x != 0 && p != 0 && q != 0
    ensures Sat(a, IffClauses(x, p, q)) <==> (Val(a, x) == (Val(a, p) == Val(a, q)))
  {
    Sat4(a, [-x, -p, q], [-x, p, -q], [x, p, q], [x, -p, -q]);
    Clause3(a, -x, -p, q);
    Clause3(a, -x, p, -q);
    Clause3(a, x, p, q);
    Clause3(a, x, -p, -q);
  }

  lemma XorGate(a: Assignment, x: int, p: int, q: int)
    requires x != 0 && p != 0 && q != 0
    ensures Sat(a, XorClauses(x, p, q)) <==> (Val(a, x) == (Val(a, p) != Val(a, q)))
  {
    Sat4(a, [-x, p, q], [-x, -p, -q], [x, -p, q], [x, p, -q]);
    Clause3(a, -x, p, q);
    Clause3(a, -x, -p, -q);
    Clause3(a, x, -p, q);
    Clause3(a, x, p, -q);
  }

  lemma BothGate(a: Assignment, x: int, p: int, q: int)
    requires x != 0 && p != 0 && q != 0
    ensures Sat(a, BothClauses(x, p, q)) <==> (Val(a, x) == (Val(a, p) && Val(a, q)))
  {
    Sat3(a, [-x, p], [-x, q], [x, -p, -q]);
    Clause2(a, -x, p);
    Clause2(a, -x, q);
    Clause3(a, x, -p, -q);
  }
}

=== FILE: helpers.dfy ===
/**
 * The display helpers of the benchmark suite: `format_time`,
 * `format_number`, `format_memory`, `safe_divide` and `truncate_string`.
 *
 * Floating-point values are exact reals here. Python's fixed-point
 * rendering `f"{x:.Nf}"` rounds the exact value half to even, which
 * `Fixed` restates; the rounding of the double arithmetic before it
 * (`seconds * 1000`, `kb / 1024`) is not modelled.
 */
module Helpers {
  import opened Outcomes
  import opened Text

  // ---------------------------------------------------------------- rounding

  function Pow10(p: nat): (r: nat)
    ensures r >= 1
  {
    if p == 0 then 1 else 10 * Pow10(p - 1)
  }

  function Abs(x: real): (r: real)
    ensures r >= 0.0 && (r == x || r == -x)
  {
    if x < 0.0 then -x else x
  }

  /** Python's `round` to an integer: the nearest one, ties to the even one. */
  function RoundHalfEven(y: real): (n: int)
    ensures -0.5 <= n as real - y <= 0.5
    ensures (n as real - y == 0.5 || y - n as real == 0.5) ==> n % 2 == 0
    ensures y >= 0.0 ==> n >= 0
  {
    var f := y.Floor;
    var frac := y - f as real;
    if frac < 0.5 then f
    else if frac > 0.5 then f + 1
    else if f % 2 == 0 then f
    else f + 1
  }

  /** Exactly `width` decimal digits for `m`, zero-padded on the left. */
  function Digits(m: nat, width: nat): (s: string)
    requires m < Pow10(width)
    ensures |s| == width && AllDigits(s) && DigitsValue(s) == m
  {
    if width == 0 then ""
    else
      var s := Digits(m / 10, width - 1) + [DigitChar(m % 10)];
      assert s[..|s| - 1] == Digits(m / 10, width - 1);
      s
  }

  lemma MulNonNegative(a: real, b: real)
    requires a >= 0.0 && b >= 0.0
    ensures a * b >= 0.0
  {
  }

  lemma DivMod(n: nat, p: nat)
    requires p >= 1
    ensures 0 <= n % p < p && n / p >= 0 && (n / p) * p + n % p == n
  {
  }

  /** `|x|` in units of the last printed place, rounded half to even. */
  function Scaled(x: real, places: nat): (n: nat)
  {
    var y := Abs(x) * Pow10(places) as real;
    MulNonNegative(Abs(x), Pow10(places) as real);
    RoundHalfEven(y)
  }

  /** `f"{x:.{places}f}"`: sign, whole digits, a point, `places` digits. */
  function Fixed(x: real, places: nat): (s: string)
    requires places >= 1
  {
    var n := Scaled(x, places);
    var p := Pow10(places);
    DivMod(n, p);
    Render(x < 0.0, n / p, n % p, places)
  }

  /** `[-]whole.frac` with the fraction zero-padded to `places` digits. */
  function Render(negative: bool, whole: nat, frac: nat, places: nat): (s: string)
    requires places >= 1 && frac < Pow10(places)
  {
    (if negative then "-" else "") + NatToString(whole) + "." + Digits(frac, places)
  }

  /** A rendered number ends in a digit. */
  lemma RenderLastDigit(negative: bool, whole: nat, frac: nat, places: nat)
    requires places >= 1 && frac < Pow10(places)
    ensures var s := Render(negative, whole, frac, places); |s| > 0 && IsDigit(s[|s| - 1])
  {
    var d := Digits(frac, places);
    var s := Render(negative, whole, frac, places);
    assert s[|s| - 1] == d[|d| - 1];
  }

  lemma FixedLastDigit(x: real, places: nat)
    requires places >= 1
    ensures var s := Fixed(x, places); |s| > 0 && IsDigit(s[|s| - 1])
  {
    var n := Scaled(x, places);
    var p := Pow10(places);
    DivMod(n, p);
    RenderLastDigit(x < 0.0, n / p, n % p, places);
  }

  /** A number read from `[-]w.f`: `whole + frac / 10^places`, `places` being `|f|`. */
  datatype Reading = Reading(negative: bool, whole: nat, frac: nat, places: nat)

  /** Reads back a string of the shape `Fixed` renders. */
  function ReadFixed(s: string): (r: Option<Reading>)
  {
    if |s| > 0 && s[0] == '-' then Negated(ReadUnsigned(s[1..])) else ReadUnsigned(s)
  }

  function Negated(r: Option<Reading>): Option<Reading> {
    match r
    case None => None
    case Some(u) => Some(u.(negative := true))
  }

  /** Reads `w.f` for a non-empty run of digits `w` and a run of digits `f`. */
  function ReadUnsigned(body: string): (r: Option<Reading>)
  {
    var i := IndexOfChar(body, '.');
    if i < |body| && 0 < i && AllDigits(body[..i]) && AllDigits(body[i + 1..]) then
      Some(Reading(false, DigitsValue(body[..i]), DigitsValue(body[i + 1..]), |body| - i - 1))
    else None
  }

  lemma NoPoint(w: string)
    requires AllDigits(w)
    ensures '.' !in w
  {
    forall j | 0 <= j < |w| ensures w[j] != '.' { assert IsDigit(w[j]); }
  }

  lemma ReadUnsignedDigits(w: string, f: string)
    requires |w| > 0 && AllDigits(w) && AllDigits(f)
    ensures ReadUnsigned(w + "." + f) == Some(Reading(false, DigitsValue(w), DigitsValue(f), |f|))
  {
    var body := w + "." + f;
    NoPoint(w);
    IndexOfCharAfter(w, '.', f);
    assert body[..|w|] == w && body[|w| + 1..] == f;
  }

  /** Reading a rendering gives back its sign, whole part, fraction and places. */
  lemma RenderReadsBack(negative: bool, whole: nat, frac: nat, places: nat)
    requires places >= 1 && frac < Pow10(places)
    ensures ReadFixed(Render(negative, whole, frac, places)) == Some(Reading(negative, whole, frac, places))
  {
    var w := NatToString(whole);
    var f := Digits(frac, places);
    DigitsValueOfNat(whole);
    ReadUnsignedDigits(w, f);
    var body := w + "." + f;
    var s := Render(negative, whole, frac, places);
    if negative {
      assert s[0] == '-' && s[1..] == body;
    } else {
      assert s == body && s[0] == w[0] && IsDigit(w[0]);
    }
  }

  /**
   * The rendered number reads back as `|x|` in units of its last place,
   * rounded half to even, with `places` digits after the point and a
   * minus exactly when `x` is negative.
   */
  lemma FixedReadsBack(x: real, places: nat)
    requires places >= 1
    ensures ReadFixed(Fixed(x, places)).Some?
    ensures ReadFixed(Fixed(x, places)).value.places == places
    ensures ReadFixed(Fixed(x, places)).value.negative <==> x < 0.0
    ensures var r := ReadFixed(Fixed(x, places)).value; var n := Scaled(x, places);
      r.whole == n / Pow10(places) && r.frac == n % Pow10(places)
  {
    var n := Scaled(x, places);
    var p := Pow10(places);
    DivMod(n, p);
    RenderReadsBack(x < 0.0, n / p, n % p, places);
  }

  // ---------------------------------------------------------------- format_time

  /** The unit `format_time` picks, with the parts it prints. */
  datatype Duration =
    | Millis(ms: real)
    | Secs(s: real)
    | MinSecs(mins: int, secs: real)
    | HoursMins(hours: int, minutes: int)

  /**
   * The unit choice by the thresholds 1, 60 and 3600 seconds; the parts
   * put back together give the duration (hours and minutes to the minute).
   */
  function TimeUnit(seconds: real): (d: Duration)
    ensures d.Millis? <==> seconds < 1.0
    ensures d.Secs? <==> 1.0 <= seconds < 60.0
    ensures d.MinSecs? <==> 60.0 <= seconds < 3600.0
    ensures d.HoursMins? <==> seconds >= 3600.0
    ensures d.Millis? ==> d.ms == seconds * 1000.0
    ensures d.Secs? ==> d.s == seconds
    ensures d.MinSecs? ==>
      (1 <= d.mins < 60 && 0.0 <= d.secs < 60.0 && (d.mins * 60) as real + d.secs == seconds)
    ensures d.HoursMins? ==>
      (&& d.hours >= 1 && 0 <= d.minutes < 60
       && ((d.hours * 60 + d.minutes) * 60) as real <= seconds
       && seconds < ((d.hours * 60 + d.minutes + 1) * 60) as real)
  {
    if seconds < 1.0 then Millis(seconds * 1000.0)
    else if seconds < 60.0 then Secs(seconds)
    else if seconds < 3600.0 then
      var m := (seconds / 60.0).Floor;
      MinSecs(m, seconds - (m * 60) as real)
    else
      var h := (seconds / 3600.0).Floor;
      var rest := seconds - (h * 3600) as real;
      HoursMins(h, (rest / 60.0).Floor)
  }

  function RenderDuration(d: Duration): (s: string)
  {
    match d
    case Millis(ms) => Fixed(ms, 2) + "ms"
    case Secs(x) => Fixed(x, 2) + "s"
    case MinSecs(m, x) => IntToString(m) + "m " + Fixed(x, 1) + "s"
    case HoursMins(h, m) => IntToString(h) + "h " + IntToString(m) + "m"
  }

  /** `format_time(seconds)`. */
  function FormatTime(seconds: real): (s: string)
  {
    RenderDuration(TimeUnit(seconds))
  }

  /** Only the `ms` unit ends in `ms`; only the hour unit ends in `m`. */
  lemma FormatTimeSuffix(seconds: real)
    ensures EndsWith(FormatTime(seconds), "ms") <==> seconds < 1.0
    ensures EndsWith(FormatTime(seconds), "m") <==> seconds >= 3600.0
  {
    match TimeUnit(seconds)
    case Millis(ms) =>
      FixedLastDigit(ms, 2);
      Suffix(Fixed(ms, 2), "ms");
    case Secs(x) =>
      FixedLastDigit(x, 2);
      Suffix(Fixed(x, 2), "s");
    case MinSecs(m, x) =>
      FixedLastDigit(x, 1);
      Suffix(IntToString(m) + "m " + Fixed(x, 1), "s");
    case HoursMins(h, m) =>
      NatToStringDigits(m);
      Suffix(IntToString(h) + "h " + IntToString(m), "m");
  }

  /** How `body + unit` ends, for the units `format_time` appends. */
  lemma Suffix(body: string, unit: string)
    requires unit in {"ms", "s", "m"}
    requires |body| > 0 && (IsDigit(body[|body| - 1]) || unit == "ms")
    ensures EndsWith(body + unit, "ms") <==> unit == "ms"
    ensures EndsWith(body + unit, "m") <==> unit == "m"
  {
    var s := body + unit;
    assert s[|s| - 1] == unit[|unit| - 1];
    if unit != "ms" {
      assert s[|s| - 2] == body[|body| - 1];
    } else {
      assert s[|s| - 2..] == "ms";
    }
  }

  // ---------------------------------------------------------------- numbers

  /** What the number helpers are given: `None`, an int, a float, NaN or a string. */
  datatype Number = Missing | Whole(i: int) | Float(x: real) | NaN | Numeral(s: string)

  /** `int(x)` for a float: truncation toward zero. */
  function Trunc(x: real): (i: int)
    ensures Abs(i as real) <= Abs(x) < Abs(i as real) + 1.0
    ensures i != 0 ==> (i < 0 <==> x < 0.0)
  {
    if x >= 0.0 then x.Floor else -((-x).Floor)
  }

  /** `int(num)`; `None` stands for the `ValueError`/`TypeError` the helpers catch. */
  function ToInt(n: Number): (r: Option<int>)
    ensures n.Whole? ==> r == Some(n.i)
    ensures n.Missing? || n.NaN? ==> r.None?
  {
    match n
    case Missing => None
    case NaN => None
    case Whole(i) => Some(i)
    case Float(x) => Some(Trunc(x))
    case Numeral(s) => ParseInt(s)
  }

  /** Digits grouped in threes from the right, separated by commas. */
  function Group(d: string): (r: string)
    decreases |d|
  {
    if |d| <= 3 then d else Group(d[..|d| - 3]) + "," + d[|d| - 3..]
  }

  /** The string with its commas deleted. */
  function Ungroup(s: string): (r: string)
  {
    if |s| == 0 then "" else (if s[0] == ',' then "" else [s[0]]) + Ungroup(s[1..])
  }

  lemma {:induction false} UngroupConcat(a: string, b: string)
    ensures Ungroup(a + b) == Ungroup(a) + Ungroup(b)
    decreases |a|
  {
    if |a| > 0 {
      assert (a + b)[0] == a[0] && (a + b)[1..] == a[1..] + b;
      UngroupConcat(a[1..], b);
    } else {
      assert a + b == b;
    }
  }

  lemma {:induction false} UngroupNoComma(s: string)
    requires ',' !in s
    ensures Ungroup(s) == s
    decreases |s|
  {
    if |s| > 0 {
      assert s[0] != ',';
      UngroupNoComma(s[1..]);
    }
  }

  /** The pieces `Group` splits a comma-free string into are comma-free. */
  lemma GroupPieces(d: string)
    requires ',' !in d && |d| > 3
    ensures ',' !in d[..|d| - 3] && ',' !in d[|d| - 3..]
  {
    var p := d[..|d| - 3];
    var t := d[|d| - 3..];
    forall j | 0 <= j < |p| ensures p[j] != ',' { assert p[j] == d[j]; }
    forall j | 0 <= j < |t| ensures t[j] != ',' { assert t[j] == d[|d| - 3 + j]; }
  }

  /** Grouping only inserts commas: deleting them gives the digits back. */
  lemma {:induction false} GroupUngroup(d: string)
    requires ',' !in d
    ensures Ungroup(Group(d)) == d
    decreases |d|
  {
    if |d| <= 3 {
      UngroupNoComma(d);
    } else {
      var p := d[..|d| - 3];
      var t := d[|d| - 3..];
      GroupPieces(d);
      GroupUngroup(p);
      var g := Group(p);
      UngroupConcat(g + ",", t);
      UngroupConcat(g, ",");
      UngroupNoComma(t);
      assert p + t == d;
    }
  }

  /** One comma per full group of three after the first group. */
  lemma {:induction false} GroupLength(d: string)
    requires |d| > 0
    ensures |Group(d)| == |d| + (|d| - 1) / 3
    decreases |d|
  {
    if |d| > 3 {
      GroupLength(d[..|d| - 3]);
    }
  }

  /** Counting from the right, every fourth character of a grouping is a comma, the rest not. */
  lemma {:induction false} GroupCommas(d: string)
    requires ',' !in d
    ensures forall i :: 0 <= i < |Group(d)| ==> (Group(d)[i] == ',' <==> (|Group(d)| - i) % 4 == 0)
    decreases |d|
  {
    var r := Group(d);
    if |d| > 3 {
      var p := d[..|d| - 3];
      var t := d[|d| - 3..];
      GroupPieces(d);
      GroupCommas(p);
      var g := Group(p);
      assert r == g + "," + t;
      forall i | 0 <= i < |r| ensures r[i] == ',' <==> (|r| - i) % 4 == 0 {
        if i < |g| {
          assert r[i] == g[i];
          assert |r| - i == (|g| - i) + 4;
          ShiftMod4(|g| - i);
        } else if i == |g| {
          assert |r| - i == 4;
        } else {
          assert r[i] == t[i - |g| - 1] && r[i] in t;
          NotMultipleOf4(|r| - i);
        }
      }
    } else {
      forall i | 0 <= i < |r| ensures r[i] == ',' <==> (|r| - i) % 4 == 0 {
        assert r[i] in d;
        NotMultipleOf4(|r| - i);
      }
    }
  }

  lemma ShiftMod4(k: int)
    ensures (k + 4) % 4 == k % 4
  {
  }

  lemma NotMultipleOf4(k: int)
    requires 1 <= k <= 3
    ensures k % 4 != 0
  {
  }

  /** `f"{i:,}"`. */
  function Grouped(i: int): (s: string)
  {
    if i < 0 then "-" + Group(NatToString(-i)) else Group(NatToString(i))
  }

  /** `format_number(num)`: `N/A` for `None`, NaN and what `int()` rejects. */
  function FormatNumber(n: Number): (s: string)
    ensures ToInt(n).None? <==> s == "N/A"
  {
    match ToInt(n)
    case None => "N/A"
    case Some(i) =>
      GroupedNotNA(i);
      Grouped(i)
  }

  /** Deleting the commas of `f"{i:,}"` gives `str(i)`. */
  lemma GroupedDigits(i: int)
    ensures Ungroup(Grouped(i)) == IntToString(i)
  {
    var d := NatToString(if i < 0 then -i else i);
    NatToStringDigits(if i < 0 then -i else i);
    assert ',' !in d by {
      forall j | 0 <= j < |d| ensures d[j] != ',' { assert IsDigit(d[j]); }
    }
    GroupUngroup(d);
    if i < 0 {
      UngroupConcat("-", Group(d));
    }
  }

  lemma GroupedNotNA(i: int)
    ensures Grouped(i) != "N/A"
  {
    GroupedDigits(i);
    UngroupNoComma("N/A");
    var t := IntToString(i);
    IntToStringChars(i);
    assert t[0] != 'N';
  }

  /** Deleting the commas of `format_number(i)` gives `str(i)`. */
  lemma FormatNumberDigits(i: int)
    ensures Ungroup(FormatNumber(Whole(i))) == IntToString(i)
  {
    GroupedDigits(i);
  }

  /** A numeral reads as the integer it spells, so both format alike. */
  lemma FormatNumberNumeral(i: int)
    ensures FormatNumber(Numeral(IntToString(i))) == FormatNumber(Whole(i))
  {
    ParseIntOfString(i);
  }

  // ---------------------------------------------------------------- format_memory

  /** The unit `format_memory` picks for a non-zero count of kilobytes. */
  datatype Memory = Kilo(kb: int) | Mega(mb: real) | Giga(gb: real)

  /** KB below 1024, MB below 1024², GB from there on; the value is rescaled exactly. */
  function MemoryUnit(kb: int): (m: Memory)
    ensures m.Kilo? <==> kb < 1024
    ensures m.Mega? <==> 1024 <= kb < 1024 * 1024
    ensures m.Giga? <==> kb >= 1024 * 1024
    ensures m.Kilo? ==> m.kb == kb
    ensures m.Mega? ==> m.mb * 1024.0 == kb as real
    ensures m.Giga? ==> m.gb * 1048576.0 == kb as real
  {
    if kb < 1024 then Kilo(kb)
    else if kb < 1024 * 1024 then Mega(kb as real / 1024.0)
    else Giga(kb as real / 1048576.0)
  }

  function RenderMemory(m: Memory): (s: string)
  {
    match m
    case Kilo(k) => IntToString(k) + " KB"
    case Mega(x) => Fixed(x, 2) + " MB"
    case Giga(x) => Fixed(x, 2) + " GB"
  }

  /** `kb == 0` in Python: true for the int and the float zero, not for a string. */
  predicate IsZero(n: Number) {
    n == Whole(0) || n == Float(0.0)
  }

  /** `format_memory(kb)`. */
  function FormatMemory(n: Number): (s: string)
  {
    if n.Missing? || IsZero(n) then "0 KB"
    else match ToInt(n)
      case None => "N/A"
      case Some(k) => RenderMemory(MemoryUnit(k))
  }

  /** `0 KB` for `None` and zero; otherwise the unit follows the integer part. */
  lemma FormatMemoryUnits(n: Number)
    ensures n.Missing? || IsZero(n) ==> FormatMemory(n) == "0 KB"
    ensures n.NaN? ==> FormatMemory(n) == "N/A"
    ensures ToInt(n).Some? && !IsZero(n) ==>
      var k := ToInt(n).value;
      && (k < 1024 ==> FormatMemory(n) == IntToString(k) + " KB")
      && (k >= 1024 ==> EndsWith(FormatMemory(n), if k < 1048576 then " MB" else " GB"))
  {
    if ToInt(n).Some? && !IsZero(n) {
      var s := FormatMemory(n);
      assert EndsWith(s, " MB") || EndsWith(s, " GB") || MemoryUnit(ToInt(n).value).Kilo?;
    }
  }

  // ---------------------------------------------------------------- safe_divide

  /** `safe_divide`: the default for a zero denominator, the quotient otherwise. */
  function SafeDivide(numerator: real, denominator: real, default: real): (r: real)
    ensures denominator == 0.0 ==> r == default
    ensures denominator != 0.0 ==> r * denominator == numerator
  {
    if denominator == 0.0 then default else numerator / denominator
  }

  // ---------------------------------------------------------------- truncate_string

  /** The end of Python's slice `s[:k]` for a string of length `len`. */
  function SliceEnd(len: nat, k: int): (e: nat)
    ensures e <= len
    ensures 0 <= k <= len ==> e == k
  {
    if k >= 0 then (if k < len then k else len)
    else if len + k > 0 then len + k else 0
  }

  /** `truncate_string(s, max_length)`. */
  function Truncate(s: string, maxLength: int): (r: string)
    ensures |s| <= maxLength ==> r == s
    ensures maxLength >= 1 ==> (r == s <==> |s| <= maxLength)
    ensures |s| > maxLength ==> EndsWith(r, "...") && r[..|r| - 3] <= s
    ensures |s| > maxLength >= 3 ==> |r| == maxLength && r == s[..maxLength - 3] + "..."
  {
    if |s| <= maxLength then s
    else
      var r := s[..SliceEnd(|s|, maxLength - 3)] + "...";
      assert r[..|r| - 3] == s[..SliceEnd(|s|, maxLength - 3)];
      assert maxLength >= 1 ==> |r| != |s|;
      r
  }

  /**
   * With no room at all, `s[:-3] + "..."` gives back any string that
   * already ends in an ellipsis, so the equivalence above needs a length
   * of at least one.
   */
  lemma TruncateZeroKeepsEllipsis(s: string)
    requires EndsWith(s, "...")
    ensures Truncate(s, 0) == s
  {
    assert s[..|s| - 3] + s[|s| - 3..] == s;
  }

  /** With room for the ellipsis, truncating twice is truncating once. */
  lemma TruncateIdempotent(s: string, maxLength: int)
    requires maxLength >= 3
    ensures Truncate(Truncate(s, maxLength), maxLength) == Truncate(s, maxLength)
  {
  }
}

=== FILE: lexer.dfy ===
/**
 * The tokenizer of the SAT modelling language (`tokenize` in
 * sat_modeler.py). The Python loop over the index `i` is modelled as
 * recursion on `i`, carrying the current line and column.
 */
module Lexer {
  import opened Outcomes
  import opened Text

  datatype TokenKind =
    | Ident | Number
    | LParen | RParen | LBrack | RBrack | Semi | Colon | Comma
    | NotOp | AndOp | OrOp | ImplOp | IffOp
    | KwVar | KwBool | KwConstraint | KwTrue | KwFalse | KwXor
    | KwAtmost | KwAtleast | KwExactly | KwSolve | KwSatisfy
    | EndOfInput

  datatype Token = Token(kind: TokenKind, value: string, line: int, col: int)

  /** The `SyntaxError` raised for a character that starts no token. */
  datatype LexError = UnexpectedChar(ch: char, line: int, col: int)

  /** The keyword table, looked up with the lower-cased word. */
  const Keywords: seq<(string, TokenKind)> := [
    ("var", KwVar), ("bool", KwBool), ("constraint", KwConstraint),
    ("true", KwTrue), ("false", KwFalse), ("not", NotOp), ("and", AndOp),
    ("or", OrOp), ("xor", KwXor), ("atmost", KwAtmost), ("atleast", KwAtleast),
    ("exactly", KwExactly), ("solve", KwSolve), ("satisfy", KwSatisfy)]

  /** Dictionary lookup in an association list. */
  function Lookup(table: seq<(string, TokenKind)>, w: string): Option<TokenKind> {
    if |table| == 0 then None
    else if table[0].0 == w then Some(table[0].1)
    else Lookup(table[1..], w)
  }

  /** The lookup finds the first entry for `w`, and fails exactly when there is none. */
  lemma {:induction false} LookupFinds(table: seq<(string, TokenKind)>, w: string)
    ensures Lookup(table, w).Some? ==>
      exists i :: 0 <= i < |table| && table[i] == (w, Lookup(table, w).value) && forall j :: 0 <= j < i ==> table[j].0 != w
    ensures Lookup(table, w).None? <==> forall i :: 0 <= i < |table| ==> table[i].0 != w
  {
    if |table| > 0 && table[0].0 != w {
      LookupFinds(table[1..], w);
      if Lookup(table, w).Some? {
        var i :| 0 <= i < |table[1..]| && table[1..][i] == (w, Lookup(table, w).value)
          && forall j :: 0 <= j < i ==> table[1..][j].0 != w;
        assert table[i + 1] == (w, Lookup(table, w).value);
      }
    } else if |table| > 0 {
      assert table[0] == (w, Lookup(table, w).value);
    }
  }

  function KeywordKind(w: string): Option<TokenKind> {
    Lookup(Keywords, w)
  }

  /** The kind of a word token: a keyword in any letter case, otherwise an identifier. */
  function WordKind(w: string): TokenKind {
    match KeywordKind(Lower(w))
    case Some(k) => k
    case None => Ident
  }

  /** No word is lexed as the end marker. */
  lemma WordKindNotEnd(w: string)
    ensures WordKind(w) != EndOfInput
  {
    LookupFinds(Keywords, Lower(w));
  }

  /** The one-character tokens. */
  function SimpleKind(c: char): Option<TokenKind> {
    match c
    case '(' => Some(LParen)
    case ')' => Some(RParen)
    case '[' => Some(LBrack)
    case ']' => Some(RBrack)
    case ';' => Some(Semi)
    case ':' => Some(Colon)
    case ',' => Some(Comma)
    case '~' => Some(NotOp)
    case '!' => Some(NotOp)
    case _ => None
  }

  predicate WordStart(c: char) { IsAlpha(c) || c == '_' }

  predicate WordChar(c: char) { IsAlnum(c) || c == '_' }

  /** An identifier or keyword spelling. */
  predicate IsWord(w: string) {
    |w| > 0 && WordStart(w[0]) && forall i :: 0 <= i < |w| ==> WordChar(w[i])
  }

  /** A non-empty run of decimal digits. */
  predicate IsDigits(w: string) {
    |w| > 0 && AllDigits(w)
  }

  /** The kind of a complete lexeme, or `None` for a string that is not one token. */
  function LexemeKind(v: string): Option<TokenKind> {
    if |v| == 2 && v[0] == '/' && v[1] == '\\' then Some(AndOp)
    else if |v| == 2 && v[0] == '\\' && v[1] == '/' then Some(OrOp)
    else if |v| == 2 && v[0] == '-' && v[1] == '>' then Some(ImplOp)
    else if |v| == 3 && v[0] == '<' && v[1] == '-' && v[2] == '>' then Some(IffOp)
    else if |v| == 1 && SimpleKind(v[0]).Some? then SimpleKind(v[0])
    else if IsDigits(v) then Some(Number)
    else if IsWord(v) then Some(WordKind(v))
    else None
  }

  /** A token other than the end marker whose text is one lexeme of its kind. */
  predicate ValidToken(t: Token) {
    t.kind != EndOfInput && LexemeKind(t.value) == Some(t.kind)
  }

  /** `(l1, c1)` comes strictly before `(l2, c2)` in reading order. */
  predicate Before(l1: int, c1: int, l2: int, c2: int) {
    l1 < l2 || (l1 == l2 && c1 < c2)
  }

  predicate NotBefore(l1: int, c1: int, l2: int, c2: int) {
    (l1 == l2 && c1 == c2) || Before(l1, c1, l2, c2)
  }

  predicate AtOrAfter(t: Token, line: int, col: int) {
    NotBefore(line, col, t.line, t.col)
  }

  /**
   * A token list as `tokenize` returns it: lexeme tokens, then exactly one
   * end marker with empty text, positions strictly increasing.
   */
  predicate WellFormed(toks: seq<Token>) {
    && |toks| > 0
    && toks[|toks| - 1].kind == EndOfInput && toks[|toks| - 1].value == ""
    && (forall i :: 0 <= i < |toks| - 1 ==> ValidToken(toks[i]))
    && (forall i, j :: 0 <= i < j < |toks| ==> Before(toks[i].line, toks[i].col, toks[j].line, toks[j].col))
  }

  /** The first index at or after `i` that does not hold a decimal digit. */
  function DigitsEnd(src: string, i: nat): (j: nat)
    requires i <= |src|
    ensures i <= j <= |src|
    ensures j < |src| ==> !IsDigit(src[j])
    decreases |src| - i
  {
    if i < |src| && IsDigit(src[i]) then DigitsEnd(src, i + 1) else i
  }

  /** The first index at or after `i` that holds no letter, digit or underscore. */
  function WordEnd(src: string, i: nat): (j: nat)
    requires i <= |src|
    ensures i <= j <= |src|
    ensures j < |src| ==> !WordChar(src[j])
    decreases |src| - i
  {
    if i < |src| && WordChar(src[i]) then WordEnd(src, i + 1) else i
  }

  /** The index of the first newline at or after `i`, or the end of the text. */
  function LineEnd(src: string, i: nat): (j: nat)
    requires i <= |src|
    ensures i <= j <= |src|
    ensures j < |src| ==> src[j] == '\n'
    decreases |src| - i
  {
    if i < |src| && src[i] != '\n' then LineEnd(src, i + 1) else i
  }

  lemma {:induction false} DigitsEndDigits(src: string, i: nat)
    requires i <= |src|
    ensures forall k :: i <= k < DigitsEnd(src, i) ==> IsDigit(src[k])
    decreases |src| - i
  {
    if i < |src| && IsDigit(src[i]) {
      DigitsEndDigits(src, i + 1);
    }
  }

  lemma {:induction false} WordEndChars(src: string, i: nat)
    requires i <= |src|
    ensures forall k :: i <= k < WordEnd(src, i) ==> WordChar(src[k])
    decreases |src| - i
  {
    if i < |src| && WordChar(src[i]) {
      WordEndChars(src, i + 1);
    }
  }

  /** A `%` or `//` comment starts at index `i`. */
  predicate CommentAt(src: string, i: nat) {
    i < |src| && (src[i] == '%' || (src[i] == '/' && i + 1 < |src| && src[i + 1] == '/'))
  }

  /** What one iteration of the `tokenize` loop does at index `i`. */
  datatype Step =
    | Skip(next: nat, nextLine: int, nextCol: int)
    | Produce(tok: Token, next: nat)
    | Stuck

  /** One iteration of the `tokenize` loop at index `i` of `src`, with the position `line`, `col`. */
  function Scan(src: string, i: nat, line: int, col: int): (st: Step)
    requires i < |src|
    ensures st.Skip? ==> i < st.next <= |src| && NotBefore(line, col, st.nextLine, st.nextCol)
    ensures st.Produce? ==> st.next == i + |st.tok.value| && i < st.next <= |src|
  {
    var ch := src[i];
    if ch == ' ' || ch == '\t' || ch == '\r' then Skip(i + 1, line, col + 1)
    else if ch == '\n' then Skip(i + 1, line + 1, 1)
    else if CommentAt(src, i) then Skip(LineEnd(src, i), line, col)
    else if ch == '/' && i + 1 < |src| && src[i + 1] == '\\' then Produce(Token(AndOp, "/\\", line, col), i + 2)
    else if ch == '\\' && i + 1 < |src| && src[i + 1] == '/' then Produce(Token(OrOp, "\\/", line, col), i + 2)
    else if ch == '-' && i + 1 < |src| && src[i + 1] == '>' then Produce(Token(ImplOp, "->", line, col), i + 2)
    else if ch == '<' && i + 2 < |src| && src[i + 1] == '-' && src[i + 2] == '>' then
      Produce(Token(IffOp, "<->", line, col), i + 3)
    else if SimpleKind(ch).Some? then Produce(Token(SimpleKind(ch).value, [ch], line, col), i + 1)
    else if IsDigit(ch) then
      var j := DigitsEnd(src, i);
      Produce(Token(Number, src[i..j], line, col), j)
    else if WordStart(ch) then
      var j := WordEnd(src, i);
      Produce(Token(WordKind(src[i..j]), src[i..j], line, col), j)
    else Stuck
  }

  /** The token `t` in front of a successful result; an error is passed on unchanged. */
  function Cons(t: Token, r: Result<seq<Token>, LexError>): Result<seq<Token>, LexError> {
    match r
    case Ok(toks) => Ok([t] + toks)
    case Err(e) => Err(e)
  }

  /**
   * The `tokenize` loop from index `i` on, at position `line`, `col`. The
   * loop body is `LexBody`; proofs reach it only through `LexEnd`,
   * `LexSkip`, `LexProduce` and `LexStuck`, since `LexAt` keeps it one
   * definition away from every mention of `Lex`.
   */
  function Lex(src: string, i: nat, line: int, col: int): Result<seq<Token>, LexError>
    requires i <= |src|
    decreases |src| - i, 3
  {
    LexAt(src, i, line, col, 1)
  }

  function LexAt(src: string, i: nat, line: int, col: int, depth: nat): Result<seq<Token>, LexError>
    requires i <= |src|
    decreases |src| - i, depth + 1
  {
    if depth == 0 then LexBody(src, i, line, col) else LexAt(src, i, line, col, depth - 1)
  }

  /**
   * One turn of the loop: at the end of the text, the end marker; a
   * comment is skipped without moving the column, every other skipped or
   * consumed character moves it by one, and a newline starts the next line
   * at column 1.
   */
  function LexBody(src: string, i: nat, line: int, col: int): Result<seq<Token>, LexError>
    requires i <= |src|
    decreases |src| - i, 0
  {
    if i == |src| then Ok([Token(EndOfInput, "", line, col)])
    else
      match Scan(src, i, line, col)
      case Skip(j, l, c) => Lex(src, j, l, c)
      case Produce(t, j) => Cons(t, Lex(src, j, line, col + |t.value|))
      case Stuck => Err(UnexpectedChar(src[i], line, col))
  }

  lemma LexUnfold(src: string, i: nat, line: int, col: int)
    requires i <= |src|
    ensures Lex(src, i, line, col) == LexBody(src, i, line, col)
  {
    assert LexAt(src, i, line, col, 1) == LexAt(src, i, line, col, 0);
  }

  lemma LexEnd(src: string, line: int, col: int)
    ensures Lex(src, |src|, line, col) == Ok([Token(EndOfInput, "", line, col)])
  {
    LexUnfold(src, |src|, line, col);
  }

  lemma LexSkip(src: string, i: nat, line: int, col: int)
    requires i < |src| && Scan(src, i, line, col).Skip?
    ensures var st := Scan(src, i, line, col); Lex(src, i, line, col) == Lex(src, st.next, st.nextLine, st.nextCol)
  {
    LexUnfold(src, i, line, col);
  }

  lemma LexProduce(src: string, i: nat, line: int, col: int)
    requires i < |src| && Scan(src, i, line, col).Produce?
    ensures var st := Scan(src, i, line, col);
      Lex(src, i, line, col) == Cons(st.tok, Lex(src, st.next, line, col + |st.tok.value|))
  {
    LexUnfold(src, i, line, col);
  }

  lemma LexStuck(src: string, i: nat, line: int, col: int)
    requires i < |src| && Scan(src, i, line, col).Stuck?
    ensures Lex(src, i, line, col) == Err(UnexpectedChar(src[i], line, col))
  {
    LexUnfold(src, i, line, col);
  }

  /** A produced token is the lexeme at index `i`, at the current position. */
  lemma ScanProduces(src: string, i: nat, line: int, col: int)
    requires i < |src| && Scan(src, i, line, col).Produce?
    ensures var st := Scan(src, i, line, col);
      ValidToken(st.tok) && st.tok.line == line && st.tok.col == col && src[i..st.next] == st.tok.value
  {
    if IsDigit(src[i]) {
      DigitsEndDigits(src, i);
    } else if WordStart(src[i]) {
      WordEndChars(src, i);
      WordKindNotEnd(src[i..WordEnd(src, i)]);
    }
  }

  /** The facts `LexWellFormed` states about `Lex(src, i, line, col)`. */
  predicate LexFacts(src: string, i: nat, line: int, col: int)
    requires i <= |src|
  {
    var r := Lex(src, i, line, col);
    && (r.Ok? ==> WellFormed(r.value) && AtOrAfter(r.value[0], line, col))
    && (r.Err? ==> NotBefore(line, col, r.error.line, r.error.col))
  }

  /**
   * Whatever the tokenizer returns is well formed and starts no earlier
   * than the starting position; an error is reported no earlier than it
   * either.
   */
  lemma {:induction false} LexWellFormed(src: string, i: nat, line: int, col: int)
    requires i <= |src|
    ensures LexFacts(src, i, line, col)
    decreases |src| - i
  {
    if i == |src| {
      LexEnd(src, line, col);
    } else {
      var st := Scan(src, i, line, col);
      if st.Skip? {
        LexWellFormed(src, st.next, st.nextLine, st.nextCol);
        LexSkip(src, i, line, col);
      } else if st.Produce? {
        LexWellFormed(src, st.next, line, col + |st.tok.value|);
        LexFactsProduce(src, i, line, col);
      } else {
        LexStuck(src, i, line, col);
      }
    }
  }

  lemma LexFactsProduce(src: string, i: nat, line: int, col: int)
    requires i < |src| && Scan(src, i, line, col).Produce?
    requires var st := Scan(src, i, line, col); LexFacts(src, st.next, line, col + |st.tok.value|)
    ensures LexFacts(src, i, line, col)
  {
    var st := Scan(src, i, line, col);
    var t := st.tok;
    ScanProduces(src, i, line, col);
    LexProduce(src, i, line, col);
    var r := Lex(src, st.next, line, col + |t.value|);
    if r.Ok? {
      ConsWellFormed(t, r.value, line, col + |t.value|);
    }
  }

  lemma ConsWellFormed(t: Token, rest: seq<Token>, line: int, col: int)
    requires ValidToken(t) && Before(t.line, t.col, line, col)
    requires WellFormed(rest) && AtOrAfter(rest[0], line, col)
    ensures WellFormed([t] + rest)
  {
    var all := [t] + rest;
    forall i, j | 0 <= i < j < |all|
      ensures Before(all[i].line, all[i].col, all[j].line, all[j].col)
    {
      if i == 0 && j > 1 {
        assert Before(rest[0].line, rest[0].col, rest[j - 1].line, rest[j - 1].col);
      }
    }
  }

  /** `tokenize`: the tokens of the whole source, starting at line 1, column 1. */
  function Tokenize(src: string): (r: Result<seq<Token>, LexError>)
    ensures r.Ok? ==> WellFormed(r.value)
    ensures r.Err? ==> NotBefore(1, 1, r.error.line, r.error.col)
  {
    LexWellFormed(src, 0, 1, 1);
    Lex(src, 0, 1, 1)
  }

  // ------------------------------------------------------------ properties

  /** A character that starts no token, where a token could start, is an error at its own position. */
  lemma StrayCharacter(src: string, i: nat, line: int, col: int)
    requires i < |src|
    requires var c := src[i]; !(c in " \t\r\n%/\\-<") && SimpleKind(c).None? && !IsDigit(c) && !WordStart(c)
    ensures Lex(src, i, line, col) == Err(UnexpectedChar(src[i], line, col))
  {
    LexStuck(src, i, line, col);
  }

  /** A `%` or `//` comment yields no token: lexing resumes at the end of its line, in the same column. */
  lemma CommentSkipped(src: string, i: nat, line: int, col: int)
    requires CommentAt(src, i)
    ensures Lex(src, i, line, col) == Lex(src, LineEnd(src, i), line, col)
  {
    LexSkip(src, i, line, col);
  }

  /** The text of tokens written out one after another, each followed by a space. */
  function Spell(ts: seq<Token>): string {
    if |ts| == 0 then "" else ts[0].value + " " + Spell(ts[1..])
  }

  /** The length of `Spell(ts)`. */
  function Width(ts: seq<Token>): nat {
    if |ts| == 0 then 0 else |ts[0].value| + 1 + Width(ts[1..])
  }

  /** The tokens `ts` as they are found in `Spell(ts)` written at `line`, `col`. */
  function Place(ts: seq<Token>, line: int, col: int): (r: seq<Token>)
    ensures |r| == |ts|
  {
    if |ts| == 0 then []
    else [Token(ts[0].kind, ts[0].value, line, col)] + Place(ts[1..], line, col + |ts[0].value| + 1)
  }

  /** `Place(ts, line, col)` in front of the result `r`. */
  function PlaceOnto(ts: seq<Token>, line: int, col: int, r: Result<seq<Token>, LexError>): Result<seq<Token>, LexError> {
    if |ts| == 0 then r
    else Cons(Token(ts[0].kind, ts[0].value, line, col), PlaceOnto(ts[1..], line, col + |ts[0].value| + 1, r))
  }

  lemma {:induction false} PlaceOntoOk(ts: seq<Token>, line: int, col: int, tail: seq<Token>)
    ensures PlaceOnto(ts, line, col, Ok(tail)) == Ok(Place(ts, line, col) + tail)
  {
    if |ts| > 0 {
      PlaceOntoOk(ts[1..], line, col + |ts[0].value| + 1, tail);
      var head := Token(ts[0].kind, ts[0].value, line, col);
      assert [head] + (Place(ts[1..], line, col + |ts[0].value| + 1) + tail) == Place(ts, line, col) + tail;
    } else {
      assert Place(ts, line, col) + tail == tail;
    }
  }

  /** `src` holds the text `w` from index `i` on. */
  predicate TextAt(src: string, i: nat, w: string) {
    i + |w| <= |src| && src[i..i + |w|] == w
  }

  /** `src` holds the texts of `ts` from index `i` on, each followed by a space. */
  predicate SpelledAt(src: string, i: nat, ts: seq<Token>)
    decreases |ts|
  {
    if |ts| == 0 then i <= |src|
    else
      var e := i + |ts[0].value|;
      TextAt(src, i, ts[0].value) && e < |src| && src[e] == ' ' && SpelledAt(src, e + 1, ts[1..])
  }

  lemma {:induction false} SpelledWithin(src: string, i: nat, ts: seq<Token>)
    requires SpelledAt(src, i, ts)
    ensures i + Width(ts) <= |src|
    decreases |ts|
  {
    if |ts| > 0 {
      SpelledWithin(src, i + |ts[0].value| + 1, ts[1..]);
    }
  }

  /** A complete lexeme followed by a space or by the end of the text is scanned as exactly one token. */
  lemma ScanLexeme(src: string, i: nat, t: Token, line: int, col: int)
    requires ValidToken(t) && TextAt(src, i, t.value)
    requires var e := i + |t.value|; e == |src| || src[e] == ' '
    ensures Scan(src, i, line, col) == Produce(Token(t.kind, t.value, line, col), i + |t.value|)
  {
    var v := t.value;
    var e := i + |v|;
    assert forall k :: 0 <= k < |v| ==> src[i + k] == v[k];
    if |v| > 0 && IsDigit(v[0]) {
      DigitsEndExact(src, i, e);
    } else if |v| > 0 && WordStart(v[0]) {
      WordEndExact(src, i, e);
    }
  }

  lemma {:induction false} DigitsEndExact(src: string, i: nat, e: nat)
    requires i <= e <= |src|
    requires forall k :: i <= k < e ==> IsDigit(src[k])
    requires e == |src| || src[e] == ' '
    ensures DigitsEnd(src, i) == e
    decreases e - i
  {
    if i < e {
      DigitsEndExact(src, i + 1, e);
    }
  }

  lemma {:induction false} WordEndExact(src: string, i: nat, e: nat)
    requires i <= e <= |src|
    requires forall k :: i <= k < e ==> WordChar(src[k])
    requires e == |src| || src[e] == ' '
    ensures WordEnd(src, i) == e
    decreases e - i
  {
    if i < e {
      WordEndExact(src, i + 1, e);
    }
  }


  /** A lexeme followed by a space lexes to its token, then to whatever follows the space. */
  lemma LexLexemeSpace(src: string, i: nat, t: Token, line: int, col: int)
    requires ValidToken(t) && TextAt(src, i, t.value)
    requires i + |t.value| < |src| && src[i + |t.value|] == ' '
    ensures var e := i + |t.value| + 1;
      Lex(src, i, line, col) == Cons(Token(t.kind, t.value, line, col), Lex(src, e, line, col + |t.value| + 1))
  {
    ScanLexeme(src, i, t, line, col);
    LexProduce(src, i, line, col);
    LexSkip(src, i + |t.value|, line, col + |t.value|);
  }

  /** The equation `LexSpelled` proves. */
  predicate SpelledLexes(src: string, i: nat, ts: seq<Token>, line: int, col: int)
    requires i + Width(ts) <= |src|
  {
    Lex(src, i, line, col) == PlaceOnto(ts, line, col, Lex(src, i + Width(ts), line, col + Width(ts)))
  }

  /**
   * Tokens written out separated by spaces are lexed back as the same
   * tokens, at the columns where they were written, followed by whatever
   * the text after them lexes to.
   */
  lemma {:induction false} LexSpelled(src: string, i: nat, ts: seq<Token>, line: int, col: int)
    requires forall k :: 0 <= k < |ts| ==> ValidToken(ts[k])
    requires SpelledAt(src, i, ts)
    ensures i + Width(ts) <= |src| && SpelledLexes(src, i, ts, line, col)
    decreases |ts|
  {
    SpelledWithin(src, i, ts);
    if |ts| > 0 {
      var n := |ts[0].value| + 1;
      LexSpelled(src, i + n, ts[1..], line, col + n);
      SpelledStep(src, i, ts, line, col);
    }
  }

  lemma {:induction false} SpelledStep(src: string, i: nat, ts: seq<Token>, line: int, col: int)
    requires |ts| > 0 && ValidToken(ts[0]) && TextAt(src, i, ts[0].value)
    requires i + |ts[0].value| < |src| && src[i + |ts[0].value|] == ' '
    requires var n := |ts[0].value| + 1; i + Width(ts) <= |src| && SpelledLexes(src, i + n, ts[1..], line, col + n)
    ensures SpelledLexes(src, i, ts, line, col)
  {
    var n := |ts[0].value| + 1;
    assert Width(ts) == n + Width(ts[1..]);
    LexLexemeSpace(src, i, ts[0], line, col);
  }

  /** Spelling the tokens writes exactly their texts, each followed by a space. */
  lemma {:induction false} SpellSpelled(src: string, i: nat, ts: seq<Token>)
    requires TextAt(src, i, Spell(ts))
    ensures SpelledAt(src, i, ts) && |Spell(ts)| == Width(ts)
    decreases |ts|
  {
    if |ts| > 0 {
      var v := ts[0].value;
      var n := |Spell(ts)|;
      var piece := src[i..i + n];
      assert Spell(ts) == v + " " + Spell(ts[1..]);
      assert src[i..i + |v|] == piece[..|v|];
      assert src[i + |v|] == piece[|v|];
      assert src[i + |v| + 1..i + n] == piece[|v| + 1..];
      SpellSpelled(src, i + |v| + 1, ts[1..]);
    }
  }

  /** Round trip: the tokens of a space-separated spelling are the spelled tokens, then the end marker. */
  lemma SpellRoundTrip(ts: seq<Token>)
    requires forall k :: 0 <= k < |ts| ==> ValidToken(ts[k])
    ensures Tokenize(Spell(ts)) == Ok(Place(ts, 1, 1) + [Token(EndOfInput, "", 1, 1 + |Spell(ts)|)])
  {
    var src := Spell(ts);
    assert src[0..|src|] == src;
    SpellSpelled(src, 0, ts);
    LexSpelled(src, 0, ts, 1, 1);
    LexEnd(src, 1, 1 + |src|);
    PlaceOntoOk(ts, 1, 1, [Token(EndOfInput, "", 1, 1 + |src|)]);
  }

  // ---------------------------------------------------- letter case

  function LowerToken(t: Token): Token {
    t.(value := Lower(t.value))
  }

  function LowerTokens(ts: seq<Token>): (r: seq<Token>)
    ensures |r| == |ts|
    ensures forall i :: 0 <= i < |ts| ==> r[i] == LowerToken(ts[i])
  {
    seq(|ts|, i requires 0 <= i < |ts| => LowerToken(ts[i]))
  }

  function LowerResult(r: Result<seq<Token>, LexError>): Result<seq<Token>, LexError> {
    match r
    case Ok(ts) => Ok(LowerTokens(ts))
    case Err(UnexpectedChar(c, l, k)) => Err(UnexpectedChar(ToLower(c), l, k))
  }

  function LowerStep(st: Step): Step {
    match st
    case Produce(t, j) => Produce(LowerToken(t), j)
    case _ => st
  }

  lemma LowerIdempotent(s: string)
    ensures Lower(Lower(s)) == Lower(s)
  {
  }

  lemma LowerSlice(s: string, i: nat, j: nat)
    requires i <= j <= |s|
    ensures Lower(s)[i..j] == Lower(s[i..j])
  {
  }

  lemma {:induction false} LineEndLower(src: string, i: nat)
    requires i <= |src|
    ensures LineEnd(Lower(src), i) == LineEnd(src, i)
    decreases |src| - i
  {
    if i < |src| {
      LineEndLower(src, i + 1);
    }
  }

  lemma {:induction false} DigitsEndLower(src: string, i: nat)
    requires i <= |src|
    ensures DigitsEnd(Lower(src), i) == DigitsEnd(src, i)
    decreases |src| - i
  {
    if i < |src| {
      DigitsEndLower(src, i + 1);
    }
  }

  lemma {:induction false} WordEndLower(src: string, i: nat)
    requires i <= |src|
    ensures WordEnd(Lower(src), i) == WordEnd(src, i)
    decreases |src| - i
  {
    if i < |src| {
      WordEndLower(src, i + 1);
    }
  }

  /** Lower-casing keeps every character class the scanner tests. */
  lemma ToLowerClasses(c: char)
    ensures IsUpper(c) ==> IsLower(ToLower(c)) && SimpleKind(ToLower(c)).None?
    ensures !IsUpper(c) ==> ToLower(c) == c
  {
  }

  lemma ScanLower(src: string, i: nat, line: int, col: int)
    requires i < |src|
    ensures Scan(Lower(src), i, line, col) == LowerStep(Scan(src, i, line, col))
  {
    ToLowerClasses(src[i]);
    if WordStart(src[i]) {
      ScanLowerWord(src, i, line, col);
    } else {
      ScanLowerOther(src, i, line, col);
    }
  }

  lemma ScanLowerWord(src: string, i: nat, line: int, col: int)
    requires i < |src| && WordStart(src[i])
    ensures Scan(Lower(src), i, line, col) == LowerStep(Scan(src, i, line, col))
  {
    var ls := Lower(src);
    ToLowerClasses(src[i]);
    assert WordStart(ls[i]);
    WordEndLower(src, i);
    var j := WordEnd(src, i);
    LowerSlice(src, i, j);
    WordKindLower(src[i..j]);
  }

  lemma WordKindLower(w: string)
    ensures WordKind(Lower(w)) == WordKind(w)
  {
    LowerIdempotent(w);
  }

  lemma ScanLowerOther(src: string, i: nat, line: int, col: int)
    requires i < |src| && !WordStart(src[i])
    ensures Scan(Lower(src), i, line, col) == LowerStep(Scan(src, i, line, col))
  {
    var ls := Lower(src);
    var ch := src[i];
    ToLowerClasses(ch);
    assert ls[i] == ch;
    if i + 1 < |src| {
      ToLowerClasses(src[i + 1]);
    }
    if i + 2 < |src| {
      ToLowerClasses(src[i + 2]);
    }
    if ch == '\n' || ch == ' ' || ch == '\t' || ch == '\r' {
    } else if CommentAt(src, i) {
      LineEndLower(src, i);
    } else if ch == '/' && i + 1 < |src| && src[i + 1] == '\\' {
      assert Lower("/\\") == "/\\";
    } else if ch == '\\' && i + 1 < |src| && src[i + 1] == '/' {
      assert Lower("\\/") == "\\/";
    } else if ch == '-' && i + 1 < |src| && src[i + 1] == '>' {
      assert Lower("->") == "->";
    } else if ch == '<' && i + 2 < |src| && src[i + 1] == '-' && src[i + 2] == '>' {
      assert Lower("<->") == "<->";
    } else if SimpleKind(ch).Some? {
      assert Lower([ch]) == [ch];
    } else if IsDigit(ch) {
      DigitsEndLower(src, i);
      DigitsEndDigits(src, i);
      var j := DigitsEnd(src, i);
      LowerSlice(src, i, j);
      assert Lower(src[i..j]) == src[i..j];
    }
  }

  /** The equation `LexLower` proves. */
  predicate LowerLexes(src: string, i: nat, line: int, col: int)
    requires i <= |src|
  {
    Lex(Lower(src), i, line, col) == LowerResult(Lex(src, i, line, col))
  }

  /**
   * Letter case never changes how a text is tokenized: lexing the
   * lower-cased text gives the same kinds and positions, with lower-cased
   * token texts, and an error at the same place.
   */
  lemma {:induction false} LexLower(src: string, i: nat, line: int, col: int)
    requires i <= |src|
    ensures LowerLexes(src, i, line, col)
    decreases |src| - i
  {
    if i == |src| {
      LexEnd(src, line, col);
      LexEnd(Lower(src), line, col);
      assert LowerTokens([Token(EndOfInput, "", line, col)]) == [Token(EndOfInput, "", line, col)];
    } else {
      var st := Scan(src, i, line, col);
      if st.Skip? {
        LexLower(src, st.next, st.nextLine, st.nextCol);
        LexLowerSkip(src, i, line, col);
      } else if st.Produce? {
        LexLower(src, st.next, line, col + |st.tok.value|);
        LexLowerProduce(src, i, line, col);
      } else {
        LexLowerStuck(src, i, line, col);
      }
    }
  }

  lemma LexLowerSkip(src: string, i: nat, line: int, col: int)
    requires i < |src| && Scan(src, i, line, col).Skip?
    requires var st := Scan(src, i, line, col); LowerLexes(src, st.next, st.nextLine, st.nextCol)
    ensures LowerLexes(src, i, line, col)
  {
    ScanLower(src, i, line, col);
    LexSkip(src, i, line, col);
    LexSkip(Lower(src), i, line, col);
  }

  lemma LexLowerProduce(src: string, i: nat, line: int, col: int)
    requires i < |src| && Scan(src, i, line, col).Produce?
    requires var st := Scan(src, i, line, col); LowerLexes(src, st.next, line, col + |st.tok.value|)
    ensures LowerLexes(src, i, line, col)
  {
    var st := Scan(src, i, line, col);
    ScanLower(src, i, line, col);
    LexProduce(src, i, line, col);
    LexProduce(Lower(src), i, line, col);
    LowerCons(st.tok, Lex(src, st.next, line, col + |st.tok.value|));
  }

  lemma LexLowerStuck(src: string, i: nat, line: int, col: int)
    requires i < |src| && Scan(src, i, line, col).Stuck?
    ensures LowerLexes(src, i, line, col)
  {
    ScanLower(src, i, line, col);
    LexStuck(src, i, line, col);
    LexStuck(Lower(src), i, line, col);
  }

  lemma LowerCons(t: Token, r: Result<seq<Token>, LexError>)
    ensures LowerResult(Cons(t, r)) == Cons(LowerToken(t), LowerResult(r))
  {
    if r.Ok? {
      assert LowerTokens([t] + r.value) == [LowerToken(t)] + LowerTokens(r.value);
    }
  }
}

=== FILE: migrate.dfy ===
/**
 * The benchmark-name normaliser of the result migration script, and the
 * rule by which it picks the closest known benchmark name.
 *
 * Normalisation applies a fixed table of typo corrections, each one as a
 * global `str.replace`, in table order; then it strips surrounding
 * whitespace, collapses runs of `_` and of `.` to one character, and
 * replaces `##` with `#`. The similarity measure (`difflib`'s ratio) is a
 * parameter.
 */
module Migrate {
  import opened Outcomes
  import opened Text

  // ---------------------------------------------------------------- replace

  /** Every piece after the first is preceded by the separator. */
  lemma JoinCons(sep: string, a: string, rest: seq<string>)
    requires |rest| >= 1
    ensures Join(sep, [a] + rest) == a + sep + Join(sep, rest)
  {
    assert ([a] + rest)[1..] == rest;
  }

  lemma {:induction false} ReplaceSplitFrom(s: string, p: string, q: string, cur: string)
    requires |p| > 0
    ensures Join(q, SplitOnFrom(s, p, cur)) == cur + ReplaceAll(s, p, q)
    decreases |s|
  {
    if |s| == 0 {
      assert cur + "" == cur;
    } else if StartsWith(s, p) {
      ReplaceSplitFrom(s[|p|..], p, q, "");
      JoinCons(q, cur, SplitOnFrom(s[|p|..], p, ""));
      assert "" + ReplaceAll(s[|p|..], p, q) == ReplaceAll(s[|p|..], p, q);
    } else {
      ReplaceSplitFrom(s[1..], p, q, cur + [s[0]]);
    }
  }

  /** `s.replace(p, q) == q.join(s.split(p))`. */
  lemma ReplaceIsJoinOfSplit(s: string, p: string, q: string)
    requires |p| > 0
    ensures ReplaceAll(s, p, q) == Join(q, SplitOn(s, p))
  {
    ReplaceSplitFrom(s, p, q, "");
    assert "" + ReplaceAll(s, p, q) == ReplaceAll(s, p, q);
  }

  /** Replacing a pattern by itself changes nothing. */
  lemma {:induction false} ReplaceBySelf(s: string, p: string)
    requires |p| > 0
    ensures ReplaceAll(s, p, p) == s
    decreases |s|
  {
    if |s| > 0 {
      if StartsWith(s, p) {
        ReplaceBySelf(s[|p|..], p);
        assert s[..|p|] + s[|p|..] == s;
      } else {
        ReplaceBySelf(s[1..], p);
        assert [s[0]] + s[1..] == s;
      }
    }
  }

  /** Replacing a pattern that does not occur changes nothing. */
  lemma {:induction false} ReplaceAbsent(s: string, p: string, q: string)
    requires |p| > 0
    requires forall i :: 0 <= i <= |s| ==> !OccursAt(s, p, i)
    ensures ReplaceAll(s, p, q) == s
    decreases |s|
  {
    if |s| > 0 {
      assert !OccursAt(s, p, 0);
      assert !StartsWith(s, p);
      forall i | 0 <= i <= |s[1..]| ensures !OccursAt(s[1..], p, i) {
        assert !OccursAt(s, p, i + 1);
        if i + |p| <= |s[1..]| {
          assert s[1..][i..i + |p|] == s[i + 1..i + 1 + |p|];
        }
      }
      ReplaceAbsent(s[1..], p, q);
      assert [s[0]] + s[1..] == s;
    }
  }

  // ---------------------------------------------------------------- the table

  /** The typo corrections, in the order the script applies them. */
  const Corrections: seq<(string, string)> := [
    ("liist", "list"),
    ("saanitized", "sanitized"),
    ("ssanitized", "sanitized"),
    ("sshuffled", "shuffled"),
    ("shufflingg", "shuffling"),
    ("miiters", "miters"),
    ("unssats", "unsat"),
    ("syntheesis", "synthesis"),
    ("schheduling", "scheduling"),
    ("Randomm", "Random"),
    ("unssat", "unsat"),
    ("rr17", "r17"),
    ("rr16", "r16"),
    ("r166", "r16"),
    ("r188", "r18"),
    ("r199", "r19"),
    ("r200", "r20"),
    ("r211", "r21"),
    ("r244", "r24"),
    ("pp20", "p20"),
    ("collour", "colour"),
    ("triiple", "triple"),
    ("hwmcc115", "hwmcc15"),
    ("hwmcc20", "hwmcc20"),
    ("kliebber", "klieber"),
    ("bboothb", "boothb"),
    ("ak128b", "ak128")
  ]

  /** A table whose patterns are non-empty, as every `replace` here needs. */
  predicate ValidTable(table: seq<(string, string)>) {
    forall i :: 0 <= i < |table| ==> |table[i].0| > 0
  }

  lemma CorrectionsValid()
    ensures ValidTable(Corrections)
  {
  }

  /** The corrections applied one after another, each to the whole string. */
  function Correct(s: string, table: seq<(string, string)>): (r: string)
    requires ValidTable(table)
    decreases |table|
  {
    if |table| == 0 then s
    else Correct(ReplaceAll(s, table[0].0, table[0].1), table[1..])
  }

  /** Applying a table is applying its first part and then the rest, in order. */
  lemma {:induction false} CorrectInOrder(s: string, t1: seq<(string, string)>, t2: seq<(string, string)>)
    requires ValidTable(t1) && ValidTable(t2)
    ensures ValidTable(t1 + t2)
    ensures Correct(s, t1 + t2) == Correct(Correct(s, t1), t2)
    decreases |t1|
  {
    assert forall i :: 0 <= i < |t1 + t2| ==> (t1 + t2)[i] == if i < |t1| then t1[i] else t2[i - |t1|];
    if |t1| > 0 {
      assert (t1 + t2)[1..] == t1[1..] + t2;
      assert ValidTable(t1[1..]) by {
        forall i | 0 <= i < |t1[1..]| ensures |t1[1..][i].0| > 0 { assert t1[1..][i] == t1[i + 1]; }
      }
      CorrectInOrder(ReplaceAll(s, t1[0].0, t1[0].1), t1[1..], t2);
    } else {
      assert t1 + t2 == t2;
    }
  }

  // ---------------------------------------------------------------- runs

  /** No two neighbouring characters of `s` are both `c`. */
  predicate NoDouble(s: string, c: char) {
    forall i :: 0 <= i < |s| - 1 ==> !(s[i] == c && s[i + 1] == c)
  }

  /** `NoDouble` is the absence of the two-character string `cc`. */
  lemma NoDoubleContains(s: string, c: char)
    ensures NoDouble(s, c) <==> !Contains(s, [c, c])
  {
    if NoDouble(s, c) {
      forall i | 0 <= i <= |s| ensures !OccursAt(s, [c, c], i) {
        if i + 2 <= |s| {
          assert s[i..i + 2] == [s[i], s[i + 1]];
        }
      }
    } else {
      var i :| 0 <= i < |s| - 1 && s[i] == c && s[i + 1] == c;
      assert s[i..i + 2] == [c, c];
      assert OccursAt(s, [c, c], i);
    }
  }

  /**
   * `re.sub(c + c + "+", c, s)`: every run of two or more `c` becomes one.
   * The ends of the string are kept.
   */
  function Collapse(s: string, c: char): (r: string)
    ensures |r| <= |s|
    ensures |s| > 0 ==> |r| > 0 && r[0] == s[0] && r[|r| - 1] == s[|s| - 1]
    ensures NoDouble(r, c)
    decreases |s|
  {
    if |s| == 0 then ""
    else if |s| >= 2 && s[0] == c && s[1] == c then Collapse(s[1..], c)
    else
      var rest := Collapse(s[1..], c);
      assert |s| >= 2 ==> rest[0] == s[1];
      [s[0]] + rest
  }

  /** Collapsing leaves a string without doubles as it is, and only such a string. */
  lemma {:induction false} CollapseFixed(s: string, c: char)
    ensures Collapse(s, c) == s <==> NoDouble(s, c)
    decreases |s|
  {
    if |s| > 0 && NoDouble(s, c) {
      assert NoDouble(s[1..], c);
      CollapseFixed(s[1..], c);
      assert [s[0]] + s[1..] == s;
    }
  }

  /** Collapsing runs of `c` creates no doubles of another character. */
  lemma {:induction false} CollapseKeeps(s: string, c: char, d: char)
    requires c != d && NoDouble(s, d)
    ensures NoDouble(Collapse(s, c), d)
    decreases |s|
  {
    if |s| > 0 {
      assert NoDouble(s[1..], d);
      CollapseKeeps(s[1..], c, d);
      if !(|s| >= 2 && s[0] == c && s[1] == c) {
        var rest := Collapse(s[1..], c);
        var r := [s[0]] + rest;
        forall i | 0 <= i < |r| - 1 ensures !(r[i] == d && r[i + 1] == d) {
          if i > 0 {
            assert r[i] == rest[i - 1] && r[i + 1] == rest[i];
          }
        }
      }
    }
  }

  /** `s.replace(cc, c)`: the first and last characters are kept. */
  lemma {:induction false} HalveEnds(s: string, c: char)
    ensures |s| > 0 ==> var r := ReplaceAll(s, [c, c], [c]);
      |r| > 0 && r[0] == s[0] && r[|r| - 1] == s[|s| - 1]
    decreases |s|
  {
    if |s| > 0 {
      if StartsWith(s, [c, c]) {
        assert s[0] == c && s[1] == c;
        HalveEnds(s[2..], c);
      } else {
        HalveEnds(s[1..], c);
      }
    }
  }

  /** `s.replace(cc, c)` creates no doubles of another character. */
  lemma {:induction false} HalveKeeps(s: string, c: char, d: char)
    requires c != d && NoDouble(s, d)
    ensures NoDouble(ReplaceAll(s, [c, c], [c]), d)
    decreases |s|
  {
    if |s| > 0 {
      var pat := [c, c];
      var r := ReplaceAll(s, pat, [c]);
      if StartsWith(s, pat) {
        assert NoDouble(s[2..], d);
        HalveKeeps(s[2..], c, d);
        var rest := ReplaceAll(s[2..], pat, [c]);
        assert r == [c] + rest;
        forall i | 0 <= i < |r| - 1 ensures !(r[i] == d && r[i + 1] == d) {
          if i > 0 {
            assert r[i] == rest[i - 1] && r[i + 1] == rest[i];
          }
        }
      } else {
        assert NoDouble(s[1..], d);
        HalveKeeps(s[1..], c, d);
        HalveEnds(s[1..], c);
        var rest := ReplaceAll(s[1..], pat, [c]);
        assert r == [s[0]] + rest;
        forall i | 0 <= i < |r| - 1 ensures !(r[i] == d && r[i + 1] == d) {
          if i > 0 {
            assert r[i] == rest[i - 1] && r[i + 1] == rest[i];
          } else {
            assert r[1] == rest[0] == s[1];
          }
        }
      }
    }
  }

  // ---------------------------------------------------------------- normalize_filename

  /** Strip, then collapse `__+` and `..+`, then replace `##` with `#`. */
  function Tidy(s: string): (r: string)
  {
    ReplaceAll(Collapse(Collapse(Strip(s), '_'), '.'), "##", "#")
  }

  /** `normalize_filename(filename)`. */
  function Normalize(filename: string): (r: string)
  {
    CorrectionsValid();
    Tidy(Correct(filename, Corrections))
  }

  /** Tidying leaves no whitespace at either end. */
  lemma TidyStripped(s: string)
    ensures var r := Tidy(s); |r| > 0 ==> !IsSpace(r[0]) && !IsSpace(r[|r| - 1])
  {
    var t := Strip(s);
    StripEnds(s);
    var u := Collapse(Collapse(t, '_'), '.');
    assert "##" == ['#', '#'] && "#" == ['#'];
    HalveEnds(u, '#');
  }

  /** Tidying leaves no `__` and no `..`. */
  lemma TidyNoDoubles(s: string)
    ensures NoDouble(Tidy(s), '_') && NoDouble(Tidy(s), '.')
  {
    var a := Collapse(Strip(s), '_');
    var b := Collapse(a, '.');
    CollapseKeeps(a, '.', '_');
    assert "##" == ['#', '#'] && "#" == ['#'];
    HalveKeeps(b, '#', '_');
    HalveKeeps(b, '#', '.');
  }

  /** The normalised name has no whitespace at either end. */
  lemma NormalizeStripped(filename: string)
    ensures var r := Normalize(filename);
      |r| > 0 ==> !IsSpace(r[0]) && !IsSpace(r[|r| - 1])
  {
    CorrectionsValid();
    TidyStripped(Correct(filename, Corrections));
  }

  /** The normalised name contains neither `__` nor `..`. */
  lemma NormalizeNoDoubles(filename: string)
    ensures !Contains(Normalize(filename), "__")
    ensures !Contains(Normalize(filename), "..")
  {
    CorrectionsValid();
    var r := Tidy(Correct(filename, Corrections));
    TidyNoDoubles(Correct(filename, Corrections));
    NoDoubleContains(r, '_');
    NoDoubleContains(r, '.');
    assert "__" == ['_', '_'] && ".." == ['.', '.'];
  }

  // ---------------------------------------------------------------- find_best_match

  /** The threshold `find_best_match` uses unless told otherwise. */
  const DefaultThreshold: real := 0.85

  /** What the target is compared as: its normalised, lower-cased name. */
  function Key(target: string): string {
    Lower(Normalize(target))
  }

  /** The similarity of the key to a lower-cased candidate. */
  function Score(key: string, candidate: string, ratio: (string, string) -> real): real
  {
    ratio(key, Lower(candidate))
  }

  /**
   * The selection loop of `find_best_match` for an already computed key: no
   * match unless some candidate scores at least the threshold and above
   * zero; otherwise the earliest candidate with the greatest score.
   */
  method SelectBest(key: string, candidates: seq<string>, ratio: (string, string) -> real,
                    threshold: real)
    returns (best: Option<string>)
    ensures best.None? <==> forall i :: 0 <= i < |candidates| ==>
      !(Score(key, candidates[i], ratio) >= threshold && Score(key, candidates[i], ratio) > 0.0)
    ensures best.Some? ==> exists i :: (
      && 0 <= i < |candidates| && best.value == candidates[i]
      && Score(key, candidates[i], ratio) >= threshold
      && (forall j :: 0 <= j < |candidates| ==>
            Score(key, candidates[j], ratio) <= Score(key, candidates[i], ratio))
      && (forall j :: 0 <= j < i ==>
            Score(key, candidates[j], ratio) < Score(key, candidates[i], ratio)))
  {
    best := None;
    var bestRatio := 0.0;
    var at := 0;
    var k := 0;
    while k < |candidates|
      invariant 0 <= k <= |candidates|
      invariant best.None? ==> bestRatio == 0.0 && forall j :: 0 <= j < k ==>
        !(Score(key, candidates[j], ratio) >= threshold && Score(key, candidates[j], ratio) > 0.0)
      invariant best.Some? ==> (
        && at < k && best.value == candidates[at]
        && bestRatio == Score(key, candidates[at], ratio)
        && bestRatio >= threshold && bestRatio > 0.0
        && (forall j :: 0 <= j < k ==> Score(key, candidates[j], ratio) <= bestRatio)
        && (forall j :: 0 <= j < at ==> Score(key, candidates[j], ratio) < bestRatio))
    {
      var r := ratio(key, Lower(candidates[k]));
      assert r == Score(key, candidates[k], ratio);
      if r > bestRatio && r >= threshold {
        bestRatio := r;
        best := Some(candidates[k]);
        at := k;
      }
      k := k + 1;
    }
  }

  /**
   * `find_best_match(target, candidates, threshold)`: the selection loop run
   * with the target's normalised, lower-cased name as key.
   */
  method FindBestMatch(target: string, candidates: seq<string>, ratio: (string, string) -> real,
                       threshold: real)
    returns (best: Option<string>)
    ensures var key := Key(target);
      best.None? <==> forall i :: 0 <= i < |candidates| ==>
        !(Score(key, candidates[i], ratio) >= threshold && Score(key, candidates[i], ratio) > 0.0)
    ensures var key := Key(target);
      best.Some? ==> exists i :: (
        && 0 <= i < |candidates| && best.value == candidates[i]
        && Score(key, candidates[i], ratio) >= threshold
        && (forall j :: 0 <= j < |candidates| ==>
              Score(key, candidates[j], ratio) <= Score(key, candidates[i], ratio))
        && (forall j :: 0 <= j < i ==>
              Score(key, candidates[j], ratio) < Score(key, candidates[i], ratio)))
  {
    best := SelectBest(Key(target), candidates, ratio, threshold);
  }
}

=== FILE: numbering.dfy ===
/**
 * Invariants of the compiler state: ids come from one counter, so every
 * id in the variable map and every literal of every clause names a
 * variable in `1 .. next-1`; the map is injective; a name keeps its id;
 * and every `__neg_<v>` helper is tied to `v` by its two clauses.
 */
module Numbering {
  import opened Outcomes
  import opened Text
  import opened Syntax
  import opened Cnf
  import opened Gates
  import opened Cardinality
  import opened Compiler

  /** Names the compiler reserves for itself (and `_decode_assignment` drops). */
  predicate Reserved(x: string) {
    StartsWith(x, "__")
  }

  predicate IdsBelow(st: CState) {
    forall x :: x in st.vars ==> 0 < st.vars[x] < st.next
  }

  predicate Injective(m: map<string, int>) {
    forall x, y :: x in m && y in m && x != y ==> m[x] != m[y]
  }

  /** Every helper `__neg_<v>` has both clauses tying it to the negation of `v`. */
  ghost predicate NegInv(st: CState) {
    forall v :: NegName(v) in st.vars ==>
      && v in st.vars
      && [st.vars[NegName(v)], st.vars[v]] in st.clauses
      && [-st.vars[NegName(v)], -st.vars[v]] in st.clauses
  }

  /** One counter numbers everything: ids and literals lie in `1 .. next-1`, ids are distinct. */
  predicate Numbered(st: CState) {
    st.next >= 1 && IdsBelow(st) && Injective(st.vars) && LitsBelow(st.clauses, st.next)
  }

  /** The state invariant. */
  ghost predicate Good(st: CState) {
    Numbered(st) && NegInv(st)
  }

  predicate DeclaredIn(st: CState, declared: set<string>) {
    forall x :: x in declared ==> x in st.vars
  }

  predicate NoReserved(declared: set<string>) {
    forall x :: x in declared ==> !Reserved(x)
  }

  /** The state only ever grows: ids are kept, clauses are appended. */
  predicate Grows(st: CState, st': CState) {
    && st.next <= st'.next
    && (forall x :: x in st.vars ==> x in st'.vars && st'.vars[x] == st.vars[x])
    && st.clauses <= st'.clauses
  }

  /** Every name added to the map on the way from `st` to `st'` is a helper name. */
  predicate OnlyHelpersAdded(st: CState, st': CState) {
    forall x :: x in st'.vars ==> x in st.vars || Reserved(x)
  }

  predicate LitsIn(ls: seq<int>, n: int) {
    forall i :: 0 <= i < |ls| ==> 0 < Abs(ls[i]) < n
  }

  lemma GrowsTrans(s1: CState, s2: CState, s3: CState)
    requires Grows(s1, s2) && Grows(s2, s3)
    ensures Grows(s1, s3)
  {
  }

  lemma NegNameReserved(v: string)
    ensures Reserved(NegName(v))
  {
    assert NegName(v)[..2] == "__";
  }

  lemma NegNameInjective(v: string, w: string)
    requires NegName(v) == NegName(w)
    ensures v == w
  {
    assert v == NegName(v)[6..];
    assert w == NegName(w)[6..];
  }

  lemma LitsBelowMono(cs: seq<Clause>, n: int, m: int)
    requires LitsBelow(cs, n) && n <= m
    ensures LitsBelow(cs, m)
  {
  }

  lemma LitsBelowConcat(x: seq<Clause>, y: seq<Clause>, n: int)
    requires LitsBelow(x, n) && LitsBelow(y, n)
    ensures LitsBelow(x + y, n)
  {
    forall i, j | 0 <= i < |x + y| && 0 <= j < |(x + y)[i]| ensures 0 < Abs((x + y)[i][j]) < n {
      if i < |x| {
        assert (x + y)[i] == x[i];
      } else {
        assert (x + y)[i] == y[i - |x|];
      }
    }
  }

  lemma ClauseIn(c: Clause, n: int)
    requires LitsIn(c, n)
    ensures LitsBelow([c], n)
  {
    assert [c][0] == c;
  }

  lemma LitsInConcat(x: seq<int>, y: seq<int>, n: int)
    requires LitsIn(x, n) && LitsIn(y, n)
    ensures LitsIn(x + y, n)
  {
    forall i | 0 <= i < |x + y| ensures 0 < Abs((x + y)[i]) < n {
      if i < |x| {
        assert (x + y)[i] == x[i];
      } else {
        assert (x + y)[i] == y[i - |x|];
      }
    }
  }

  /** Appending clauses over existing variables keeps the invariant. */
  lemma AddClausesGood(st: CState, cs: seq<Clause>)
    requires Good(st) && LitsBelow(cs, st.next)
    ensures Good(AddClauses(st, cs)) && Grows(st, AddClauses(st, cs))
  {
    var st' := AddClauses(st, cs);
    LitsBelowConcat(st.clauses, cs, st.next);
    forall v | NegName(v) in st'.vars
      ensures [st'.vars[NegName(v)], st'.vars[v]] in st'.clauses
      ensures [-st'.vars[NegName(v)], -st'.vars[v]] in st'.clauses
    {
      assert st.clauses <= st'.clauses;
    }
  }

  lemma AuxGood(st: CState)
    requires Good(st)
    ensures Good(Aux(st).st) && Grows(st, Aux(st).st)
  {
    LitsBelowMono(st.clauses, st.next, st.next + 1);
  }

  /** Looking up a name that is not a helper name keeps the invariant. */
  lemma VarIdGood(st: CState, name: string)
    requires Good(st) && (name in st.vars || !Reserved(name))
    ensures Good(VarId(st, name).st) && Grows(st, VarId(st, name).st)
    ensures 0 < VarId(st, name).lit < VarId(st, name).st.next
  {
    if name !in st.vars {
      var st' := VarId(st, name).st;
      LitsBelowMono(st.clauses, st.next, st.next + 1);
      forall v | NegName(v) in st'.vars ensures NegName(v) in st.vars {
        NegNameReserved(v);
      }
    }
  }

  /** Declared names are already in the map, so looking them up changes nothing. */
  lemma LookupAllGood(st: CState, names: seq<string>, declared: set<string>)
    requires DeclaredIn(st, declared) && LookupAll(st, names, declared).Ok?
    ensures LookupAll(st, names, declared).value.st == st
    ensures forall i :: 0 <= i < |names| ==>
      names[i] in st.vars && LookupAll(st, names, declared).value.lits[i] == st.vars[names[i]]
    decreases |names|
  {
    if |names| > 0 {
      LookupAllGood(st, names[1..], declared);
      assert forall i :: 1 <= i < |names| ==> names[i] == names[1..][i - 1];
    }
  }

  lemma LookupAllIn(st: CState, names: seq<string>, declared: set<string>)
    requires Good(st) && DeclaredIn(st, declared) && LookupAll(st, names, declared).Ok?
    ensures LitsIn(LookupAll(st, names, declared).value.lits, st.next)
  {
    LookupAllGood(st, names, declared);
  }

  lemma GateLits(g: GateKind, x: int, ops: seq<int>)
    requires Arity(g, ops) && x >= 1 && LitsIn(ops, x)
    ensures LitsBelow(GateClauses(g, x, ops), x + 1)
  {
    var cs := GateClauses(g, x, ops);
    forall i, j | 0 <= i < |cs| && 0 <= j < |cs[i]| ensures 0 < Abs(cs[i][j]) < x + 1 {
      match g
      case GAnd =>
        if i < |ops| {
          assert cs[i] == [-x, ops[i]];
        } else {
          assert cs[i] == [x] + Negs(ops);
          if j > 0 {
            assert cs[i][j] == -ops[j - 1];
          }
        }
      case GOr =>
        if i == 0 {
          assert cs[i] == [-x] + ops;
          if j > 0 {
            assert cs[i][j] == ops[j - 1];
          }
        } else {
          assert cs[i] == [x, -ops[i - 1]];
        }
      case _ =>
        assert 0 < Abs(ops[0]) < x && 0 < Abs(ops[1]) < x;
    }
  }

  lemma GateGood(st: CState, g: GateKind, ops: seq<int>)
    requires Good(st) && Arity(g, ops) && LitsIn(ops, st.next)
    ensures Good(Gate(st, g, ops).st) && Grows(st, Gate(st, g, ops).st)
    ensures Gate(st, g, ops).lit == st.next && Gate(st, g, ops).st.next == st.next + 1
  {
    AuxGood(st);
    GateLits(g, st.next, ops);
    AddClausesGood(Aux(st).st, GateClauses(g, st.next, ops));
  }

  lemma TrueLitGood(st: CState)
    requires Good(st)
    ensures Good(TrueLit(st).st) && Grows(st, TrueLit(st).st)
    ensures TrueLit(st).lit == st.next && TrueLit(st).st.next == st.next + 1
  {
    AuxGood(st);
    ClauseIn([st.next], st.next + 1);
    AddClausesGood(Aux(st).st, [[st.next]]);
  }

  lemma FalseLitGood(st: CState)
    requires Good(st)
    ensures Good(FalseLit(st).st) && Grows(st, FalseLit(st).st)
    ensures FalseLit(st).lit == st.next && FalseLit(st).st.next == st.next + 1
  {
    AuxGood(st);
    ClauseIn([-st.next], st.next + 1);
    AddClausesGood(Aux(st).st, [[-st.next]]);
  }

  // ---------------------------------------------------------------------
  // Cardinality encodings keep the invariant

  lemma NoneLits(x: int, ls: seq<int>)
    requires x >= 1 && LitsIn(ls, x)
    ensures LitsBelow(NoneClauses(x, ls), x + 1)
  {
    var cs := NoneClauses(x, ls);
    forall i, j | 0 <= i < |cs| && 0 <= j < |cs[i]| ensures 0 < Abs(cs[i][j]) < x + 1 {
      if i < |ls| {
        assert cs[i] == [-x, -ls[i]];
      } else {
        assert cs[i] == [x] + ls;
        if j > 0 {
          assert cs[i][j] == ls[j - 1];
        }
      }
    }
  }

  lemma PairwiseLits(x: int, ls: seq<int>, r: nat)
    requires x >= 1 && LitsIn(ls, x)
    ensures LitsBelow(PairwiseClauses(x, ls, r), x + 1)
  {
    var cb := Comb(ls, r);
    var cs := PairwiseClauses(x, ls, r);
    forall i, j | 0 <= i < |cs| && 0 <= j < |cs[i]| ensures 0 < Abs(cs[i][j]) < x + 1 {
      if i < |cb| {
        CombShape(ls, r, i);
        assert cs[i] == [-x] + Negs(cb[i]);
        if j > 0 {
          assert cs[i][j] == -cb[i][j - 1];
          assert cb[i][j - 1] in ls;
        }
      } else {
        assert cs[i] == [x] + ls;
        if j > 0 {
          assert cs[i][j] == ls[j - 1];
        }
      }
    }
  }

  lemma RegIn(base: int, k: int, n: nat, i: int, j: int)
    requires base >= 1 && k >= 1 && 0 <= i < n && 0 <= j < k
    ensures 0 < Abs(Reg(base, k, i, j)) < base + n * k
    ensures 0 < Abs(-Reg(base, k, i, j)) < base + n * k
  {
    RegRange(base, k, n, i, j);
  }

  lemma FourLits(l: int, p: int, q: int, r: int, top: int)
    requires 0 < Abs(l) < top && 0 < Abs(p) < top && 0 < Abs(q) < top && 0 < Abs(r) < top
    ensures LitsBelow([[-l, -p, r], [-q, r], [l, q, -r], [p, -r]], top)
  {
    Lits3(-l, -p, r, top);
    Lits2(-q, r, top);
    Lits3(l, q, -r, top);
    Lits2(p, -r, top);
    Clauses4([-l, -p, r], [-q, r], [l, q, -r], [p, -r], top);
  }

  lemma RowEndLits(l: int, p: int, q: int, r: int, top: int)
    requires 0 < Abs(l) < top && 0 < Abs(p) < top && 0 < Abs(q) < top && 0 < Abs(r) < top
    ensures LitsBelow([[-l, r], [-p, r], [l, p, -r]], top)
    ensures LitsBelow([[-l, -q]], top)
  {
    Lits2(-l, r, top);
    Lits2(-p, r, top);
    Lits3(l, p, -r, top);
    Lits2(-l, -q, top);
    Clauses3([-l, r], [-p, r], [l, p, -r], top);
    ClauseIn([-l, -q], top);
  }

  lemma {:induction false} MidLits(ls: seq<int>, base: int, k: int, i: int, j: int)
    requires base >= 1 && k >= 1 && 1 <= i < |ls| && j >= 1 && LitsIn(ls, base)
    ensures LitsBelow(MidClauses(ls, base, k, i, j), base + |ls| * k)
    decreases k - j
  {
    if j < k {
      var n := |ls|;
      var top := base + n * k;
      var l, p, q, r := ls[i], Reg(base, k, i - 1, j - 1), Reg(base, k, i - 1, j), Reg(base, k, i, j);
      RegIn(base, k, n, i - 1, j - 1);
      RegIn(base, k, n, i - 1, j);
      RegIn(base, k, n, i, j);
      RegRange(base, k, n, 0, 0);
      FourLits(l, p, q, r, top);
      MidLits(ls, base, k, i, j + 1);
      var four := [[-l, -p, r], [-q, r], [l, q, -r], [p, -r]];
      LitsBelowConcat(four, MidClauses(ls, base, k, i, j + 1), top);
      assert MidClauses(ls, base, k, i, j) == four + MidClauses(ls, base, k, i, j + 1);
    }
  }

  lemma RowLits(ls: seq<int>, base: int, k: int, i: int)
    requires base >= 1 && k >= 1 && 1 <= i < |ls| && LitsIn(ls, base)
    ensures LitsBelow(RowClauses(ls, base, k, i), base + |ls| * k)
  {
    var n := |ls|;
    var top := base + n * k;
    var l, p, r := ls[i], Reg(base, k, i - 1, 0), Reg(base, k, i, 0);
    var q := Reg(base, k, i - 1, k - 1);
    RegIn(base, k, n, i - 1, 0);
    RegIn(base, k, n, i, 0);
    RegIn(base, k, n, i - 1, k - 1);
    RegRange(base, k, n, 0, 0);
    RowEndLits(l, p, q, r, top);
    MidLits(ls, base, k, i, 1);
    var head := [[-l, r], [-p, r], [l, p, -r]];
    LitsBelowConcat(head, MidClauses(ls, base, k, i, 1), top);
    LitsBelowConcat(head + MidClauses(ls, base, k, i, 1), [[-l, -q]], top);
    assert RowClauses(ls, base, k, i) == head + MidClauses(ls, base, k, i, 1) + [[-l, -q]];
  }

  lemma {:induction false} RowsLits(ls: seq<int>, base: int, k: int, i: int)
    requires base >= 1 && k >= 1 && 1 <= i <= |ls| && LitsIn(ls, base)
    ensures LitsBelow(RowsFrom(ls, base, k, i), base + |ls| * k)
    decreases |ls| - i
  {
    if i < |ls| {
      RowLits(ls, base, k, i);
      RowsLits(ls, base, k, i + 1);
      LitsBelowConcat(RowClauses(ls, base, k, i), RowsFrom(ls, base, k, i + 1), base + |ls| * k);
    }
  }

  lemma CounterLits(ls: seq<int>, base: int, k: int)
    requires base >= 1 && k >= 1 && |ls| > 0 && LitsIn(ls, base)
    ensures LitsBelow(CounterClauses(ls, base, k), base + |ls| * k)
  {
    var n := |ls|;
    var first := FirstClauses(ls, base, k);
    RegIn(base, k, n, 0, 0);
    forall a, b | 0 <= a < |first| && 0 <= b < |first[a]| ensures 0 < Abs(first[a][b]) < base + n * k {
      if a >= 2 {
        RegIn(base, k, n, 0, a - 1);
      }
    }
    RowsLits(ls, base, k, 1);
    LitsBelowConcat(first, RowsFrom(ls, base, k, 1), base + n * k);
  }

  lemma BumpGood(st: CState, m: int)
    requires Good(st) && st.next <= m
    ensures Good(st.(next := m)) && Grows(st, st.(next := m))
  {
    LitsBelowMono(st.clauses, st.next, m);
  }

  lemma CounterGood(st: CState, k: int, ls: seq<int>)
    requires Good(st) && LitsIn(ls, st.next) && SequentialCounter(st, k, ls).Ok?
    ensures Good(SequentialCounter(st, k, ls).value.st) && Grows(st, SequentialCounter(st, k, ls).value.st)
    ensures 0 < Abs(SequentialCounter(st, k, ls).value.lit) < SequentialCounter(st, k, ls).value.st.next
  {
    var x := st.next;
    var top := x + |ls| * k;
    var cc := CounterClauses(ls, x, k);
    RegRange(x, k, |ls|, 0, 0);
    BumpGood(st, top + 1);
    CounterLits(ls, x, k);
    ClauseIn([top], top + 1);
    LitsBelowMono(cc, top, top + 1);
    LitsBelowConcat(cc, [[top]], top + 1);
    AddClausesGood(st.(next := top + 1), cc + [[top]]);
    assert st.clauses + cc + [[top]] == st.clauses + (cc + [[top]]);
    assert SequentialCounter(st, k, ls).value.st == AddClauses(st.(next := top + 1), cc + [[top]]);
  }

  lemma SmallGood(st: CState, k: int, ls: seq<int>)
    requires Good(st) && LitsIn(ls, st.next) && k < |ls| && k != 0 && (|ls| <= 10 || k == 1)
    requires AtMostLits(st, k, ls).Ok?
    ensures Good(AtMostLits(st, k, ls).value.st) && Grows(st, AtMostLits(st, k, ls).value.st)
    ensures 0 < Abs(AtMostLits(st, k, ls).value.lit) < AtMostLits(st, k, ls).value.st.next
  {
    var x := st.next;
    AuxGood(st);
    PairwiseLits(x, ls, k + 1);
    AddClausesGood(Aux(st).st, PairwiseClauses(x, ls, k + 1));
  }

  lemma AtMostLitsGood(st: CState, k: int, ls: seq<int>)
    requires Good(st) && LitsIn(ls, st.next) && AtMostLits(st, k, ls).Ok?
    ensures Good(AtMostLits(st, k, ls).value.st) && Grows(st, AtMostLits(st, k, ls).value.st)
    ensures 0 < Abs(AtMostLits(st, k, ls).value.lit) < AtMostLits(st, k, ls).value.st.next
    ensures AtMostLits(st, k, ls).value.st.vars == st.vars
  {
    var x := st.next;
    if k >= |ls| {
      TrueLitGood(st);
    } else if k == 0 {
      AuxGood(st);
      NoneLits(x, ls);
      AddClausesGood(Aux(st).st, NoneClauses(x, ls));
    } else if |ls| <= 10 || k == 1 {
      SmallGood(st, k, ls);
    } else {
      CounterGood(st, k, ls);
    }
  }

  lemma AtMostNamesGood(st: CState, k: int, names: seq<string>, declared: set<string>)
    requires Good(st) && DeclaredIn(st, declared) && AtMostNames(st, k, names, declared).Ok?
    ensures Good(AtMostNames(st, k, names, declared).value.st)
    ensures Grows(st, AtMostNames(st, k, names, declared).value.st)
    ensures 0 < Abs(AtMostNames(st, k, names, declared).value.lit) < AtMostNames(st, k, names, declared).value.st.next
    ensures AtMostNames(st, k, names, declared).value.st.vars == st.vars
  {
    LookupAllGood(st, names, declared);
    LookupAllIn(st, names, declared);
    AtMostLitsGood(st, k, LookupAll(st, names, declared).value.lits);
  }

  lemma Lits2(p: int, q: int, n: int)
    requires 0 < Abs(p) < n && 0 < Abs(q) < n
    ensures LitsIn([p, q], n)
  {
  }

  lemma Lits3(p: int, q: int, r: int, n: int)
    requires 0 < Abs(p) < n && 0 < Abs(q) < n && 0 < Abs(r) < n
    ensures LitsIn([p, q, r], n)
  {
  }

  lemma Clauses2(c: Clause, d: Clause, n: int)
    requires LitsIn(c, n) && LitsIn(d, n)
    ensures LitsBelow([c, d], n)
  {
    ClauseIn(c, n);
    ClauseIn(d, n);
    LitsBelowConcat([c], [d], n);
    assert [c] + [d] == [c, d];
  }

  lemma Clauses3(c: Clause, d: Clause, e: Clause, n: int)
    requires LitsIn(c, n) && LitsIn(d, n) && LitsIn(e, n)
    ensures LitsBelow([c, d, e], n)
  {
    Clauses2(c, d, n);
    ClauseIn(e, n);
    LitsBelowConcat([c, d], [e], n);
    assert [c, d] + [e] == [c, d, e];
  }

  lemma Clauses4(c: Clause, d: Clause, e: Clause, f: Clause, n: int)
    requires LitsIn(c, n) && LitsIn(d, n) && LitsIn(e, n) && LitsIn(f, n)
    ensures LitsBelow([c, d, e, f], n)
  {
    Clauses2(c, d, n);
    Clauses2(e, f, n);
    LitsBelowConcat([c, d], [e, f], n);
    assert [c, d] + [e, f] == [c, d, e, f];
  }

  lemma NegHelperNumbered(st: CState, v: string)
    requires Good(st) && v in st.vars && NegName(v) !in st.vars
    ensures Numbered(NegHelper(st, v)) && Grows(st, NegHelper(st, v))
    ensures NegHelper(st, v).vars == st.vars[NegName(v) := st.next]
    ensures NegHelper(st, v).clauses == st.clauses + [[st.next, st.vars[v]], [-st.next, -st.vars[v]]]
  {
    var s := NegHelper(st, v);
    var cs := [[st.next, st.vars[v]], [-st.next, -st.vars[v]]];
    Lits2(st.next, st.vars[v], st.next + 1);
    Lits2(-st.next, -st.vars[v], st.next + 1);
    Clauses2(cs[0], cs[1], st.next + 1);
    LitsBelowMono(st.clauses, st.next, st.next + 1);
    LitsBelowConcat(st.clauses, cs, st.next + 1);
  }

  /** A new helper with its two clauses keeps every helper tied to its variable. */
  lemma NegInvExtend(st: CState, s: CState, v: string, id: int)
    requires NegInv(st) && v in st.vars && NegName(v) !in st.vars
    requires s.vars == st.vars[NegName(v) := id]
    requires s.clauses == st.clauses + [[id, st.vars[v]], [-id, -st.vars[v]]]
    ensures NegInv(s)
  {
    var n := NegName(v);
    NegNameReserved(v);
    assert s.vars[v] == st.vars[v] by {
      if v == n {
        assert false;
      }
    }
    assert s.clauses[|st.clauses|] == [id, st.vars[v]];
    assert s.clauses[|st.clauses| + 1] == [-id, -st.vars[v]];
    forall w | NegName(w) in s.vars
      ensures w in s.vars
      ensures [s.vars[NegName(w)], s.vars[w]] in s.clauses
      ensures [-s.vars[NegName(w)], -s.vars[w]] in s.clauses
    {
      if NegName(w) == n {
        NegNameInjective(w, v);
      } else {
        assert NegName(w) in st.vars;
        assert w in st.vars;
        assert st.clauses <= s.clauses;
      }
    }
  }

  lemma NegHelperGood(st: CState, v: string)
    requires Good(st) && v in st.vars
    ensures Good(NegHelper(st, v)) && Grows(st, NegHelper(st, v)) && NegName(v) in NegHelper(st, v).vars
    ensures OnlyHelpersAdded(st, NegHelper(st, v))
  {
    NegNameReserved(v);
    if NegName(v) !in st.vars {
      NegHelperNumbered(st, v);
      NegInvExtend(st, NegHelper(st, v), v, st.next);
    }
  }

  lemma {:induction false} NegHelpersGood(st: CState, names: seq<string>)
    requires Good(st) && forall i :: 0 <= i < |names| ==> names[i] in st.vars
    ensures Good(NegHelpers(st, names)) && Grows(st, NegHelpers(st, names))
    ensures forall i :: 0 <= i < |names| ==> NegName(names[i]) in NegHelpers(st, names).vars
    ensures OnlyHelpersAdded(st, NegHelpers(st, names))
    decreases |names|
  {
    if |names| > 0 {
      var s := NegHelper(st, names[0]);
      NegHelperGood(st, names[0]);
      assert forall i :: 1 <= i < |names| ==> names[i] == names[1..][i - 1];
      NegHelpersGood(s, names[1..]);
      GrowsTrans(st, s, NegHelpers(s, names[1..]));
    }
  }

  lemma AtLeastNamesGood(st: CState, k: int, names: seq<string>, declared: set<string>)
    requires Good(st) && DeclaredIn(st, declared) && AtLeastNames(st, k, names, declared).Ok?
    ensures Good(AtLeastNames(st, k, names, declared).value.st)
    ensures Grows(st, AtLeastNames(st, k, names, declared).value.st)
    ensures 0 < Abs(AtLeastNames(st, k, names, declared).value.lit) < AtLeastNames(st, k, names, declared).value.st.next
    ensures OnlyHelpersAdded(st, AtLeastNames(st, k, names, declared).value.st)
  {
    LookupAllGood(st, names, declared);
    LookupAllIn(st, names, declared);
    var ls := LookupAll(st, names, declared).value.lits;
    if k <= 0 {
      TrueLitGood(st);
    } else if k == |ls| {
      GateGood(st, GAnd, ls);
    } else {
      AtLeastNegGood(st, k, names, declared);
    }
  }

  /** The general `atleast` case: `atmost(|L| - k)` over the negation helpers. */
  lemma AtLeastNegGood(st: CState, k: int, names: seq<string>, declared: set<string>)
    requires Good(st) && DeclaredIn(st, declared)
    requires forall i :: 0 <= i < |names| ==> names[i] in st.vars
    requires AtMostNames(NegHelpers(st, names), |names| - k, NegNames(names),
                         declared + set i | 0 <= i < |NegNames(names)| :: NegNames(names)[i]).Ok?
    ensures var r := AtMostNames(NegHelpers(st, names), |names| - k, NegNames(names),
                                 declared + set i | 0 <= i < |NegNames(names)| :: NegNames(names)[i]).value;
      Good(r.st) && Grows(st, r.st) && 0 < Abs(r.lit) < r.st.next && OnlyHelpersAdded(st, r.st)
  {
    NegHelpersGood(st, names);
    var s := NegHelpers(st, names);
    var negs := NegNames(names);
    var ext := declared + set i | 0 <= i < |negs| :: negs[i];
    assert DeclaredIn(s, ext);
    AtMostNamesGood(s, |names| - k, negs, ext);
    GrowsTrans(st, s, AtMostNames(s, |names| - k, negs, ext).value.st);
  }

  // ---------------------------------------------------------------------
  // Expressions

  lemma {:induction false} EncodeGood(st: CState, e: Expr, declared: set<string>)
    requires Good(st) && DeclaredIn(st, declared) && Encode(st, e, declared).Ok?
    ensures Good(Encode(st, e, declared).value.st) && Grows(st, Encode(st, e, declared).value.st)
    ensures 0 < Abs(Encode(st, e, declared).value.lit) < Encode(st, e, declared).value.st.next
    ensures OnlyHelpersAdded(st, Encode(st, e, declared).value.st)
    decreases e
  {
    match e
    case LitTrue => TrueLitGood(st);
    case LitFalse => FalseLitGood(st);
    case VarRef(x) => VarIdGood(st, x);
    case Not(c) => EncodeGood(st, c, declared);
    case And(cs) =>
      var r := EncodeAll(st, cs, declared).value;
      EncodeAllGood(st, cs, declared);
      GateGood(r.st, GAnd, r.lits);
      GrowsTrans(st, r.st, Gate(r.st, GAnd, r.lits).st);
    case Or(cs) =>
      var r := EncodeAll(st, cs, declared).value;
      EncodeAllGood(st, cs, declared);
      GateGood(r.st, GOr, r.lits);
      GrowsTrans(st, r.st, Gate(r.st, GOr, r.lits).st);
    case Impl(p, q) => EncodeBinaryGood(st, GImpl, e, p, q, declared);
    case Iff(p, q) => EncodeBinaryGood(st, GIff, e, p, q, declared);
    case Xor(p, q) => EncodeBinaryGood(st, GXor, e, p, q, declared);
    case AtMost(k, vs) => AtMostNamesGood(st, k, vs, declared);
    case AtLeast(k, vs) => AtLeastNamesGood(st, k, vs, declared);
    case Exactly(k, vs) => ExactlyGood(st, k, vs, declared);
  }

  lemma ExactlyGood(st: CState, k: int, vs: seq<string>, declared: set<string>)
    requires Good(st) && DeclaredIn(st, declared) && ExactlyNames(st, k, vs, declared).Ok?
    ensures Good(ExactlyNames(st, k, vs, declared).value.st)
    ensures Grows(st, ExactlyNames(st, k, vs, declared).value.st)
    ensures 0 < Abs(ExactlyNames(st, k, vs, declared).value.lit) < ExactlyNames(st, k, vs, declared).value.st.next
    ensures OnlyHelpersAdded(st, ExactlyNames(st, k, vs, declared).value.st)
  {
    var m := AtMostNames(st, k, vs, declared).value;
    AtMostNamesGood(st, k, vs, declared);
    var l := AtLeastNames(m.st, k, vs, declared).value;
    AtLeastNamesGood(m.st, k, vs, declared);
    Lits2(m.lit, l.lit, l.st.next);
    GateGood(l.st, GBoth, [m.lit, l.lit]);
    GrowsTrans(st, m.st, l.st);
    GrowsTrans(st, l.st, Gate(l.st, GBoth, [m.lit, l.lit]).st);
  }

  lemma {:induction false} EncodeBinaryGood(st: CState, g: GateKind, e: Expr, p: Expr, q: Expr, declared: set<string>)
    requires (g == GImpl && e == Impl(p, q)) || (g == GIff && e == Iff(p, q)) || (g == GXor && e == Xor(p, q))
    requires Good(st) && DeclaredIn(st, declared) && EncodeBinary(st, g, e, p, q, declared).Ok?
    ensures Good(EncodeBinary(st, g, e, p, q, declared).value.st)
    ensures Grows(st, EncodeBinary(st, g, e, p, q, declared).value.st)
    ensures 0 < Abs(EncodeBinary(st, g, e, p, q, declared).value.lit) < EncodeBinary(st, g, e, p, q, declared).value.st.next
    ensures OnlyHelpersAdded(st, EncodeBinary(st, g, e, p, q, declared).value.st)
    decreases e, 0
  {
    var a := Encode(st, p, declared).value;
    EncodeGood(st, p, declared);
    var b := Encode(a.st, q, declared).value;
    EncodeGood(a.st, q, declared);
    Lits2(a.lit, b.lit, b.st.next);
    GateGood(b.st, g, [a.lit, b.lit]);
    GrowsTrans(st, a.st, b.st);
    GrowsTrans(st, b.st, Gate(b.st, g, [a.lit, b.lit]).st);
  }

  lemma {:induction false} EncodeAllGood(st: CState, cs: seq<Expr>, declared: set<string>)
    requires Good(st) && DeclaredIn(st, declared) && EncodeAll(st, cs, declared).Ok?
    ensures Good(EncodeAll(st, cs, declared).value.st) && Grows(st, EncodeAll(st, cs, declared).value.st)
    ensures LitsIn(EncodeAll(st, cs, declared).value.lits, EncodeAll(st, cs, declared).value.st.next)
    ensures OnlyHelpersAdded(st, EncodeAll(st, cs, declared).value.st)
    decreases cs
  {
    if |cs| > 0 {
      var h := Encode(st, cs[0], declared).value;
      EncodeGood(st, cs[0], declared);
      var t := EncodeAll(h.st, cs[1..], declared).value;
      EncodeAllGood(h.st, cs[1..], declared);
      GrowsTrans(st, h.st, t.st);
      LitsInConcat([h.lit], t.lits, t.st.next);
    }
  }

  // ---------------------------------------------------------------------
  // Statements

  /** The map holds the declared names and helper names only. */
  predicate Scoped(st: CState, declared: set<string>) {
    DeclaredIn(st, declared) && forall x :: x in st.vars ==> x in declared || Reserved(x)
  }

  /** No declared name is one the compiler reserves for its helpers. */
  predicate UserNames(ss: seq<Stmt>) {
    forall i, j :: 0 <= i < |ss| && ss[i].VarDecl? && 0 <= j < |ss[i].names| ==> !Reserved(ss[i].names[j])
  }

  predicate Distinct(names: seq<string>) {
    forall i, j :: 0 <= i < j < |names| ==> names[i] != names[j]
  }

  /** A declaration succeeds exactly when its names are new and pairwise distinct. */
  lemma {:induction false} DeclareOk(st: CState, declared: set<string>, names: seq<string>, line: int)
    ensures Declare(st, declared, names, line).Ok? <==>
      Distinct(names) && forall i :: 0 <= i < |names| ==> names[i] !in declared
    ensures Declare(st, declared, names, line).Err? ==>
      exists i :: 0 <= i < |names| && Declare(st, declared, names, line).error == AlreadyDeclared(names[i], line)
    ensures Declare(st, declared, names, line).Ok? ==>
      Declare(st, declared, names, line).value.1 == declared + set i | 0 <= i < |names| :: names[i]
    decreases |names|
  {
    if |names| > 0 && names[0] !in declared {
      var rest := names[1..];
      DeclareOk(VarId(st, names[0]).st, declared + {names[0]}, rest, line);
      assert forall i :: 1 <= i < |names| ==> names[i] == rest[i - 1];
      assert (set i | 0 <= i < |names| :: names[i]) == {names[0]} + set i | 0 <= i < |rest| :: rest[i];
      if Declare(st, declared, names, line).Ok? {
        assert forall i :: 0 <= i < |names| ==> names[i] !in declared;
        assert Distinct(names) by {
          forall i, j | 0 <= i < j < |names| ensures names[i] != names[j] {
            if i > 0 { assert rest[i - 1] != rest[j - 1]; }
          }
        }
      }
    }
  }

  lemma {:induction false} DeclareGood(st: CState, declared: set<string>, names: seq<string>, line: int)
    requires Good(st) && Scoped(st, declared) && Declare(st, declared, names, line).Ok?
    requires forall i :: 0 <= i < |names| ==> !Reserved(names[i])
    ensures Good(Declare(st, declared, names, line).value.0)
    ensures Grows(st, Declare(st, declared, names, line).value.0)
    ensures Scoped(Declare(st, declared, names, line).value.0, Declare(st, declared, names, line).value.1)
    ensures Declare(st, declared, names, line).value.1 >= declared
    ensures Declare(st, declared, names, line).value.0.clauses == st.clauses
    decreases |names|
  {
    if |names| > 0 {
      var s := VarId(st, names[0]).st;
      VarIdGood(st, names[0]);
      assert forall i :: 1 <= i < |names| ==> names[i] == names[1..][i - 1];
      DeclareGood(s, declared + {names[0]}, names[1..], line);
      GrowsTrans(st, s, Declare(s, declared + {names[0]}, names[1..], line).value.0);
    }
  }

  lemma {:induction false} CompileFromGood(st: CState, declared: set<string>, ss: seq<Stmt>)
    requires Good(st) && Scoped(st, declared) && UserNames(ss) && CompileFrom(st, declared, ss).Ok?
    ensures Good(CompileFrom(st, declared, ss).value) && Grows(st, CompileFrom(st, declared, ss).value)
    decreases |ss|
  {
    if |ss| > 0 {
      assert UserNames(ss[1..]) by {
        forall i, j | 0 <= i < |ss[1..]| && ss[1..][i].VarDecl? && 0 <= j < |ss[1..][i].names|
          ensures !Reserved(ss[1..][i].names[j])
        {
          assert ss[1..][i] == ss[i + 1];
        }
      }
      match ss[0]
      case VarDecl(names, line) =>
        assert forall j :: 0 <= j < |names| ==> !Reserved(names[j]) by {
          forall j | 0 <= j < |names| ensures !Reserved(names[j]) {
            assert ss[0].names[j] == names[j];
          }
        }
        var d := Declare(st, declared, names, line).value;
        DeclareGood(st, declared, names, line);
        CompileFromGood(d.0, d.1, ss[1..]);
        GrowsTrans(st, d.0, CompileFrom(d.0, d.1, ss[1..]).value);
      case Constraint(e, _) =>
        var r := Encode(st, e, declared).value;
        EncodeGood(st, e, declared);
        var s := AddClauses(r.st, [[r.lit]]);
        ClauseIn([r.lit], r.st.next);
        AddClausesGood(r.st, [[r.lit]]);
        GrowsTrans(st, r.st, s);
        CompileFromGood(s, declared, ss[1..]);
        GrowsTrans(st, s, CompileFrom(s, declared, ss[1..]).value);
      case SolveSatisfy(_) =>
        CompileFromGood(st, declared, ss[1..]);
    }
  }

  /**
   * `compile` numbers consistently: the map is injective, every id lies in
   * `1 .. n` where `n` is the variable count of the problem line, and so
   * does the variable of every literal of every clause.
   */
  lemma CompileNumbering(ss: seq<Stmt>)
    requires UserNames(ss) && Compile(ss).Ok?
    ensures var fin := CompileFrom(Init, {}, ss).value;
      && Compile(ss).value == Compiled(Dimacs.Write(fin.next - 1, fin.clauses), fin.vars)
      && Injective(fin.vars)
      && (forall x :: x in fin.vars ==> 1 <= fin.vars[x] <= fin.next - 1)
      && (forall i, j :: 0 <= i < |fin.clauses| && 0 <= j < |fin.clauses[i]| ==>
            1 <= Abs(fin.clauses[i][j]) <= fin.next - 1)
  {
    CompileFromGood(Init, {}, ss);
  }
}

=== FILE: outcomes.dfy ===
/**
 * Failure-compatible result types shared by every module of the model.
 * The Python code signals errors by raising; the model returns them as values.
 */
module Outcomes {

  /** An optional value: Python's `None` or a present value. */
  datatype Option<+T> = None | Some(value: T)

  /** Either a computed value or the error the Python code would have raised. */
  datatype Result<+T, +E> = Ok(value: T) | Err(error: E) {

    predicate IsFailure() {
      Err?
    }

    function PropagateFailure<U>(): Result<U, E>
      requires Err?
    {
      Err(error)
    }

    function Extract(): T
      requires Ok?
    {
      value
    }
  }
}

=== FILE: parser.dfy ===
/**
 * The recursive-descent `Parser` of sat_modeler.py. The parser object's
 * cursor `self.pos` becomes an explicit position: every parse function
 * takes the position it starts at and returns the value it built together
 * with the position after it, or the `SyntaxError` it would raise.
 */
module Parser {
  import opened Outcomes
  import opened Text
  import opened Lexer
  import opened Syntax

  datatype ParseError =
    | Expected(kind: TokenKind, found: Token)   // `expect` met another kind
    | UnexpectedStatement(found: Token)         // no statement starts here
    | UnexpectedAtom(found: Token)              // no atom starts here
    | BadInteger(text: string)                  // `int()` rejected the INT text

  datatype Parsed<+T> = Parsed(value: T, pos: nat)

  /** The parser reads tokens up to and including a final end marker. */
  predicate Terminated(toks: seq<Token>) {
    |toks| > 0 && toks[|toks| - 1].kind == EndOfInput
  }

  /** A parse that consumed at least one token and stopped on a token. */
  predicate Advanced<T>(toks: seq<Token>, pos: nat, r: Result<Parsed<T>, ParseError>) {
    r.Ok? ==> pos < r.value.pos < |toks|
  }

  /** `expect`: consume the current token, failing when it has another kind. */
  function Expect(toks: seq<Token>, pos: nat, kind: TokenKind): (r: Result<Parsed<Token>, ParseError>)
    requires Terminated(toks) && pos < |toks| && kind != EndOfInput
    ensures r.Ok? <==> toks[pos].kind == kind
    ensures r.Ok? ==> r.value == Parsed(toks[pos], pos + 1) && pos + 1 < |toks|
    ensures r.Err? ==> r.error == Expected(kind, toks[pos])
  {
    if toks[pos].kind == kind then Ok(Parsed(toks[pos], pos + 1))
    else Err(Expected(kind, toks[pos]))
  }

  // ---------------------------------------------------------------- statements

  /** `parse`: statements until the end marker. */
  function Parse(toks: seq<Token>): Result<seq<Stmt>, ParseError>
    requires Terminated(toks)
  {
    Statements(toks, 0)
  }

  function Statements(toks: seq<Token>, pos: nat): (r: Result<seq<Stmt>, ParseError>)
    requires Terminated(toks) && pos < |toks|
    decreases |toks| - pos
  {
    if toks[pos].kind == EndOfInput then Ok([])
    else
      var s :- Statement(toks, pos);
      var rest :- Statements(toks, s.pos);
      Ok([s.value] + rest)
  }

  function Statement(toks: seq<Token>, pos: nat): (r: Result<Parsed<Stmt>, ParseError>)
    requires Terminated(toks) && pos < |toks|
    ensures Advanced(toks, pos, r)
    ensures r.Ok? ==> r.value.value.line == toks[pos].line
  {
    match toks[pos].kind
    case KwVar => VarDeclStmt(toks, pos)
    case KwConstraint => ConstraintStmt(toks, pos)
    case KwSolve => SolveStmt(toks, pos)
    case _ => Err(UnexpectedStatement(toks[pos]))
  }

  function VarDeclStmt(toks: seq<Token>, pos: nat): (r: Result<Parsed<Stmt>, ParseError>)
    requires Terminated(toks) && pos < |toks|
    ensures Advanced(toks, pos, r)
    ensures r.Ok? ==> r.value.value.VarDecl? && r.value.value.line == toks[pos].line && |r.value.value.names| > 0
  {
    var t :- Expect(toks, pos, KwVar);
    var b :- Expect(toks, t.pos, KwBool);
    var c :- Expect(toks, b.pos, Colon);
    var first :- Expect(toks, c.pos, Ident);
    var names :- NameList(toks, first.pos, [first.value.value]);
    var semi :- Expect(toks, names.pos, Semi);
    Ok(Parsed(VarDecl(names.value, t.value.line), semi.pos))
  }

  /** The `while peek is COMMA: advance; expect IDENT` loop after a first name. */
  function NameList(toks: seq<Token>, pos: nat, acc: seq<string>): (r: Result<Parsed<seq<string>>, ParseError>)
    requires Terminated(toks) && pos < |toks|
    ensures r.Ok? ==> pos <= r.value.pos < |toks| && |r.value.value| >= |acc| && r.value.value[..|acc|] == acc
    ensures r.Ok? ==> toks[r.value.pos].kind != Comma
    decreases |toks| - pos
  {
    if toks[pos].kind == Comma then
      var n :- Expect(toks, pos + 1, Ident);
      NameList(toks, n.pos, acc + [n.value.value])
    else Ok(Parsed(acc, pos))
  }

  function ConstraintStmt(toks: seq<Token>, pos: nat): (r: Result<Parsed<Stmt>, ParseError>)
    requires Terminated(toks) && pos < |toks|
    ensures Advanced(toks, pos, r)
    ensures r.Ok? ==> r.value.value.Constraint? && r.value.value.line == toks[pos].line
  {
    var t :- Expect(toks, pos, KwConstraint);
    var e :- ParseExpr(toks, t.pos);
    var semi :- Expect(toks, e.pos, Semi);
    Ok(Parsed(Constraint(e.value, t.value.line), semi.pos))
  }

  function SolveStmt(toks: seq<Token>, pos: nat): (r: Result<Parsed<Stmt>, ParseError>)
    requires Terminated(toks) && pos < |toks|
    ensures Advanced(toks, pos, r)
    ensures r.Ok? ==> r.value.value == SolveSatisfy(toks[pos].line)
  {
    var t :- Expect(toks, pos, KwSolve);
    var s :- Expect(toks, t.pos, KwSatisfy);
    var semi :- Expect(toks, s.pos, Semi);
    Ok(Parsed(SolveSatisfy(t.value.line), semi.pos))
  }

  // --------------------------------------------------------------- expressions

  /**
   * The shape every parsed expression has: n-ary `and`/`or` nodes have at
   * least two operands and cardinality lists at least one name.
   */
  predicate Shaped(e: Expr)
    decreases e
  {
    match e
    case Not(c) => Shaped(c)
    case And(cs) => |cs| >= 2 && AllShaped(cs)
    case Or(cs) => |cs| >= 2 && AllShaped(cs)
    case Impl(a, b) => Shaped(a) && Shaped(b)
    case Iff(a, b) => Shaped(a) && Shaped(b)
    case Xor(a, b) => Shaped(a) && Shaped(b)
    case AtMost(_, vs) => |vs| > 0
    case AtLeast(_, vs) => |vs| > 0
    case Exactly(_, vs) => |vs| > 0
    case _ => true
  }

  predicate AllShaped(cs: seq<Expr>) {
    forall i :: 0 <= i < |cs| ==> Shaped(cs[i])
  }

  /** A successful expression parse consumed tokens and built a shaped tree. */
  predicate ExprParsed(toks: seq<Token>, pos: nat, r: Result<Parsed<Expr>, ParseError>) {
    Advanced(toks, pos, r) && (r.Ok? ==> Shaped(r.value.value))
  }

  function ParseExpr(toks: seq<Token>, pos: nat): (r: Result<Parsed<Expr>, ParseError>)
    requires Terminated(toks) && pos < |toks|
    ensures ExprParsed(toks, pos, r)
    decreases |toks| - pos, 7
  {
    IffExpr(toks, pos)
  }

  function IffExpr(toks: seq<Token>, pos: nat): (r: Result<Parsed<Expr>, ParseError>)
    requires Terminated(toks) && pos < |toks|
    ensures ExprParsed(toks, pos, r)
    decreases |toks| - pos, 6
  {
    var left :- ImplExpr(toks, pos);
    IffLoop(toks, left.value, left.pos)
  }

  /**
   * The `<->` loop builds `Iff(left, right)` on each turn. It folds to the
   * left only over operands that are not bare variables: `Atom` gives a
   * variable followed by an arrow the rest of the expression, so
   * `a <-> b <-> c` is `a <-> (b <-> c)` while `(a) <-> (b) <-> c` is
   * `(a <-> b) <-> c`.
   */
  function IffLoop(toks: seq<Token>, left: Expr, pos: nat): (r: Result<Parsed<Expr>, ParseError>)
    requires Terminated(toks) && pos < |toks| && Shaped(left)
    ensures r.Ok? ==> pos <= r.value.pos < |toks| && Shaped(r.value.value)
    decreases |toks| - pos, 0
  {
    if toks[pos].kind == IffOp then
      var right :- ImplExpr(toks, pos + 1);
      IffLoop(toks, Iff(left, right.value), right.pos)
    else Ok(Parsed(left, pos))
  }

  function ImplExpr(toks: seq<Token>, pos: nat): (r: Result<Parsed<Expr>, ParseError>)
    requires Terminated(toks) && pos < |toks|
    ensures ExprParsed(toks, pos, r)
    decreases |toks| - pos, 5
  {
    var left :- OrExpr(toks, pos);
    ImplLoop(toks, left.value, left.pos)
  }

  /** The `->` loop, which like the `<->` loop folds to the left only over operands that are not bare variables. */
  function ImplLoop(toks: seq<Token>, left: Expr, pos: nat): (r: Result<Parsed<Expr>, ParseError>)
    requires Terminated(toks) && pos < |toks| && Shaped(left)
    ensures r.Ok? ==> pos <= r.value.pos < |toks| && Shaped(r.value.value)
    decreases |toks| - pos, 0
  {
    if toks[pos].kind == ImplOp then
      var right :- OrExpr(toks, pos + 1);
      ImplLoop(toks, Impl(left, right.value), right.pos)
    else Ok(Parsed(left, pos))
  }

  /** One operand stands for itself; two or more make one n-ary node. */
  function Chain(cs: seq<Expr>, conj: bool): Expr
    requires |cs| > 0
  {
    if |cs| == 1 then cs[0] else if conj then And(cs) else Or(cs)
  }

  function OrExpr(toks: seq<Token>, pos: nat): (r: Result<Parsed<Expr>, ParseError>)
    requires Terminated(toks) && pos < |toks|
    ensures ExprParsed(toks, pos, r)
    decreases |toks| - pos, 4
  {
    var first :- AndExpr(toks, pos);
    var cs :- OrLoop(toks, [first.value], first.pos);
    Ok(Parsed(Chain(cs.value, false), cs.pos))
  }

  function OrLoop(toks: seq<Token>, acc: seq<Expr>, pos: nat): (r: Result<Parsed<seq<Expr>>, ParseError>)
    requires Terminated(toks) && pos < |toks| && |acc| > 0 && AllShaped(acc)
    ensures r.Ok? ==> pos <= r.value.pos < |toks| && |r.value.value| >= |acc| && AllShaped(r.value.value)
    decreases |toks| - pos, 0
  {
    if toks[pos].kind == OrOp then
      var c :- AndExpr(toks, pos + 1);
      OrLoop(toks, acc + [c.value], c.pos)
    else Ok(Parsed(acc, pos))
  }

  function AndExpr(toks: seq<Token>, pos: nat): (r: Result<Parsed<Expr>, ParseError>)
    requires Terminated(toks) && pos < |toks|
    ensures ExprParsed(toks, pos, r)
    decreases |toks| - pos, 3
  {
    var first :- NotExpr(toks, pos);
    var cs :- AndLoop(toks, [first.value], first.pos);
    Ok(Parsed(Chain(cs.value, true), cs.pos))
  }

  function AndLoop(toks: seq<Token>, acc: seq<Expr>, pos: nat): (r: Result<Parsed<seq<Expr>>, ParseError>)
    requires Terminated(toks) && pos < |toks| && |acc| > 0 && AllShaped(acc)
    ensures r.Ok? ==> pos <= r.value.pos < |toks| && |r.value.value| >= |acc| && AllShaped(r.value.value)
    decreases |toks| - pos, 0
  {
    if toks[pos].kind == AndOp then
      var c :- NotExpr(toks, pos + 1);
      AndLoop(toks, acc + [c.value], c.pos)
    else Ok(Parsed(acc, pos))
  }

  function NotExpr(toks: seq<Token>, pos: nat): (r: Result<Parsed<Expr>, ParseError>)
    requires Terminated(toks) && pos < |toks|
    ensures ExprParsed(toks, pos, r)
    decreases |toks| - pos, 2
  {
    if toks[pos].kind == NotOp then
      var c :- NotExpr(toks, pos + 1);
      Ok(Parsed(Not(c.value), c.pos))
    else Atom(toks, pos)
  }

  /**
   * An atom. An identifier directly followed by `->` or `<->` takes the
   * whole remaining expression as its right operand.
   */
  function Atom(toks: seq<Token>, pos: nat): (r: Result<Parsed<Expr>, ParseError>)
    requires Terminated(toks) && pos < |toks|
    ensures ExprParsed(toks, pos, r)
    decreases |toks| - pos, 1
  {
    var t := toks[pos];
    match t.kind
    case KwTrue => Ok(Parsed(LitTrue, pos + 1))
    case KwFalse => Ok(Parsed(LitFalse, pos + 1))
    case LParen =>
      var e :- ParseExpr(toks, pos + 1);
      var close :- Expect(toks, e.pos, RParen);
      Ok(Parsed(e.value, close.pos))
    case KwXor => XorCall(toks, pos)
    case KwAtmost => Cardinality(toks, pos)
    case KwAtleast => Cardinality(toks, pos)
    case KwExactly => Cardinality(toks, pos)
    case Ident =>
      if toks[pos + 1].kind == ImplOp then
        var rhs :- ParseExpr(toks, pos + 2);
        Ok(Parsed(Impl(VarRef(t.value), rhs.value), rhs.pos))
      else if toks[pos + 1].kind == IffOp then
        var rhs :- ParseExpr(toks, pos + 2);
        Ok(Parsed(Iff(VarRef(t.value), rhs.value), rhs.pos))
      else Ok(Parsed(VarRef(t.value), pos + 1))
    case _ => Err(UnexpectedAtom(t))
  }

  /** `xor(a, b)`. */
  function XorCall(toks: seq<Token>, pos: nat): (r: Result<Parsed<Expr>, ParseError>)
    requires Terminated(toks) && pos < |toks|
    ensures ExprParsed(toks, pos, r)
    decreases |toks| - pos, 0
  {
    var x :- Expect(toks, pos, KwXor);
    var open :- Expect(toks, x.pos, LParen);
    var a :- ParseExpr(toks, open.pos);
    var comma :- Expect(toks, a.pos, Comma);
    var b :- ParseExpr(toks, comma.pos);
    var close :- Expect(toks, b.pos, RParen);
    Ok(Parsed(Xor(a.value, b.value), close.pos))
  }

  /** `atmost(k, [x, ...])`, `atleast(...)` or `exactly(...)`, by the first token's kind. */
  function Cardinality(toks: seq<Token>, pos: nat): (r: Result<Parsed<Expr>, ParseError>)
    requires Terminated(toks) && pos < |toks|
    requires toks[pos].kind in {KwAtmost, KwAtleast, KwExactly}
    ensures ExprParsed(toks, pos, r)
    ensures r.Ok? ==> IsCardinality(r.value.value)
    decreases |toks| - pos, 0
  {
    var kind := toks[pos].kind;
    var open :- Expect(toks, pos + 1, LParen);
    var num :- Expect(toks, open.pos, Number);
    var k :- (match ParseInt(num.value.value)
              case Some(k) => Ok(k)
              case None => Err(BadInteger(num.value.value)));
    var comma :- Expect(toks, num.pos, Comma);
    var lb :- Expect(toks, comma.pos, LBrack);
    var first :- Expect(toks, lb.pos, Ident);
    var names :- NameList(toks, first.pos, [first.value.value]);
    var rb :- Expect(toks, names.pos, RBrack);
    var close :- Expect(toks, rb.pos, RParen);
    var e := if kind == KwAtmost then AtMost(k, names.value)
             else if kind == KwAtleast then AtLeast(k, names.value)
             else Exactly(k, names.value);
    Ok(Parsed(e, close.pos))
  }
}

=== FILE: plugin.dfy ===
/**
 * The parts of `SolverPlugin` (solvers/base.py) that decide something
 * without launching a process: the verdict read from a finished run, the
 * result dictionary, the status of a plugin's files, the cached version
 * probe and the guard in front of `run`.
 *
 * The file system is a value: which paths exist, which are regular files
 * and which carry the execute permission. A version probe and a launched
 * process are inputs.
 */
module Plugin {
  import opened Outcomes
  import opened Text
  import Verdicts

  // ---------------------------------------------------------------------
  // `parse_result`

  /** The verdict `parse_result` reads from an exit code and the solver's output. */
  function ParseResult(exitCode: int, output: string): (v: Verdicts.Verdict)
    ensures v == Verdicts.SAT || v == Verdicts.UNSAT || v == Verdicts.UNKNOWN
  {
    var upper := Upper(output);
    if exitCode == 10 || Contains(upper, "SATISFIABLE") then
      if Contains(upper, "UNSATISFIABLE") then Verdicts.UNSAT else Verdicts.SAT
    else if exitCode == 20 || Contains(upper, "UNSATISFIABLE") then Verdicts.UNSAT
    else Verdicts.UNKNOWN
  }

  /**
   * What the verdict depends on: only the upper-cased output, so letter
   * case never matters; `UNSATISFIABLE` forces UNSAT whatever the exit
   * code; SAT comes from exit code 10 or the word `SATISFIABLE`, even
   * with exit code 20; UNSAT otherwise needs exit code 20.
   */
  lemma ParseResultRules(exitCode: int, output: string, other: string)
    ensures Upper(output) == Upper(other) ==> ParseResult(exitCode, output) == ParseResult(exitCode, other)
    ensures Contains(Upper(output), "UNSATISFIABLE") ==> ParseResult(exitCode, output) == Verdicts.UNSAT
    ensures ParseResult(exitCode, output) == Verdicts.SAT <==>
      !Contains(Upper(output), "UNSATISFIABLE") && (exitCode == 10 || Contains(Upper(output), "SATISFIABLE"))
    ensures ParseResult(exitCode, output) == Verdicts.UNSAT <==>
      Contains(Upper(output), "UNSATISFIABLE") || (exitCode == 20 && !Contains(Upper(output), "SATISFIABLE"))
    ensures ParseResult(exitCode, output) == Verdicts.UNKNOWN <==>
      exitCode != 10 && exitCode != 20 && !Contains(Upper(output), "SATISFIABLE")
  {
    if Contains(Upper(output), "UNSATISFIABLE") {
      Verdicts.ContainsUnsatisfiable(Upper(output));
    }
  }

  // ---------------------------------------------------------------------
  // `SolverRunResult.to_dict`

  /** A value of the result dictionary. */
  datatype Value = Str(s: string) | Num(i: int) | Dec(r: real) | Null

  /** `SolverRunResult`, with `extra_stats` as a map from names to values. */
  datatype RunResult = RunResult(
    result: Verdicts.Verdict,
    exitCode: int,
    wallTimeSeconds: real,
    cpuTimeSeconds: real,
    maxMemoryKb: int,
    solverOutput: string,
    errorMessage: string,
    conflicts: Option<int>,
    decisions: Option<int>,
    propagations: Option<int>,
    restarts: Option<int>,
    extraStats: map<string, Value>)

  /** The dataclass defaults. */
  const Fresh := RunResult(Verdicts.UNKNOWN, -1, 0.0, 0.0, 0, "", "", None, None, None, None, map[])

  /** The eleven keys `to_dict` always writes. */
  const FixedKeys: set<string> := {"result", "exit_code", "wall_time_seconds", "cpu_time_seconds",
    "max_memory_kb", "solver_output", "error_message", "conflicts", "decisions", "propagations", "restarts"}

  function Count(x: Option<int>): Value {
    if x.Some? then Num(x.value) else Null
  }

  /** `to_dict`: the fields under their names, then `extra_stats` merged over them. */
  function ToDict(r: RunResult): (d: map<string, Value>)
    ensures d.Keys == FixedKeys + r.extraStats.Keys
    ensures forall k :: k in r.extraStats ==> d[k] == r.extraStats[k]
  {
    map[
      "result" := Str(Verdicts.Name(r.result)),
      "exit_code" := Num(r.exitCode),
      "wall_time_seconds" := Dec(r.wallTimeSeconds),
      "cpu_time_seconds" := Dec(r.cpuTimeSeconds),
      "max_memory_kb" := Num(r.maxMemoryKb),
      "solver_output" := Str(r.solverOutput),
      "error_message" := Str(r.errorMessage),
      "conflicts" := Count(r.conflicts),
      "decisions" := Count(r.decisions),
      "propagations" := Count(r.propagations),
      "restarts" := Count(r.restarts)
    ] + r.extraStats
  }

  lemma FixedKeyCount()
    ensures |FixedKeys| == 11
  {
  }

  /**
   * Without same-named extra statistics, every fixed key reads back its
   * field: the verdict's name, the exit code, the times, the memory, the
   * texts and the four counters.
   */
  lemma ToDictFields(r: RunResult)
    requires forall k :: k in FixedKeys ==> k !in r.extraStats
    ensures var d := ToDict(r);
      && Verdicts.Parse(d["result"].s) == Some(r.result)
      && d["exit_code"] == Num(r.exitCode)
      && d["wall_time_seconds"] == Dec(r.wallTimeSeconds)
      && d["cpu_time_seconds"] == Dec(r.cpuTimeSeconds)
      && d["max_memory_kb"] == Num(r.maxMemoryKb)
      && d["solver_output"] == Str(r.solverOutput)
      && d["error_message"] == Str(r.errorMessage)
      && (d["conflicts"] == Null <==> r.conflicts.None?)
      && (d["decisions"] == Null <==> r.decisions.None?)
      && (d["propagations"] == Null <==> r.propagations.None?)
      && (d["restarts"] == Null <==> r.restarts.None?)
  {
    var d := ToDict(r);
    assert "result" !in r.extraStats;
    Verdicts.NameParse(r.result);
  }

  /** An extra statistic that shares a fixed key's name replaces the field. */
  lemma ExtraOverrides(r: RunResult, k: string, v: Value)
    ensures ToDict(r.(extraStats := r.extraStats[k := v]))[k] == v
    ensures k in FixedKeys ==> ToDict(r.(extraStats := r.extraStats[k := v])).Keys == ToDict(r).Keys
  {
  }

  // ---------------------------------------------------------------------
  // Files and status

  /** The part of the file system the plugin looks at. */
  datatype Files = Files(existing: set<string>, regular: set<string>, executable: set<string>)

  /** A plugin: its key, its display name, its fallback version and where its binary lives. */
  datatype Info = Info(key: string, name: string, defaultVersion: string, executablePath: string)

  /** `solvers_base`: the `SOLVERS_DIR` environment variable or `/app/solvers`. */
  function SolversBase(env: Option<string>): string {
    if env.Some? then env.value else "/app/solvers"
  }

  /** `solver_dir`: `Path(solvers_base) / key`, as the text pathlib gives it. */
  function SolverDir(env: Option<string>, p: Info): string {
    JoinPath(SolversBase(env), p.key)
  }

  // ---------------------------------------------------------------------
  // pathlib's lexical view of a POSIX path

  /** The anchor pathlib keeps: none, `/`, or `//` when exactly two slashes lead. */
  function PathRoot(s: string): (r: string)
    ensures r == "" || r == "/" || r == "//"
  {
    if |s| >= 2 && s[0] == '/' && s[1] == '/' && (|s| == 2 || s[2] != '/') then "//"
    else if |s| >= 1 && s[0] == '/' then "/"
    else ""
  }

  /** A piece pathlib keeps: neither empty nor `.`, and free of separators. */
  predicate Component(c: string) {
    c != "" && c != "." && '/' !in c
  }

  /**
   * The pieces pathlib keeps, in order. A piece of a split on `/` holds no
   * separator, so this drops exactly the empty pieces and `.`.
   */
  function Components(ps: seq<string>): (r: seq<string>)
    ensures forall i :: 0 <= i < |r| ==> Component(r[i])
  {
    if |ps| == 0 then []
    else (if Component(ps[0]) then [ps[0]] else []) + Components(ps[1..])
  }

  /** The parts of `Path(s)` below its anchor. */
  function PathParts(s: string): seq<string> {
    Components(SplitChar(s, '/'))
  }

  /** `str()` of the path with this anchor and these parts; `.` for the empty path. */
  function PathText(root: string, parts: seq<string>): string {
    if root == "" && |parts| == 0 then "." else root + Join("/", parts)
  }

  /** `str(Path(s))`. */
  function PathStr(s: string): string {
    PathText(PathRoot(s), PathParts(s))
  }

  /** `str(Path(base) / key)`: an anchored key replaces the base. */
  function JoinPath(base: string, key: string): string {
    if PathRoot(key) != "" then PathStr(key)
    else PathText(PathRoot(base), PathParts(base) + PathParts(key))
  }

  /** `d` followed by one separator and `k`: none after the bare `.`, and no second one after a root. */
  function Child(d: string, k: string): string {
    if d == "." then k else if EndsWith(d, "/") then d + k else d + "/" + k
  }

  lemma {:induction false} ComponentsConcat(a: seq<string>, b: seq<string>)
    ensures Components(a + b) == Components(a) + Components(b)
    decreases |a|
  {
    if |a| > 0 {
      assert (a + b)[1..] == a[1..] + b;
      ComponentsConcat(a[1..], b);
      assert (a + b)[0] == a[0];
    } else {
      assert a + b == b;
    }
  }

  lemma {:induction false} ComponentsKeep(ps: seq<string>)
    requires forall i :: 0 <= i < |ps| ==> Component(ps[i])
    ensures Components(ps) == ps
    decreases |ps|
  {
    if |ps| > 0 {
      ComponentsKeep(ps[1..]);
    }
  }

  lemma {:induction false} JoinSnoc(sep: string, parts: seq<string>, x: string)
    requires |parts| > 0
    ensures Join(sep, parts + [x]) == Join(sep, parts) + sep + x
    decreases |parts|
  {
    if |parts| > 1 {
      assert (parts + [x])[1..] == parts[1..] + [x];
      JoinSnoc(sep, parts[1..], x);
    } else {
      assert parts + [x] == [parts[0], x];
      assert [parts[0], x][1..] == [x];
    }
  }

  /** A path's text never ends in a separator after a part. */
  lemma PathTextEnd(root: string, parts: seq<string>)
    requires |parts| > 0 && forall i :: 0 <= i < |parts| ==> Component(parts[i])
    requires root == "" || root == "/" || root == "//"
    ensures PathText(root, parts) != "." && !EndsWith(PathText(root, parts), "/")
  {
    var j := Join("/", parts);
    var last := parts[|parts| - 1];
    JoinLast("/", parts);
    assert j[|j| - 1] == last[|last| - 1];
    var t := root + j;
    assert t[|t| - 1] == j[|j| - 1];
    assert |j| == |last| ==> j[|j| - |last|..] == j;
    assert |t| == 1 ==> root == "" && j == last;
  }

  /** A plain key has no anchor and is its own single part. */
  lemma KeyParts(key: string)
    requires Component(key)
    ensures PathRoot(key) == "" && PathParts(key) == [key]
  {
    assert key[0] in key;
    IndexOfCharAbsent(key, '/');
    assert SplitChar(key, '/') == [key];
    assert Components([key]) == [key] by { assert [key][1..] == []; }
  }

  /** Appending a part to a path's text: one separator, none after the bare `.` or a root. */
  lemma TextChild(root: string, parts: seq<string>, key: string)
    requires root == "" || root == "/" || root == "//"
    requires (forall i :: 0 <= i < |parts| ==> Component(parts[i])) && Component(key)
    ensures PathText(root, parts + [key]) == Child(PathText(root, parts), key)
  {
    if |parts| == 0 {
      TextChildAnchor(root, parts, key);
    } else {
      PathTextEnd(root, parts);
      TextChildPart(root, parts, key);
    }
  }

  lemma TextChildPart(root: string, parts: seq<string>, key: string)
    requires |parts| > 0
    requires PathText(root, parts) != "." && !EndsWith(PathText(root, parts), "/")
    ensures PathText(root, parts + [key]) == Child(PathText(root, parts), key)
  {
    var j := Join("/", parts);
    JoinSnoc("/", parts, key);
    assert PathText(root, parts) == root + j;
    assert PathText(root, parts + [key]) == root + (j + "/" + key);
    assert root + (j + "/" + key) == root + j + "/" + key;
  }

  lemma TextChildAnchor(root: string, parts: seq<string>, key: string)
    requires root == "" || root == "/" || root == "//"
    requires |parts| == 0 && Component(key)
    ensures PathText(root, parts + [key]) == Child(PathText(root, parts), key)
  {
    assert parts + [key] == [key];
    assert Join("/", [key]) == key;
    if root != "" {
      assert Join("/", parts) == "" && root + "" == root;
      assert PathText(root, parts) == root;
      assert root[|root| - 1] == '/';
    }
  }

  /** With a plain key, joining is the base's text, one separator and the key. */
  lemma JoinChild(base: string, key: string)
    requires Component(key)
    ensures JoinPath(base, key) == Child(PathStr(base), key)
  {
    KeyParts(key);
    TextChild(PathRoot(base), PathParts(base), key);
  }

  lemma {:induction false} SplitCharSnoc(s: string, c: char)
    ensures SplitChar(s + [c], c) == SplitChar(s, c) + [[]]
    decreases |s|
  {
    var t := s + [c];
    var i := IndexOfChar(s, c);
    var j := IndexOfChar(t, c);
    assert forall m :: 0 <= m < |s| ==> t[m] == s[m];
    assert t[|s|] == c;
    if i == |s| {
      assert j == |s|;
      assert t[..j] == s && t[j + 1..] == [];
      assert SplitChar([], c) == [[]];
      assert SplitChar(t, c) == [s] + [[]];
    } else {
      assert j == i;
      assert t[..j] == s[..i];
      assert t[j + 1..] == s[i + 1..] + [c];
      SplitCharSnoc(s[i + 1..], c);
      var r := SplitChar(s[i + 1..], c);
      assert SplitChar(t, c) == [s[..i]] + (r + [[]]);
      assert SplitChar(s, c) == [s[..i]] + r;
      assert [s[..i]] + (r + [[]]) == ([s[..i]] + r) + [[]];
    }
  }

  /** The leading slashes decide the anchor. */
  lemma PathRootSnoc(b: string)
    requires |b| > 0 && b[|b| - 1] != '/'
    ensures PathRoot(b + "/") == PathRoot(b)
  {
    var t := b + "/";
    assert forall m :: 0 <= m < |b| ==> t[m] == b[m];
  }

  /** A trailing separator changes neither the anchor nor the parts. */
  lemma PathSnoc(b: string)
    requires |b| > 0 && b[|b| - 1] != '/'
    ensures PathRoot(b + "/") == PathRoot(b) && PathParts(b + "/") == PathParts(b)
  {
    PathRootSnoc(b);
    SplitCharSnoc(b, '/');
    assert b + "/" == b + ['/'];
    var empty: seq<string> := [[]];
    ComponentsConcat(SplitChar(b, '/'), empty);
    assert Components(empty) == [] by { assert empty[1..] == []; }
  }

  /** `SOLVERS_DIR="/opt/solvers/"` and `SOLVERS_DIR="/opt/solvers"` name the same solver directory. */
  lemma SolverDirTrailingSlash(b: string, p: Info)
    requires |b| > 0 && b[|b| - 1] != '/'
    ensures SolverDir(Some(b + "/"), p) == SolverDir(Some(b), p)
  {
    PathSnoc(b);
  }

  /** An empty `SOLVERS_DIR` is the current directory: the solver directory is the bare key. */
  lemma SolverDirEmpty(p: Info)
    requires Component(p.key)
    ensures SolverDir(Some(""), p) == p.key
  {
    JoinChild("", p.key);
    assert SplitChar("", '/') == [""];
    assert Components([""]) == [] by { assert [""][1..] == []; }
  }

  /** An absolute path in pathlib's own form keeps its text. */
  lemma AbsoluteText(parts: seq<string>)
    requires |parts| > 0 && forall i :: 0 <= i < |parts| ==> Component(parts[i])
    ensures PathStr("/" + Join("/", parts)) == "/" + Join("/", parts)
  {
    AbsoluteParts(parts);
    AbsoluteRoot(parts);
  }

  lemma AbsoluteParts(parts: seq<string>)
    requires |parts| > 0 && forall i :: 0 <= i < |parts| ==> Component(parts[i])
    ensures PathParts("/" + Join("/", parts)) == parts
  {
    var ps := [""] + parts;
    assert ps[1..] == parts;
    assert Join("/", ps) == "/" + Join("/", parts);
    forall i | 0 <= i < |ps| ensures '/' !in ps[i] {
      if i > 0 {
        assert ps[i] == parts[i - 1] && Component(parts[i - 1]);
      }
    }
    SplitCharJoin(ps, '/');
    ComponentsKeep(parts);
    assert Components(ps) == [] + Components(ps[1..]);
  }

  lemma AbsoluteRoot(parts: seq<string>)
    requires |parts| > 0 && Component(parts[0])
    ensures PathRoot("/" + Join("/", parts)) == "/"
  {
    var s := "/" + Join("/", parts);
    var j := Join("/", parts);
    assert parts[0][0] != '/' by { assert parts[0][0] in parts[0]; }
    assert j[0] == parts[0][0];
    assert s[1] == j[0];
  }

  /** `Path("/app/solvers")` keeps its text. */
  lemma DefaultBaseText()
    ensures PathStr("/app/solvers") == "/app/solvers"
  {
    var parts := ["app", "solvers"];
    DefaultBaseJoin();
    assert Component("app") && Component("solvers");
    AbsoluteText(parts);
  }

  lemma DefaultBaseJoin()
    ensures "/" + Join("/", ["app", "solvers"]) == "/app/solvers"
  {
    var parts := ["app", "solvers"];
    assert parts[1..] == ["solvers"];
    assert Join("/", parts) == "app/solvers";
  }

  /** The default base ends in a part, so the key follows one separator. */
  lemma DefaultBaseChild(k: string)
    ensures Child("/app/solvers", k) == "/app/solvers/" + k
  {
    var d := "/app/solvers";
    assert d[|d| - 1] == 's';
    assert d + "/" == "/app/solvers/";
  }

  /** Without `SOLVERS_DIR` the solver directory is `/app/solvers/<key>`. */
  lemma SolverDirDefault(p: Info)
    requires Component(p.key)
    ensures SolverDir(None, p) == "/app/solvers/" + p.key
  {
    JoinChild("/app/solvers", p.key);
    DefaultBaseText();
    DefaultBaseChild(p.key);
  }

  /** `is_installed`: the binary is a regular file with the execute permission. */
  predicate Installed(fs: Files, p: Info) {
    p.executablePath in fs.regular && p.executablePath in fs.executable
  }

  datatype Status = READY | NOT_INSTALLED | INSTALLING | ERROR | UNAVAILABLE

  /** `get_status`: an installed binary first, then a leftover directory, then nothing. */
  function GetStatus(env: Option<string>, fs: Files, p: Info): (s: Status)
    ensures s == READY || s == ERROR || s == NOT_INSTALLED
    ensures s == READY <==> Installed(fs, p)
    ensures s == ERROR <==> !Installed(fs, p) && SolverDir(env, p) in fs.existing
  {
    if Installed(fs, p) then READY
    else if SolverDir(env, p) in fs.existing then ERROR
    else NOT_INSTALLED
  }

  /** `p` lies strictly inside the directory `dir`. */
  predicate Inside(p: string, dir: string) {
    StartsWith(p, dir + "/")
  }

  /** `uninstall`: the solver directory and everything below it disappear. */
  function Uninstall(env: Option<string>, fs: Files, p: Info): (r: Files)
    ensures SolverDir(env, p) !in r.existing
    ensures forall x :: x in r.existing ==> x in fs.existing
  {
    var dir := SolverDir(env, p);
    if dir in fs.existing then
      Files(set x | x in fs.existing && x != dir && !Inside(x, dir),
            set x | x in fs.regular && x != dir && !Inside(x, dir),
            set x | x in fs.executable && x != dir && !Inside(x, dir))
    else fs
  }

  /**
   * After `uninstall` (which also clears the cached version), a plugin
   * whose binary lives in its own directory reports NOT_INSTALLED and its
   * default version.
   */
  lemma UninstallStatus(env: Option<string>, fs: Files, p: Info, flags: seq<string>, probe: string -> Option<string>)
    requires SolverDir(env, p) in fs.existing && Inside(p.executablePath, SolverDir(env, p))
    ensures GetStatus(env, Uninstall(env, fs, p), p) == NOT_INSTALLED
    ensures DetectVersion(None, Uninstall(env, fs, p), p, flags, probe).0 == p.defaultVersion
  {
    var r := Uninstall(env, fs, p);
    assert p.executablePath !in r.regular;
  }

  // ---------------------------------------------------------------------
  // `detect_version`

  /** The version flags tried: the plugin's own, or `--version` when it has none. */
  function VersionFlags(flags: seq<string>): (r: seq<string>)
    ensures |r| > 0
  {
    if |flags| > 0 then flags else ["--version"]
  }

  /** The first flag whose probe yields a version, if any. */
  function FirstVersion(flags: seq<string>, probe: string -> Option<string>): (r: Option<string>)
    ensures r.Some? <==> exists i :: 0 <= i < |flags| && probe(flags[i]).Some?
    ensures r.Some? ==> exists i :: 0 <= i < |flags| && probe(flags[i]) == r
  {
    if |flags| == 0 then None
    else if probe(flags[0]).Some? then probe(flags[0])
    else
      var r := FirstVersion(flags[1..], probe);
      assert forall i :: 1 <= i < |flags| ==> flags[i] == flags[1..][i - 1];
      r
  }

  /**
   * `detect_version`: the cached value once set; the default version when
   * the binary is not installed; otherwise the first flag whose output
   * parses as a version, which becomes the cache; the default if none.
   * `probe(flag)` is the parsed output of the binary run with `flag`,
   * `None` for an empty output, no version number or an exception.
   */
  function DetectVersion(cache: Option<string>, fs: Files, p: Info, flags: seq<string>,
                         probe: string -> Option<string>): (r: (string, Option<string>))
    ensures cache.Some? ==> r == (cache.value, cache)
    ensures cache.None? && !Installed(fs, p) ==> r == (p.defaultVersion, None)
    ensures cache.None? && Installed(fs, p) ==>
      (r.1.Some? <==> exists i :: 0 <= i < |VersionFlags(flags)| && probe(VersionFlags(flags)[i]).Some?)
    ensures r.1.Some? ==> r.0 == r.1.value
    ensures r.1.None? ==> r.0 == p.defaultVersion
  {
    if cache.Some? then (cache.value, cache)
    else if !Installed(fs, p) then (p.defaultVersion, None)
    else
      var v := FirstVersion(VersionFlags(flags), probe);
      if v.Some? then (v.value, v) else (p.defaultVersion, None)
  }

  /** Once a probe has succeeded, later calls return the same version without probing. */
  lemma DetectVersionCached(cache: Option<string>, fs: Files, fs': Files, p: Info, flags: seq<string>,
                            probe: string -> Option<string>, probe': string -> Option<string>)
    requires DetectVersion(cache, fs, p, flags, probe).1.Some?
    ensures var first := DetectVersion(cache, fs, p, flags, probe);
      DetectVersion(first.1, fs', p, flags, probe') == first
  {
  }

  // ---------------------------------------------------------------------
  // `run`

  /** How the launched process ended. */
  datatype Launch =
    | Exited(returnCode: Option<int>, stdout: string, stderr: string)
    | TimedOut
    | NotFound
    | PermissionDenied
    | Raised(message: string)

  /**
   * `run` without statistics scraping: an uninstalled plugin gives ERROR
   * without launching; a finished process gives `parse_result` on the
   * first 10000 characters of its output; a timeout gives TIMEOUT with the
   * timeout as wall time; a launch failure gives ERROR.
   */
  function Run(fs: Files, p: Info, timeout: int, launch: Launch): (r: RunResult)
    ensures r.result != Verdicts.MEMOUT
    ensures !Installed(fs, p) ==> r.result == Verdicts.ERROR && r.exitCode == -1
    ensures Installed(fs, p) ==> (r.result == Verdicts.TIMEOUT <==> launch.TimedOut?)
    ensures Installed(fs, p) && launch.Exited? ==>
      r.result == ParseResult(r.exitCode, r.solverOutput) && |r.solverOutput| <= 10000
    ensures Installed(fs, p) && launch.Exited? ==>
      r.exitCode == (if launch.returnCode.Some? then launch.returnCode.value else 0)
  {
    if !Installed(fs, p) then
      Fresh.(result := Verdicts.ERROR, errorMessage := "Solver " + p.name + " is not installed")
    else
      match launch
      case Exited(rc, stdout, stderr) =>
        var code := if rc.Some? then rc.value else 0;
        var out := Prefix(stdout, 10000);
        var err := Prefix(stderr, 5000);
        var r := Fresh.(exitCode := code, solverOutput := out, result := ParseResult(code, out));
        if |err| > 0 then r.(errorMessage := err) else r
      case TimedOut =>
        Fresh.(result := Verdicts.TIMEOUT, wallTimeSeconds := timeout as real,
               errorMessage := "Timeout (" + IntToString(timeout) + "s) exceeded")
      case NotFound =>
        Fresh.(result := Verdicts.ERROR, errorMessage := "Executable not found: " + p.executablePath)
      case PermissionDenied =>
        Fresh.(result := Verdicts.ERROR, errorMessage := "Permission denied: " + p.executablePath)
      case Raised(msg) =>
        Fresh.(result := Verdicts.ERROR, errorMessage := msg)
  }
}

=== FILE: printer.dfy ===
/**
 * A printer from syntax trees back to token lists, and the round trip:
 * the parser rebuilds every shaped tree from its printed tokens. The
 * printer parenthesises every operand that is not atomic, so the round
 * trip also pins down how the parser groups operators, including an
 * identifier directly followed by an arrow.
 */
module Printer {
  import opened Outcomes
  import opened Text
  import opened Lexer
  import opened Syntax
  import opened Parser

  function Tok(kind: TokenKind, value: string): Token {
    Token(kind, value, 0, 0)
  }

  const AndTok := Tok(AndOp, "/\\")
  const OrTok := Tok(OrOp, "\\/")
  const ImplTok := Tok(ImplOp, "->")
  const IffTok := Tok(IffOp, "<->")
  const OpenTok := Tok(LParen, "(")
  const CloseTok := Tok(RParen, ")")
  const CommaTok := Tok(Comma, ",")
  const SemiTok := Tok(Semi, ";")

  /** Printed without surrounding parentheses even as an operand. */
  predicate Atomic(e: Expr) {
    e.LitTrue? || e.LitFalse? || e.VarRef? || e.Xor? || IsCardinality(e)
  }

  function CardTok(e: Expr): (t: Token)
    requires IsCardinality(e)
  {
    if e.AtMost? then Tok(KwAtmost, "atmost")
    else if e.AtLeast? then Tok(KwAtleast, "atleast")
    else Tok(KwExactly, "exactly")
  }

  function Print(e: Expr): seq<Token>
    decreases e, 0
  {
    match e
    case LitTrue => [Tok(KwTrue, "true")]
    case LitFalse => [Tok(KwFalse, "false")]
    case VarRef(x) => [Tok(Ident, x)]
    case Not(c) => [Tok(NotOp, "not")] + Operand(c)
    case And(cs) => if |cs| == 0 then [] else Operand(cs[0]) + OperandsFrom(cs, 1, AndTok)
    case Or(cs) => if |cs| == 0 then [] else Operand(cs[0]) + OperandsFrom(cs, 1, OrTok)
    case Impl(a, b) => Operand(a) + [ImplTok] + Operand(b)
    case Iff(a, b) => Operand(a) + [IffTok] + Operand(b)
    case Xor(a, b) => [Tok(KwXor, "xor"), OpenTok] + Print(a) + [CommaTok] + Print(b) + [CloseTok]
    case AtMost(k, vs) => CardTokens(e)
    case AtLeast(k, vs) => CardTokens(e)
    case Exactly(k, vs) => CardTokens(e)
  }

  function CardTokens(e: Expr): seq<Token>
    requires IsCardinality(e)
  {
    [CardTok(e), OpenTok, Tok(Number, IntToString(e.k)), CommaTok, Tok(LBrack, "[")]
      + Names(e.vars) + [Tok(RBrack, "]"), CloseTok]
  }

  /** An operand: atomic trees as they are, all others in parentheses. */
  function Operand(e: Expr): seq<Token>
    decreases e, 1
  {
    if Atomic(e) then Print(e) else [OpenTok] + Print(e) + [CloseTok]
  }

  /** `op c_i op c_(i+1) ...`: the operands after the first. */
  function OperandsFrom(cs: seq<Expr>, i: nat, op: Token): seq<Token>
    decreases cs, |cs| - i
  {
    if i >= |cs| then [] else [op] + Operand(cs[i]) + OperandsFrom(cs, i + 1, op)
  }

  /** `x1, x2, ...`. */
  function Names(vs: seq<string>): seq<Token> {
    if |vs| == 0 then [] else [Tok(Ident, vs[0])] + NamesFrom(vs, 1)
  }

  function NamesFrom(vs: seq<string>, i: nat): seq<Token>
    decreases |vs| - i
  {
    if i >= |vs| then [] else [CommaTok, Tok(Ident, vs[i])] + NamesFrom(vs, i + 1)
  }

  function PrintStmt(s: Stmt): seq<Token> {
    match s
    case VarDecl(ns, line) =>
      [Token(KwVar, "var", line, 0), Tok(KwBool, "bool"), Tok(Colon, ":")] + Names(ns) + [SemiTok]
    case Constraint(e, line) => [Token(KwConstraint, "constraint", line, 0)] + Print(e) + [SemiTok]
    case SolveSatisfy(line) => [Token(KwSolve, "solve", line, 0), Tok(KwSatisfy, "satisfy"), SemiTok]
  }

  function PrintFrom(ss: seq<Stmt>, i: nat): seq<Token>
    decreases |ss| - i
  {
    if i >= |ss| then [] else PrintStmt(ss[i]) + PrintFrom(ss, i + 1)
  }

  /** The printed program, closed by an end marker. */
  function PrintProgram(ss: seq<Stmt>): seq<Token> {
    PrintFrom(ss, 0) + [Tok(EndOfInput, "")]
  }

  predicate PrintableStmt(s: Stmt) {
    match s
    case VarDecl(ns, _) => |ns| > 0
    case Constraint(e, _) => Shaped(e)
    case SolveSatisfy(_) => true
  }

  // -------------------------------------------------------------------- layout

  /*
   * Where the printed tokens of a tree sit in a token list: `toks[pos..end]`
   * hold them, stated token by token with the split points existentially
   * bound. The parse proofs below read only these predicates; the layout
   * lemmas at the end derive them from the printed sequences.
   */

  predicate KindAt(toks: seq<Token>, pos: nat, k: TokenKind) {
    pos < |toks| && toks[pos].kind == k
  }

  predicate IdentAt(toks: seq<Token>, pos: nat, x: string) {
    KindAt(toks, pos, Ident) && toks[pos].value == x
  }

  ghost predicate PrintedAt(toks: seq<Token>, pos: nat, e: Expr, end: nat)
    decreases e, 0
  {
    match e
    case LitTrue => KindAt(toks, pos, KwTrue) && end == pos + 1
    case LitFalse => KindAt(toks, pos, KwFalse) && end == pos + 1
    case VarRef(x) => IdentAt(toks, pos, x) && end == pos + 1
    case Not(c) => KindAt(toks, pos, NotOp) && OperandAt(toks, pos + 1, c, end)
    case And(cs) => |cs| > 0 && exists m: nat :: OperandAt(toks, pos, cs[0], m) && ChainAt(toks, m, cs, 1, AndOp, end)
    case Or(cs) => |cs| > 0 && exists m: nat :: OperandAt(toks, pos, cs[0], m) && ChainAt(toks, m, cs, 1, OrOp, end)
    case Impl(a, b) => exists m: nat :: OperandAt(toks, pos, a, m) && KindAt(toks, m, ImplOp) && OperandAt(toks, m + 1, b, end)
    case Iff(a, b) => exists m: nat :: OperandAt(toks, pos, a, m) && KindAt(toks, m, IffOp) && OperandAt(toks, m + 1, b, end)
    case Xor(a, b) =>
      && KindAt(toks, pos, KwXor) && KindAt(toks, pos + 1, LParen) && end > 0 && KindAt(toks, end - 1, RParen)
      && exists m: nat :: PrintedAt(toks, pos + 2, a, m) && KindAt(toks, m, Comma) && PrintedAt(toks, m + 1, b, end - 1)
    case AtMost(_, _) => CardAt(toks, pos, e, end)
    case AtLeast(_, _) => CardAt(toks, pos, e, end)
    case Exactly(_, _) => CardAt(toks, pos, e, end)
  }

  predicate CardAt(toks: seq<Token>, pos: nat, e: Expr, end: nat)
    requires IsCardinality(e)
  {
    && KindAt(toks, pos, CardTok(e).kind) && KindAt(toks, pos + 1, LParen)
    && KindAt(toks, pos + 2, Number) && toks[pos + 2].value == IntToString(e.k)
    && KindAt(toks, pos + 3, Comma) && KindAt(toks, pos + 4, LBrack)
    && end >= 2 && NamesAt(toks, pos + 5, e.vars, end - 2)
    && KindAt(toks, end - 2, RBrack) && KindAt(toks, end - 1, RParen)
  }

  ghost predicate OperandAt(toks: seq<Token>, pos: nat, e: Expr, end: nat)
    decreases e, 1
  {
    if Atomic(e) then PrintedAt(toks, pos, e, end)
    else end > 0 && KindAt(toks, pos, LParen) && PrintedAt(toks, pos + 1, e, end - 1) && KindAt(toks, end - 1, RParen)
  }

  ghost predicate ChainAt(toks: seq<Token>, pos: nat, cs: seq<Expr>, i: nat, op: TokenKind, end: nat)
    decreases cs, |cs| - i, 1
  {
    if i >= |cs| then end == pos
    else KindAt(toks, pos, op) && ChainRest(toks, pos + 1, cs, i, op, end)
  }

  /** Operand `i` at `p`, then the rest of the chain. */
  ghost predicate ChainRest(toks: seq<Token>, p: nat, cs: seq<Expr>, i: nat, op: TokenKind, end: nat)
    requires i < |cs|
    decreases cs, |cs| - i, 0
  {
    exists m: nat :: OperandAt(toks, p, cs[i], m) && ChainAt(toks, m, cs, i + 1, op, end)
  }

  predicate NamesAt(toks: seq<Token>, pos: nat, vs: seq<string>, end: nat) {
    |vs| > 0 && IdentAt(toks, pos, vs[0]) && NamesFromAt(toks, pos + 1, vs, 1, end)
  }

  predicate NamesFromAt(toks: seq<Token>, pos: nat, vs: seq<string>, i: nat, end: nat)
    decreases |vs| - i
  {
    if i >= |vs| then end == pos
    else KindAt(toks, pos, Comma) && IdentAt(toks, pos + 1, vs[i]) && NamesFromAt(toks, pos + 2, vs, i + 1, end)
  }

  ghost predicate StmtAt(toks: seq<Token>, pos: nat, s: Stmt, end: nat) {
    match s
    case VarDecl(ns, line) =>
      && KindAt(toks, pos, KwVar) && toks[pos].line == line
      && KindAt(toks, pos + 1, KwBool) && KindAt(toks, pos + 2, Colon)
      && end > 0 && NamesAt(toks, pos + 3, ns, end - 1) && KindAt(toks, end - 1, Semi)
    case Constraint(e, line) =>
      && KindAt(toks, pos, KwConstraint) && toks[pos].line == line
      && end > 0 && PrintedAt(toks, pos + 1, e, end - 1) && KindAt(toks, end - 1, Semi)
    case SolveSatisfy(line) =>
      && KindAt(toks, pos, KwSolve) && toks[pos].line == line
      && KindAt(toks, pos + 1, KwSatisfy) && KindAt(toks, pos + 2, Semi) && end == pos + 3
  }

  ghost predicate ProgramAt(toks: seq<Token>, pos: nat, ss: seq<Stmt>, i: nat)
    decreases |ss| - i
  {
    && pos < |toks|
    && if i >= |ss| then KindAt(toks, pos, EndOfInput)
       else exists m: nat :: StmtAt(toks, pos, ss[i], m) && ProgramAt(toks, m, ss, i + 1)
  }

  /** Binary operators: the kinds the expression levels continue on. */
  predicate Stopper(k: TokenKind) {
    k != AndOp && k != OrOp && k != ImplOp && k != IffOp
  }

  predicate Arrow(k: TokenKind) {
    k == ImplOp || k == IffOp
  }

  // -------------------------------------------------------------- parser steps

  /*
   * One unfolding of one parsing function each, over sub-results given as
   * hypotheses. The round-trip lemmas below chain these steps instead of
   * unfolding the parser themselves.
   */

  lemma {:induction false} StepNotOp(toks: seq<Token>, pos: nat, c: Expr, q: nat)
    requires Terminated(toks) && pos < |toks| && toks[pos].kind == NotOp
    requires NotExpr(toks, pos + 1) == Ok(Parsed(c, q))
    ensures NotExpr(toks, pos) == Ok(Parsed(Not(c), q))
  {
  }

  lemma {:induction false} StepAtom(toks: seq<Token>, pos: nat, e: Expr, q: nat)
    requires Terminated(toks) && pos < |toks| && toks[pos].kind != NotOp
    requires Atom(toks, pos) == Ok(Parsed(e, q))
    ensures NotExpr(toks, pos) == Ok(Parsed(e, q))
  {
  }

  lemma {:induction false} StepParen(toks: seq<Token>, pos: nat, e: Expr, q: nat)
    requires Terminated(toks) && pos < |toks| && toks[pos].kind == LParen
    requires ParseExpr(toks, pos + 1) == Ok(Parsed(e, q)) && toks[q].kind == RParen
    ensures Atom(toks, pos) == Ok(Parsed(e, q + 1))
  {
  }

  lemma {:induction false} StepCapture(toks: seq<Token>, pos: nat, e: Expr, q: nat)
    requires Terminated(toks) && pos < |toks| && (e.Impl? || e.Iff?) && e.lhs.VarRef?
    requires toks[pos].kind == Ident && toks[pos].value == e.lhs.name
    requires toks[pos + 1].kind == (if e.Impl? then ImplOp else IffOp)
    requires ParseExpr(toks, pos + 2) == Ok(Parsed(e.rhs, q))
    ensures Atom(toks, pos) == Ok(Parsed(e, q))
  {
  }

  lemma {:induction false} StepXor(toks: seq<Token>, pos: nat, a: Expr, m: nat, b: Expr, q: nat)
    requires Terminated(toks) && pos < |toks| && toks[pos].kind == KwXor && toks[pos + 1].kind == LParen
    requires ParseExpr(toks, pos + 2) == Ok(Parsed(a, m)) && toks[m].kind == Comma
    requires ParseExpr(toks, m + 1) == Ok(Parsed(b, q)) && toks[q].kind == RParen
    ensures Atom(toks, pos) == Ok(Parsed(Xor(a, b), q + 1))
  {
    assert XorCall(toks, pos) == Ok(Parsed(Xor(a, b), q + 1));
  }

  lemma {:induction false} StepCard(toks: seq<Token>, pos: nat, e: Expr, r: nat)
    requires Terminated(toks) && pos < |toks| && IsCardinality(e)
    requires toks[pos].kind == CardTok(e).kind && toks[pos + 1].kind == LParen
    requires toks[pos + 2].kind == Number && ParseInt(toks[pos + 2].value) == Some(e.k)
    requires toks[pos + 3].kind == Comma && toks[pos + 4].kind == LBrack && toks[pos + 5].kind == Ident
    requires NameList(toks, pos + 6, [toks[pos + 5].value]) == Ok(Parsed(e.vars, r))
    requires toks[r].kind == RBrack && toks[r + 1].kind == RParen
    ensures Atom(toks, pos) == Ok(Parsed(e, r + 2))
  {
    assert Cardinality(toks, pos) == Ok(Parsed(e, r + 2));
  }

  lemma {:induction false} StepAndLoop(toks: seq<Token>, acc: seq<Expr>, pos: nat, c: Expr, q: nat)
    requires Terminated(toks) && pos < |toks| && |acc| > 0 && AllShaped(acc) && toks[pos].kind == AndOp
    requires NotExpr(toks, pos + 1) == Ok(Parsed(c, q))
    ensures AllShaped(acc + [c]) && AndLoop(toks, acc, pos) == AndLoop(toks, acc + [c], q)
  {
    assert (acc + [c])[|acc|] == c;
  }

  lemma {:induction false} StepAndStop(toks: seq<Token>, acc: seq<Expr>, pos: nat)
    requires Terminated(toks) && pos < |toks| && |acc| > 0 && AllShaped(acc) && toks[pos].kind != AndOp
    ensures AndLoop(toks, acc, pos) == Ok(Parsed(acc, pos))
  {
  }

  lemma {:induction false} StepAndExpr(toks: seq<Token>, pos: nat, c: Expr, m: nat, cs: seq<Expr>, q: nat)
    requires Terminated(toks) && pos < |toks| && NotExpr(toks, pos) == Ok(Parsed(c, m))
    requires AndLoop(toks, [c], m) == Ok(Parsed(cs, q))
    ensures |cs| > 0 && AndExpr(toks, pos) == Ok(Parsed(Chain(cs, true), q))
  {
  }

  lemma {:induction false} StepOrLoop(toks: seq<Token>, acc: seq<Expr>, pos: nat, c: Expr, q: nat)
    requires Terminated(toks) && pos < |toks| && |acc| > 0 && AllShaped(acc) && toks[pos].kind == OrOp
    requires AndExpr(toks, pos + 1) == Ok(Parsed(c, q))
    ensures AllShaped(acc + [c]) && OrLoop(toks, acc, pos) == OrLoop(toks, acc + [c], q)
  {
    assert (acc + [c])[|acc|] == c;
  }

  lemma {:induction false} StepOrStop(toks: seq<Token>, acc: seq<Expr>, pos: nat)
    requires Terminated(toks) && pos < |toks| && |acc| > 0 && AllShaped(acc) && toks[pos].kind != OrOp
    ensures OrLoop(toks, acc, pos) == Ok(Parsed(acc, pos))
  {
  }

  lemma {:induction false} StepOrExpr(toks: seq<Token>, pos: nat, c: Expr, m: nat, cs: seq<Expr>, q: nat)
    requires Terminated(toks) && pos < |toks| && AndExpr(toks, pos) == Ok(Parsed(c, m))
    requires OrLoop(toks, [c], m) == Ok(Parsed(cs, q))
    ensures |cs| > 0 && OrExpr(toks, pos) == Ok(Parsed(Chain(cs, false), q))
  {
  }

  lemma {:induction false} StepImplLoop(toks: seq<Token>, left: Expr, pos: nat, b: Expr, q: nat)
    requires Terminated(toks) && pos < |toks| && Shaped(left) && toks[pos].kind == ImplOp
    requires OrExpr(toks, pos + 1) == Ok(Parsed(b, q))
    ensures ImplLoop(toks, left, pos) == ImplLoop(toks, Impl(left, b), q)
  {
  }

  lemma {:induction false} StepImplStop(toks: seq<Token>, left: Expr, pos: nat)
    requires Terminated(toks) && pos < |toks| && Shaped(left) && toks[pos].kind != ImplOp
    ensures ImplLoop(toks, left, pos) == Ok(Parsed(left, pos))
  {
  }

  lemma {:induction false} StepImplExpr(toks: seq<Token>, pos: nat, a: Expr, m: nat)
    requires Terminated(toks) && pos < |toks| && OrExpr(toks, pos) == Ok(Parsed(a, m))
    ensures ImplExpr(toks, pos) == ImplLoop(toks, a, m)
  {
  }

  lemma {:induction false} StepIffLoop(toks: seq<Token>, left: Expr, pos: nat, b: Expr, q: nat)
    requires Terminated(toks) && pos < |toks| && Shaped(left) && toks[pos].kind == IffOp
    requires ImplExpr(toks, pos + 1) == Ok(Parsed(b, q))
    ensures IffLoop(toks, left, pos) == IffLoop(toks, Iff(left, b), q)
  {
  }

  lemma {:induction false} StepIffStop(toks: seq<Token>, left: Expr, pos: nat)
    requires Terminated(toks) && pos < |toks| && Shaped(left) && toks[pos].kind != IffOp
    ensures IffLoop(toks, left, pos) == Ok(Parsed(left, pos))
  {
  }

  lemma {:induction false} StepIffExpr(toks: seq<Token>, pos: nat, a: Expr, m: nat)
    requires Terminated(toks) && pos < |toks| && ImplExpr(toks, pos) == Ok(Parsed(a, m))
    ensures ParseExpr(toks, pos) == IffLoop(toks, a, m)
  {
  }

  // --------------------------------------------------------- passing levels up

  lemma {:induction false} LiftNot(toks: seq<Token>, pos: nat, e: Expr, q: nat)
    requires Terminated(toks) && pos < |toks| && NotExpr(toks, pos) == Ok(Parsed(e, q))
    requires toks[q].kind != AndOp
    ensures AndExpr(toks, pos) == Ok(Parsed(e, q))
  {
    StepAndStop(toks, [e], q);
    StepAndExpr(toks, pos, e, q, [e], q);
  }

  lemma {:induction false} LiftAnd(toks: seq<Token>, pos: nat, e: Expr, q: nat)
    requires Terminated(toks) && pos < |toks| && AndExpr(toks, pos) == Ok(Parsed(e, q))
    requires toks[q].kind != OrOp
    ensures OrExpr(toks, pos) == Ok(Parsed(e, q))
  {
    StepOrStop(toks, [e], q);
    StepOrExpr(toks, pos, e, q, [e], q);
  }

  lemma {:induction false} LiftOr(toks: seq<Token>, pos: nat, e: Expr, q: nat)
    requires Terminated(toks) && pos < |toks| && OrExpr(toks, pos) == Ok(Parsed(e, q))
    requires toks[q].kind != ImplOp
    ensures ImplExpr(toks, pos) == Ok(Parsed(e, q))
  {
    StepImplExpr(toks, pos, e, q);
    StepImplStop(toks, e, q);
  }

  lemma {:induction false} LiftImpl(toks: seq<Token>, pos: nat, e: Expr, q: nat)
    requires Terminated(toks) && pos < |toks| && ImplExpr(toks, pos) == Ok(Parsed(e, q))
    requires toks[q].kind != IffOp
    ensures ParseExpr(toks, pos) == Ok(Parsed(e, q))
  {
    StepIffExpr(toks, pos, e, q);
    StepIffStop(toks, e, q);
  }

  /** A tree the `not` level returns is returned by every level above it before a stopper. */
  lemma {:induction false} LiftAll(toks: seq<Token>, pos: nat, e: Expr, q: nat)
    requires Terminated(toks) && pos < |toks| && NotExpr(toks, pos) == Ok(Parsed(e, q))
    requires Stopper(toks[q].kind)
    ensures ParseExpr(toks, pos) == Ok(Parsed(e, q))
  {
    LiftNot(toks, pos, e, q);
    LiftAnd(toks, pos, e, q);
    LiftOr(toks, pos, e, q);
    LiftImpl(toks, pos, e, q);
  }

  // ---------------------------------------------------------------- parsing back

  lemma {:induction false} NamesFromParse(vs: seq<string>, i: nat, toks: seq<Token>, pos: nat, acc: seq<string>, end: nat)
    requires Terminated(toks) && pos < |toks| && i <= |vs| && acc == vs[..i]
    requires NamesFromAt(toks, pos, vs, i, end) && end < |toks| && toks[end].kind != Comma
    ensures NameList(toks, pos, acc) == Ok(Parsed(vs, end))
    decreases |vs| - i
  {
    if i < |vs| {
      assert vs[..i + 1] == acc + [vs[i]];
      NamesFromParse(vs, i + 1, toks, pos + 2, acc + [vs[i]], end);
    } else {
      assert vs[..i] == vs;
    }
  }

  /** A printed name list is read back by the first `expect(IDENT)` and the comma loop. */
  lemma {:induction false} NamesParse(vs: seq<string>, toks: seq<Token>, pos: nat, end: nat)
    requires Terminated(toks) && pos < |toks| && NamesAt(toks, pos, vs, end) && end < |toks| && toks[end].kind != Comma
    ensures NameList(toks, pos + 1, [vs[0]]) == Ok(Parsed(vs, end))
  {
    assert vs[..1] == [vs[0]];
    NamesFromParse(vs, 1, toks, pos + 1, [vs[0]], end);
  }

  lemma {:induction false} CardinalityParse(e: Expr, toks: seq<Token>, pos: nat, end: nat)
    requires Terminated(toks) && pos < |toks| && IsCardinality(e) && CardAt(toks, pos, e, end) && end < |toks|
    ensures Atom(toks, pos) == Ok(Parsed(e, end))
  {
    NamesParse(e.vars, toks, pos + 5, end - 2);
    ParseIntOfString(e.k);
    StepCard(toks, pos, e, end - 2);
  }

  lemma {:induction false} XorParse(e: Expr, toks: seq<Token>, pos: nat, end: nat)
    requires Terminated(toks) && pos < |toks| && e.Xor? && Shaped(e) && PrintedAt(toks, pos, e, end) && end < |toks|
    ensures Atom(toks, pos) == Ok(Parsed(e, end))
    decreases e, 0
  {
    var m := XorArgs(e, toks, pos, end);
    StepXor(toks, pos, e.a, m, e.b, end - 1);
  }

  /** Both arguments of `xor ( a , b )` are parsed back, up to the comma and the closing parenthesis. */
  lemma {:induction false} XorArgs(e: Expr, toks: seq<Token>, pos: nat, end: nat) returns (m: nat)
    requires Terminated(toks) && pos < |toks| && e.Xor? && Shaped(e) && end < |toks|
    requires KindAt(toks, pos + 1, LParen) && end > 0 && KindAt(toks, end - 1, RParen)
    requires exists m: nat :: PrintedAt(toks, pos + 2, e.a, m) && KindAt(toks, m, Comma) && PrintedAt(toks, m + 1, e.b, end - 1)
    ensures pos + 2 < |toks| && ParseExpr(toks, pos + 2) == Ok(Parsed(e.a, m)) && KindAt(toks, m, Comma)
    ensures m + 1 < |toks| && end > 0 && ParseExpr(toks, m + 1) == Ok(Parsed(e.b, end - 1)) && KindAt(toks, end - 1, RParen)
    decreases e, 0, 0
  {
    m :| PrintedAt(toks, pos + 2, e.a, m) && KindAt(toks, m, Comma) && PrintedAt(toks, m + 1, e.b, end - 1);
    XorArg(e, e.a, toks, pos + 2, m);
    XorArg(e, e.b, toks, m + 1, end - 1);
  }

  /** One argument of `xor ( a , b )`, parsed back up to the comma or the closing parenthesis. */
  lemma {:induction false} XorArg(e: Expr, x: Expr, toks: seq<Token>, p: nat, q: nat)
    requires Terminated(toks) && e.Xor? && Shaped(e) && (x == e.a || x == e.b)
    requires p < |toks| && PrintedAt(toks, p, x, q) && (KindAt(toks, q, Comma) || KindAt(toks, q, RParen))
    ensures ParseExpr(toks, p) == Ok(Parsed(x, q))
    decreases e, 0, 0, 0
  {
    ExprParse(x, toks, p, q);
  }

  /** An atomic tree is parsed back by `Atom`, an identifier only when no arrow follows it. */
  lemma {:induction false} AtomicParse(e: Expr, toks: seq<Token>, pos: nat, end: nat)
    requires Terminated(toks) && pos < |toks| && Atomic(e) && Shaped(e) && PrintedAt(toks, pos, e, end) && end < |toks|
    requires e.VarRef? ==> !Arrow(toks[end].kind)
    ensures Atom(toks, pos) == Ok(Parsed(e, end))
    ensures toks[pos].kind != NotOp
    decreases e, 1
  {
    if e.Xor? {
      XorParse(e, toks, pos, end);
    } else if IsCardinality(e) {
      CardinalityParse(e, toks, pos, end);
    }
  }

  /** An operand is parsed back by the `not` level. */
  lemma {:induction false} OperandParse(e: Expr, toks: seq<Token>, pos: nat, end: nat)
    requires Terminated(toks) && pos < |toks| && Shaped(e) && OperandAt(toks, pos, e, end) && end < |toks|
    requires e.VarRef? ==> !Arrow(toks[end].kind)
    ensures NotExpr(toks, pos) == Ok(Parsed(e, end))
    decreases e, 4
  {
    if Atomic(e) {
      AtomicParse(e, toks, pos, end);
      StepAtom(toks, pos, e, end);
    } else {
      ParenParse(e, toks, pos, end);
    }
  }

  /** A parenthesised operand. */
  lemma {:induction false} ParenParse(e: Expr, toks: seq<Token>, pos: nat, end: nat)
    requires Terminated(toks) && pos < |toks| && Shaped(e) && !Atomic(e) && OperandAt(toks, pos, e, end) && end < |toks|
    ensures NotExpr(toks, pos) == Ok(Parsed(e, end))
    decreases e, 3
  {
    ExprParse(e, toks, pos + 1, end - 1);
    StepParen(toks, pos, e, end - 1);
    StepAtom(toks, pos, e, end);
  }

  /** An operand in front of an arrow or a stopper is parsed back by the `or` level. */
  lemma {:induction false} OperandOr(e: Expr, toks: seq<Token>, pos: nat, end: nat)
    requires Terminated(toks) && pos < |toks| && Shaped(e) && OperandAt(toks, pos, e, end) && end < |toks|
    requires toks[end].kind != AndOp && toks[end].kind != OrOp
    requires e.VarRef? ==> !Arrow(toks[end].kind)
    ensures OrExpr(toks, pos) == Ok(Parsed(e, end))
    decreases e, 5
  {
    OperandParse(e, toks, pos, end);
    LiftNot(toks, pos, e, end);
    LiftAnd(toks, pos, e, end);
  }

  /** An operand in front of `<->` or a stopper is parsed back by the `->` level. */
  lemma {:induction false} OperandImpl(e: Expr, toks: seq<Token>, pos: nat, end: nat)
    requires Terminated(toks) && pos < |toks| && Shaped(e) && OperandAt(toks, pos, e, end) && end < |toks|
    requires toks[end].kind != AndOp && toks[end].kind != OrOp && toks[end].kind != ImplOp
    requires e.VarRef? ==> toks[end].kind != IffOp
    ensures ImplExpr(toks, pos) == Ok(Parsed(e, end))
    decreases e, 6
  {
    OperandOr(e, toks, pos, end);
    LiftOr(toks, pos, e, end);
  }

  /** An operand standing alone is parsed back by the top level. */
  lemma {:induction false} OperandExprParse(e: Expr, toks: seq<Token>, pos: nat, end: nat)
    requires Terminated(toks) && pos < |toks| && Shaped(e) && OperandAt(toks, pos, e, end) && end < |toks|
    requires Stopper(toks[end].kind)
    ensures ParseExpr(toks, pos) == Ok(Parsed(e, end))
    decreases e, 7
  {
    OperandImpl(e, toks, pos, end);
    LiftImpl(toks, pos, e, end);
  }

  /** The `and` loop reads the printed operands after the first. */
  lemma {:induction false} AndLoopParse(cs: seq<Expr>, i: nat, toks: seq<Token>, pos: nat, acc: seq<Expr>, end: nat)
    requires Terminated(toks) && pos < |toks| && 0 < i <= |cs| && AllShaped(cs) && acc == cs[..i]
    requires ChainAt(toks, pos, cs, i, AndOp, end) && end < |toks| && Stopper(toks[end].kind)
    ensures AndLoop(toks, acc, pos) == Ok(Parsed(cs, end))
    decreases cs, |cs| - i
  {
    if i < |cs| {
      var m: nat :| OperandAt(toks, pos + 1, cs[i], m) && ChainAt(toks, m, cs, i + 1, AndOp, end);
      OperandParse(cs[i], toks, pos + 1, m);
      StepAndLoop(toks, acc, pos, cs[i], m);
      assert cs[..i + 1] == acc + [cs[i]];
      AndLoopParse(cs, i + 1, toks, m, acc + [cs[i]], end);
    } else {
      assert cs[..i] == cs;
      StepAndStop(toks, acc, pos);
    }
  }

  /** The `or` loop reads the printed operands after the first. */
  lemma {:induction false} OrLoopParse(cs: seq<Expr>, i: nat, toks: seq<Token>, pos: nat, acc: seq<Expr>, end: nat)
    requires Terminated(toks) && pos < |toks| && 0 < i <= |cs| && AllShaped(cs) && acc == cs[..i]
    requires ChainAt(toks, pos, cs, i, OrOp, end) && end < |toks| && Stopper(toks[end].kind)
    ensures OrLoop(toks, acc, pos) == Ok(Parsed(cs, end))
    decreases cs, |cs| - i
  {
    if i < |cs| {
      var m: nat :| OperandAt(toks, pos + 1, cs[i], m) && ChainAt(toks, m, cs, i + 1, OrOp, end);
      OperandParse(cs[i], toks, pos + 1, m);
      LiftNot(toks, pos + 1, cs[i], m);
      StepOrLoop(toks, acc, pos, cs[i], m);
      assert cs[..i + 1] == acc + [cs[i]];
      OrLoopParse(cs, i + 1, toks, m, acc + [cs[i]], end);
    } else {
      assert cs[..i] == cs;
      StepOrStop(toks, acc, pos);
    }
  }

  /**
   * The tokens of a shaped tree, in front of any token that is not a binary
   * operator, are parsed back to the same tree, ending at that token.
   */
  lemma {:induction false} ExprParse(e: Expr, toks: seq<Token>, pos: nat, end: nat)
    requires Terminated(toks) && pos < |toks| && Shaped(e) && PrintedAt(toks, pos, e, end) && end < |toks|
    requires Stopper(toks[end].kind)
    ensures ParseExpr(toks, pos) == Ok(Parsed(e, end))
    decreases e, 2
  {
    if e.Not? {
      NotParse(e, toks, pos, end);
    } else if e.And? {
      AndParse(e, toks, pos, end);
    } else if e.Or? {
      OrParse(e, toks, pos, end);
    } else if (e.Impl? || e.Iff?) && e.lhs.VarRef? {
      CaptureParse(e, toks, pos, end);
    } else if e.Impl? {
      ImplParse(e, toks, pos, end);
    } else if e.Iff? {
      IffParse(e, toks, pos, end);
    } else {
      AtomicParse(e, toks, pos, end);
      StepAtom(toks, pos, e, end);
      LiftAll(toks, pos, e, end);
    }
  }

  lemma {:induction false} NotParse(e: Expr, toks: seq<Token>, pos: nat, end: nat)
    requires Terminated(toks) && pos < |toks| && e.Not? && Shaped(e) && PrintedAt(toks, pos, e, end) && end < |toks|
    requires Stopper(toks[end].kind)
    ensures ParseExpr(toks, pos) == Ok(Parsed(e, end))
    decreases e, 1
  {
    OperandParse(e.child, toks, pos + 1, end);
    StepNotOp(toks, pos, e.child, end);
    LiftAll(toks, pos, e, end);
  }

  lemma {:induction false} AndParse(e: Expr, toks: seq<Token>, pos: nat, end: nat)
    requires Terminated(toks) && pos < |toks| && e.And? && Shaped(e) && PrintedAt(toks, pos, e, end) && end < |toks|
    requires Stopper(toks[end].kind)
    ensures ParseExpr(toks, pos) == Ok(Parsed(e, end))
    decreases e, 1
  {
    var cs := e.children;
    var m: nat :| OperandAt(toks, pos, cs[0], m) && ChainAt(toks, m, cs, 1, AndOp, end);
    OperandParse(cs[0], toks, pos, m);
    assert cs[..1] == [cs[0]];
    AndLoopParse(cs, 1, toks, m, [cs[0]], end);
    StepAndExpr(toks, pos, cs[0], m, cs, end);
    LiftAnd(toks, pos, e, end);
    LiftOr(toks, pos, e, end);
    LiftImpl(toks, pos, e, end);
  }

  lemma {:induction false} OrParse(e: Expr, toks: seq<Token>, pos: nat, end: nat)
    requires Terminated(toks) && pos < |toks| && e.Or? && Shaped(e) && PrintedAt(toks, pos, e, end) && end < |toks|
    requires Stopper(toks[end].kind)
    ensures ParseExpr(toks, pos) == Ok(Parsed(e, end))
    decreases e, 1
  {
    var cs := e.children;
    var m: nat :| OperandAt(toks, pos, cs[0], m) && ChainAt(toks, m, cs, 1, OrOp, end);
    OperandParse(cs[0], toks, pos, m);
    LiftNot(toks, pos, cs[0], m);
    assert cs[..1] == [cs[0]];
    OrLoopParse(cs, 1, toks, m, [cs[0]], end);
    StepOrExpr(toks, pos, cs[0], m, cs, end);
    LiftOr(toks, pos, e, end);
    LiftImpl(toks, pos, e, end);
  }

  /** A variable in front of an arrow: `Atom` itself reads the whole implication or equivalence. */
  lemma {:induction false} CaptureParse(e: Expr, toks: seq<Token>, pos: nat, end: nat)
    requires Terminated(toks) && pos < |toks| && (e.Impl? || e.Iff?) && e.lhs.VarRef? && Shaped(e) && PrintedAt(toks, pos, e, end)
    requires end < |toks| && Stopper(toks[end].kind)
    ensures ParseExpr(toks, pos) == Ok(Parsed(e, end))
    decreases e, 1
  {
    var op := if e.Impl? then ImplOp else IffOp;
    var m: nat :| OperandAt(toks, pos, e.lhs, m) && KindAt(toks, m, op) && OperandAt(toks, m + 1, e.rhs, end);
    assert PrintedAt(toks, pos, e.lhs, m);
    OperandExprParse(e.rhs, toks, pos + 2, end);
    StepCapture(toks, pos, e, end);
    StepAtom(toks, pos, e, end);
    LiftAll(toks, pos, e, end);
  }

  lemma {:induction false} ImplParse(e: Expr, toks: seq<Token>, pos: nat, end: nat)
    requires Terminated(toks) && pos < |toks| && e.Impl? && !e.lhs.VarRef? && Shaped(e) && PrintedAt(toks, pos, e, end)
    requires end < |toks| && Stopper(toks[end].kind)
    ensures ParseExpr(toks, pos) == Ok(Parsed(e, end))
    decreases e, 1
  {
    var a, b := e.lhs, e.rhs;
    var m: nat :| OperandAt(toks, pos, a, m) && KindAt(toks, m, ImplOp) && OperandAt(toks, m + 1, b, end);
    OperandOr(a, toks, pos, m);
    OperandOr(b, toks, m + 1, end);
    StepImplExpr(toks, pos, a, m);
    StepImplLoop(toks, a, m, b, end);
    StepImplStop(toks, e, end);
    LiftImpl(toks, pos, e, end);
  }

  lemma {:induction false} IffParse(e: Expr, toks: seq<Token>, pos: nat, end: nat)
    requires Terminated(toks) && pos < |toks| && e.Iff? && !e.lhs.VarRef? && Shaped(e) && PrintedAt(toks, pos, e, end)
    requires end < |toks| && Stopper(toks[end].kind)
    ensures ParseExpr(toks, pos) == Ok(Parsed(e, end))
    decreases e, 1
  {
    var a, b := e.lhs, e.rhs;
    var m: nat :| OperandAt(toks, pos, a, m) && KindAt(toks, m, IffOp) && OperandAt(toks, m + 1, b, end);
    OperandImpl(a, toks, pos, m);
    OperandImpl(b, toks, m + 1, end);
    StepIffExpr(toks, pos, a, m);
    StepIffLoop(toks, a, m, b, end);
    StepIffStop(toks, e, end);
  }

  // ---------------------------------------------------------------- statements

  lemma {:induction false} StepStatements(toks: seq<Token>, pos: nat, s: Stmt, q: nat, rest: seq<Stmt>)
    requires Terminated(toks) && pos < |toks| && toks[pos].kind != EndOfInput
    requires Statement(toks, pos) == Ok(Parsed(s, q)) && Statements(toks, q) == Ok(rest)
    ensures Statements(toks, pos) == Ok([s] + rest)
  {
  }

  lemma {:induction false} StepVarDecl(toks: seq<Token>, pos: nat, ns: seq<string>, q: nat)
    requires Terminated(toks) && pos < |toks| && toks[pos].kind == KwVar
    requires toks[pos + 1].kind == KwBool && toks[pos + 2].kind == Colon && toks[pos + 3].kind == Ident
    requires NameList(toks, pos + 4, [toks[pos + 3].value]) == Ok(Parsed(ns, q)) && toks[q].kind == Semi
    ensures Statement(toks, pos) == Ok(Parsed(VarDecl(ns, toks[pos].line), q + 1))
  {
    assert VarDeclStmt(toks, pos) == Ok(Parsed(VarDecl(ns, toks[pos].line), q + 1));
  }

  lemma {:induction false} StepConstraint(toks: seq<Token>, pos: nat, e: Expr, q: nat)
    requires Terminated(toks) && pos < |toks| && toks[pos].kind == KwConstraint
    requires ParseExpr(toks, pos + 1) == Ok(Parsed(e, q)) && toks[q].kind == Semi
    ensures Statement(toks, pos) == Ok(Parsed(Constraint(e, toks[pos].line), q + 1))
  {
    assert ConstraintStmt(toks, pos) == Ok(Parsed(Constraint(e, toks[pos].line), q + 1));
  }

  /** A printed statement is parsed back by `Statement`. */
  lemma {:induction false} StmtParse(s: Stmt, toks: seq<Token>, pos: nat, end: nat)
    requires Terminated(toks) && pos < |toks| && PrintableStmt(s) && StmtAt(toks, pos, s, end) && end < |toks|
    ensures Statement(toks, pos) == Ok(Parsed(s, end))
  {
    match s {
      case VarDecl(ns, _) =>
        NamesParse(ns, toks, pos + 3, end - 1);
        StepVarDecl(toks, pos, ns, end - 1);
      case Constraint(e, _) =>
        ExprParse(e, toks, pos + 1, end - 1);
        StepConstraint(toks, pos, e, end - 1);
      case SolveSatisfy(_) =>
        assert SolveStmt(toks, pos) == Ok(Parsed(s, end));
    }
  }

  lemma {:induction false} StatementsParse(ss: seq<Stmt>, i: nat, toks: seq<Token>, pos: nat)
    requires Terminated(toks) && pos < |toks| && i <= |ss|
    requires forall j :: 0 <= j < |ss| ==> PrintableStmt(ss[j])
    requires ProgramAt(toks, pos, ss, i)
    ensures Statements(toks, pos) == Ok(ss[i..])
    decreases |ss| - i
  {
    if i < |ss| {
      var m: nat :| StmtAt(toks, pos, ss[i], m) && ProgramAt(toks, m, ss, i + 1);
      StmtParse(ss[i], toks, pos, m);
      StatementsParse(ss, i + 1, toks, m);
      StepStatements(toks, pos, ss[i], m, ss[i + 1..]);
      assert ss[i..] == [ss[i]] + ss[i + 1..];
    }
  }

  // -------------------------------------------------------------------- layout

  /** `toks` holds `p` from `pos` on. */
  ghost predicate At(toks: seq<Token>, pos: nat, p: seq<Token>) {
    pos + |p| <= |toks| && forall j: nat :: j < |p| ==> Slot(toks, pos, p, j)
  }

  /** Entry `j` of `p` sits at `pos + j`; it names the single facts `At` is made of. */
  ghost predicate Slot(toks: seq<Token>, pos: nat, p: seq<Token>, j: nat) {
    pos + j < |toks| && j < |p| && toks[pos + j] == p[j]
  }

  lemma AtSplit(toks: seq<Token>, pos: nat, p: seq<Token>, q: seq<Token>)
    requires At(toks, pos, p + q)
    ensures At(toks, pos, p) && At(toks, pos + |p|, q)
  {
    forall j: nat | j < |p|
      ensures Slot(toks, pos, p, j)
    {
      assert Slot(toks, pos, p + q, j) && (p + q)[j] == p[j];
    }
    var r := pos + |p|;
    forall j: nat | j < |q|
      ensures Slot(toks, r, q, j)
    {
      assert Slot(toks, pos, p + q, |p| + j) && (p + q)[|p| + j] == q[j];
    }
  }

  lemma AtToken(toks: seq<Token>, pos: nat, t: Token)
    requires At(toks, pos, [t])
    ensures pos < |toks| && toks[pos] == t
  {
    assert Slot(toks, pos, [t], 0);
  }

  lemma AtJoin(toks: seq<Token>, pos: nat, p: seq<Token>, q: seq<Token>)
    requires At(toks, pos, p) && At(toks, pos + |p|, q)
    ensures At(toks, pos, p + q)
  {
    var r := pos + |p|;
    forall j: nat | j < |p + q|
      ensures Slot(toks, pos, p + q, j)
    {
      if j < |p| {
        assert Slot(toks, pos, p, j) && (p + q)[j] == p[j];
      } else {
        assert Slot(toks, r, q, j - |p|) && (p + q)[j] == q[j - |p|];
      }
    }
  }

  /*
   * Splitting lemmas: each takes a token pattern apart into the pieces the
   * layout predicates speak of. They see the printed pieces only as
   * sequences, never as printed trees.
   */

  lemma HeadSplit(toks: seq<Token>, pos: nat, t: Token, p: seq<Token>)
    requires At(toks, pos, [t] + p)
    ensures pos < |toks| && toks[pos] == t && At(toks, pos + 1, p)
  {
    AtSplit(toks, pos, [t], p);
    AtToken(toks, pos, t);
  }

  lemma ConsSplit(toks: seq<Token>, pos: nat, t: Token, p: seq<Token>, q: seq<Token>)
    requires At(toks, pos, [t] + p + q)
    ensures pos < |toks| && toks[pos] == t && At(toks, pos + 1, p) && At(toks, pos + 1 + |p|, q)
  {
    AtSplit(toks, pos, [t] + p, q);
    HeadSplit(toks, pos, t, p);
  }

  lemma WrapSplit(toks: seq<Token>, pos: nat, t: Token, p: seq<Token>, u: Token)
    requires At(toks, pos, [t] + p + [u])
    ensures pos < |toks| && toks[pos] == t && At(toks, pos + 1, p)
    ensures pos + 1 + |p| < |toks| && toks[pos + 1 + |p|] == u
  {
    ConsSplit(toks, pos, t, p, [u]);
    AtToken(toks, pos + 1 + |p|, u);
  }

  lemma MidSplit(toks: seq<Token>, pos: nat, p: seq<Token>, t: Token, q: seq<Token>)
    requires At(toks, pos, p + [t] + q)
    ensures At(toks, pos, p) && pos + |p| < |toks| && toks[pos + |p|] == t && At(toks, pos + |p| + 1, q)
  {
    AtSplit(toks, pos, p + [t], q);
    AtSplit(toks, pos, p, [t]);
    AtToken(toks, pos + |p|, t);
  }

  lemma AssocSplit(toks: seq<Token>, pos: nat, p: seq<Token>, q: seq<Token>, r: seq<Token>)
    requires At(toks, pos, p + q + r)
    ensures At(toks, pos, p) && At(toks, pos + |p|, q + r)
  {
    AtSplit(toks, pos, p + q, r);
    AtSplit(toks, pos, p, q);
    AtJoin(toks, pos + |p|, q, r);
  }

  lemma XorSplit(toks: seq<Token>, pos: nat, pa: seq<Token>, pb: seq<Token>)
    requires At(toks, pos, [Tok(KwXor, "xor"), OpenTok] + pa + [CommaTok] + pb + [CloseTok])
    ensures KindAt(toks, pos, KwXor) && KindAt(toks, pos + 1, LParen) && At(toks, pos + 2, pa)
    ensures KindAt(toks, pos + 2 + |pa|, Comma) && At(toks, pos + 3 + |pa|, pb)
    ensures KindAt(toks, pos + 3 + |pa| + |pb|, RParen)
  {
    var h := [Tok(KwXor, "xor"), OpenTok];
    AtSplit(toks, pos, h + pa + [CommaTok] + pb, [CloseTok]);
    AtToken(toks, pos + |h + pa + [CommaTok] + pb|, CloseTok);
    AtSplit(toks, pos, h + pa + [CommaTok], pb);
    AtSplit(toks, pos, h + pa, [CommaTok]);
    AtToken(toks, pos + |h + pa|, CommaTok);
    AtSplit(toks, pos, h, pa);
    assert Slot(toks, pos, h, 0) && Slot(toks, pos, h, 1);
  }

  lemma CardSplit(toks: seq<Token>, pos: nat, kw: Token, num: string, p: seq<Token>)
    requires At(toks, pos, [kw, OpenTok, Tok(Number, num), CommaTok, Tok(LBrack, "[")] + p + [Tok(RBrack, "]"), CloseTok])
    ensures pos < |toks| && toks[pos] == kw && KindAt(toks, pos + 1, LParen)
    ensures KindAt(toks, pos + 2, Number) && toks[pos + 2].value == num
    ensures KindAt(toks, pos + 3, Comma) && KindAt(toks, pos + 4, LBrack) && At(toks, pos + 5, p)
    ensures KindAt(toks, pos + 5 + |p|, RBrack) && KindAt(toks, pos + 6 + |p|, RParen)
  {
    var h := [kw, OpenTok, Tok(Number, num), CommaTok, Tok(LBrack, "[")];
    var t := [Tok(RBrack, "]"), CloseTok];
    AtSplit(toks, pos, h + p, t);
    AtSplit(toks, pos, h, p);
    assert Slot(toks, pos, h, 0) && Slot(toks, pos, h, 1) && Slot(toks, pos, h, 2);
    assert Slot(toks, pos, h, 3) && Slot(toks, pos, h, 4);
    var r := pos + 5 + |p|;
    assert Slot(toks, r, t, 0) && Slot(toks, r, t, 1);
  }

  lemma DeclSplit(toks: seq<Token>, pos: nat, kw: Token, p: seq<Token>)
    requires At(toks, pos, [kw, Tok(KwBool, "bool"), Tok(Colon, ":")] + p + [SemiTok])
    ensures pos < |toks| && toks[pos] == kw && KindAt(toks, pos + 1, KwBool) && KindAt(toks, pos + 2, Colon)
    ensures At(toks, pos + 3, p) && KindAt(toks, pos + 3 + |p|, Semi)
  {
    var h := [kw, Tok(KwBool, "bool"), Tok(Colon, ":")];
    AtSplit(toks, pos, h + p, [SemiTok]);
    AtSplit(toks, pos, h, p);
    assert Slot(toks, pos, h, 0) && Slot(toks, pos, h, 1) && Slot(toks, pos, h, 2);
    AtToken(toks, pos + 3 + |p|, SemiTok);
  }

  /*
   * Layout lemmas: the printed tokens of a tree have the layout the parse
   * proofs read. Each takes the end position as a parameter, so that the
   * facts it hands back name the very positions the layout predicates use.
   */

  lemma {:induction false} PrintLayout(e: Expr, toks: seq<Token>, pos: nat, end: nat)
    requires Shaped(e) && At(toks, pos, Print(e)) && end == pos + |Print(e)|
    ensures PrintedAt(toks, pos, e, end)
    decreases e, 0
  {
    match e {
      case LitTrue => AtToken(toks, pos, Tok(KwTrue, "true"));
      case LitFalse => AtToken(toks, pos, Tok(KwFalse, "false"));
      case VarRef(x) => AtToken(toks, pos, Tok(Ident, x));
      case Not(c) =>
        HeadSplit(toks, pos, Tok(NotOp, "not"), Operand(c));
        OperandLayout(c, toks, pos + 1, end);
      case And(cs) =>
        ChainedLayout(e, AndTok, toks, pos, end);
      case Or(cs) =>
        ChainedLayout(e, OrTok, toks, pos, end);
      case Impl(a, b) =>
        BinaryLayout(e, a, b, ImplTok, toks, pos, end);
      case Iff(a, b) =>
        BinaryLayout(e, a, b, IffTok, toks, pos, end);
      case Xor(a, b) =>
        XorLayout(e, a, b, toks, pos, end);
      case AtMost(_, _) => CardLayout(e, toks, pos, end);
      case AtLeast(_, _) => CardLayout(e, toks, pos, end);
      case Exactly(_, _) => CardLayout(e, toks, pos, end);
    }
  }

  lemma {:induction false} ChainedLayout(e: Expr, t: Token, toks: seq<Token>, pos: nat, end: nat)
    requires (e.And? && t == AndTok) || (e.Or? && t == OrTok)
    requires Shaped(e) && At(toks, pos, Print(e)) && end == pos + |Print(e)|
    ensures PrintedAt(toks, pos, e, end)
    decreases e, 0, 0
  {
    var cs := e.children;
    var m := pos + |Operand(cs[0])|;
    AtSplit(toks, pos, Operand(cs[0]), OperandsFrom(cs, 1, t));
    OperandLayout(cs[0], toks, pos, m);
    ChainLayout(cs, 1, t, toks, m, end);
    assert OperandAt(toks, pos, cs[0], m) && ChainAt(toks, m, cs, 1, t.kind, end);
  }

  /** The layout of `a op b`, for either arrow. */
  lemma {:induction false} BinaryLayout(e: Expr, a: Expr, b: Expr, t: Token, toks: seq<Token>, pos: nat, end: nat)
    requires (e == Impl(a, b) && t == ImplTok) || (e == Iff(a, b) && t == IffTok)
    requires Shaped(a) && Shaped(b) && At(toks, pos, Operand(a) + [t] + Operand(b))
    requires end == pos + |Operand(a)| + 1 + |Operand(b)|
    ensures PrintedAt(toks, pos, e, end)
    decreases e, 0, 0
  {
    var m := pos + |Operand(a)|;
    MidSplit(toks, pos, Operand(a), t, Operand(b));
    OperandLayout(a, toks, pos, m);
    OperandLayout(b, toks, m + 1, end);
    assert OperandAt(toks, pos, a, m) && KindAt(toks, m, t.kind) && OperandAt(toks, m + 1, b, end);
  }

  lemma {:induction false} XorLayout(e: Expr, a: Expr, b: Expr, toks: seq<Token>, pos: nat, end: nat)
    requires e == Xor(a, b) && Shaped(a) && Shaped(b)
    requires At(toks, pos, [Tok(KwXor, "xor"), OpenTok] + Print(a) + [CommaTok] + Print(b) + [CloseTok])
    requires end == pos + 4 + |Print(a)| + |Print(b)|
    ensures PrintedAt(toks, pos, e, end)
    decreases e, 0, 0
  {
    var m := pos + 2 + |Print(a)|;
    XorSplit(toks, pos, Print(a), Print(b));
    PrintLayout(a, toks, pos + 2, m);
    PrintLayout(b, toks, m + 1, end - 1);
    XorAt(e, a, b, toks, pos, m, end);
  }

  lemma XorAt(e: Expr, a: Expr, b: Expr, toks: seq<Token>, pos: nat, m: nat, end: nat)
    requires e == Xor(a, b) && end > 0
    requires KindAt(toks, pos, KwXor) && KindAt(toks, pos + 1, LParen) && KindAt(toks, end - 1, RParen)
    requires PrintedAt(toks, pos + 2, a, m) && KindAt(toks, m, Comma) && PrintedAt(toks, m + 1, b, end - 1)
    ensures PrintedAt(toks, pos, e, end)
  {
  }

  lemma {:induction false} CardLayout(e: Expr, toks: seq<Token>, pos: nat, end: nat)
    requires IsCardinality(e) && |e.vars| > 0 && At(toks, pos, CardTokens(e))
    requires end == pos + 7 + |Names(e.vars)|
    ensures CardAt(toks, pos, e, end)
  {
    CardSplit(toks, pos, CardTok(e), IntToString(e.k), Names(e.vars));
    NamesLayout(e.vars, toks, pos + 5, end - 2);
  }

  lemma {:induction false} OperandLayout(e: Expr, toks: seq<Token>, pos: nat, end: nat)
    requires Shaped(e) && At(toks, pos, Operand(e)) && end == pos + |Operand(e)|
    ensures OperandAt(toks, pos, e, end)
    decreases e, 1
  {
    if Atomic(e) {
      PrintLayout(e, toks, pos, end);
    } else {
      ParenLayout(e, toks, pos, end);
    }
  }

  lemma {:induction false} ParenLayout(e: Expr, toks: seq<Token>, pos: nat, end: nat)
    requires Shaped(e) && At(toks, pos, [OpenTok] + Print(e) + [CloseTok]) && end == pos + 2 + |Print(e)|
    ensures end > 0 && KindAt(toks, pos, LParen) && PrintedAt(toks, pos + 1, e, end - 1) && KindAt(toks, end - 1, RParen)
    decreases e, 1, 0
  {
    WrapSplit(toks, pos, OpenTok, Print(e), CloseTok);
    PrintLayout(e, toks, pos + 1, end - 1);
  }

  lemma {:induction false} ChainLayout(cs: seq<Expr>, i: nat, t: Token, toks: seq<Token>, pos: nat, end: nat)
    requires AllShaped(cs) && At(toks, pos, OperandsFrom(cs, i, t)) && end == pos + |OperandsFrom(cs, i, t)|
    ensures ChainAt(toks, pos, cs, i, t.kind, end)
    decreases cs, |cs| - i
  {
    if i < |cs| {
      var m := pos + 1 + |Operand(cs[i])|;
      ConsSplit(toks, pos, t, Operand(cs[i]), OperandsFrom(cs, i + 1, t));
      OperandLayout(cs[i], toks, pos + 1, m);
      ChainLayout(cs, i + 1, t, toks, m, end);
      assert OperandAt(toks, pos + 1, cs[i], m) && ChainAt(toks, m, cs, i + 1, t.kind, end);
    }
  }

  lemma {:induction false} NamesLayout(vs: seq<string>, toks: seq<Token>, pos: nat, end: nat)
    requires |vs| > 0 && At(toks, pos, Names(vs)) && end == pos + |Names(vs)|
    ensures NamesAt(toks, pos, vs, end)
  {
    HeadSplit(toks, pos, Tok(Ident, vs[0]), NamesFrom(vs, 1));
    NamesFromLayout(vs, 1, toks, pos + 1, end);
  }

  lemma {:induction false} NamesFromLayout(vs: seq<string>, i: nat, toks: seq<Token>, pos: nat, end: nat)
    requires At(toks, pos, NamesFrom(vs, i)) && end == pos + |NamesFrom(vs, i)|
    ensures NamesFromAt(toks, pos, vs, i, end)
    decreases |vs| - i
  {
    if i < |vs| {
      var pair := [CommaTok, Tok(Ident, vs[i])];
      AtSplit(toks, pos, pair, NamesFrom(vs, i + 1));
      assert Slot(toks, pos, pair, 0) && Slot(toks, pos, pair, 1);
      NamesFromLayout(vs, i + 1, toks, pos + 2, end);
    }
  }

  lemma {:induction false} StmtLayout(s: Stmt, toks: seq<Token>, pos: nat, end: nat)
    requires PrintableStmt(s) && At(toks, pos, PrintStmt(s)) && end == pos + |PrintStmt(s)|
    ensures StmtAt(toks, pos, s, end)
  {
    match s {
      case VarDecl(ns, line) =>
        DeclSplit(toks, pos, Token(KwVar, "var", line, 0), Names(ns));
        NamesLayout(ns, toks, pos + 3, end - 1);
      case Constraint(e, line) =>
        WrapSplit(toks, pos, Token(KwConstraint, "constraint", line, 0), Print(e), SemiTok);
        PrintLayout(e, toks, pos + 1, end - 1);
      case SolveSatisfy(line) =>
        var p := PrintStmt(s);
        assert Slot(toks, pos, p, 0) && Slot(toks, pos, p, 1) && Slot(toks, pos, p, 2);
    }
  }

  lemma {:induction false} ProgramLayout(ss: seq<Stmt>, i: nat, toks: seq<Token>, pos: nat)
    requires i <= |ss| && forall j :: 0 <= j < |ss| ==> PrintableStmt(ss[j])
    requires At(toks, pos, PrintFrom(ss, i) + [Tok(EndOfInput, "")])
    ensures ProgramAt(toks, pos, ss, i)
    decreases |ss| - i
  {
    var eof := [Tok(EndOfInput, "")];
    if i < |ss| {
      var m := pos + |PrintStmt(ss[i])|;
      AssocSplit(toks, pos, PrintStmt(ss[i]), PrintFrom(ss, i + 1), eof);
      StmtLayout(ss[i], toks, pos, m);
      ProgramLayout(ss, i + 1, toks, m);
      assert StmtAt(toks, pos, ss[i], m) && ProgramAt(toks, m, ss, i + 1);
    } else {
      assert PrintFrom(ss, i) + eof == eof;
      AtToken(toks, pos, eof[0]);
    }
  }

  // -------------------------------------------------------------- round trips

  lemma AtSelf(toks: seq<Token>)
    ensures At(toks, 0, toks)
  {
  }

  /**
   * A shaped expression, printed and closed by an end marker, is parsed
   * back to itself, and the parse stops at the end marker.
   */
  lemma ExprRoundTrip(e: Expr)
    requires Shaped(e)
    ensures Terminated(Print(e) + [Tok(EndOfInput, "")])
    ensures ParseExpr(Print(e) + [Tok(EndOfInput, "")], 0) == Ok(Parsed(e, |Print(e)|))
  {
    var toks := Print(e) + [Tok(EndOfInput, "")];
    AtSelf(toks);
    AtSplit(toks, 0, Print(e), [Tok(EndOfInput, "")]);
    PrintLayout(e, toks, 0, |Print(e)|);
    ExprParse(e, toks, 0, |Print(e)|);
  }

  /** `parse` reads a printed program of printable statements back to the same statements. */
  lemma ParsePrinted(ss: seq<Stmt>)
    requires forall i :: 0 <= i < |ss| ==> PrintableStmt(ss[i])
    ensures Terminated(PrintProgram(ss))
    ensures Parse(PrintProgram(ss)) == Ok(ss)
  {
    var toks := PrintProgram(ss);
    AtSelf(toks);
    ProgramLayout(ss, 0, toks, 0);
    StatementsParse(ss, 0, toks, 0);
    assert ss[0..] == ss;
  }
}

=== FILE: reader.dfy ===
/**
 * `parse_cnf_from_response` (ai_assistant.py): pull DIMACS text out of a
 * chat answer. A fenced block ```` ```cnf ```` / ```` ```dimacs ```` / ```` ``` ````
 * whose body begins with `p cnf` is preferred; otherwise a line scanner
 * collects the CNF-looking lines from the first `p cnf` line on. The
 * header counts are read verbatim, and a clause is taken from every line
 * whose last token is `0`.
 *
 * The regular expressions are written out as scanners over offsets, with
 * `re.search` as "the first offset at which the pattern matches".
 */
module Reader {
  import opened Outcomes
  import opened Text

  /**
   * The function's three outcomes: the dictionary it returns, `None`, or
   * the `ValueError` that `int()` raises on a clause token that is not an
   * integer (carrying that token).
   */
  datatype Extraction =
    | Found(numVariables: nat, numClauses: nat, clauses: seq<seq<int>>, raw: string)
    | NotFound
    | BadLiteral(token: string)

  // ---------------------------------------------------------------------
  // Regular-expression pieces

  /**
   * Text character `c` against pattern character `p` under `re.IGNORECASE`:
   * ASCII case, plus the non-ASCII letters Python folds onto `i` and `s`.
   */
  predicate FoldEq(c: char, p: char) {
    || c == p
    || (IsLower(p) && c == ToUpper(p))
    || (p == 'i' && (c == '\U{130}' || c == '\U{131}'))
    || (p == 's' && c == '\U{17F}')
  }

  /** `p` matches case-insensitively at offset `i` of `s`. */
  predicate FoldAt(s: string, p: string, i: nat) {
    i + |p| <= |s| && forall j :: 0 <= j < |p| ==> FoldEq(s[i + j], p[j])
  }

  /** Length of the whitespace run `\s*` starting at offset `i`. */
  function SpaceRunAt(s: string, i: nat): (n: nat)
    requires i <= |s|
    ensures i + n <= |s|
    ensures i + n < |s| ==> !IsSpace(s[i + n])
    decreases |s| - i
  {
    if i == |s| || !IsSpace(s[i]) then 0 else 1 + SpaceRunAt(s, i + 1)
  }

  /** Length of the digit run `\d+` starting at offset `i` (0 when there is none). */
  function DigitRunAt(s: string, i: nat): (n: nat)
    requires i <= |s|
    ensures i + n <= |s|
    ensures i + n < |s| ==> !IsDigit(s[i + n])
    decreases |s| - i
  {
    if i == |s| || !IsDigit(s[i]) then 0 else 1 + DigitRunAt(s, i + 1)
  }

  lemma {:induction false} DigitRunDigits(s: string, i: nat)
    requires i <= |s|
    ensures forall j :: i <= j < i + DigitRunAt(s, i) ==> IsDigit(s[j])
    decreases |s| - i
  {
    if i < |s| && IsDigit(s[i]) {
      DigitRunDigits(s, i + 1);
    }
  }

  /** The first offset `j >= i` at which `p` occurs in `s`. */
  function FindFrom(s: string, p: string, i: nat): (r: Option<nat>)
    requires |p| > 0
    ensures r.Some? ==> i <= r.value && OccursAt(s, p, r.value)
    ensures r.Some? ==> forall j :: i <= j < r.value ==> !OccursAt(s, p, j)
    ensures r.None? ==> forall j :: i <= j ==> !OccursAt(s, p, j)
    decreases |s| - i
  {
    if i + |p| > |s| then None
    else if OccursAt(s, p, i) then Some(i)
    else FindFrom(s, p, i + 1)
  }

  /** The optional tag `(?:cnf|dimacs)?` after the opening fence; `cnf` is tried first. */
  function TagLength(s: string, i: nat): (n: nat)
    ensures n == 0 || n == 3 || n == 6
    ensures n > 0 ==> i + n <= |s|
  {
    if FoldAt(s, "cnf", i) then 3 else if FoldAt(s, "dimacs", i) then 6 else 0
  }

  /**
   * The pattern ```` ```(?:cnf|dimacs)?\s*(p cnf.*?)``` ```` tried at offset
   * `i`: the captured group, from `p cnf` up to the nearest closing fence.
   */
  function FenceAt(s: string, i: nat): (r: Option<string>)
    ensures r.Some? ==> OccursAt(s, "```", i) && FoldAt(r.value, "p cnf", 0)
  {
    if !OccursAt(s, "```", i) then None
    else
      var j := i + 3 + TagLength(s, i + 3);
      var k := j + SpaceRunAt(s, j);
      if !FoldAt(s, "p cnf", k) then None
      else
        match FindFrom(s, "```", k + 5)
        case None => None
        case Some(e) =>
          assert forall t :: 0 <= t < 5 ==> s[k..e][t] == s[k + t];
          Some(s[k..e])
  }

  /** `re.search` of the fence pattern from offset `i` on: the leftmost match. */
  function FenceFrom(s: string, i: nat): (r: Option<string>)
    ensures r.Some? <==> exists j :: i <= j <= |s| && FenceAt(s, j).Some?
    ensures r.Some? ==> exists j :: i <= j <= |s| && FenceAt(s, j) == r && forall t :: i <= t < j ==> FenceAt(s, t).None?
    decreases |s| - i
  {
    if i > |s| then
      assert forall j :: i <= j ==> !OccursAt(s, "```", j);
      None
    else if FenceAt(s, i).Some? then FenceAt(s, i)
    else FenceFrom(s, i + 1)
  }

  /**
   * The pattern `p cnf (\d+) (\d+)` tried at offset `i` (case-sensitive,
   * one space each): the two counts, each the value of a maximal digit run.
   */
  function HeaderAt(s: string, i: nat): (r: Option<(nat, nat)>)
    ensures r.Some? ==> OccursAt(s, "p cnf ", i)
  {
    if !OccursAt(s, "p cnf ", i) then None
    else
      var a := DigitRunAt(s, i + 6);
      if a == 0 || i + 6 + a == |s| || s[i + 6 + a] != ' ' then None
      else
        var b := DigitRunAt(s, i + 7 + a);
        if b == 0 then None
        else
          DigitRunDigits(s, i + 6);
          DigitRunDigits(s, i + 7 + a);
          Some((DigitsValue(s[i + 6..i + 6 + a]), DigitsValue(s[i + 7 + a..i + 7 + a + b])))
  }

  /** `re.search` of the header pattern from offset `i` on: the leftmost match. */
  function HeaderFrom(s: string, i: nat): (r: Option<(nat, nat)>)
    ensures r.Some? <==> exists j :: i <= j <= |s| && HeaderAt(s, j).Some?
    ensures r.Some? ==> exists j :: i <= j <= |s| && HeaderAt(s, j) == r && forall t :: i <= t < j ==> HeaderAt(s, t).None?
    decreases |s| - i
  {
    if i > |s| then
      assert forall j :: i <= j ==> !OccursAt(s, "p cnf ", j);
      None
    else if HeaderAt(s, i).Some? then HeaderAt(s, i)
    else HeaderFrom(s, i + 1)
  }

  // ---------------------------------------------------------------------
  // The fallback line scanner

  /** `re.match(r'^-?\d+', line)`. */
  predicate NumberStart(line: string) {
    |line| > 0 && (IsDigit(line[0]) || (line[0] == '-' && |line| > 1 && IsDigit(line[1])))
  }

  /** A stripped line the scanner collects. */
  predicate Kept(line: string) {
    StartsWith(line, "c ") || StartsWith(line, "p cnf") || NumberStart(line)
  }

  /** A stripped line at which the scanner stops once it has collected something. */
  predicate Stops(line: string) {
    |line| > 0 && !Kept(line) && !StartsWith(line, "c")
  }

  /** The scanning loop from line `i` on, with `inCnf` and `acc` the loop's state. */
  function ScanFrom(lines: seq<string>, i: nat, inCnf: bool, acc: seq<string>): seq<string>
    decreases |lines| - i
  {
    if i >= |lines| then acc
    else
      var line := Strip(lines[i]);
      var on := inCnf || StartsWith(line, "p cnf");
      if !on then ScanFrom(lines, i + 1, false, acc)
      else if Kept(line) then ScanFrom(lines, i + 1, true, acc + [line])
      else if Stops(line) && |acc| > 0 then acc
      else ScanFrom(lines, i + 1, true, acc)
  }

  function Scan(lines: seq<string>): seq<string> {
    ScanFrom(lines, 0, false, [])
  }

  // The scanner's reference description: a window of lines, filtered.

  /** The first line at or after `i` that starts with `p cnf` once stripped, or `|lines|`. */
  function FirstProblemLine(lines: seq<string>, i: nat): (j: nat)
    requires i <= |lines|
    ensures i <= j <= |lines|
    ensures j < |lines| ==> StartsWith(Strip(lines[j]), "p cnf")
    ensures forall t :: i <= t < j ==> !StartsWith(Strip(lines[t]), "p cnf")
    decreases |lines| - i
  {
    if i == |lines| || StartsWith(Strip(lines[i]), "p cnf") then i else FirstProblemLine(lines, i + 1)
  }

  /** The first stopping line at or after `i`, or `|lines|`. */
  function FirstStop(lines: seq<string>, i: nat): (e: nat)
    requires i <= |lines|
    ensures i <= e <= |lines|
    ensures e < |lines| ==> Stops(Strip(lines[e]))
    ensures forall t :: i <= t < e ==> !Stops(Strip(lines[t]))
    decreases |lines| - i
  {
    if i == |lines| || Stops(Strip(lines[i])) then i else FirstStop(lines, i + 1)
  }

  /** The stripped lines of `lines[i..e]` that are collected. */
  function KeptBetween(lines: seq<string>, i: nat, e: nat): (r: seq<string>)
    requires i <= e <= |lines|
    ensures forall t :: 0 <= t < |r| ==> Kept(r[t])
    decreases e - i
  {
    if i == e then []
    else
      var line := Strip(lines[i]);
      (if Kept(line) then [line] else []) + KeptBetween(lines, i + 1, e)
  }

  /** Once collecting, the scanner appends the kept lines up to the first stopping line. */
  lemma {:induction false} ScanCollecting(lines: seq<string>, i: nat, acc: seq<string>)
    requires i <= |lines| && |acc| > 0
    ensures ScanFrom(lines, i, true, acc) == acc + KeptBetween(lines, i, FirstStop(lines, i))
    decreases |lines| - i
  {
    if i < |lines| {
      var line := Strip(lines[i]);
      if Kept(line) {
        ScanCollecting(lines, i + 1, acc + [line]);
        assert FirstStop(lines, i) == FirstStop(lines, i + 1);
      } else if !Stops(line) {
        ScanCollecting(lines, i + 1, acc);
        assert FirstStop(lines, i) == FirstStop(lines, i + 1);
      }
    }
  }

  /** Before the first problem line the scanner collects nothing. */
  lemma {:induction false} ScanIdle(lines: seq<string>, i: nat)
    requires i <= |lines|
    ensures ScanFrom(lines, i, false, []) == ScanFrom(lines, FirstProblemLine(lines, i), false, [])
    decreases |lines| - i
  {
    if i < |lines| && !StartsWith(Strip(lines[i]), "p cnf") {
      ScanIdle(lines, i + 1);
    }
  }

  /**
   * The scanner returns the kept lines from the first stripped line that
   * begins `p cnf` up to (not including) the first later line that is
   * non-empty, not collected and does not begin with `c`; nothing at all
   * when no line begins `p cnf`.
   */
  lemma ScanWindow(lines: seq<string>)
    ensures var j := FirstProblemLine(lines, 0);
      Scan(lines) == if j == |lines| then [] else [Strip(lines[j])] + KeptBetween(lines, j + 1, FirstStop(lines, j + 1))
    ensures |Scan(lines)| > 0 <==> exists t :: 0 <= t < |lines| && StartsWith(Strip(lines[t]), "p cnf")
  {
    var j := FirstProblemLine(lines, 0);
    ScanIdle(lines, 0);
    if j < |lines| {
      var line := Strip(lines[j]);
      assert Kept(line);
      assert [] + [line] == [line];
      assert ScanFrom(lines, j, false, []) == ScanFrom(lines, j + 1, true, [line]);
      ScanCollecting(lines, j + 1, [line]);
    }
  }

  // ---------------------------------------------------------------------
  // Clauses

  /** `[int(lit) for lit in tokens]`: the first token `int()` rejects is the error. */
  function Ints(tokens: seq<string>): (r: Result<seq<int>, string>)
    ensures r.Ok? ==> |r.value| == |tokens| && forall t :: 0 <= t < |tokens| ==> ParseInt(tokens[t]) == Some(r.value[t])
    ensures r.Err? ==> exists t :: 0 <= t < |tokens| && tokens[t] == r.error && ParseInt(tokens[t]).None? &&
                                   forall u :: 0 <= u < t ==> ParseInt(tokens[u]).Some?
  {
    if |tokens| == 0 then Ok([])
    else
      match ParseInt(tokens[0])
      case None => Err(tokens[0])
      case Some(x) =>
        var rest := Ints(tokens[1..]);
        if rest.Err? then
          ghost var t :| 0 <= t < |tokens[1..]| && tokens[1..][t] == rest.error && ParseInt(tokens[1..][t]).None? &&
                         forall u :: 0 <= u < t ==> ParseInt(tokens[1..][u]).Some?;
          assert forall u :: 1 <= u < t + 1 ==> tokens[u] == tokens[1..][u - 1];
          Err(rest.error)
        else Ok([x] + rest.value)
  }

  /** A line's clause: its tokens before a final `0`, for non-empty lines not starting with `c` or `p`. */
  function ClauseOf(line: string): Result<Option<seq<int>>, string> {
    var l := Strip(line);
    if |l| == 0 || StartsWith(l, "c") || StartsWith(l, "p") then Ok(None)
    else
      var tokens := SplitWs(l);
      if |tokens| > 0 && tokens[|tokens| - 1] == "0" then
        var c :- Ints(tokens[..|tokens| - 1]);
        Ok(Some(c))
      else Ok(None)
  }

  /** The clause loop over the content's lines, in order. */
  function Clauses(lines: seq<string>): Result<seq<seq<int>>, string> {
    if |lines| == 0 then Ok([])
    else
      var c :- ClauseOf(lines[0]);
      var rest :- Clauses(lines[1..]);
      Ok(if c.Some? then [c.value] + rest else rest)
  }

  /**
   * The clause loop fails exactly when some line's `int()` fails, with that
   * line's error; otherwise it yields at most one clause per line, each the
   * clause of some line.
   */
  lemma {:induction false} ClausesMeaning(lines: seq<string>)
    ensures Clauses(lines).Ok? <==> forall t :: 0 <= t < |lines| ==> ClauseOf(lines[t]).Ok?
    ensures Clauses(lines).Err? ==> exists t :: 0 <= t < |lines| && ClauseOf(lines[t]) == Err(Clauses(lines).error)
    ensures Clauses(lines).Ok? ==> |Clauses(lines).value| <= |lines|
    ensures Clauses(lines).Ok? ==> forall c :: c in Clauses(lines).value ==>
      exists t :: 0 <= t < |lines| && ClauseOf(lines[t]) == Ok(Some(c))
    decreases |lines|
  {
    if |lines| > 0 {
      ClausesMeaning(lines[1..]);
      assert forall t :: 1 <= t < |lines| ==> lines[1..][t - 1] == lines[t];
    }
  }

  // ---------------------------------------------------------------------
  // The whole function

  /** The CNF text chosen: the stripped fenced group, or the scanned lines joined by newlines. */
  function Content(response: string): Option<string> {
    match FenceFrom(response, 0)
    case Some(g) => Some(Strip(g))
    case None =>
      var kept := Scan(SplitChar(response, '\n'));
      if |kept| == 0 then None else Some(Join("\n", kept))
  }

  function Extract(response: string): (r: Extraction)
    ensures r.Found? ==> Content(response) == Some(r.raw) && HeaderFrom(r.raw, 0) == Some((r.numVariables, r.numClauses))
    ensures r.NotFound? <==> Content(response).None? || HeaderFrom(Content(response).value, 0).None?
  {
    match Content(response)
    case None => NotFound
    case Some(content) =>
      match HeaderFrom(content, 0)
      case None => NotFound
      case Some(h) =>
        match Clauses(SplitChar(content, '\n'))
        case Err(token) => BadLiteral(token)
        case Ok(cs) => Found(h.0, h.1, cs, content)
  }
}

=== FILE: registry.dfy ===
/**
 * The solver registry of the web back end (solvers/registry.py): plugins
 * registered once per key in discovery order, and the stable numeric ids
 * `_rebuild_id_map` gives them: the historical ids for the four original
 * solvers, then consecutive ids in alphabetical key order for the rest.
 *
 * Importing plugin modules is outside the model: discovery receives the
 * module names and the plugins each module provides.
 */
module Registry {
  import opened Outcomes
  import opened Text

  /** `_LEGACY_ID_MAP`. */
  const Legacy: map<string, int> := map["kissat" := 1, "minisat" := 2, "cadical" := 3, "cryptominisat" := 4]

  lemma LegacyShape()
    ensures forall k :: k in Legacy ==> Legacy[k] >= 1
    ensures forall a, b :: a in Legacy && b in Legacy && a != b ==> Legacy[a] != Legacy[b]
  {
  }

  /** A plugin, as far as the registry looks at it. */
  datatype Plugin = Plugin(key: string, name: string)

  datatype Registry = Registry(plugins: seq<Plugin>, keyToId: map<string, int>, idToKey: map<int, string>, loaded: bool)

  const Empty := Registry([], map[], map[], false)

  /** The keys of the registered plugins, in registration order. */
  function Keys(ps: seq<Plugin>): (ks: seq<string>)
    ensures |ks| == |ps| && forall i :: 0 <= i < |ps| ==> ks[i] == ps[i].key
  {
    seq(|ps|, i requires 0 <= i < |ps| => ps[i].key)
  }

  predicate Distinct(ks: seq<string>) {
    forall i, j :: 0 <= i < j < |ks| ==> ks[i] != ks[j]
  }

  // ---------------------------------------------------------------------
  // `register`

  /** `register`: a plugin whose key is already present is ignored. */
  function Register(r: Registry, p: Plugin): (r': Registry)
    ensures p.key in Keys(r.plugins) ==> r' == r
    ensures p.key !in Keys(r.plugins) ==> r' == r.(plugins := r.plugins + [p])
    ensures Distinct(Keys(r.plugins)) ==> Distinct(Keys(r'.plugins))
    ensures p.key in Keys(r'.plugins)
    ensures forall k :: k in Keys(r.plugins) ==> k in Keys(r'.plugins)
  {
    if p.key in Keys(r.plugins) then r
    else
      var r' := r.(plugins := r.plugins + [p]);
      assert Keys(r'.plugins) == Keys(r.plugins) + [p.key];
      r'
  }

  /** Registering the same plugin twice is the same as registering it once. */
  lemma RegisterIdempotent(r: Registry, p: Plugin, q: Plugin)
    requires q.key == p.key
    ensures Register(Register(r, p), q) == Register(r, p)
  {
  }

  // ---------------------------------------------------------------------

  // Python's string order and `sorted`

  /** `a <= b` for Python strings: code points compared left to right, a prefix first. */
  predicate Below(a: string, b: string)
    decreases |a|
  {
    |a| == 0 || (|b| > 0 && (a[0] < b[0] || (a[0] == b[0] && Below(a[1..], b[1..]))))
  }

  lemma {:induction false} BelowTotal(a: string, b: string)
    ensures Below(a, b) || Below(b, a)
    decreases |a|
  {
    if |a| > 0 && |b| > 0 && a[0] == b[0] {
      BelowTotal(a[1..], b[1..]);
    }
  }

  lemma {:induction false} BelowAntisymmetric(a: string, b: string)
    requires Below(a, b) && Below(b, a)
    ensures a == b
    decreases |a|
  {
    if |a| > 0 {
      BelowAntisymmetric(a[1..], b[1..]);
      assert a == [a[0]] + a[1..] && b == [b[0]] + b[1..];
    }
  }

  lemma {:induction false} BelowTransitive(a: string, b: string, c: string)
    requires Below(a, b) && Below(b, c)
    ensures Below(a, c)
    decreases |a|
  {
    if |a| > 0 && a[0] == b[0] && b[0] == c[0] {
      BelowTransitive(a[1..], b[1..], c[1..]);
    }
  }

  predicate Sorted(ks: seq<string>) {
    forall i, j :: 0 <= i < j < |ks| ==> Below(ks[i], ks[j])
  }

  lemma SortedTail(ks: seq<string>)
    requires Sorted(ks) && |ks| > 0
    ensures Sorted(ks[1..])
  {
    var tl := ks[1..];
    forall i, j | 0 <= i < j < |tl| ensures Below(tl[i], tl[j]) {
      assert tl[i] == ks[i + 1] && tl[j] == ks[j + 1];
    }
  }

  /** `[x] + rest` is sorted when `rest` is and `x` is below all of it. */
  lemma SortedCons(x: string, rest: seq<string>)
    requires Sorted(rest) && forall y :: y in rest ==> Below(x, y)
    ensures Sorted([x] + rest)
  {
    var r := [x] + rest;
    forall i, j | 0 <= i < j < |r| ensures Below(r[i], r[j]) {
      assert r[j] == rest[j - 1];
      if i > 0 {
        assert r[i] == rest[i - 1];
      }
    }
  }

  function Insert(k: string, ks: seq<string>): (r: seq<string>)
    ensures |r| == |ks| + 1
    ensures forall x :: x in r <==> x == k || x in ks
    ensures multiset(r) == multiset(ks) + multiset{k}
  {
    if |ks| == 0 then [k]
    else if Below(k, ks[0]) then [k] + ks
    else
      var r := [ks[0]] + Insert(k, ks[1..]);
      assert ks == [ks[0]] + ks[1..];
      r
  }

  lemma {:induction false} InsertSorted(k: string, ks: seq<string>)
    requires Sorted(ks)
    ensures Sorted(Insert(k, ks))
  {
    if |ks| > 0 {
      if Below(k, ks[0]) {
        forall y | y in ks ensures Below(k, y) {
          var t :| 0 <= t < |ks| && ks[t] == y;
          if t > 0 {
            BelowTransitive(k, ks[0], y);
          }
        }
        SortedCons(k, ks);
      } else {
        var tl := ks[1..];
        SortedTail(ks);
        InsertSorted(k, tl);
        BelowTotal(k, ks[0]);
        forall y | y in Insert(k, tl) ensures Below(ks[0], y) {
          if y != k {
            var t :| 0 <= t < |tl| && tl[t] == y;
            assert ks[t + 1] == y;
          }
        }
        SortedCons(ks[0], Insert(k, tl));
      }
    }
  }

  lemma {:induction false} InsertDistinct(k: string, ks: seq<string>)
    requires Distinct(ks) && k !in ks
    ensures Distinct(Insert(k, ks))
  {
    if |ks| > 0 && !Below(k, ks[0]) {
      var tl := ks[1..];
      assert Distinct(tl) by {
        forall i, j | 0 <= i < j < |tl| ensures tl[i] != tl[j] {
          assert tl[i] == ks[i + 1] && tl[j] == ks[j + 1];
        }
      }
      InsertDistinct(k, tl);
      assert ks[0] !in tl;
      var r := [ks[0]] + Insert(k, tl);
      forall i, j | 0 <= i < j < |r| ensures r[i] != r[j] {
        assert r[j] == Insert(k, tl)[j - 1];
        if i > 0 {
          assert r[i] == Insert(k, tl)[i - 1];
        }
      }
    } else if |ks| > 0 {
      var r := [k] + ks;
      forall i, j | 0 <= i < j < |r| ensures r[i] != r[j] {
        assert r[j] == ks[j - 1];
        if i > 0 {
          assert r[i] == ks[i - 1];
        }
      }
    }
  }

  /** `sorted(keys)`: an ascending permutation of the keys. */
  function Sort(ks: seq<string>): (r: seq<string>)
    ensures |r| == |ks|
    ensures forall x :: x in r <==> x in ks
    ensures multiset(r) == multiset(ks)
    ensures Sorted(r)
  {
    if |ks| == 0 then []
    else
      var rest := Sort(ks[1..]);
      InsertSorted(ks[0], rest);
      assert ks == [ks[0]] + ks[1..];
      assert forall x :: x in ks <==> x == ks[0] || x in ks[1..];
      Insert(ks[0], rest)
  }

  /** The sorted keys of a dict are distinct, so strictly ascending. */
  lemma {:induction false} SortDistinct(ks: seq<string>)
    requires Distinct(ks)
    ensures Distinct(Sort(ks))
  {
    if |ks| > 0 {
      var tl := ks[1..];
      assert Distinct(tl) by {
        forall i, j | 0 <= i < j < |tl| ensures tl[i] != tl[j] {
          assert tl[i] == ks[i + 1] && tl[j] == ks[j + 1];
        }
      }
      SortDistinct(tl);
      assert ks[0] !in tl;
      InsertDistinct(ks[0], Sort(tl));
    }
  }

  // ---------------------------------------------------------------------
  // `_rebuild_id_map`

  /** The largest legacy id among the registered keys, 0 when there is none. */
  function MaxLegacy(ks: seq<string>): (m: int)
    ensures m >= 0
    ensures forall k :: k in ks && k in Legacy ==> Legacy[k] <= m
    ensures m == 0 || exists k :: k in ks && k in Legacy && Legacy[k] == m
  {
    if |ks| == 0 then 0
    else
      var rest := MaxLegacy(ks[1..]);
      var here := if ks[0] in Legacy then Legacy[ks[0]] else 0;
      assert forall k :: k in ks <==> k == ks[0] || k in ks[1..];
      if here > rest then here else rest
  }

  /**
   * `while next_id in used_ids: next_id += 1`. Dropping each id once it is
   * passed changes nothing, since the later candidates are all larger.
   */
  function Skip(next: int, used: set<int>): (n: int)
    ensures n >= next && n !in used
    decreases used
  {
    if next in used then Skip(next + 1, used - {next}) else next
  }

  /** The keys of `ks` that have no id yet, in order. */
  function Unassigned(ks: seq<string>, m: map<string, int>): (r: seq<string>)
    ensures forall k :: k in r <==> k in ks && k !in m
  {
    if |ks| == 0 then []
    else
      assert forall k :: k in ks <==> k == ks[0] || k in ks[1..];
      if ks[0] in m then Unassigned(ks[1..], m)
      else [ks[0]] + Unassigned(ks[1..], m)
  }

  /** The second loop: each key without an id gets the next id not yet used. */
  function Assign(ks: seq<string>, keyToId: map<string, int>, idToKey: map<int, string>,
                  used: set<int>, next: int): (r: (map<string, int>, map<int, string>))
    decreases |ks|
  {
    if |ks| == 0 then (keyToId, idToKey)
    else if ks[0] in keyToId then Assign(ks[1..], keyToId, idToKey, used, next)
    else
      var n := Skip(next, used);
      Assign(ks[1..], keyToId[ks[0] := n], idToKey[n := ks[0]], used + {n}, n + 1)
  }

  /** The two maps are inverse bijections. */
  predicate Inverse(keyToId: map<string, int>, idToKey: map<int, string>) {
    && (forall k :: k in keyToId ==> keyToId[k] in idToKey && idToKey[keyToId[k]] == k)
    && (forall i :: i in idToKey ==> idToKey[i] in keyToId && keyToId[idToKey[i]] == i)
  }

  /** Inverse maps, `used` is the set of ids handed out, all below `next`. */
  predicate Ready(keyToId: map<string, int>, idToKey: map<int, string>, used: set<int>, next: int) {
    Inverse(keyToId, idToKey) && used == idToKey.Keys && forall i :: i in used ==> i < next
  }

  lemma ReadyStep(k: string, keyToId: map<string, int>, idToKey: map<int, string>, used: set<int>, next: int)
    requires Ready(keyToId, idToKey, used, next) && k !in keyToId
    ensures Skip(next, used) == next
    ensures Ready(keyToId[k := next], idToKey[next := k], used + {next}, next + 1)
  {
    assert next !in idToKey;
  }

  /** The second loop keeps the ids given so far, gives every key one, and keeps the maps inverse. */
  lemma {:induction false} AssignKeeps(ks: seq<string>, keyToId: map<string, int>, idToKey: map<int, string>,
                                       used: set<int>, next: int)
    requires Ready(keyToId, idToKey, used, next)
    ensures var r := Assign(ks, keyToId, idToKey, used, next);
      && Inverse(r.0, r.1)
      && (forall k :: k in r.0 <==> k in keyToId || k in ks)
      && (forall k :: k in keyToId ==> r.0[k] == keyToId[k])
    decreases |ks|
  {
    if |ks| > 0 {
      assert forall k :: k in ks <==> k == ks[0] || k in ks[1..];
      if ks[0] in keyToId {
        AssignKeeps(ks[1..], keyToId, idToKey, used, next);
      } else {
        ReadyStep(ks[0], keyToId, idToKey, used, next);
        AssignKeeps(ks[1..], keyToId[ks[0] := next], idToKey[next := ks[0]], used + {next}, next + 1);
      }
    }
  }

  lemma {:induction false} UnassignedAvoid(ks: seq<string>, m: map<string, int>, k: string, v: int)
    requires k !in ks
    ensures Unassigned(ks, m[k := v]) == Unassigned(ks, m)
  {
    if |ks| > 0 {
      UnassignedAvoid(ks[1..], m, k, v);
    }
  }

  /** Distinct keys without an id get `next`, `next + 1`, ... in their order. */
  lemma {:induction false} AssignNumbers(ks: seq<string>, keyToId: map<string, int>, idToKey: map<int, string>,
                                         used: set<int>, next: int)
    requires Distinct(ks) && Ready(keyToId, idToKey, used, next)
    ensures var r := Assign(ks, keyToId, idToKey, used, next); var later := Unassigned(ks, keyToId);
      forall j :: 0 <= j < |later| ==> later[j] in r.0 && r.0[later[j]] == next + j
    decreases |ks|
  {
    if |ks| > 0 {
      var k, tl := ks[0], ks[1..];
      assert Distinct(tl) by {
        forall i, j | 0 <= i < j < |tl| ensures tl[i] != tl[j] {
          assert tl[i] == ks[i + 1] && tl[j] == ks[j + 1];
        }
      }
      if k in keyToId {
        AssignNumbers(tl, keyToId, idToKey, used, next);
      } else {
        var m1, inv1 := keyToId[k := next], idToKey[next := k];
        ReadyStep(k, keyToId, idToKey, used, next);
        assert k !in tl;
        UnassignedAvoid(tl, keyToId, k, next);
        AssignNumbers(tl, m1, inv1, used + {next}, next + 1);
        AssignKeeps(tl, m1, inv1, used + {next}, next + 1);
      }
    }
  }

  /** The legacy pass: the registered legacy keys with their historical ids. */
  function LegacyIds(ks: seq<string>): (m: map<string, int>)
    ensures forall k :: k in m <==> k in ks && k in Legacy
    ensures forall k :: k in m ==> m[k] == Legacy[k]
  {
    map k | k in ks && k in Legacy :: Legacy[k]
  }

  function LegacyKeys(ks: seq<string>): (m: map<int, string>)
  {
    LegacyShape();
    map k | k in ks && k in Legacy :: Legacy[k] := k
  }

  lemma LegacyReady(ks: seq<string>)
    ensures Ready(LegacyIds(ks), LegacyKeys(ks), LegacyKeys(ks).Keys, MaxLegacy(ks) + 1)
  {
    LegacyShape();
    var m := LegacyIds(ks);
    var inv := LegacyKeys(ks);
    forall i | i in inv ensures inv[i] in m && m[inv[i]] == i && i < MaxLegacy(ks) + 1 {
      var k :| k in ks && k in Legacy && Legacy[k] == i;
      assert inv[i] == k;
    }
  }

  /** `_rebuild_id_map`: the legacy pass, then the sorted pass from `max(used_ids, default=0) + 1`. */
  function Rebuild(ks: seq<string>): (r: (map<string, int>, map<int, string>))
  {
    var keyToId := LegacyIds(ks);
    var idToKey := LegacyKeys(ks);
    Assign(Sort(ks), keyToId, idToKey, idToKey.Keys, MaxLegacy(ks) + 1)
  }

  /**
   * After `_rebuild_id_map` every registered key has an id, a legacy key
   * its historical one, and `id_to_key` is the inverse of `key_to_id`.
   */
  lemma RebuildInverse(ks: seq<string>)
    ensures var r := Rebuild(ks);
      && (forall k :: k in r.0 <==> k in ks)
      && (forall k :: k in ks && k in Legacy ==> r.0[k] == Legacy[k])
      && Inverse(r.0, r.1)
  {
    var m, inv, sorted := LegacyIds(ks), LegacyKeys(ks), Sort(ks);
    LegacyReady(ks);
    AssignKeeps(sorted, m, inv, inv.Keys, MaxLegacy(ks) + 1);
    var r := Assign(sorted, m, inv, inv.Keys, MaxLegacy(ks) + 1);
    assert r == Rebuild(ks);
  }

  /**
   * The keys without a legacy id, in ascending order, get
   * `max(legacy ids, 0) + 1`, `+ 2`, ... with no gaps.
   */
  lemma RebuildNumbers(ks: seq<string>)
    requires Distinct(ks)
    ensures var later := Unassigned(Sort(ks), LegacyIds(ks));
      && (forall k :: k in later <==> k in ks && k !in Legacy)
      && Sorted(later)
      && forall j :: 0 <= j < |later| ==> later[j] in Rebuild(ks).0 && Rebuild(ks).0[later[j]] == MaxLegacy(ks) + 1 + j
  {
    LegacyReady(ks);
    SortDistinct(ks);
    UnassignedSorted(Sort(ks), LegacyIds(ks));
    AssignNumbers(Sort(ks), LegacyIds(ks), LegacyKeys(ks), LegacyKeys(ks).Keys, MaxLegacy(ks) + 1);
  }

  /** Inverse maps make `key_to_id` injective: no two solvers share an id. */
  lemma InverseInjective(keyToId: map<string, int>, idToKey: map<int, string>)
    requires Inverse(keyToId, idToKey)
    ensures forall a, b :: a in keyToId && b in keyToId && a != b ==> keyToId[a] != keyToId[b]
  {
  }

  lemma {:induction false} UnassignedSorted(ks: seq<string>, m: map<string, int>)
    requires Sorted(ks)
    ensures Sorted(Unassigned(ks, m))
  {
    if |ks| > 0 {
      SortedTail(ks);
      UnassignedSorted(ks[1..], m);
      if ks[0] !in m {
        var tl := ks[1..];
        forall y | y in Unassigned(tl, m) ensures Below(ks[0], y) {
          var t :| 0 <= t < |tl| && tl[t] == y;
          assert ks[t + 1] == y;
        }
        SortedCons(ks[0], Unassigned(tl, m));
      }
    }
  }

  // ---------------------------------------------------------------------
  // Discovery and queries

  /** Every registered key, and nothing else, has an id. */
  ghost predicate Complete(r: Registry) {
    forall k :: k in r.keyToId <==> k in Keys(r.plugins)
  }

  /** A plugin module: its name and the plugins it provides. */
  datatype Module = Module(name: string, plugins: seq<Plugin>)

  function RegisterAll(r: Registry, ps: seq<Plugin>): (r': Registry)
    ensures Distinct(Keys(r.plugins)) ==> Distinct(Keys(r'.plugins))
    ensures forall p :: p in ps ==> p.key in Keys(r'.plugins)
    ensures forall k :: k in Keys(r.plugins) ==> k in Keys(r'.plugins)
    ensures forall p :: p in r'.plugins ==> p in r.plugins || p in ps
    ensures r'.keyToId == r.keyToId && r'.idToKey == r.idToKey && r'.loaded == r.loaded
    decreases |ps|
  {
    if |ps| == 0 then r
    else
      var r1 := Register(r, ps[0]);
      assert forall p :: p in r1.plugins ==> p in r.plugins || p == ps[0];
      assert forall p :: p in ps <==> p == ps[0] || p in ps[1..];
      RegisterAll(r1, ps[1..])
  }

  /** The plugins of the modules `discover_plugins` imports: those whose name does not start with `_`. */
  function Loadable(ms: seq<Module>): (ps: seq<Plugin>)
    ensures forall p :: p in ps <==> exists i :: 0 <= i < |ms| && !StartsWith(ms[i].name, "_") && p in ms[i].plugins
  {
    if |ms| == 0 then []
    else
      var rest := Loadable(ms[1..]);
      assert forall i :: 1 <= i < |ms| ==> ms[i] == ms[1..][i - 1];
      if StartsWith(ms[0].name, "_") then rest else ms[0].plugins + rest
  }

  /**
   * `discover_plugins`: nothing once loaded; without a plugins directory
   * only the flag is set; otherwise every plugin of the importable modules
   * is registered and the ids are rebuilt.
   */
  function Discover(r: Registry, hasDirectory: bool, ms: seq<Module>): (r': Registry)
    ensures r.loaded ==> r' == r
    ensures r'.loaded
    ensures Distinct(Keys(r.plugins)) ==> Distinct(Keys(r'.plugins))
    ensures forall p :: p in r'.plugins ==>
      (p in r.plugins || exists i :: 0 <= i < |ms| && !StartsWith(ms[i].name, "_") && p in ms[i].plugins)
    ensures !r.loaded && hasDirectory ==> forall i, p :: 0 <= i < |ms| && !StartsWith(ms[i].name, "_") && p in ms[i].plugins ==>
      p.key in Keys(r'.plugins)
  {
    if r.loaded then r
    else if !hasDirectory then r.(loaded := true)
    else
      var r1 := RegisterAll(r, Loadable(ms));
      var ids := Rebuild(Keys(r1.plugins));
      r1.(keyToId := ids.0, idToKey := ids.1, loaded := true)
  }

  /** After discovery every registered key has an id and the two maps are inverse. */
  lemma DiscoverIds(r: Registry, ms: seq<Module>)
    requires !r.loaded
    ensures var r' := Discover(r, true, ms);
      && Complete(r')
      && Inverse(r'.keyToId, r'.idToKey)
  {
    var r1 := RegisterAll(r, Loadable(ms));
    var ks := Keys(r1.plugins);
    RebuildInverse(ks);
    var ids := Rebuild(ks);
    assert Discover(r, true, ms) == r1.(keyToId := ids.0, idToKey := ids.1, loaded := true);
  }

  /** The display name of the plugin registered under `key`. */
  function NameOf(ps: seq<Plugin>, key: string): (n: string)
    requires key in Keys(ps)
    ensures exists i :: 0 <= i < |ps| && ps[i].key == key && ps[i].name == n
  {
    if ps[0].key == key then ps[0].name
    else
      assert Keys(ps[1..]) == Keys(ps)[1..];
      var n := NameOf(ps[1..], key);
      assert forall i :: 1 <= i < |ps| ==> ps[i] == ps[1..][i - 1];
      n
  }

  predicate Injective(keyToId: map<string, int>) {
    forall a, b :: a in keyToId && b in keyToId && a != b ==> keyToId[a] != keyToId[b]
  }

  /** `get_name_map`: each assigned id with its plugin's display name. */
  function GetNameMap(r: Registry): (names: map<int, string>)
    requires forall k :: k in r.keyToId ==> k in Keys(r.plugins)
    requires Injective(r.keyToId)
    ensures names.Keys == r.keyToId.Values
    ensures forall k :: k in r.keyToId ==> names[r.keyToId[k]] == NameOf(r.plugins, k)
  {
    map k | k in r.keyToId :: r.keyToId[k] := NameOf(r.plugins, k)
  }

  /** `list_solvers`: (id, key) for every plugin, in ascending key order. */
  function ListSolvers(r: Registry): (out: seq<(int, string)>)
    requires Complete(r)
    ensures |out| == |r.plugins|
    ensures forall i :: 0 <= i < |out| ==> out[i].1 in r.keyToId && out[i].0 == r.keyToId[out[i].1]
    ensures forall k :: k in Keys(r.plugins) <==> exists i :: 0 <= i < |out| && out[i].1 == k
    ensures forall i, j :: 0 <= i < j < |out| ==> Below(out[i].1, out[j].1)
  {
    var sorted := Sort(Keys(r.plugins));
    var out := seq(|sorted|, i requires 0 <= i < |sorted| => (r.keyToId[sorted[i]], sorted[i]));
    forall k | k in Keys(r.plugins) ensures exists i :: 0 <= i < |out| && out[i].1 == k {
      var i :| 0 <= i < |sorted| && sorted[i] == k;
      assert out[i].1 == k;
    }
    out
  }
}

=== FILE: roundtrip.dfy ===
/**
 * The DIMACS writer of `CNFCompiler.compile` against the reader
 * `parse_cnf_from_response`: reading the written text gives back the
 * header's two counts verbatim and the clauses in order. The header's
 * clause count is stated separately from the clause list, because the
 * reader never compares the two.
 */
module RoundTrip {
  import opened Outcomes
  import opened Text
  import opened Dimacs
  import opened Reader

  /** DIMACS text as the writer lays it out, with a header claiming `numClauses` clauses. */
  function Claimed(numVars: nat, numClauses: nat, cs: seq<seq<int>>): string {
    Join("\n", [HeaderLine(numVars, numClauses)] + ClauseLines(cs)) + "\n"
  }

  /** A clause line once stripped: the literals and the final `0`, joined by spaces. */
  function ClauseText(c: seq<int>): string {
    Join(" ", Words(c) + ["0"])
  }

  function ClauseTexts(cs: seq<seq<int>>): (r: seq<string>)
    ensures |r| == |cs|
    ensures forall t :: 0 <= t < |cs| ==> r[t] == ClauseText(cs[t])
  {
    seq(|cs|, t requires 0 <= t < |cs| => ClauseText(cs[t]))
  }

  // ---------------------------------------------------------------------
  // Characters

  lemma CharsAvoid(s: string, c: char)
    requires IntChars(s) && !IsDigit(c) && c != '-'
    ensures c !in s
  {
  }

  lemma {:induction false} JoinAvoids(sep: string, parts: seq<string>, c: char)
    requires c !in sep && forall i :: 0 <= i < |parts| ==> c !in parts[i]
    ensures c !in Join(sep, parts)
    decreases |parts|
  {
    if |parts| > 1 {
      JoinAvoids(sep, parts[1..], c);
    }
  }

  lemma {:induction false} JoinSnoc(sep: string, parts: seq<string>, x: string)
    requires |parts| >= 1
    ensures Join(sep, parts + [x]) == Join(sep, parts) + sep + x
    decreases |parts|
  {
    var ps := parts + [x];
    assert ps[1..] == parts[1..] + [x];
    if |parts| > 1 {
      JoinSnoc(sep, parts[1..], x);
    }
  }

  /** The words of a clause: each is `str` of a literal, followed by `"0"`. */
  lemma ClauseWords(c: seq<int>)
    ensures forall i :: 0 <= i < |Words(c) + ["0"]| ==> IntChars((Words(c) + ["0"])[i]) && Word((Words(c) + ["0"])[i])
  {
    var ws := Words(c) + ["0"];
    forall i | 0 <= i < |ws| ensures IntChars(ws[i]) && Word(ws[i]) {
      if i < |c| {
        IntToStringChars(c[i]);
      } else {
        assert ws[i] == "0";
      }
    }
  }

  lemma ClauseTextAvoids(c: seq<int>, ch: char)
    requires !IsDigit(ch) && ch != '-' && ch != ' '
    ensures ch !in ClauseText(c) && ch !in ClauseLine(c)
  {
    var ws := Words(c) + ["0"];
    ClauseWords(c);
    forall i | 0 <= i < |ws| ensures ch !in ws[i] {
      CharsAvoid(ws[i], ch);
    }
    JoinAvoids(" ", ws, ch);
    assert forall i :: 0 <= i < |Words(c)| ==> Words(c)[i] == ws[i];
    JoinAvoids(" ", Words(c), ch);
  }

  lemma HeaderAvoids(nv: nat, nc: nat, ch: char)
    requires !IsDigit(ch) && ch != '-' && ch !in "p cnf "
    ensures ch !in HeaderLine(nv, nc)
  {
    IntToStringChars(nv);
    IntToStringChars(nc);
    CharsAvoid(IntToString(nv), ch);
    CharsAvoid(IntToString(nc), ch);
  }

  // ---------------------------------------------------------------------
  // Stripping

  /** A join begins with its first part. */
  lemma JoinFirst(sep: string, parts: seq<string>)
    requires |parts| >= 1
    ensures |Join(sep, parts)| >= |parts[0]| && Join(sep, parts)[..|parts[0]|] == parts[0]
  {
  }

  /** `re.match(r'^-?\d+')` holds of `str(x)`, and so of anything `str(x)` begins. */
  lemma IntToStringNumberStart(x: int, rest: string)
    ensures NumberStart(IntToString(x) + rest)
  {
    var s := IntToString(x) + rest;
    if x < 0 {
      var d := NatToString(-x);
      NatToStringDigits(-x);
      assert s == "-" + d + rest;
      assert s[1] == d[0];
    } else {
      NatToStringDigits(x);
      assert s[0] == IntToString(x)[0];
    }
  }

  lemma ClauseTextStripped(c: seq<int>)
    ensures Strip(ClauseText(c)) == ClauseText(c)
    ensures Strip(ClauseLine(c)) == ClauseText(c)
    ensures NumberStart(ClauseText(c))
  {
    var ws := Words(c) + ["0"];
    ClauseWords(c);
    JoinFirst(" ", ws);
    JoinLast(" ", ws);
    var t := ClauseText(c);
    assert t[0] == ws[0][0] && t[|t| - 1] == '0';
    assert IntChars(ws[0]);
    StripNoSpace(t);
    if |c| == 0 {
      assert ws == ["0"];
      assert ClauseLine(c) == " 0";
      assert " 0"[1..] == "0";
      assert t == "0";
    } else {
      JoinSnoc(" ", Words(c), "0");
      var w := Words(c)[0];
      assert ws[0] == w == IntToString(c[0]);
      IntToStringNumberStart(c[0], t[|w|..]);
      assert t == w + t[|w|..];
    }
  }

  // ---------------------------------------------------------------------
  // The reader's stages on written text

  lemma NoTicks(s: string)
    requires '`' !in s
    ensures forall j :: 0 <= j <= |s| ==> !OccursAt(s, "```", j)
  {
    forall j | 0 <= j <= |s| ensures !OccursAt(s, "```", j) {
      if j + 3 <= |s| {
        assert s[j..j + 3][0] == s[j];
        assert s[j] in s;
      }
    }
  }

  lemma NoFence(s: string)
    requires '`' !in s
    ensures FenceFrom(s, 0).None?
  {
    NoTicks(s);
    assert forall j :: 0 <= j <= |s| ==> FenceAt(s, j).None?;
  }

  /** The header line is its own strip and begins `p cnf`. */
  lemma HeaderStripped(nv: nat, nc: nat)
    ensures Strip(HeaderLine(nv, nc)) == HeaderLine(nv, nc)
    ensures StartsWith(HeaderLine(nv, nc), "p cnf")
  {
    var h := HeaderLine(nv, nc);
    IntToStringChars(nc);
    assert h[0] == 'p' && IsDigit(h[|h| - 1]);
    StripNoSpace(h);
  }

  /** The lines of the written text: the header, the clause lines, and the empty piece after the last newline. */
  lemma SplitWritten(nv: nat, nc: nat, cs: seq<seq<int>>)
    ensures SplitChar(Claimed(nv, nc, cs), '\n') == [HeaderLine(nv, nc)] + ClauseLines(cs) + [""]
  {
    var ls := [HeaderLine(nv, nc)] + ClauseLines(cs);
    JoinSnoc("\n", ls, "");
    assert Join("\n", ls) + "\n" + "" == Claimed(nv, nc, cs);
    TextAvoids(nv, nc, cs, '\n');
    assert ls + [""] == [HeaderLine(nv, nc)] + ClauseLines(cs) + [""];
    SplitCharJoin(ls + [""], '\n');
  }

  /** The compiler's text is its lines, each ended by a newline: the problem line first, then one line per clause. */
  lemma WriteLines(nv: nat, cs: seq<seq<int>>)
    ensures |Lines(nv, cs)| == |cs| + 1 && Lines(nv, cs)[0] == HeaderLine(nv, |cs|)
    ensures forall i :: 0 <= i < |cs| ==> Lines(nv, cs)[i + 1] == ClauseLine(cs[i])
    ensures SplitChar(Write(nv, cs), '\n') == Lines(nv, cs) + [""]
  {
    assert Write(nv, cs) == Claimed(nv, |cs|, cs);
    SplitWritten(nv, |cs|, cs);
  }

  lemma ClauseLineKept(c: seq<int>)
    ensures Strip(ClauseLine(c)) == ClauseText(c)
    ensures Kept(ClauseText(c)) && !Stops(ClauseText(c))
  {
    ClauseTextStripped(c);
  }

  lemma {:induction false} KeptClauseLines(lines: seq<string>, cs: seq<seq<int>>, i: nat)
    requires |lines| == |cs| + 2 && 1 <= i <= |cs| + 1 && lines[|cs| + 1] == ""
    requires forall t :: 0 <= t < |cs| ==> lines[t + 1] == ClauseLine(cs[t])
    ensures FirstStop(lines, i) == |lines|
    ensures KeptBetween(lines, i, |lines|) == ClauseTexts(cs)[i - 1..]
    decreases |lines| - i
  {
    if i == |cs| + 1 {
      assert Strip(lines[i]) == "";
      assert KeptBetween(lines, i + 1, |lines|) == [];
    } else {
      var c := cs[i - 1];
      ClauseLineKept(c);
      assert lines[i] == ClauseLine(c);
      assert Strip(lines[i]) == ClauseText(c);
      assert FirstStop(lines, i) == FirstStop(lines, i + 1);
      assert KeptBetween(lines, i, |lines|) == [ClauseText(c)] + KeptBetween(lines, i + 1, |lines|);
      KeptClauseLines(lines, cs, i + 1);
      assert ClauseTexts(cs)[i - 1..] == [ClauseText(c)] + ClauseTexts(cs)[i..];
    }
  }

  lemma TextAvoids(nv: nat, nc: nat, cs: seq<seq<int>>, ch: char)
    requires !IsDigit(ch) && ch != '-' && ch != ' ' && ch !in "p cnf "
    ensures forall i :: 0 <= i < |[HeaderLine(nv, nc)] + ClauseLines(cs) + [""]| ==>
      ch !in ([HeaderLine(nv, nc)] + ClauseLines(cs) + [""])[i]
  {
    var lines := [HeaderLine(nv, nc)] + ClauseLines(cs) + [""];
    HeaderAvoids(nv, nc, ch);
    LinesAvoid(cs, ch);
    forall i | 0 <= i < |lines| ensures ch !in lines[i] {
      if 0 < i <= |cs| {
        assert lines[i] == ClauseLines(cs)[i - 1];
      }
    }
  }

  lemma LinesAvoid(cs: seq<seq<int>>, ch: char)
    requires !IsDigit(ch) && ch != '-' && ch != ' '
    ensures forall t :: 0 <= t < |cs| ==> ch !in ClauseLines(cs)[t]
  {
    forall t | 0 <= t < |cs| ensures ch !in ClauseLines(cs)[t] {
      ClauseTextAvoids(cs[t], ch);
    }
  }

  /** The written text holds no backquote, so the fence pattern never matches. */
  lemma WrittenUnfenced(nv: nat, nc: nat, cs: seq<seq<int>>)
    ensures FenceFrom(Claimed(nv, nc, cs), 0).None?
  {
    var h := HeaderLine(nv, nc);
    var lines := [h] + ClauseLines(cs) + [""];
    TextAvoids(nv, nc, cs, '`');
    JoinSnoc("\n", [h] + ClauseLines(cs), "");
    assert lines == ([h] + ClauseLines(cs)) + [""];
    JoinAvoids("\n", lines, '`');
    assert Join("\n", lines) == Claimed(nv, nc, cs);
    NoFence(Claimed(nv, nc, cs));
  }

  /** The scanner keeps the header and every clause line, stripped. */
  lemma ScanLines(nv: nat, nc: nat, cs: seq<seq<int>>)
    ensures Scan([HeaderLine(nv, nc)] + ClauseLines(cs) + [""]) == [HeaderLine(nv, nc)] + ClauseTexts(cs)
  {
    var h := HeaderLine(nv, nc);
    var lines := [h] + ClauseLines(cs) + [""];
    HeaderStripped(nv, nc);
    KeptClauseLines(lines, cs, 1);
    assert ClauseTexts(cs)[0..] == ClauseTexts(cs);
    ScanFromProblemLine(lines, ClauseTexts(cs));
  }

  /** Lines that open with a problem line and never stop scan to that line and the kept rest. */
  lemma ScanFromProblemLine(lines: seq<string>, kept: seq<string>)
    requires |lines| > 0 && Strip(lines[0]) == lines[0] && StartsWith(lines[0], "p cnf")
    requires FirstStop(lines, 1) == |lines| && KeptBetween(lines, 1, |lines|) == kept
    ensures Scan(lines) == [lines[0]] + kept
  {
    var h := lines[0];
    assert Kept(h);
    assert [] + [h] == [h];
    assert Scan(lines) == ScanFrom(lines, 1, true, [h]);
    ScanCollecting(lines, 1, [h]);
  }

  lemma ScanWritten(nv: nat, nc: nat, cs: seq<seq<int>>)
    ensures Content(Claimed(nv, nc, cs)) == Some(Join("\n", [HeaderLine(nv, nc)] + ClauseTexts(cs)))
  {
    WrittenUnfenced(nv, nc, cs);
    SplitWritten(nv, nc, cs);
    ScanLines(nv, nc, cs);
  }

  /** `DigitRunAt` finds exactly a run of digits that ends where the digits end. */
  lemma {:induction false} DigitRunOver(s: string, i: nat, d: string)
    requires AllDigits(d) && i + |d| <= |s| && s[i..i + |d|] == d
    requires i + |d| == |s| || !IsDigit(s[i + |d|])
    ensures DigitRunAt(s, i) == |d|
    decreases |d|
  {
    if |d| > 0 {
      assert s[i] == d[0];
      assert s[i + 1..i + |d|] == d[1..];
      DigitRunOver(s, i + 1, d[1..]);
    }
  }

  /** A problem line `p cnf <a> <b>` over digit runs, followed by nothing or a newline, matches with their values. */
  lemma HeaderOfDigits(s: string, a: string, b: string, rest: string)
    requires AllDigits(a) && AllDigits(b) && |a| > 0 && |b| > 0
    requires |rest| == 0 || rest[0] == '\n'
    requires s == "p cnf " + a + " " + b + rest
    ensures HeaderAt(s, 0) == Some((DigitsValue(a), DigitsValue(b)))
  {
    assert s[..6] == "p cnf ";
    assert s[6..6 + |a|] == a;
    assert s[6 + |a|] == ' ';
    DigitRunOver(s, 6, a);
    assert s[7 + |a|..7 + |a| + |b|] == b;
    DigitRunOver(s, 7 + |a|, b);
  }

  /** The written header line, followed by nothing or a newline, reads back as its two counts. */
  lemma HeaderReads(nv: nat, nc: nat, rest: string)
    requires |rest| == 0 || rest[0] == '\n'
    ensures HeaderFrom(HeaderLine(nv, nc) + rest, 0) == Some((nv, nc))
  {
    DigitsValueOfNat(nv);
    DigitsValueOfNat(nc);
    var s := HeaderLine(nv, nc) + rest;
    HeaderOfDigits(s, NatToString(nv), NatToString(nc), rest);
  }

  lemma {:induction false} IntsRead(c: seq<int>)
    ensures Ints(Words(c)) == Ok(c)
    decreases |c|
  {
    if |c| > 0 {
      ParseIntOfString(c[0]);
      assert Words(c)[1..] == Words(c[1..]);
      IntsRead(c[1..]);
      IntsCons(Words(c), c[0], c[1..]);
      assert [c[0]] + c[1..] == c;
    }
  }

  lemma IntsCons(tokens: seq<string>, x: int, rest: seq<int>)
    requires |tokens| > 0 && ParseInt(tokens[0]) == Some(x) && Ints(tokens[1..]) == Ok(rest)
    ensures Ints(tokens) == Ok([x] + rest)
  {
  }

  /** A stripped line with a number first and `0` last gives the clause of the tokens before the `0`. */
  lemma ClauseOfLine(line: string, tokens: seq<string>, c: seq<int>)
    requires Strip(line) == line && NumberStart(line)
    requires SplitWs(line) == tokens + ["0"] && Ints(tokens) == Ok(c)
    ensures ClauseOf(line) == Ok(Some(c))
  {
    assert line[..1] != "c" && line[..1] != "p" by {
      assert line[..1][0] == line[0];
    }
    var ts := SplitWs(line);
    assert |ts| == |tokens| + 1 && ts[|ts| - 1] == "0";
    assert ts[..|ts| - 1] == tokens;
  }

  lemma ClauseRead(c: seq<int>)
    ensures ClauseOf(ClauseText(c)) == Ok(Some(c))
  {
    ClauseTextStripped(c);
    ClauseWords(c);
    SplitWsJoin(Words(c) + ["0"]);
    IntsRead(c);
    ClauseOfLine(ClauseText(c), Words(c), c);
  }

  lemma {:induction false} ClausesRead(cs: seq<seq<int>>)
    ensures Clauses(ClauseTexts(cs)) == Ok(cs)
    decreases |cs|
  {
    if |cs| > 0 {
      ClauseRead(cs[0]);
      assert ClauseTexts(cs)[1..] == ClauseTexts(cs[1..]);
      ClausesRead(cs[1..]);
      ClausesCons(ClauseTexts(cs), cs[0], cs[1..]);
      assert [cs[0]] + cs[1..] == cs;
    }
  }

  lemma ClausesCons(lines: seq<string>, c: seq<int>, rest: seq<seq<int>>)
    requires |lines| > 0 && ClauseOf(lines[0]) == Ok(Some(c)) && Clauses(lines[1..]) == Ok(rest)
    ensures Clauses(lines) == Ok([c] + rest)
  {
  }

  lemma ContentLines(nv: nat, nc: nat, cs: seq<seq<int>>)
    ensures SplitChar(Join("\n", [HeaderLine(nv, nc)] + ClauseTexts(cs)), '\n') == [HeaderLine(nv, nc)] + ClauseTexts(cs)
  {
    var ls := [HeaderLine(nv, nc)] + ClauseTexts(cs);
    TextsAvoid(cs, '\n');
    HeaderAvoids(nv, nc, '\n');
    forall i | 0 <= i < |ls| ensures '\n' !in ls[i] {
      if i > 0 {
        assert ls[i] == ClauseTexts(cs)[i - 1];
      }
    }
    SplitCharJoin(ls, '\n');
  }

  lemma TextsAvoid(cs: seq<seq<int>>, ch: char)
    requires !IsDigit(ch) && ch != '-' && ch != ' '
    ensures forall t :: 0 <= t < |cs| ==> ch !in ClauseTexts(cs)[t]
  {
    forall t | 0 <= t < |cs| ensures ch !in ClauseTexts(cs)[t] {
      ClauseTextAvoids(cs[t], ch);
    }
  }

  /** A problem line contributes no clause. */
  lemma ClausesSkipHeader(h: string, ts: seq<string>)
    requires Strip(h) == h && StartsWith(h, "p cnf")
    ensures Clauses([h] + ts) == Clauses(ts)
  {
    assert ClauseOf(h) == Ok(None);
    assert ([h] + ts)[1..] == ts;
  }

  /** The content's lines: the header is skipped and every clause text gives its clause. */
  lemma ContentClauses(nv: nat, nc: nat, cs: seq<seq<int>>)
    ensures Clauses(SplitChar(Join("\n", [HeaderLine(nv, nc)] + ClauseTexts(cs)), '\n')) == Ok(cs)
  {
    ContentLines(nv, nc, cs);
    HeaderStripped(nv, nc);
    ClausesSkipHeader(HeaderLine(nv, nc), ClauseTexts(cs));
    ClausesRead(cs);
  }

  lemma ContentHeader(nv: nat, nc: nat, cs: seq<seq<int>>)
    ensures HeaderFrom(Join("\n", [HeaderLine(nv, nc)] + ClauseTexts(cs)), 0) == Some((nv, nc))
  {
    var h := HeaderLine(nv, nc);
    var ts := ClauseTexts(cs);
    if |cs| == 0 {
      assert [h] + ts == [h];
      assert h + "" == h;
      HeaderReads(nv, nc, "");
    } else {
      var rest := Join("\n", ts);
      assert ([h] + ts)[1..] == ts;
      assert Join("\n", [h] + ts) == h + "\n" + rest;
      assert h + "\n" + rest == h + ("\n" + rest);
      HeaderReads(nv, nc, "\n" + rest);
    }
  }

  // ---------------------------------------------------------------------
  // The round trip

  /**
   * Reading DIMACS text laid out by the writer gives back the header's
   * counts verbatim, whatever clause count the header claims, and the
   * clauses in order.
   */
  lemma ReadClaimed(nv: nat, nc: nat, cs: seq<seq<int>>)
    ensures var r := Extract(Claimed(nv, nc, cs));
      r.Found? && r.numVariables == nv && r.numClauses == nc && r.clauses == cs
  {
    ScanWritten(nv, nc, cs);
    ContentHeader(nv, nc, cs);
    ContentClauses(nv, nc, cs);
  }

  /** `parse_cnf_from_response` applied to the compiler's DIMACS output returns its counts and clauses. */
  lemma ReadWritten(numVars: nat, cs: seq<seq<int>>)
    ensures var r := Extract(Write(numVars, cs));
      r.Found? && r.numVariables == numVars && r.numClauses == |cs| && r.clauses == cs
  {
    assert Write(numVars, cs) == Claimed(numVars, |cs|, cs);
    ReadClaimed(numVars, |cs|, cs);
  }
}

=== FILE: runner.dfy ===
/**
 * The decisions `SolverRunner.run_solver` and `ExperimentRunner` make
 * around a solver process (app/core/solver_runner.py): the checks on the
 * executable before anything starts, the verdict read from the output and
 * exit code, the timeout and memory overrides, and which (solver,
 * benchmark) runs an experiment still has to do.
 *
 * The process itself, the monitor thread and psutil are outside the
 * model: how the process ended and the peak memory the monitor saw are
 * inputs.
 */
module Runner {
  import opened Outcomes
  import opened Text
  import opened Verdicts
  import Plugin

  // ---------------------------------------------------------------------
  // `_parse_solver_result`

  /** The verdict read from the output first and the exit code second. */
  function ParseSolverResult(output: string, exitCode: int): (v: Verdict)
    ensures v != MEMOUT
  {
    var upper := Upper(output);
    if Contains(upper, "UNSATISFIABLE") || Contains(upper, "s UNSATISFIABLE") then UNSAT
    else if Contains(upper, "SATISFIABLE") && !Contains(upper, "UNSATISFIABLE") then SAT
    else if exitCode == 10 then SAT
    else if exitCode == 20 then UNSAT
    else if exitCode == 124 then TIMEOUT
    else if exitCode != 0 then ERROR
    else UNKNOWN
  }

  /**
   * The words decide before the exit code: `UNSATISFIABLE` gives UNSAT and
   * `SATISFIABLE` alone gives SAT whatever the code; without either word,
   * 10 is SAT, 20 UNSAT, 124 TIMEOUT, any other nonzero code ERROR and 0
   * UNKNOWN. Letter case in the output never matters.
   */
  lemma ParseSolverResultRules(output: string, other: string, exitCode: int)
    ensures Upper(output) == Upper(other) ==> ParseSolverResult(output, exitCode) == ParseSolverResult(other, exitCode)
    ensures var u := Upper(output); var v := ParseSolverResult(output, exitCode);
      && (v == UNSAT <==> Contains(u, "UNSATISFIABLE") || (!Contains(u, "SATISFIABLE") && exitCode == 20))
      && (v == SAT <==> !Contains(u, "UNSATISFIABLE") && (Contains(u, "SATISFIABLE") || exitCode == 10))
      && (v == TIMEOUT <==> !Contains(u, "SATISFIABLE") && exitCode == 124)
      && (v == ERROR <==> !Contains(u, "SATISFIABLE") && exitCode !in {0, 10, 20, 124})
      && (v == UNKNOWN <==> !Contains(u, "SATISFIABLE") && exitCode == 0)
  {
    var u := Upper(output);
    forall i | 0 <= i <= |u| ensures !OccursAt(u, "s UNSATISFIABLE", i) {
      if i + 15 <= |u| {
        assert u[i..i + 15][0] == u[i] != 's';
      }
    }
    if Contains(u, "UNSATISFIABLE") {
      ContainsUnsatisfiable(u);
    }
  }

  /**
   * The plugin classifier of the web back end and this one agree whenever
   * this one says SAT or UNSAT or the exit code is 0; otherwise the plugin
   * classifier says UNKNOWN.
   */
  lemma ClassifiersAgree(output: string, exitCode: int)
    ensures var v := ParseSolverResult(output, exitCode);
      if v == SAT || v == UNSAT || exitCode == 0 then Plugin.ParseResult(exitCode, output) == v
      else Plugin.ParseResult(exitCode, output) == UNKNOWN
  {
    ParseSolverResultRules(output, output, exitCode);
    Plugin.ParseResultRules(exitCode, output, output);
  }

  // ---------------------------------------------------------------------
  // Executable checks

  /** The last component of a path, as `pathlib` reads it: trailing slashes ignored. */
  function BaseName(path: string): (r: string)
    ensures |r| <= |path|
    decreases |path|
  {
    if |path| > 0 && path[|path| - 1] == '/' then BaseName(path[..|path| - 1])
    else AfterLastSlash(path)
  }

  function AfterLastSlash(s: string): (r: string)
    ensures |r| <= |s| && forall i :: 0 <= i < |r| ==> r[i] != '/'
    ensures r == s[|s| - |r|..]
  {
    if |s| == 0 || s[|s| - 1] == '/' then ""
    else AfterLastSlash(s[..|s| - 1]) + [s[|s| - 1]]
  }

  /** The position of the last `.` in `s`, if any. */
  function LastDot(s: string): (r: Option<nat>)
    ensures r.Some? ==> r.value < |s| && s[r.value] == '.' && forall j :: r.value < j < |s| ==> s[j] != '.'
    ensures r.None? ==> forall j :: 0 <= j < |s| ==> s[j] != '.'
  {
    if |s| == 0 then None
    else if s[|s| - 1] == '.' then Some(|s| - 1)
    else LastDot(s[..|s| - 1])
  }

  /** `Path.suffix`: from the last dot of the name, unless the dot is first or last. */
  function Suffix(path: string): (r: string)
    ensures |r| > 0 ==> r[0] == '.' && |r| >= 2
  {
    var name := BaseName(path);
    var d := LastDot(name);
    if d.Some? && 0 < d.value < |name| - 1 then name[d.value..] else ""
  }

  /** The suffixes taken for source code rather than a binary. */
  const SourceSuffixes: set<string> := {".h", ".hpp", ".c", ".cpp"}

  /** The paths that exist and the paths the process may execute. */
  datatype Files = Files(existing: set<string>, executable: set<string>)

  /** The reason `run_solver` refuses an executable before starting it, if any. */
  function Refusal(path: string, fs: Files): (r: Option<string>)
    ensures r.None? <==> path in fs.existing && Suffix(path) !in SourceSuffixes && path in fs.executable
  {
    if path !in fs.existing then Some("Executable not found: " + path)
    else if Suffix(path) in SourceSuffixes then Some("Invalid executable (source file): " + path)
    else if path !in fs.executable then Some("File not executable: " + path)
    else None
  }

  // ---------------------------------------------------------------------
  // `run_solver`

  /** How the process ended. */
  datatype Fate =
    | Completed(exitCode: int, stdout: string, stderr: string)  // `communicate` returned
    | Expired(partial: Option<string>)                          // `TimeoutExpired`; partial output if read
    | Raised(message: string)                                   // `Popen` raised

  /** The fields of the result dictionary the decisions fill in. */
  datatype Outcome = Outcome(
    result: Verdict,
    exitCode: int,
    solverOutput: string,
    errorMessage: string,
    timedOut: bool,
    memoryExceeded: bool)

  /** `memory_limit`: megabytes stored as bytes. */
  function MemoryLimitBytes(memoryLimitMb: int): int {
    memoryLimitMb * 1024 * 1024
  }

  /** The peak-memory threshold in kilobytes, `memory_limit // 1024`. */
  function MemoryThresholdKb(memoryLimitMb: int): (kb: int)
    ensures kb == memoryLimitMb * 1024
  {
    MemoryLimitBytes(memoryLimitMb) / 1024
  }

  /**
   * `run_solver`: a refused executable gives ERROR with exit code -1; a
   * timeout gives TIMEOUT without consulting the output; a completed
   * process gets `_parse_solver_result`; then a peak above the limit marks
   * the run and turns any verdict but TIMEOUT and ERROR into MEMOUT.
   */
  function RunSolver(memoryLimitMb: int, path: string, fs: Files, fate: Fate, maxMemoryKb: int): (r: Outcome)
    ensures Refusal(path, fs).Some? ==> r.result == ERROR && r.exitCode == -1 && !r.timedOut
    ensures Refusal(path, fs).None? && fate.Expired? ==> r.result == TIMEOUT && r.timedOut && r.exitCode == -1
    ensures r.memoryExceeded <==> Refusal(path, fs).None? && !fate.Raised? && maxMemoryKb > memoryLimitMb * 1024
    ensures Refusal(path, fs).None? && fate.Completed? ==>
      r.exitCode == fate.exitCode && r.solverOutput == fate.stdout &&
      var parsed := ParseSolverResult(fate.stdout, fate.exitCode);
      r.result == (if r.memoryExceeded && parsed != TIMEOUT && parsed != ERROR then MEMOUT else parsed)
    ensures r.result == MEMOUT ==> r.memoryExceeded && fate.Completed?
  {
    var refusal := Refusal(path, fs);
    if refusal.Some? then Outcome(ERROR, -1, "", refusal.value, false, false)
    else
      match fate
      case Raised(msg) => Outcome(ERROR, -1, "", msg, false, false)
      case Completed(code, out, err) =>
        var r := Outcome(ParseSolverResult(out, code), code, out, err, false, false);
        MemoryCheck(r, memoryLimitMb, maxMemoryKb)
      case Expired(partial) =>
        var r := Outcome(TIMEOUT, -1, if partial.Some? then partial.value else "", "", true, false);
        MemoryCheck(r, memoryLimitMb, maxMemoryKb)
  }

  /** The memory check that closes `run_solver`. */
  function MemoryCheck(r: Outcome, memoryLimitMb: int, maxMemoryKb: int): (r': Outcome)
    ensures r'.memoryExceeded <==> r.memoryExceeded || maxMemoryKb > memoryLimitMb * 1024
    ensures r'.result == MEMOUT <==> r.result == MEMOUT || (maxMemoryKb > memoryLimitMb * 1024 && r.result != TIMEOUT && r.result != ERROR)
    ensures r'.result != MEMOUT ==> r'.result == r.result
    ensures r' == r.(memoryExceeded := r'.memoryExceeded, result := r'.result)
  {
    if maxMemoryKb > MemoryThresholdKb(memoryLimitMb) then
      r.(memoryExceeded := true, result := if r.result in {TIMEOUT, ERROR} then r.result else MEMOUT)
    else r
  }

  /** A refused executable gives the same result whatever the process would have done. */
  lemma RefusalFirst(memoryLimitMb: int, path: string, fs: Files, fate: Fate, fate': Fate, kb: int, kb': int)
    requires Refusal(path, fs).Some?
    ensures RunSolver(memoryLimitMb, path, fs, fate, kb) == RunSolver(memoryLimitMb, path, fs, fate', kb')
  {
  }

  // ---------------------------------------------------------------------
  // Pending runs

  /** `[(sid, bid) for sid in solver_ids for bid in benchmark_ids]`. */
  function AllRuns(solverIds: seq<int>, benchmarkIds: seq<int>): (runs: seq<(int, int)>)
    ensures |runs| == |solverIds| * |benchmarkIds|
  {
    if |solverIds| == 0 then []
    else Row(solverIds[0], benchmarkIds) + AllRuns(solverIds[1..], benchmarkIds)
  }

  function Row(sid: int, benchmarkIds: seq<int>): (row: seq<(int, int)>)
    ensures |row| == |benchmarkIds|
    ensures forall j :: 0 <= j < |row| ==> row[j] == (sid, benchmarkIds[j])
  {
    seq(|benchmarkIds|, j requires 0 <= j < |benchmarkIds| => (sid, benchmarkIds[j]))
  }

  /** Solver-major order: the run at `i * |benchmarks| + j` pairs solver `i` with benchmark `j`. */
  lemma {:induction false} AllRunsAt(solverIds: seq<int>, benchmarkIds: seq<int>, i: nat, j: nat)
    requires i < |solverIds| && j < |benchmarkIds|
    ensures i * |benchmarkIds| + j < |AllRuns(solverIds, benchmarkIds)|
    ensures AllRuns(solverIds, benchmarkIds)[i * |benchmarkIds| + j] == (solverIds[i], benchmarkIds[j])
    decreases i
  {
    var n := |benchmarkIds|;
    var rest := AllRuns(solverIds[1..], benchmarkIds);
    assert AllRuns(solverIds, benchmarkIds) == Row(solverIds[0], benchmarkIds) + rest;
    if i > 0 {
      AllRunsAt(solverIds[1..], benchmarkIds, i - 1, j);
      assert (i - 1) * n + j + n == i * n + j;
    }
  }

  /** A run is scheduled exactly when its solver and its benchmark are listed. */
  lemma {:induction false} AllRunsContain(solverIds: seq<int>, benchmarkIds: seq<int>, run: (int, int))
    ensures run in AllRuns(solverIds, benchmarkIds) <==> run.0 in solverIds && run.1 in benchmarkIds
  {
    if |solverIds| > 0 {
      AllRunsContain(solverIds[1..], benchmarkIds, run);
      assert solverIds == [solverIds[0]] + solverIds[1..];
      if run in Row(solverIds[0], benchmarkIds) {
        var j :| 0 <= j < |benchmarkIds| && Row(solverIds[0], benchmarkIds)[j] == run;
      }
      if run.0 == solverIds[0] && run.1 in benchmarkIds {
        var j :| 0 <= j < |benchmarkIds| && benchmarkIds[j] == run.1;
        assert Row(solverIds[0], benchmarkIds)[j] == run;
      }
    }
  }

  /** `[run for run in runs if run not in completed]`. */
  function Without(runs: seq<(int, int)>, completed: set<(int, int)>): (r: seq<(int, int)>)
    ensures |r| <= |runs|
    ensures forall x :: x in r <==> x in runs && x !in completed
  {
    if |runs| == 0 then []
    else if runs[0] in completed then Without(runs[1..], completed)
    else [runs[0]] + Without(runs[1..], completed)
  }

  /** Filtering keeps the original order: it distributes over concatenation. */
  lemma {:induction false} WithoutConcat(xs: seq<(int, int)>, ys: seq<(int, int)>, completed: set<(int, int)>)
    ensures Without(xs + ys, completed) == Without(xs, completed) + Without(ys, completed)
  {
    if |xs| > 0 {
      assert (xs + ys)[0] == xs[0] && (xs + ys)[1..] == xs[1..] + ys;
      WithoutConcat(xs[1..], ys, completed);
    } else {
      assert xs + ys == ys;
    }
  }

  /** The number of entries of `runs` already recorded. */
  function Recorded(runs: seq<(int, int)>, completed: set<(int, int)>): nat {
    if |runs| == 0 then 0
    else (if runs[0] in completed then 1 else 0) + Recorded(runs[1..], completed)
  }

  lemma {:induction false} WithoutCount(runs: seq<(int, int)>, completed: set<(int, int)>)
    ensures |Without(runs, completed)| + Recorded(runs, completed) == |runs|
  {
    if |runs| > 0 {
      WithoutCount(runs[1..], completed);
    }
  }

  /** `get_pending_runs`: the scheduled runs not yet recorded, in solver-major order. */
  function PendingRuns(solverIds: seq<int>, benchmarkIds: seq<int>, completed: set<(int, int)>): (r: seq<(int, int)>)
    ensures forall x :: x in r <==> x.0 in solverIds && x.1 in benchmarkIds && x !in completed
  {
    AllRunsMembers(solverIds, benchmarkIds);
    Without(AllRuns(solverIds, benchmarkIds), completed)
  }

  lemma AllRunsMembers(solverIds: seq<int>, benchmarkIds: seq<int>)
    ensures forall x :: x in AllRuns(solverIds, benchmarkIds) <==> x.0 in solverIds && x.1 in benchmarkIds
  {
    forall x ensures x in AllRuns(solverIds, benchmarkIds) <==> x.0 in solverIds && x.1 in benchmarkIds {
      AllRunsContain(solverIds, benchmarkIds, x);
    }
  }

  /** The bookkeeping `run_experiment` starts from. */
  datatype Plan = Plan(pending: seq<(int, int)>, totalRuns: int, alreadyCompleted: int)

  /**
   * With `resume`, the total is every combination and the runs already
   * done are the total minus the pending ones; without it, everything is
   * pending and nothing counts as done.
   */
  function PlanRuns(resume: bool, solverIds: seq<int>, benchmarkIds: seq<int>, completed: set<(int, int)>): (p: Plan)
    ensures p.totalRuns == |solverIds| * |benchmarkIds|
    ensures p.alreadyCompleted + |p.pending| == p.totalRuns
    ensures resume ==> p.alreadyCompleted == Recorded(AllRuns(solverIds, benchmarkIds), completed)
    ensures !resume ==> p.alreadyCompleted == 0 && p.pending == AllRuns(solverIds, benchmarkIds)
    ensures p.alreadyCompleted >= 0
  {
    if resume then
      var pending := PendingRuns(solverIds, benchmarkIds, completed);
      var total := |solverIds| * |benchmarkIds|;
      WithoutCount(AllRuns(solverIds, benchmarkIds), completed);
      Plan(pending, total, total - |pending|)
    else
      var all := AllRuns(solverIds, benchmarkIds);
      Plan(all, |all|, 0)
  }
}

=== FILE: semantics.dfy ===
/**
 * What the Tseitin encoding of `CNFCompiler._encode` means.  Over the
 * Boolean connectives the root literal of an expression is equivalent to
 * the expression: every model of the emitted clauses gives the literal the
 * expression's value under the variables it reads (soundness), and every
 * assignment of the variables extends to a model of the clauses that does
 * so (completeness).
 */
module Semantics {
  import opened Outcomes
  import opened Syntax
  import opened Cnf
  import opened Gates
  import opened Compiler
  import opened Numbering

  /** `a` gives every declared name, through the map, the value `env` gives it. */
  predicate Agrees(a: Assignment, env: Env, st: CState, declared: set<string>) {
    forall x :: x in declared ==> x in st.vars && a(st.vars[x]) == env(x)
  }

  lemma AgreesGrows(a: Assignment, env: Env, st: CState, st': CState, declared: set<string>)
    requires Agrees(a, env, st, declared) && Grows(st, st')
    ensures Agrees(a, env, st', declared) && DeclaredIn(st', declared)
  {
  }

  lemma AgreesBelow(a: Assignment, b: Assignment, env: Env, st: CState, declared: set<string>)
    requires IdsBelow(st) && Agrees(a, env, st, declared) && Below(a, b, st.next)
    ensures Agrees(b, env, st, declared)
  {
    forall x | x in declared ensures b(st.vars[x]) == env(x) {
      assert 0 < st.vars[x] < st.next;
    }
  }

  lemma LitsInNonZero(ls: seq<int>, n: int)
    requires LitsIn(ls, n)
    ensures NonZero(ls)
  {
    forall i | 0 <= i < |ls| ensures ls[i] != 0 {
      assert 0 < Abs(ls[i]);
    }
  }

  lemma AllAnyCons(a: Assignment, h: int, t: seq<int>)
    ensures AllTrue(a, [h] + t) == (Val(a, h) && AllTrue(a, t))
    ensures AnyTrue(a, [h] + t) == (Val(a, h) || AnyTrue(a, t))
  {
    var s := [h] + t;
    assert s[0] == h;
    assert forall i :: 0 <= i < |t| ==> s[i + 1] == t[i];
    if AnyTrue(a, s) && !Val(a, h) {
      var i :| 0 <= i < |s| && Val(a, s[i]);
      assert Val(a, t[i - 1]);
    }
    if AnyTrue(a, t) {
      var i :| 0 <= i < |t| && Val(a, t[i]);
      assert Val(a, s[i + 1]);
    }
    if Val(a, h) && AllTrue(a, t) {
      forall i | 0 <= i < |s| ensures Val(a, s[i]) {
        if i > 0 { assert s[i] == t[i - 1]; }
      }
    }
  }

  lemma AllAnyFrame(a: Assignment, b: Assignment, ls: seq<int>, n: int)
    requires LitsIn(ls, n) && Below(a, b, n)
    ensures AllTrue(a, ls) == AllTrue(b, ls) && AnyTrue(a, ls) == AnyTrue(b, ls)
  {
    forall i | 0 <= i < |ls| ensures Val(a, ls[i]) == Val(b, ls[i]) {
      ValFrame(a, b, ls[i], n);
    }
    if AnyTrue(a, ls) {
      var i :| 0 <= i < |ls| && Val(a, ls[i]);
      assert Val(b, ls[i]);
    }
    if AnyTrue(b, ls) {
      var i :| 0 <= i < |ls| && Val(b, ls[i]);
      assert Val(a, ls[i]);
    }
  }

  // ---------------------------------------------------------------------
  // Gates

  /** The Boolean function a gate computes from its operand literals. */
  ghost function GateMeaning(a: Assignment, g: GateKind, ops: seq<int>): bool
    requires Arity(g, ops)
  {
    match g
    case GAnd => AllTrue(a, ops)
    case GOr => AnyTrue(a, ops)
    case GImpl => !Val(a, ops[0]) || Val(a, ops[1])
    case GIff => Val(a, ops[0]) == Val(a, ops[1])
    case GXor => Val(a, ops[0]) != Val(a, ops[1])
    case GBoth => Val(a, ops[0]) && Val(a, ops[1])
  }

  /** A gate's clauses hold exactly when its output equals the function of its operands. */
  lemma GateExact(a: Assignment, g: GateKind, x: int, ops: seq<int>)
    requires x != 0 && NonZero(ops) && Arity(g, ops)
    ensures Sat(a, GateClauses(g, x, ops)) <==> (Val(a, x) == GateMeaning(a, g, ops))
  {
    match g
    case GAnd => AndGate(a, x, ops);
    case GOr => OrGate(a, x, ops);
    case GImpl => ImplGate(a, x, ops[0], ops[1]);
    case GIff => IffGate(a, x, ops[0], ops[1]);
    case GXor => XorGate(a, x, ops[0], ops[1]);
    case GBoth => BothGate(a, x, ops[0], ops[1]);
  }

  lemma GateMeaningFrame(a: Assignment, b: Assignment, g: GateKind, ops: seq<int>, n: int)
    requires Arity(g, ops) && LitsIn(ops, n) && Below(a, b, n)
    ensures GateMeaning(a, g, ops) == GateMeaning(b, g, ops)
  {
    AllAnyFrame(a, b, ops, n);
    if |ops| == 2 {
      ValFrame(a, b, ops[0], n);
      ValFrame(a, b, ops[1], n);
    }
  }

  lemma GateSound(st: CState, g: GateKind, ops: seq<int>, a: Assignment)
    requires st.next >= 1 && Arity(g, ops) && LitsIn(ops, st.next)
    requires Sat(a, Gate(st, g, ops).st.clauses)
    ensures Sat(a, st.clauses) && Val(a, Gate(st, g, ops).lit) == GateMeaning(a, g, ops)
  {
    SatConcat(a, st.clauses, GateClauses(g, st.next, ops));
    LitsInNonZero(ops, st.next);
    GateExact(a, g, st.next, ops);
  }

  lemma GateComplete(st: CState, g: GateKind, ops: seq<int>, a: Assignment) returns (b: Assignment)
    requires Numbered(st) && Arity(g, ops) && LitsIn(ops, st.next) && Sat(a, st.clauses)
    ensures Below(a, b, st.next) && Sat(b, Gate(st, g, ops).st.clauses)
    ensures Val(b, Gate(st, g, ops).lit) == GateMeaning(a, g, ops)
  {
    var x := st.next;
    b := Set(a, x, GateMeaning(a, g, ops));
    SatFrame(a, b, st.clauses, x);
    GateMeaningFrame(a, b, g, ops, x);
    LitsInNonZero(ops, x);
    GateExact(b, g, x, ops);
    SatConcat(b, st.clauses, GateClauses(g, x, ops));
  }

  /** The constant literals: a fresh variable and a unit clause fixing it. */
  lemma ConstSound(st: CState, a: Assignment)
    requires st.next >= 1
    ensures Sat(a, TrueLit(st).st.clauses) ==> Sat(a, st.clauses) && Val(a, TrueLit(st).lit)
    ensures Sat(a, FalseLit(st).st.clauses) ==> Sat(a, st.clauses) && !Val(a, FalseLit(st).lit)
  {
    var x := st.next;
    SatConcat(a, st.clauses, [[x]]);
    SatConcat(a, st.clauses, [[-x]]);
    Sat1(a, [x]);
    Sat1(a, [-x]);
    Clause1(a, x);
    Clause1(a, -x);
  }

  lemma ConstComplete(st: CState, a: Assignment, value: bool) returns (b: Assignment)
    requires Numbered(st) && Sat(a, st.clauses)
    ensures Below(a, b, st.next)
    ensures value ==> Sat(b, TrueLit(st).st.clauses) && Val(b, TrueLit(st).lit)
    ensures !value ==> Sat(b, FalseLit(st).st.clauses) && !Val(b, FalseLit(st).lit)
  {
    var x := st.next;
    b := Set(a, x, value);
    SatFrame(a, b, st.clauses, x);
    SatConcat(b, st.clauses, [[x]]);
    SatConcat(b, st.clauses, [[-x]]);
    Sat1(b, [x]);
    Sat1(b, [-x]);
    Clause1(b, x);
    Clause1(b, -x);
  }

  /** The code's literal for `false` is true in every model of its clauses. */
  lemma FalseLitAsWrittenHolds(st: CState, a: Assignment)
    requires st.next >= 1 && Sat(a, FalseLitAsWritten(st).st.clauses)
    ensures Val(a, FalseLitAsWritten(st).lit)
  {
    var x := st.next;
    SatConcat(a, st.clauses, [[-x]]);
    Sat1(a, [-x]);
    Clause1(a, -x);
  }

  // ---------------------------------------------------------------------
  // Soundness

  /** In every model of the clauses, the root literal of `e` has the value of `e`. */
  lemma {:induction false} EncodeSound(st: CState, e: Expr, declared: set<string>, a: Assignment, env: Env)
    requires Good(st) && DeclaredIn(st, declared) && GateOnly(e) && Encode(st, e, declared).Ok?
    requires Agrees(a, env, st, declared) && Sat(a, Encode(st, e, declared).value.st.clauses)
    ensures Sat(a, st.clauses)
    ensures Val(a, Encode(st, e, declared).value.lit) == Eval(e, env)
    decreases e
  {
    match e
    case LitTrue => ConstSound(st, a);
    case LitFalse => ConstSound(st, a);
    case VarRef(x) =>
    case Not(c) =>
      EncodeSound(st, c, declared, a, env);
      EncodeGood(st, c, declared);
      ValNeg(a, Encode(st, c, declared).value.lit);
    case And(cs) =>
      var r := EncodeAll(st, cs, declared).value;
      EncodeAllGood(st, cs, declared);
      GateSound(r.st, GAnd, r.lits, a);
      EncodeAllSound(st, cs, declared, a, env);
    case Or(cs) =>
      var r := EncodeAll(st, cs, declared).value;
      EncodeAllGood(st, cs, declared);
      GateSound(r.st, GOr, r.lits, a);
      EncodeAllSound(st, cs, declared, a, env);
    case Impl(p, q) => EncodeBinarySound(st, GImpl, e, p, q, declared, a, env);
    case Iff(p, q) => EncodeBinarySound(st, GIff, e, p, q, declared, a, env);
    case Xor(p, q) => EncodeBinarySound(st, GXor, e, p, q, declared, a, env);
    case AtMost(_, _) => assert false;
    case AtLeast(_, _) => assert false;
    case Exactly(_, _) => assert false;
  }

  lemma {:induction false} EncodeBinarySound(st: CState, g: GateKind, e: Expr, p: Expr, q: Expr,
                                             declared: set<string>, a: Assignment, env: Env)
    requires (g == GImpl && e == Impl(p, q)) || (g == GIff && e == Iff(p, q)) || (g == GXor && e == Xor(p, q))
    requires Good(st) && DeclaredIn(st, declared) && GateOnly(p) && GateOnly(q)
    requires EncodeBinary(st, g, e, p, q, declared).Ok?
    requires Agrees(a, env, st, declared) && Sat(a, EncodeBinary(st, g, e, p, q, declared).value.st.clauses)
    ensures Sat(a, st.clauses)
    ensures Val(a, EncodeBinary(st, g, e, p, q, declared).value.lit) == Eval(e, env)
    decreases e, 0
  {
    var x := Encode(st, p, declared).value;
    EncodeGood(st, p, declared);
    AgreesGrows(a, env, st, x.st, declared);
    var y := Encode(x.st, q, declared).value;
    EncodeGood(x.st, q, declared);
    Lits2(x.lit, y.lit, y.st.next);
    GateSound(y.st, g, [x.lit, y.lit], a);
    EncodeSound(x.st, q, declared, a, env);
    EncodeSound(st, p, declared, a, env);
  }

  lemma {:induction false} EncodeAllSound(st: CState, cs: seq<Expr>, declared: set<string>, a: Assignment, env: Env)
    requires Good(st) && DeclaredIn(st, declared) && AllGateOnly(cs) && EncodeAll(st, cs, declared).Ok?
    requires Agrees(a, env, st, declared) && Sat(a, EncodeAll(st, cs, declared).value.st.clauses)
    ensures Sat(a, st.clauses)
    ensures AllTrue(a, EncodeAll(st, cs, declared).value.lits) == EvalAll(cs, env)
    ensures AnyTrue(a, EncodeAll(st, cs, declared).value.lits) == EvalAny(cs, env)
    decreases cs
  {
    if |cs| > 0 {
      var h := Encode(st, cs[0], declared).value;
      EncodeGood(st, cs[0], declared);
      AgreesGrows(a, env, st, h.st, declared);
      var t := EncodeAll(h.st, cs[1..], declared).value;
      EncodeAllSound(h.st, cs[1..], declared, a, env);
      EncodeSound(st, cs[0], declared, a, env);
      AllAnyCons(a, h.lit, t.lits);
    }
  }

  // ---------------------------------------------------------------------
  // Completeness

  /**
   * Every model of the clauses so far extends, on the fresh variables only,
   * to a model of the new clauses giving the root literal the value of `e`.
   */
  lemma {:induction false} EncodeComplete(st: CState, e: Expr, declared: set<string>, a: Assignment, env: Env)
    returns (b: Assignment)
    requires Good(st) && DeclaredIn(st, declared) && GateOnly(e) && Encode(st, e, declared).Ok?
    requires Agrees(a, env, st, declared) && Sat(a, st.clauses)
    ensures Below(a, b, st.next) && Sat(b, Encode(st, e, declared).value.st.clauses)
    ensures Val(b, Encode(st, e, declared).value.lit) == Eval(e, env)
    decreases e
  {
    match e
    case LitTrue => b := ConstComplete(st, a, true);
    case LitFalse => b := ConstComplete(st, a, false);
    case VarRef(x) => b := a;
    case Not(c) =>
      b := EncodeComplete(st, c, declared, a, env);
      EncodeGood(st, c, declared);
      ValNeg(b, Encode(st, c, declared).value.lit);
    case And(cs) => b := GroupComplete(st, GAnd, cs, declared, a, env);
    case Or(cs) => b := GroupComplete(st, GOr, cs, declared, a, env);
    case Impl(p, q) => b := EncodeBinaryComplete(st, GImpl, e, p, q, declared, a, env);
    case Iff(p, q) => b := EncodeBinaryComplete(st, GIff, e, p, q, declared, a, env);
    case Xor(p, q) => b := EncodeBinaryComplete(st, GXor, e, p, q, declared, a, env);
    case AtMost(_, _) => assert false;
    case AtLeast(_, _) => assert false;
    case Exactly(_, _) => assert false;
  }

  /** An `and` or `or`: the children completed left to right, then the gate. */
  lemma {:induction false} GroupComplete(st: CState, g: GateKind, cs: seq<Expr>, declared: set<string>,
                                         a: Assignment, env: Env) returns (b: Assignment)
    requires g == GAnd || g == GOr
    requires Good(st) && DeclaredIn(st, declared) && AllGateOnly(cs) && EncodeAll(st, cs, declared).Ok?
    requires Agrees(a, env, st, declared) && Sat(a, st.clauses)
    ensures var r := EncodeAll(st, cs, declared).value;
      && Below(a, b, st.next) && Sat(b, Gate(r.st, g, r.lits).st.clauses)
      && Val(b, Gate(r.st, g, r.lits).lit) == (if g == GAnd then EvalAll(cs, env) else EvalAny(cs, env))
    decreases cs, 1
  {
    var r := EncodeAll(st, cs, declared).value;
    EncodeAllGood(st, cs, declared);
    var c := EncodeAllComplete(st, cs, declared, a, env);
    b := GateComplete(r.st, g, r.lits, c);
    BelowTrans(a, c, b, st.next, r.st.next);
  }

  lemma {:induction false} EncodeBinaryComplete(st: CState, g: GateKind, e: Expr, p: Expr, q: Expr,
                                                declared: set<string>, a: Assignment, env: Env)
    returns (b: Assignment)
    requires (g == GImpl && e == Impl(p, q)) || (g == GIff && e == Iff(p, q)) || (g == GXor && e == Xor(p, q))
    requires Good(st) && DeclaredIn(st, declared) && GateOnly(p) && GateOnly(q)
    requires EncodeBinary(st, g, e, p, q, declared).Ok?
    requires Agrees(a, env, st, declared) && Sat(a, st.clauses)
    ensures Below(a, b, st.next) && Sat(b, EncodeBinary(st, g, e, p, q, declared).value.st.clauses)
    ensures Val(b, EncodeBinary(st, g, e, p, q, declared).value.lit) == Eval(e, env)
    decreases e, 0
  {
    var x := Encode(st, p, declared).value;
    EncodeGood(st, p, declared);
    var b1 := EncodeComplete(st, p, declared, a, env);
    AgreesBelow(a, b1, env, st, declared);
    AgreesGrows(b1, env, st, x.st, declared);
    var y := Encode(x.st, q, declared).value;
    EncodeGood(x.st, q, declared);
    var b2 := EncodeComplete(x.st, q, declared, b1, env);
    ValFrame(b1, b2, x.lit, x.st.next);
    Lits2(x.lit, y.lit, y.st.next);
    b := GateComplete(y.st, g, [x.lit, y.lit], b2);
    BelowTrans(a, b1, b2, st.next, x.st.next);
    BelowTrans(a, b2, b, st.next, y.st.next);
  }

  lemma {:induction false} EncodeAllComplete(st: CState, cs: seq<Expr>, declared: set<string>,
                                             a: Assignment, env: Env) returns (b: Assignment)
    requires Good(st) && DeclaredIn(st, declared) && AllGateOnly(cs) && EncodeAll(st, cs, declared).Ok?
    requires Agrees(a, env, st, declared) && Sat(a, st.clauses)
    ensures Below(a, b, st.next) && Sat(b, EncodeAll(st, cs, declared).value.st.clauses)
    ensures AllTrue(b, EncodeAll(st, cs, declared).value.lits) == EvalAll(cs, env)
    ensures AnyTrue(b, EncodeAll(st, cs, declared).value.lits) == EvalAny(cs, env)
    decreases cs, 0
  {
    if |cs| == 0 {
      b := a;
    } else {
      var h := Encode(st, cs[0], declared).value;
      EncodeGood(st, cs[0], declared);
      var b1 := EncodeComplete(st, cs[0], declared, a, env);
      AgreesBelow(a, b1, env, st, declared);
      AgreesGrows(b1, env, st, h.st, declared);
      var t := EncodeAll(h.st, cs[1..], declared).value;
      b := EncodeAllComplete(h.st, cs[1..], declared, b1, env);
      ValFrame(b1, b, h.lit, h.st.next);
      BelowTrans(a, b1, b, st.next, h.st.next);
      AllAnyCons(b, h.lit, t.lits);
    }
  }
}

=== FILE: solve.dfy ===
/**
 * What `solve_model` does with the solver's answer: the verdict test of
 * `_run_solver_on_cnf`, `_parse_assignment` over the solver's `v` lines,
 * and `_decode_assignment` back to the user's variable names. Launching
 * the process, the clock and the timeout are outside the model: the
 * process's fate is an input.
 */
module Solve {
  import opened Outcomes
  import opened Text
  import opened Cnf
  import opened Compiler
  import opened Numbering
  import opened Verdicts
  import Dimacs
  import Equisat

  /** How the solver process ended, as far as the verdict depends on it. */
  datatype Run =
    | Finished(returnCode: int, output: string)  // `communicate()` returned
    | TimedOut                                  // `asyncio.TimeoutError`
    | Crashed(message: string)                  // any other exception

  /** The result dictionary, without the timing field. */
  datatype SolverResult = SolverResult(result: Verdict, output: string, assignmentRaw: Option<seq<int>>)

  // ---------------------------------------------------------------------
  // The verdict

  /** The verdict test on a finished run: exit code 20 or the word first, then 10 or the word. */
  function FinishedVerdict(returnCode: int, output: string): (v: Verdict)
    ensures v == SAT || v == UNSAT || v == UNKNOWN
  {
    var upper := Upper(output);
    if returnCode == 20 || Contains(upper, "UNSATISFIABLE") then UNSAT
    else if returnCode == 10 || Contains(upper, "SATISFIABLE") then SAT
    else UNKNOWN
  }

  function RunSolver(run: Run): (r: SolverResult)
    ensures r.assignmentRaw.Some? ==> r.result == SAT && |r.assignmentRaw.value| > 0
    ensures run.TimedOut? <==> r.result == TIMEOUT
    ensures run.Crashed? <==> r.result == ERROR
  {
    match run
    case TimedOut => SolverResult(TIMEOUT, "", None)
    case Crashed(msg) => SolverResult(ERROR, msg, None)
    case Finished(rc, out) =>
      var v := FinishedVerdict(rc, out);
      var lits := if v == SAT then ParseAssignment(out) else [];
      SolverResult(v, Prefix(out, 5000), if |lits| > 0 then Some(lits) else None)
  }

  /** Upper-casing twice changes nothing. */
  lemma UpperIdempotent(s: string)
    ensures Upper(Upper(s)) == Upper(s)
  {
  }

  /**
   * The verdict ignores letter case in the output, `UNSATISFIABLE` wins
   * over `SATISFIABLE` (which it contains), exit code 20 wins over
   * everything, and SAT needs exit code 10 or the word.
   */
  lemma VerdictRules(returnCode: int, output: string)
    ensures FinishedVerdict(returnCode, output) == FinishedVerdict(returnCode, Upper(output))
    ensures returnCode == 20 ==> FinishedVerdict(returnCode, output) == UNSAT
    ensures Contains(Upper(output), "UNSATISFIABLE") ==> FinishedVerdict(returnCode, output) == UNSAT
    ensures FinishedVerdict(returnCode, output) == SAT <==>
      returnCode != 20 && !Contains(Upper(output), "UNSATISFIABLE") && (returnCode == 10 || Contains(Upper(output), "SATISFIABLE"))
    ensures FinishedVerdict(returnCode, output) == UNKNOWN <==>
      returnCode != 20 && returnCode != 10 && !Contains(Upper(output), "SATISFIABLE")
  {
    UpperIdempotent(output);
    if Contains(Upper(output), "UNSATISFIABLE") {
      ContainsUnsatisfiable(Upper(output));
    }
  }

  // ---------------------------------------------------------------------
  // `_parse_assignment`

  /** The nonzero integers among the tokens; a token `int()` rejects is skipped. */
  function TokenLits(tokens: seq<string>): (lits: seq<int>)
    ensures forall i :: 0 <= i < |lits| ==> lits[i] != 0
    ensures |lits| <= |tokens|
  {
    if |tokens| == 0 then []
    else
      var rest := TokenLits(tokens[1..]);
      match ParseInt(tokens[0])
      case Some(v) => if v != 0 then [v] + rest else rest
      case None => rest
  }

  /** The literals one output line contributes: only `v ` / `V ` lines count. */
  function LineLits(line: string): seq<int> {
    var l := Strip(line);
    if StartsWith(l, "v ") || StartsWith(l, "V ") then TokenLits(SplitWs(l[2..])) else []
  }

  function LinesLits(lines: seq<string>): (lits: seq<int>)
    ensures forall i :: 0 <= i < |lits| ==> lits[i] != 0
  {
    if |lines| == 0 then [] else LineLits(lines[0]) + LinesLits(lines[1..])
  }

  function ParseAssignment(output: string): (lits: seq<int>)
    ensures forall i :: 0 <= i < |lits| ==> lits[i] != 0
  {
    LinesLits(SplitLines(output))
  }

  /** A model line as solvers print it: `v`, the literals, and a closing `0`. */
  function ModelLine(lits: seq<int>): string {
    "v " + Join(" ", Dimacs.Words(lits + [0]))
  }

  lemma {:induction false} TokenLitsOfWords(lits: seq<int>)
    requires forall i :: 0 <= i < |lits| ==> lits[i] != 0
    ensures TokenLits(Dimacs.Words(lits + [0])) == lits
    decreases |lits|
  {
    var ws := Dimacs.Words(lits + [0]);
    if |lits| == 0 {
      ParseIntOfString(0);
      assert ws[1..] == [];
    } else {
      ParseIntOfString(lits[0]);
      assert ws[1..] == Dimacs.Words(lits[1..] + [0]) by {
        assert (lits + [0])[1..] == lits[1..] + [0];
      }
      TokenLitsOfWords(lits[1..]);
      assert [lits[0]] + lits[1..] == lits;
    }
  }

  /** The words of a model line are `str` of the literals and of `0`. */
  lemma ModelWords(lits: seq<int>)
    ensures var ws := Dimacs.Words(lits + [0]);
      |ws| > 0 && (forall i :: 0 <= i < |ws| ==> Word(ws[i])) && ws[|ws| - 1] == "0"
  {
    var ws := Dimacs.Words(lits + [0]);
    forall i | 0 <= i < |ws| ensures Word(ws[i]) {
      IntToStringChars((lits + [0])[i]);
    }
  }

  /** `_parse_assignment` reads back the nonzero literals of a model line. */
  lemma ParseModelLine(lits: seq<int>)
    requires forall i :: 0 <= i < |lits| ==> lits[i] != 0
    ensures ParseAssignment(ModelLine(lits)) == lits
  {
    var ws := Dimacs.Words(lits + [0]);
    var line := ModelLine(lits);
    ModelWords(lits);
    SplitWsJoin(ws);
    TokenLitsOfWords(lits);
    JoinLast(" ", ws);
    NoLineBreak(ws);
    VLine(line, Join(" ", ws));
  }

  /** A one-line output `v <body>` with no surrounding space contributes the literals of its body. */
  lemma VLine(line: string, body: string)
    requires line == "v " + body && |body| > 0 && !IsSpace(body[|body| - 1])
    requires forall j :: 0 <= j < |line| ==> !IsLineBreak(line[j])
    ensures ParseAssignment(line) == TokenLits(SplitWs(body))
  {
    assert line[2..] == body;
    StripNoSpace(line);
    assert SplitLines(line) == [line];
    assert LinesLits([line]) == LineLits(line) + LinesLits([]);
  }

  lemma NoLineBreak(ws: seq<string>)
    requires forall i :: 0 <= i < |ws| ==> Word(ws[i])
    ensures forall j :: 0 <= j < |"v " + Join(" ", ws)| ==> !IsLineBreak(("v " + Join(" ", ws))[j])
  {
    JoinNoSpace(ws);
  }

  /** A join of words with single spaces holds no character other than those of the words and spaces. */
  lemma {:induction false} JoinNoSpace(ws: seq<string>)
    requires forall i :: 0 <= i < |ws| ==> Word(ws[i])
    ensures forall j :: 0 <= j < |Join(" ", ws)| ==> Join(" ", ws)[j] == ' ' || !IsSpace(Join(" ", ws)[j])
    decreases |ws|
  {
    if |ws| > 1 {
      JoinNoSpace(ws[1..]);
      var rest := Join(" ", ws[1..]);
      var s := ws[0] + " " + rest;
      assert Join(" ", ws) == s;
      assert forall j :: |ws[0]| + 1 <= j < |s| ==> s[j] == rest[j - |ws[0]| - 1];
    }
  }

  // ---------------------------------------------------------------------
  // `_decode_assignment`

  /** `{v: k for k, v in var_map.items() if not k.startswith("__")}`. */
  function Inverse(varMap: map<string, int>): (inv: map<int, string>)
    requires Injective(varMap)
    ensures forall id :: id in inv <==> exists k :: k in varMap && !Reserved(k) && varMap[k] == id
    ensures forall id :: id in inv ==> inv[id] in varMap && !Reserved(inv[id]) && varMap[inv[id]] == id
  {
    map k | k in varMap && !Reserved(k) :: varMap[k] := k
  }

  /** The loop of `_decode_assignment` over the literals; a later literal overrides an earlier one. */
  function DecodeLits(raw: seq<int>, varMap: map<string, int>): map<string, bool>
    requires Injective(varMap)
  {
    if |raw| == 0 then map[]
    else
      var m := DecodeLits(raw[..|raw| - 1], varMap);
      var lit := raw[|raw| - 1];
      var inv := Inverse(varMap);
      if Abs(lit) in inv then m[inv[Abs(lit)] := lit > 0] else m
  }

  /** Some literal of `raw` is on variable `id`. */
  predicate Mentions(raw: seq<int>, id: int) {
    exists i :: 0 <= i < |raw| && Abs(raw[i]) == id
  }

  /** `raw[i]` is the last literal of `raw` on variable `id`. */
  predicate LastOn(raw: seq<int>, i: int, id: int) {
    0 <= i < |raw| && Abs(raw[i]) == id && forall j :: i < j < |raw| ==> Abs(raw[j]) != id
  }

  /**
   * The decoded names are exactly the user names whose variable some
   * literal mentions, and each gets the sign of the last such literal.
   */
  lemma {:induction false} DecodeLitsMeaning(raw: seq<int>, varMap: map<string, int>)
    requires Injective(varMap)
    ensures var r := DecodeLits(raw, varMap);
      forall k :: k in r <==> k in varMap && !Reserved(k) && Mentions(raw, varMap[k])
    ensures var r := DecodeLits(raw, varMap);
      forall k :: k in r ==> exists i :: LastOn(raw, i, varMap[k]) && r[k] == (raw[i] > 0)
    decreases |raw|
  {
    if |raw| > 0 {
      var n := |raw| - 1;
      var pre := raw[..n];
      var lit := raw[n];
      var inv := Inverse(varMap);
      var m := DecodeLits(pre, varMap);
      var r := DecodeLits(raw, varMap);
      DecodeLitsMeaning(pre, varMap);
      assert forall i :: 0 <= i < n ==> pre[i] == raw[i];
      forall k ensures k in r <==> k in varMap && !Reserved(k) && Mentions(raw, varMap[k]) {
        if k in varMap && !Reserved(k) && Mentions(raw, varMap[k]) {
          var i :| 0 <= i < |raw| && Abs(raw[i]) == varMap[k];
          if i == n {
            assert inv[Abs(lit)] == k;
          } else {
            assert Mentions(pre, varMap[k]);
          }
        }
        if k in m {
          var i :| 0 <= i < n && Abs(pre[i]) == varMap[k];
          assert Abs(raw[i]) == varMap[k];
        }
      }
      forall k | k in r ensures exists i :: LastOn(raw, i, varMap[k]) && r[k] == (raw[i] > 0) {
        if Abs(lit) in inv && inv[Abs(lit)] == k {
          assert LastOn(raw, n, varMap[k]);
        } else {
          var i :| LastOn(pre, i, varMap[k]) && m[k] == (pre[i] > 0);
          assert LastOn(raw, i, varMap[k]);
        }
      }
    }
  }

  /** The literal list a solver prints for assignment `a` of variables `1..n`. */
  function ModelLits(a: Assignment, n: nat): (lits: seq<int>)
    ensures |lits| == n
    ensures forall i :: 0 <= i < n ==> Abs(lits[i]) == i + 1 && (lits[i] > 0 <==> a(i + 1))
  {
    seq(n, i requires 0 <= i < n => if a(i + 1) then i + 1 else -(i + 1))
  }

  /**
   * Decoding a full model gives every user name its variable's value,
   * the same as reading the model through the variable map, and drops
   * the compiler's own `__` names.
   */
  lemma DecodeModel(a: Assignment, n: nat, st: CState)
    requires Injective(st.vars) && forall x :: x in st.vars ==> 1 <= st.vars[x] <= n
    ensures var r := DecodeLits(ModelLits(a, n), st.vars);
      && (forall k :: k in r <==> k in st.vars && !Reserved(k))
      && (forall k :: k in r ==> r[k] == a(st.vars[k]) == Equisat.Decode(a, st)(k))
  {
    var raw := ModelLits(a, n);
    var r := DecodeLits(raw, st.vars);
    DecodeLitsMeaning(raw, st.vars);
    forall k | k in st.vars && !Reserved(k) ensures k in r {
      assert Abs(raw[st.vars[k] - 1]) == st.vars[k];
    }
    forall k | k in r ensures r[k] == a(st.vars[k]) {
      var i :| LastOn(raw, i, st.vars[k]) && r[k] == (raw[i] > 0);
    }
  }

  // ---------------------------------------------------------------------
  // `solve_model`, from compiled program to answer

  /** The decoded assignment `solve_model` reports: only for a SAT verdict with literals. */
  function Answer(r: SolverResult, varMap: map<string, int>): (assignment: Option<map<string, bool>>)
    requires Injective(varMap)
    ensures assignment.Some? <==> r.result == SAT && r.assignmentRaw.Some?
  {
    if r.result == SAT && r.assignmentRaw.Some? then Some(DecodeLits(r.assignmentRaw.value, varMap)) else None
  }
}

=== FILE: store.dfy ===
/**
 * The arithmetic and the statement shapes of the web back end's database
 * layer (core/database.py): the page window of `get_benchmarks_paginated`,
 * the field whitelists of `update_solver` and `update_experiment`, and
 * the column list of `add_run`. Executing the SQL is outside the model;
 * the matching rows, already filtered and ordered, are an input.
 */
module Store {
  import opened Outcomes
  import opened Text

  // ---------------------------------------------------------------------
  // Pagination

  /** Python's `a // b`: rounds toward negative infinity; `None` is the `ZeroDivisionError`. */
  function FloorDiv(a: int, b: int): (q: Option<int>)
    ensures b == 0 <==> q.None?
    ensures b > 0 ==> q.value * b <= a < (q.value + 1) * b
    ensures b < 0 ==> q.value * b >= a > (q.value + 1) * b
  {
    if b == 0 then None
    else if b > 0 then Some(a / b)
    else Some((-a) / (-b))
  }

  function Max(a: int, b: int): int { if a >= b then a else b }

  /** `offset = (max(1, page) - 1) * page_size`. */
  function Offset(page: int, pageSize: int): (offset: int)
    ensures page <= 1 ==> offset == 0
    ensures page > 1 ==> offset == (page - 1) * pageSize
  {
    (Max(1, page) - 1) * pageSize
  }

  /** `pages = max(1, (total + page_size - 1) // page_size)`. */
  function Pages(total: nat, pageSize: int): (pages: Option<int>)
    ensures pageSize == 0 <==> pages.None?
    ensures pages.Some? ==> pages.value >= 1
  {
    match FloorDiv(total + pageSize - 1, pageSize)
    case None => None
    case Some(q) => Some(Max(1, q))
  }

  lemma MulPositive(q: int, p: int)
    requires p > 0 && q * p > 0
    ensures q > 0
  {
  }

  /** With a positive page size the pages cover every row, and the last page starts at a row. */
  lemma PagesCover(total: nat, pageSize: int)
    requires pageSize > 0
    ensures var n := Pages(total, pageSize).value;
      && n * pageSize >= total
      && (total > 0 ==> Offset(n, pageSize) < total)
      && (total > 0 ==> n == (total + pageSize - 1) / pageSize)
  {
    var a := total + pageSize - 1;
    var q, r := a / pageSize, a % pageSize;
    var m := q * pageSize;
    assert a == m + r && 0 <= r < pageSize;
    if total > 0 {
      MulPositive(q, pageSize);
      assert (q - 1) * pageSize == m - pageSize;
    }
  }

  /**
   * SQLite's `LIMIT limit OFFSET offset` over the ordered matching rows: a
   * negative offset counts as zero and a negative limit sets no bound.
   */
  function Window<T>(rows: seq<T>, offset: int, limit: int): (w: seq<T>)
    ensures limit >= 0 ==> |w| <= limit
    ensures offset >= |rows| ==> w == []
    ensures 0 <= offset <= |rows| && limit >= 0 ==>
      w == rows[offset..if offset + limit <= |rows| then offset + limit else |rows|]
    ensures offset <= 0 && limit < 0 ==> w == rows
  {
    var o := Max(0, offset);
    if o >= |rows| then []
    else if limit >= 0 && o + limit <= |rows| then rows[o..o + limit]
    else rows[o..]
  }

  lemma OffsetNonPositive(page: int, pageSize: int)
    requires pageSize < 0
    ensures Offset(page, pageSize) <= 0
  {
    if page > 1 {
      MulNonPositive(page - 1, pageSize);
    }
  }

  lemma MulNonPositive(a: int, b: int)
    requires a >= 0 && b < 0
    ensures a * b <= 0
  {
  }

  datatype Page<T> = Page(items: seq<T>, total: nat, page: int, pageSize: int, pages: int)

  /**
   * `get_benchmarks_paginated` over its matching rows; a zero page size
   * raises, a negative one returns every row.
   */
  function Paginate<T>(rows: seq<T>, page: int, pageSize: int): (r: Result<Page<T>, string>)
    ensures pageSize == 0 <==> r.Err?
    ensures r.Ok? ==> r.value.total == |rows| && r.value.pages >= 1 && r.value.page == page
    ensures r.Ok? ==> r.value.items == Window(rows, Offset(page, pageSize), pageSize)
  {
    match Pages(|rows|, pageSize)
    case None => Err("integer division or modulo by zero")
    case Some(n) => Ok(Page(Window(rows, Offset(page, pageSize), pageSize), |rows|, page, pageSize, n))
  }

  /** A negative page size sets no bound: any page holds every matching row. */
  lemma PaginateNegative<T>(rows: seq<T>, page: int, pageSize: int)
    requires pageSize < 0
    ensures Paginate(rows, page, pageSize).Ok? && Paginate(rows, page, pageSize).value.items == rows
  {
    OffsetNonPositive(page, pageSize);
  }

  /** Pages `1..k` read in turn are the first `k * page_size` rows. */
  function ReadPages<T>(rows: seq<T>, pageSize: nat, k: nat): (r: seq<T>)
    requires pageSize > 0
  {
    if k == 0 then [] else ReadPages(rows, pageSize, k - 1) + Window(rows, Offset(k, pageSize), pageSize)
  }

  lemma {:induction false} ReadPagesPrefix<T>(rows: seq<T>, pageSize: nat, k: nat)
    requires pageSize > 0
    ensures ReadPages(rows, pageSize, k) == rows[..if k * pageSize <= |rows| then k * pageSize else |rows|]
  {
    if k > 0 {
      ReadPagesPrefix(rows, pageSize, k - 1);
      var lo := (k - 1) * pageSize;
      assert Offset(k, pageSize) == lo;
      assert k * pageSize == lo + pageSize;
      if lo <= |rows| {
        var hi := if lo + pageSize <= |rows| then lo + pageSize else |rows|;
        assert rows[..lo] + rows[lo..hi] == rows[..hi];
      }
    }
  }

  /** Reading every page in turn returns every matching row exactly once, in order. */
  lemma PagesPartition<T>(rows: seq<T>, pageSize: int)
    requires pageSize > 0
    ensures ReadPages(rows, pageSize, Pages(|rows|, pageSize).value) == rows
  {
    PagesCover(|rows|, pageSize);
    ReadPagesPrefix(rows, pageSize, Pages(|rows|, pageSize).value);
  }

  // ---------------------------------------------------------------------
  // Whitelisted updates

  /** A bound parameter; a `dict` argument keeps its `json.dumps` text. */
  datatype Arg = Null | Str(s: string) | Int(i: int) | Dict(dumped: string)

  const SolverFields := ["name", "version", "executable_path", "source_path", "compile_command",
                         "run_command_template", "status", "description", "last_compiled", "metadata"]

  const ExperimentFields := ["name", "description", "status", "timeout_seconds", "memory_limit_mb",
                             "parallel_jobs", "total_runs", "completed_runs", "failed_runs", "started_at",
                             "completed_at", "metadata"]

  /** `json.dumps` for the `metadata` field when the value is a dict. */
  function Bind(field: string, a: Arg): Arg {
    if field == "metadata" && a.Dict? then Str(a.dumped) else a
  }

  /** The `kwargs` items in order that are on the whitelist. */
  function Kept(kwargs: seq<(string, Arg)>, valid: seq<string>): (r: seq<(string, Arg)>)
    ensures |r| <= |kwargs|
    ensures forall p :: p in r <==> p in kwargs && p.0 in valid
  {
    if |kwargs| == 0 then []
    else
      var rest := Kept(kwargs[1..], valid);
      assert forall p :: p in kwargs <==> p == kwargs[0] || p in kwargs[1..];
      if kwargs[0].0 in valid then [kwargs[0]] + rest else rest
  }

  function Assignments(kept: seq<(string, Arg)>): (r: seq<string>)
    ensures |r| == |kept| && forall i :: 0 <= i < |kept| ==> r[i] == kept[i].0 + " = ?"
  {
    seq(|kept|, i requires 0 <= i < |kept| => kept[i].0 + " = ?")
  }

  function Values(kept: seq<(string, Arg)>): (r: seq<Arg>)
    ensures |r| == |kept| && forall i :: 0 <= i < |kept| ==> r[i] == Bind(kept[i].0, kept[i].1)
  {
    seq(|kept|, i requires 0 <= i < |kept| => Bind(kept[i].0, kept[i].1))
  }

  datatype Statement = Statement(query: string, params: seq<Arg>)

  /**
   * `update_solver` / `update_experiment`: the statement issued, or `None`
   * when no key is on the whitelist and the method returns False at once.
   * One `f = ?` per kept argument, values aligned with them, the id last.
   */
  function Update(table: string, valid: seq<string>, id: int, kwargs: seq<(string, Arg)>): (r: Option<Statement>)
    ensures r.None? <==> forall p :: p in kwargs ==> p.0 !in valid
    ensures r.Some? ==> |r.value.params| == |Kept(kwargs, valid)| + 1
    ensures r.Some? ==> r.value.params[|r.value.params| - 1] == Int(id)
    ensures r.Some? ==> forall i :: 0 <= i < |Kept(kwargs, valid)| ==>
      r.value.params[i] == Bind(Kept(kwargs, valid)[i].0, Kept(kwargs, valid)[i].1)
    ensures r.Some? ==> StartsWith(r.value.query, "UPDATE " + table + " SET ") && EndsWith(r.value.query, " WHERE id = ?")
    ensures r.Some? ==> r.value.query == "UPDATE " + table + " SET " + Join(", ", Assignments(Kept(kwargs, valid))) + " WHERE id = ?"
  {
    var kept := Kept(kwargs, valid);
    if |kept| == 0 then
      assert forall p :: p in kwargs ==> p.0 !in valid by {
        forall p | p in kwargs ensures p.0 !in valid {
          assert p !in kept;
        }
      }
      None
    else
      assert kept[0] in kwargs;
      var head, body, tail := "UPDATE " + table + " SET ", Join(", ", Assignments(kept)), " WHERE id = ?";
      var q := head + body + tail;
      assert q[..|head|] == head && q[|q| - |tail|..] == tail;
      Some(Statement(q, Values(kept) + [Int(id)]))
  }

  /** `update_solver`. */
  function UpdateSolver(id: int, kwargs: seq<(string, Arg)>): (r: Option<Statement>)
    ensures r.None? <==> forall p :: p in kwargs ==> p.0 !in SolverFields
    ensures r.Some? ==> |r.value.params| > 0 && r.value.params[|r.value.params| - 1] == Int(id)
  {
    Update("solvers", SolverFields, id, kwargs)
  }

  /** `update_experiment`. */
  function UpdateExperiment(id: int, kwargs: seq<(string, Arg)>): (r: Option<Statement>)
    ensures r.None? <==> forall p :: p in kwargs ==> p.0 !in ExperimentFields
    ensures r.Some? ==> |r.value.params| > 0 && r.value.params[|r.value.params| - 1] == Int(id)
  {
    Update("experiments", ExperimentFields, id, kwargs)
  }

  /**
   * The whitelist keeps the order of the arguments: filtering a
   * concatenation filters each part, so earlier arguments come first.
   */
  lemma {:induction false} KeptConcat(a: seq<(string, Arg)>, b: seq<(string, Arg)>, valid: seq<string>)
    ensures Kept(a + b, valid) == Kept(a, valid) + Kept(b, valid)
  {
    if |a| > 0 {
      assert (a + b)[0] == a[0] && (a + b)[1..] == a[1..] + b;
      KeptConcat(a[1..], b, valid);
    } else {
      assert a + b == b;
    }
  }

  // ---------------------------------------------------------------------
  // `add_run`

  const RunFields := ["exit_code", "verified", "cpu_time_seconds", "wall_time_seconds", "user_time_seconds",
                      "system_time_seconds", "max_memory_kb", "avg_memory_kb", "conflicts", "decisions",
                      "propagations", "restarts", "learnt_clauses", "deleted_clauses", "hostname",
                      "solver_output", "error_message", "par2_score"]

  const RunKeys := ["experiment_id", "solver_id", "benchmark_id", "result"]

  /** The whitelisted fields present in `kwargs`, in whitelist order. */
  function Present(valid: seq<string>, kwargs: map<string, Arg>): (r: seq<string>)
    ensures |r| <= |valid|
    ensures forall f :: f in r <==> f in valid && f in kwargs
  {
    if |valid| == 0 then []
    else
      var rest := Present(valid[1..], kwargs);
      assert forall f :: f in valid <==> f == valid[0] || f in valid[1..];
      if valid[0] in kwargs then [valid[0]] + rest else rest
  }

  /** Present fields come in whitelist order: the filter distributes over concatenation. */
  lemma {:induction false} PresentConcat(a: seq<string>, b: seq<string>, kwargs: map<string, Arg>)
    ensures Present(a + b, kwargs) == Present(a, kwargs) + Present(b, kwargs)
  {
    if |a| > 0 {
      assert (a + b)[0] == a[0] && (a + b)[1..] == a[1..] + b;
      PresentConcat(a[1..], b, kwargs);
    } else {
      assert a + b == b;
    }
  }

  /** How often `c` occurs in `s`. */
  function Occurrences(s: string, c: char): (n: nat)
    ensures n <= |s|
  {
    if |s| == 0 then 0 else (if s[0] == c then 1 else 0) + Occurrences(s[1..], c)
  }

  lemma {:induction false} OccurrencesConcat(a: string, b: string, c: char)
    ensures Occurrences(a + b, c) == Occurrences(a, c) + Occurrences(b, c)
  {
    if |a| > 0 {
      assert (a + b)[0] == a[0];
      assert (a + b)[1..] == a[1..] + b;
      OccurrencesConcat(a[1..], b, c);
    } else {
      assert a + b == b;
    }
  }

  /** `", ".join('?' for _ in columns)`. */
  function Marks(n: nat): (r: string)
    ensures Occurrences(r, '?') == n
  {
    if n == 0 then ""
    else if n == 1 then "?"
    else
      var rest := Marks(n - 1);
      OccurrencesConcat("?, ", rest, '?');
      "?, " + rest
  }

  datatype Insert = Insert(columns: seq<string>, placeholders: string, params: seq<Arg>)

  /** `kwargs[f]` for each field. */
  function Lookups(fields: seq<string>, kwargs: map<string, Arg>): (r: seq<Arg>)
    requires forall f :: f in fields ==> f in kwargs
    ensures |r| == |fields| && forall i :: 0 <= i < |fields| ==> r[i] == kwargs[fields[i]]
  {
    seq(|fields|, i requires 0 <= i < |fields| => kwargs[fields[i]])
  }

  /** `add_run`: the fixed four columns, then each field of `valid` present, one `?` per column. */
  function AddRunWith(valid: seq<string>, experimentId: int, solverId: int, benchmarkId: int, result: Option<string>,
                      kwargs: map<string, Arg>): (st: Insert)
    ensures |st.columns| == |st.params| == 4 + |Present(valid, kwargs)|
    ensures Occurrences(st.placeholders, '?') == |st.columns|
    ensures st.params[0] == Int(experimentId) && st.params[1] == Int(solverId) && st.params[2] == Int(benchmarkId)
    ensures st.params[3] == if result.Some? then Str(result.value) else Null
    ensures st.columns[..4] == RunKeys && st.columns[4..] == Present(valid, kwargs)
    ensures forall i :: 4 <= i < |st.columns| ==> st.columns[i] in kwargs && st.params[i] == kwargs[st.columns[i]]
  {
    var extra := Present(valid, kwargs);
    var values := Lookups(extra, kwargs);
    var head := [Int(experimentId), Int(solverId), Int(benchmarkId), if result.Some? then Str(result.value) else Null];
    var st := Insert(RunKeys + extra, Marks(4 + |extra|), head + values);
    assert |RunKeys| == 4;
    assert forall i :: 4 <= i < |st.columns| ==> st.columns[i] == extra[i - 4] && st.params[i] == values[i - 4];
    st
  }

  function AddRun(experimentId: int, solverId: int, benchmarkId: int, result: Option<string>,
                  kwargs: map<string, Arg>): (st: Insert)
    ensures |st.columns| == |st.params|
    ensures Occurrences(st.placeholders, '?') == |st.columns|
    ensures |st.columns| >= 4 && forall f :: f in st.columns[4..] <==> f in RunFields && f in kwargs
  {
    var st := AddRunWith(RunFields, experimentId, solverId, benchmarkId, result, kwargs);
    assert forall f :: f in st.columns[4..] <==> f in Present(RunFields, kwargs) by {
      assert st.columns[4..] == Present(RunFields, kwargs);
    }
    st
  }

  /** `INSERT OR REPLACE INTO runs (<columns>) VALUES (<placeholders>)`. */
  function InsertQuery(st: Insert): string {
    "INSERT OR REPLACE INTO runs (" + Join(", ", st.columns) + ") VALUES (" + st.placeholders + ")"
  }

  lemma {:induction false} OccurrencesAbsent(s: string, c: char)
    requires c !in s
    ensures Occurrences(s, c) == 0
    decreases |s|
  {
    if |s| > 0 {
      assert forall k :: 0 <= k < |s[1..]| ==> s[1..][k] == s[k + 1];
      OccurrencesAbsent(s[1..], c);
    }
  }

  lemma {:induction false} JoinUnmarked(parts: seq<string>)
    requires forall i :: 0 <= i < |parts| ==> '?' !in parts[i]
    ensures '?' !in Join(", ", parts)
    decreases |parts|
  {
    if |parts| > 1 {
      assert forall i :: 0 <= i < |parts| - 1 ==> parts[1..][i] == parts[i + 1];
      JoinUnmarked(parts[1..]);
    }
  }

  lemma {:induction false} MarksFramed(pre: string, cols: string, mid: string, ph: string, post: string)
    requires '?' !in pre && '?' !in cols && '?' !in mid && '?' !in post
    ensures Occurrences(pre + cols + mid + ph + post, '?') == Occurrences(ph, '?')
  {
    OccurrencesAbsent(pre, '?');
    OccurrencesAbsent(cols, '?');
    OccurrencesAbsent(mid, '?');
    OccurrencesAbsent(post, '?');
    OccurrencesConcat(pre, cols, '?');
    OccurrencesConcat(pre + cols, mid, '?');
    OccurrencesConcat(pre + cols + mid, ph, '?');
    OccurrencesConcat(pre + cols + mid + ph, post, '?');
  }

  /** With no `?` in a column name, the statement's only marks are its placeholders. */
  lemma InsertQueryMarks(st: Insert)
    requires forall i :: 0 <= i < |st.columns| ==> '?' !in st.columns[i]
    ensures Occurrences(InsertQuery(st), '?') == Occurrences(st.placeholders, '?')
  {
    JoinUnmarked(st.columns);
    MarksFramed("INSERT OR REPLACE INTO runs (", Join(", ", st.columns), ") VALUES (", st.placeholders, ")");
  }

  lemma RunColumnsUnmarked()
    ensures forall f :: f in RunKeys + RunFields ==> '?' !in f
  {
  }

  /** `add_run`'s statement has one `?` per bound value, as `cursor.execute` needs. */
  lemma AddRunQueryMarks(experimentId: int, solverId: int, benchmarkId: int, result: Option<string>,
                         kwargs: map<string, Arg>)
    ensures var st := AddRun(experimentId, solverId, benchmarkId, result, kwargs);
      Occurrences(InsertQuery(st), '?') == |st.params|
  {
    var st := AddRun(experimentId, solverId, benchmarkId, result, kwargs);
    var w := AddRunWith(RunFields, experimentId, solverId, benchmarkId, result, kwargs);
    assert st == w;
    RunColumnsUnmarked();
    forall i | 0 <= i < |st.columns| ensures '?' !in st.columns[i] {
      if i < 4 {
        assert st.columns[i] == RunKeys[i];
      } else {
        assert st.columns[i] == st.columns[4..][i - 4];
        assert st.columns[i] in Present(RunFields, kwargs);
      }
    }
    InsertQueryMarks(st);
  }
}

=== FILE: suite.dfy ===
/**
 * Rules of the benchmark suite's database layer (app/core/database.py)
 * that do not depend on SQL: the PAR-2 default `add_run` stores, the
 * choice of the version `keep_best_duplicate` keeps, and the tallies of
 * `delete_benchmarks_batch` and `cleanup_all_duplicates`. The database's
 * answers to the queries these issue are inputs.
 */
module Suite {
  import opened Outcomes
  import opened Text

  // ---------------------------------------------------------------------
  // PAR-2

  /** `add_run` when `kwargs` carries no `par2_score`: twice the timeout for a failed run, else the CPU time. */
  function Par2(par2Score: Option<real>, timeout: Option<real>, cpuTime: Option<real>, result: Option<string>): (s: real)
    ensures par2Score.Some? ==> s == par2Score.value
    ensures par2Score.None? && Failure(result) ==> s == 2.0 * (if timeout.Some? then timeout.value else 5000.0)
    ensures par2Score.None? && !Failure(result) ==> s == (if cpuTime.Some? then cpuTime.value else 0.0)
  {
    if par2Score.Some? then par2Score.value
    else
      var t := if timeout.Some? then timeout.value else 5000.0;
      var cpu := if cpuTime.Some? then cpuTime.value else 0.0;
      if Failure(result) then 2 as real * t else cpu
  }

  /** `result in ['TIMEOUT', 'MEMOUT', 'ERROR']`, the result defaulting to `'UNKNOWN'`. */
  predicate Failure(result: Option<string>) {
    result.Some? && result.value in ["TIMEOUT", "MEMOUT", "ERROR"]
  }

  /** A solved run is charged its CPU time, an unsolved one at least as much as the default timeout allows. */
  lemma Par2Penalty(timeout: real, cpuTime: real, result: string)
    requires 0.0 <= cpuTime <= timeout
    ensures Failure(Some(result)) ==> Par2(None, Some(timeout), Some(cpuTime), Some(result)) >= 2.0 * cpuTime
    ensures !Failure(Some(result)) ==> Par2(None, Some(timeout), Some(cpuTime), Some(result)) == cpuTime
  {
  }

  // ---------------------------------------------------------------------
  // Duplicates

  /** The columns of one stored version of a benchmark that the score reads. */
  datatype Version = Version(id: int, numVariables: Option<int>, numClauses: Option<int>,
                             family: Option<string>, difficulty: Option<string>, checksum: Option<string>)

  function Indicator(b: bool): nat { if b then 1 else 0 }

  /** `completeness_score`: five independent `CASE` terms. */
  function Score(v: Version): (s: nat)
    ensures s <= 5
  {
    Indicator(v.numVariables.Some?)
    + Indicator(v.numClauses.Some?)
    + Indicator(v.family.Some? && v.family.value != "unknown")
    + Indicator(v.difficulty.Some? && v.difficulty.value != "unknown")
    + Indicator(v.checksum.Some? && v.checksum.value != "")
  }

  /** `ORDER BY completeness_score DESC, id ASC`: `a` comes no later than `b`. */
  predicate Precedes(a: Version, b: Version) {
    Score(a) > Score(b) || (Score(a) == Score(b) && a.id <= b.id)
  }

  /** The first row of the ordered query. */
  function Best(vs: seq<Version>): (b: Version)
    requires |vs| > 0
    ensures b in vs
    ensures forall v :: v in vs ==> Precedes(b, v)
  {
    if |vs| == 1 then vs[0]
    else
      var rest := Best(vs[1..]);
      assert forall v :: v in vs ==> v == vs[0] || v in vs[1..];
      if Precedes(rest, vs[0]) then rest else vs[0]
  }

  /** The ids of every version except the kept one. */
  function Others(vs: seq<Version>, keep: Version): (ids: seq<int>)
    ensures forall i :: i in ids <==> exists v :: v in vs && v != keep && v.id == i
    ensures |ids| <= |vs|
  {
    if |vs| == 0 then []
    else
      var rest := Others(vs[1..], keep);
      assert forall v :: v in vs <==> v == vs[0] || v in vs[1..];
      if vs[0] == keep then rest else [vs[0].id] + rest
  }

  lemma {:induction false} OthersCount(vs: seq<Version>, keep: Version)
    requires forall i, j :: 0 <= i < j < |vs| ==> vs[i] != vs[j]
    ensures |Others(vs, keep)| == if keep in vs then |vs| - 1 else |vs|
  {
    if |vs| > 0 {
      assert forall i, j :: 0 <= i < j < |vs[1..]| ==> vs[1..][i] != vs[1..][j] by {
        forall i, j | 0 <= i < j < |vs[1..]| ensures vs[1..][i] != vs[1..][j] {
          assert vs[1..][i] == vs[i + 1] && vs[1..][j] == vs[j + 1];
        }
      }
      OthersCount(vs[1..], keep);
      assert forall v :: v in vs <==> v == vs[0] || v in vs[1..];
      if vs[0] == keep {
        assert keep !in vs[1..];
      }
    }
  }

  /** What `keep_best_duplicate` does: the ids it deletes, and the count it returns. */
  datatype Cleanup = Cleanup(kept: Option<int>, deleted: seq<int>, count: nat)

  /**
   * `keep_best_duplicate` over the versions stored under one filename
   * (their ids distinct, as the primary key makes them): nothing with at
   * most one version; otherwise the best version stays and every other is
   * deleted.
   */
  function KeepBest(vs: seq<Version>): (c: Cleanup)
    requires DistinctIds(vs)
    ensures |vs| <= 1 ==> c == Cleanup(None, [], 0)
    ensures |vs| > 1 ==> c.count == |vs| - 1 && c.count == |c.deleted|
    ensures |vs| > 1 ==> c.kept.Some? && exists b :: b in vs && b.id == c.kept.value && forall v :: v in vs ==> Precedes(b, v)
    ensures |vs| > 1 ==> forall v :: v in vs ==> (v.id in c.deleted <==> v.id != c.kept.value)
  {
    if |vs| <= 1 then Cleanup(None, [], 0)
    else
      var b := Best(vs);
      assert forall i, j :: 0 <= i < j < |vs| ==> vs[i] != vs[j];
      OthersCount(vs, b);
      var gone := Others(vs, b);
      forall v | v in vs ensures v.id in gone <==> v.id != b.id {
        if v.id == b.id {
          SameId(vs, v, b);
        }
      }
      Cleanup(Some(b.id), gone, |gone|)
  }

  lemma SameId(vs: seq<Version>, v: Version, b: Version)
    requires DistinctIds(vs)
    requires v in vs && b in vs && v.id == b.id
    ensures v == b && forall w :: w in vs && w != b ==> w.id != b.id
  {
    var i :| 0 <= i < |vs| && vs[i] == v;
    var j :| 0 <= j < |vs| && vs[j] == b;
    forall w | w in vs && w != b ensures w.id != b.id {
      var k :| 0 <= k < |vs| && vs[k] == w;
    }
  }

  /** The kept version is the only one no other strictly precedes: the choice does not depend on row order. */
  lemma BestUnique(vs: seq<Version>, a: Version)
    requires DistinctIds(vs)
    requires a in vs && forall v :: v in vs ==> Precedes(a, v)
    ensures a == Best(vs)
  {
    var b := Best(vs);
    assert Precedes(a, b) && Precedes(b, a);
    SameId(vs, a, b);
  }

  /**
   * `cleanup_all_duplicates`: one `keep_best_duplicate` per filename with
   * duplicates.
   */
  datatype Tally = Tally(totalDuplicates: nat, benchmarksCleaned: nat, versionsDeleted: nat)

  predicate DistinctIds(vs: seq<Version>) {
    forall i, j :: 0 <= i < j < |vs| ==> vs[i].id != vs[j].id
  }

  function CleanupAll(groups: seq<seq<Version>>): (t: Tally)
    requires forall g :: g in groups ==> DistinctIds(g)
    ensures t.totalDuplicates == |groups|
    ensures t.benchmarksCleaned <= t.totalDuplicates
    ensures t.benchmarksCleaned <= t.versionsDeleted
    ensures t.benchmarksCleaned == Cleaned(groups) && t.versionsDeleted == Removed(groups)
  {
    if |groups| == 0 then Tally(0, 0, 0)
    else
      assert groups[0] in groups && forall g :: g in groups[1..] ==> g in groups;
      var rest := CleanupAll(groups[1..]);
      var deleted := KeepBest(groups[0]).count;
      if deleted > 0 then Tally(rest.totalDuplicates + 1, rest.benchmarksCleaned + 1, rest.versionsDeleted + deleted)
      else Tally(rest.totalDuplicates + 1, rest.benchmarksCleaned, rest.versionsDeleted)
  }

  /** The filenames that had more than one version. */
  function Cleaned(groups: seq<seq<Version>>): nat {
    if |groups| == 0 then 0 else Indicator(|groups[0]| > 1) + Cleaned(groups[1..])
  }

  /** Every version but one of each such filename. */
  function Removed(groups: seq<seq<Version>>): nat {
    if |groups| == 0 then 0 else (if |groups[0]| > 1 then |groups[0]| - 1 else 0) + Removed(groups[1..])
  }

  /** After the cleanup, the stored versions number exactly one per filename. */
  lemma {:induction false} CleanupLeavesOne(groups: seq<seq<Version>>)
    requires forall g :: g in groups ==> DistinctIds(g) && |g| > 0
    ensures Total(groups) - CleanupAll(groups).versionsDeleted == |groups|
  {
    if |groups| > 0 {
      CleanupLeavesOne(groups[1..]);
    }
  }

  function Total(groups: seq<seq<Version>>): nat {
    if |groups| == 0 then 0 else |groups[0]| + Total(groups[1..])
  }

  // ---------------------------------------------------------------------
  // Batch delete

  /**
   * What the database answers for one id: the run count (or the exception
   * raised by the count query), the filename lookup done for a benchmark
   * with runs, and the exception of the `DELETE`, if any.
   */
  datatype Answer =
    | CountRaised(message: string)
    | Counted(runs: nat, filename: Result<Option<string>, string>, deleteError: Option<string>)

  datatype Problem = Problem(id: int, error: string, filename: Option<string>)

  datatype Stats = Stats(deleted: nat, failed: nat, hasRuns: nat, errors: seq<Problem>, removed: seq<int>)

  function HasRunsMessage(runs: nat): string {
    "Has " + IntToString(runs) + " existing runs - cannot delete"
  }

  /** One id of `delete_benchmarks_batch`. */
  function DeleteOne(s: Stats, id: int, a: Answer): (t: Stats)
    ensures s.errors <= t.errors && s.removed <= t.removed
    ensures a.Counted? && a.runs > 0 && a.filename.Ok? ==>
      |t.errors| > 0 && t.errors[|t.errors| - 1].id == id && t.errors[|t.errors| - 1].error == HasRunsMessage(a.runs)
  {
    match a
    case CountRaised(m) => s.(failed := s.failed + 1, errors := s.errors + [Problem(id, m, None)])
    case Counted(runs, name, deleteError) =>
      if runs > 0 then
        var s1 := s.(hasRuns := s.hasRuns + 1);
        match name
        case Err(m) => s1.(failed := s1.failed + 1, errors := s1.errors + [Problem(id, m, None)])
        case Ok(n) =>
          var shown := if n.Some? then n.value else "ID " + IntToString(id);
          s1.(errors := s1.errors + [Problem(id, HasRunsMessage(runs), Some(shown))])
      else
        match deleteError
        case Some(m) => s.(failed := s.failed + 1, errors := s.errors + [Problem(id, m, None)])
        case None => s.(deleted := s.deleted + 1, removed := s.removed + [id])
  }

  /** The id's benchmark is deleted: no runs and a `DELETE` that went through. */
  predicate Deletes(a: Answer) {
    a.Counted? && a.runs == 0 && a.deleteError.None?
  }

  /** No query raised for this id. */
  predicate Clean(a: Answer) {
    a.Counted? && (a.runs > 0 ==> a.filename.Ok?) && (a.runs == 0 ==> a.deleteError.None?)
  }

  function WithRuns(ids: seq<int>, answer: int -> Answer): nat {
    if |ids| == 0 then 0
    else WithRuns(ids[..|ids| - 1], answer) + Indicator(answer(ids[|ids| - 1]).Counted? && answer(ids[|ids| - 1]).runs > 0)
  }

  /** `delete_benchmarks_batch`: the ids in order, each answered by the database. */
  function DeleteBatch(ids: seq<int>, answer: int -> Answer): (s: Stats)
    ensures s.deleted == |s.removed|
    ensures forall id :: id in s.removed ==> id in ids && Deletes(answer(id))
    ensures forall i :: 0 <= i < |ids| && Deletes(answer(ids[i])) ==> ids[i] in s.removed
    ensures s.hasRuns == WithRuns(ids, answer)
    ensures s.deleted + s.hasRuns + s.failed >= |ids|
    ensures (forall i :: 0 <= i < |ids| ==> Clean(answer(ids[i]))) ==> s.deleted + s.hasRuns == |ids| && s.failed == 0
    ensures forall i :: 0 <= i < |ids| && answer(ids[i]).Counted? && answer(ids[i]).runs > 0 && answer(ids[i]).filename.Ok? ==>
      exists p :: p in s.errors && p.id == ids[i] && p.error == HasRunsMessage(answer(ids[i]).runs)
  {
    if |ids| == 0 then Stats(0, 0, 0, [], [])
    else
      var init := ids[..|ids| - 1];
      var id := ids[|ids| - 1];
      var s := DeleteBatch(init, answer);
      assert forall x :: x in ids <==> x in init || x == id;
      assert forall i :: 0 <= i < |init| ==> init[i] == ids[i];
      DeleteOne(s, id, answer(id))
  }

  /**
   * A benchmark that has runs is never deleted; once its name is looked
   * up it is reported with its run count.
   */
  lemma KeepsBenchmarksWithRuns(ids: seq<int>, answer: int -> Answer, id: int)
    requires id in ids && answer(id).Counted? && answer(id).runs > 0
    ensures id !in DeleteBatch(ids, answer).removed
    ensures answer(id).filename.Ok? ==> exists p :: p in DeleteBatch(ids, answer).errors && p.id == id && p.error == HasRunsMessage(answer(id).runs)
  {
    var i :| 0 <= i < |ids| && ids[i] == id;
  }
}

=== FILE: syntax.dfy ===
/**
 * The abstract syntax of the SAT modelling language (the `ASTNode`
 * classes of sat_modeler.py) and its intended meaning: a constraint holds
 * under an assignment of truth values to variable names.
 */
module Syntax {

  datatype Expr =
    | LitTrue
    | LitFalse
    | VarRef(name: string)
    | Not(child: Expr)
    | And(children: seq<Expr>)
    | Or(children: seq<Expr>)
    | Impl(lhs: Expr, rhs: Expr)
    | Iff(lhs: Expr, rhs: Expr)
    | Xor(a: Expr, b: Expr)
    | AtMost(k: int, vars: seq<string>)
    | AtLeast(k: int, vars: seq<string>)
    | Exactly(k: int, vars: seq<string>)

  /** A statement, with the line of its leading keyword. */
  datatype Stmt =
    | VarDecl(names: seq<string>, line: int)
    | Constraint(expr: Expr, line: int)
    | SolveSatisfy(line: int)

  /** Truth values for variable names. */
  type Env = string -> bool

  /** How many entries of `vars` are true; a repeated name counts each time. */
  function Count(vars: seq<string>, env: Env): (n: nat)
    ensures n <= |vars|
  {
    if |vars| == 0 then 0
    else (if env(vars[0]) then 1 else 0) + Count(vars[1..], env)
  }

  /** The truth value the expression is meant to have. */
  function Eval(e: Expr, env: Env): bool
    decreases e
  {
    match e
    case LitTrue => true
    case LitFalse => false
    case VarRef(x) => env(x)
    case Not(c) => !Eval(c, env)
    case And(cs) => EvalAll(cs, env)
    case Or(cs) => EvalAny(cs, env)
    case Impl(a, b) => !Eval(a, env) || Eval(b, env)
    case Iff(a, b) => Eval(a, env) == Eval(b, env)
    case Xor(a, b) => Eval(a, env) != Eval(b, env)
    case AtMost(k, vs) => Count(vs, env) <= k
    case AtLeast(k, vs) => Count(vs, env) >= k
    case Exactly(k, vs) => Count(vs, env) == k
  }

  function EvalAll(cs: seq<Expr>, env: Env): bool
    decreases cs
  {
    if |cs| == 0 then true else Eval(cs[0], env) && EvalAll(cs[1..], env)
  }

  function EvalAny(cs: seq<Expr>, env: Env): bool
    decreases cs
  {
    if |cs| == 0 then false else Eval(cs[0], env) || EvalAny(cs[1..], env)
  }

  /** Every constraint of the program holds. */
  predicate Holds(stmts: seq<Stmt>, env: Env) {
    forall i :: 0 <= i < |stmts| && stmts[i].Constraint? ==> Eval(stmts[i].expr, env)
  }

  /** Built from variables, `true`, `false` and the Boolean connectives only. */
  predicate GateOnly(e: Expr)
    decreases e
  {
    match e
    case LitTrue => true
    case LitFalse => true
    case VarRef(_) => true
    case Not(c) => GateOnly(c)
    case And(cs) => AllGateOnly(cs)
    case Or(cs) => AllGateOnly(cs)
    case Impl(a, b) => GateOnly(a) && GateOnly(b)
    case Iff(a, b) => GateOnly(a) && GateOnly(b)
    case Xor(a, b) => GateOnly(a) && GateOnly(b)
    case _ => false
  }

  predicate AllGateOnly(cs: seq<Expr>)
    decreases cs
  {
    |cs| == 0 || (GateOnly(cs[0]) && AllGateOnly(cs[1..]))
  }

  predicate IsCardinality(e: Expr) {
    e.AtMost? || e.AtLeast? || e.Exactly?
  }
}

=== FILE: text.dfy ===
/**
 * Python string primitives used throughout the code base, restated over
 * `seq<char>`: character classes, case mapping, `strip`, `split`, `join`,
 * `splitlines`, `startswith`/`endswith`/`in`, `str(int)` and `int(str)`.
 *
 * Whitespace follows `str.isspace` exactly. Digits, letters and case
 * mapping are the ASCII subset of Python's Unicode tables.
 */
module Text {
  import opened Outcomes

  /** `str.isspace` for one character (the complete Unicode list). */
  predicate IsSpace(c: char) {
    var n := c as int;
    (9 <= n <= 13) || (28 <= n <= 32) || n == 0x85 || n == 0xA0 || n == 0x1680
    || (0x2000 <= n <= 0x200A) || n == 0x2028 || n == 0x2029 || n == 0x202F
    || n == 0x205F || n == 0x3000
  }

  predicate IsDigit(c: char) { '0' <= c <= '9' }

  predicate IsUpper(c: char) { 'A' <= c <= 'Z' }

  predicate IsLower(c: char) { 'a' <= c <= 'z' }

  predicate IsAlpha(c: char) { IsUpper(c) || IsLower(c) }

  predicate IsAlnum(c: char) { IsAlpha(c) || IsDigit(c) }

  function ToLower(c: char): (r: char)
    ensures !IsUpper(r)
    ensures IsAlpha(c) <==> IsAlpha(r)
    ensures !IsAlpha(c) ==> r == c
  {
    if IsUpper(c) then (c as int + 32) as char else c
  }

  function ToUpper(c: char): (r: char)
    ensures !IsLower(r)
    ensures IsAlpha(c) <==> IsAlpha(r)
    ensures !IsAlpha(c) ==> r == c
  {
    if IsLower(c) then (c as int - 32) as char else c
  }

  /** `str.lower()` on the ASCII letters. */
  function Lower(s: string): (r: string)
    ensures |r| == |s|
    ensures forall i :: 0 <= i < |s| ==> r[i] == ToLower(s[i])
  {
    seq(|s|, i requires 0 <= i < |s| => ToLower(s[i]))
  }

  /** `str.upper()` on the ASCII letters. */
  function Upper(s: string): (r: string)
    ensures |r| == |s|
    ensures forall i :: 0 <= i < |s| ==> r[i] == ToUpper(s[i])
  {
    seq(|s|, i requires 0 <= i < |s| => ToUpper(s[i]))
  }

  predicate StartsWith(s: string, p: string) {
    |p| <= |s| && s[..|p|] == p
  }

  predicate EndsWith(s: string, p: string) {
    |p| <= |s| && s[|s| - |p|..] == p
  }

  /** `p` occurs in `s` starting at offset `i`. */
  predicate OccursAt(s: string, p: string, i: int) {
    0 <= i && i + |p| <= |s| && s[i..i + |p|] == p
  }

  /** `p in s` for strings: `p` occurs in `s` at some offset. */
  predicate Contains(s: string, p: string) {
    exists i | 0 <= i <= |s| :: OccursAt(s, p, i)
  }

  /** `s[:n]` for a non-negative bound. */
  function Prefix(s: string, n: nat): (r: string)
    ensures |r| <= n && r <= s
    ensures |s| <= n ==> r == s
    ensures |s| > n ==> |r| == n
  {
    if |s| <= n then s else s[..n]
  }

  // ---------------------------------------------------------------- strip

  function LStrip(s: string): (r: string)
    ensures |r| <= |s|
  {
    if |s| > 0 && IsSpace(s[0]) then LStrip(s[1..]) else s
  }

  function RStrip(s: string): (r: string)
    ensures |r| <= |s|
  {
    if |s| > 0 && IsSpace(s[|s| - 1]) then RStrip(s[..|s| - 1]) else s
  }

  /** `LStrip` removes exactly the leading whitespace. */
  lemma {:induction false} LStripShape(s: string)
    ensures LStrip(s) == s[|s| - |LStrip(s)|..]
    ensures |LStrip(s)| > 0 ==> !IsSpace(LStrip(s)[0])
    ensures forall i :: 0 <= i < |s| - |LStrip(s)| ==> IsSpace(s[i])
  {
    if |s| > 0 && IsSpace(s[0]) {
      LStripShape(s[1..]);
    }
  }

  /** `RStrip` removes exactly the trailing whitespace. */
  lemma {:induction false} RStripShape(s: string)
    ensures RStrip(s) == s[..|RStrip(s)|]
    ensures |RStrip(s)| > 0 ==> !IsSpace(RStrip(s)[|RStrip(s)| - 1])
    ensures forall i :: |RStrip(s)| <= i < |s| ==> IsSpace(s[i])
  {
    if |s| > 0 && IsSpace(s[|s| - 1]) {
      RStripShape(s[..|s| - 1]);
    }
  }

  /** `str.strip()`: the longest infix with no whitespace at either end. */
  function Strip(s: string): (r: string)
    ensures |r| <= |s|
  {
    RStrip(LStrip(s))
  }

  /** Neither end of a stripped string is whitespace. */
  lemma StripEnds(s: string)
    ensures |Strip(s)| > 0 ==> !IsSpace(Strip(s)[0]) && !IsSpace(Strip(s)[|Strip(s)| - 1])
  {
    LStripShape(s);
    RStripShape(LStrip(s));
  }

  predicate NoSpace(s: string) {
    forall i :: 0 <= i < |s| ==> !IsSpace(s[i])
  }

  lemma StripNoSpace(s: string)
    requires |s| == 0 || (!IsSpace(s[0]) && !IsSpace(s[|s| - 1]))
    ensures Strip(s) == s
  {
  }

  // ---------------------------------------------------------------- split

  /** Length of the longest prefix of `s` without whitespace. */
  function NonSpaceRun(s: string): (n: nat)
    ensures n <= |s|
    ensures forall i :: 0 <= i < n ==> !IsSpace(s[i])
    ensures n < |s| ==> IsSpace(s[n])
  {
    if |s| == 0 || IsSpace(s[0]) then 0 else 1 + NonSpaceRun(s[1..])
  }

  /** A non-empty run of non-whitespace: what `str.split()` yields. */
  predicate Word(w: string) {
    |w| > 0 && NoSpace(w)
  }

  /** `str.split()` with no argument: the maximal runs of non-whitespace. */
  function SplitWs(s: string): (r: seq<string>)
    ensures forall i :: 0 <= i < |r| ==> Word(r[i])
    decreases |s|
  {
    if |s| == 0 then []
    else if IsSpace(s[0]) then SplitWs(s[1..])
    else
      var n := NonSpaceRun(s);
      [s[..n]] + SplitWs(s[n..])
  }

  /** `sep.join(parts)`. */
  function Join(sep: string, parts: seq<string>): string {
    if |parts| == 0 then ""
    else if |parts| == 1 then parts[0]
    else parts[0] + sep + Join(sep, parts[1..])
  }

  /** A join ends with its last part. */
  lemma {:induction false} JoinLast(sep: string, parts: seq<string>)
    requires |parts| >= 1
    ensures var j := Join(sep, parts); var p := parts[|parts| - 1];
      |j| >= |p| && j[|j| - |p|..] == p
    decreases |parts|
  {
    if |parts| > 1 {
      JoinLast(sep, parts[1..]);
      assert parts[1..][|parts[1..]| - 1] == parts[|parts| - 1];
    }
  }

  /** `" ".join(words).split()` gives the words back. */
  lemma {:induction false} SplitWsJoin(words: seq<string>)
    requires forall i :: 0 <= i < |words| ==> Word(words[i])
    ensures SplitWs(Join(" ", words)) == words
    decreases |words|
  {
    if |words| == 1 {
      SplitWsWord(words[0], "");
      assert words[0] + "" == words[0];
    } else if |words| > 1 {
      var rest := Join(" ", words[1..]);
      assert Join(" ", words) == words[0] + (" " + rest);
      SplitWsWord(words[0], " " + rest);
      assert (" " + rest)[1..] == rest;
      SplitWsJoin(words[1..]);
    }
  }

  /** A word followed by nothing or by whitespace splits off as one piece. */
  lemma SplitWsWord(w: string, rest: string)
    requires Word(w)
    requires |rest| == 0 || IsSpace(rest[0])
    ensures SplitWs(w + rest) == [w] + SplitWs(rest)
  {
    var s := w + rest;
    NonSpaceRunPrefix(w, s);
    assert s[..|w|] == w && s[|w|..] == rest;
  }

  lemma {:induction false} NonSpaceRunPrefix(w: string, s: string)
    requires NoSpace(w) && |w| <= |s| && s[..|w|] == w
    requires |s| == |w| || IsSpace(s[|w|])
    ensures NonSpaceRun(s) == |w|
    decreases |w|
  {
    if |w| > 0 {
      assert s[1..][..|w| - 1] == w[1..];
      NonSpaceRunPrefix(w[1..], s[1..]);
    }
  }

  /** Index of the first `c` in `s`, or `|s|` when there is none. */
  function IndexOfChar(s: string, c: char): (i: nat)
    ensures i <= |s|
    ensures i < |s| ==> s[i] == c
    ensures forall j :: 0 <= j < i ==> s[j] != c
  {
    if |s| == 0 || s[0] == c then 0 else 1 + IndexOfChar(s[1..], c)
  }

  /** `s.split(c)` for a one-character separator: keeps empty pieces. */
  function SplitChar(s: string, c: char): (r: seq<string>)
    ensures |r| >= 1
    ensures forall i :: 0 <= i < |r| ==> c !in r[i]
    decreases |s|
  {
    var i := IndexOfChar(s, c);
    if i == |s| then [s] else [s[..i]] + SplitChar(s[i + 1..], c)
  }

  /** Splitting a join on a separator absent from every part gives the parts back. */
  lemma {:induction false} SplitCharJoin(parts: seq<string>, c: char)
    requires |parts| >= 1
    requires forall i :: 0 <= i < |parts| ==> c !in parts[i]
    ensures SplitChar(Join([c], parts), c) == parts
    decreases |parts|
  {
    var p := parts[0];
    IndexOfCharAbsent(p, c);
    if |parts| == 1 {
      assert Join([c], parts) == p;
    } else {
      var rest := Join([c], parts[1..]);
      var s := p + [c] + rest;
      assert Join([c], parts) == s;
      IndexOfCharAfter(p, c, rest);
      assert s[|p| + 1..] == rest;
      assert s[..|p|] == p;
      SplitCharJoin(parts[1..], c);
    }
  }

  lemma IndexOfCharAbsent(s: string, c: char)
    requires c !in s
    ensures IndexOfChar(s, c) == |s|
  {
  }

  lemma IndexOfCharAfter(p: string, c: char, rest: string)
    requires c !in p
    ensures IndexOfChar(p + [c] + rest, c) == |p|
  {
    var s := p + [c] + rest;
    var i := IndexOfChar(s, c);
    assert forall j :: 0 <= j < |p| ==> s[j] == p[j];
    assert s[|p|] == c;
  }

  /** The line terminators recognised by `str.splitlines()`. */
  predicate IsLineBreak(c: char) {
    var n := c as int;
    (10 <= n <= 13) || (28 <= n <= 30) || n == 0x85 || n == 0x2028 || n == 0x2029
  }

  function IndexOfLineBreak(s: string): (i: nat)
    ensures i <= |s|
    ensures i < |s| ==> IsLineBreak(s[i])
    ensures forall j :: 0 <= j < i ==> !IsLineBreak(s[j])
  {
    if |s| == 0 || IsLineBreak(s[0]) then 0 else 1 + IndexOfLineBreak(s[1..])
  }

  /** `str.splitlines()`: `\r\n` is one terminator and no empty last line is produced. */
  function SplitLines(s: string): (r: seq<string>)
    ensures forall i :: 0 <= i < |r| ==> forall j :: 0 <= j < |r[i]| ==> !IsLineBreak(r[i][j])
    decreases |s|
  {
    if |s| == 0 then []
    else
      var i := IndexOfLineBreak(s);
      if i == |s| then [s]
      else
        var skip := if s[i] == '\r' && i + 1 < |s| && s[i + 1] == '\n' then 2 else 1;
        [s[..i]] + SplitLines(s[i + skip..])
  }

  /** `s.split(sep)` for a non-empty separator, scanning left to right. */
  function SplitOn(s: string, sep: string): (r: seq<string>)
    requires |sep| > 0
    ensures |r| >= 1
    decreases |s|
  {
    SplitOnFrom(s, sep, "")
  }

  function SplitOnFrom(s: string, sep: string, cur: string): (r: seq<string>)
    requires |sep| > 0
    ensures |r| >= 1
    decreases |s|
  {
    if |s| == 0 then [cur]
    else if StartsWith(s, sep) then [cur] + SplitOnFrom(s[|sep|..], sep, "")
    else SplitOnFrom(s[1..], sep, cur + [s[0]])
  }

  // ---------------------------------------------------------------- numbers

  function DigitChar(d: nat): (c: char)
    requires d < 10
    ensures IsDigit(c)
  {
    ('0' as int + d) as char
  }

  function DigitValue(c: char): (d: nat)
    requires IsDigit(c)
    ensures d < 10
  {
    c as int - '0' as int
  }

  /** `str(n)` for a natural number. */
  function NatToString(n: nat): (s: string)
    ensures |s| > 0
  {
    if n < 10 then [DigitChar(n)] else NatToString(n / 10) + [DigitChar(n % 10)]
  }

  /** `str(n)` of a natural number is digits only. */
  lemma {:induction false} NatToStringDigits(n: nat)
    ensures AllDigits(NatToString(n))
  {
    if n >= 10 {
      var s := NatToString(n);
      NatToStringDigits(n / 10);
      assert forall i :: 0 <= i < |s| - 1 ==> s[i] == NatToString(n / 10)[i];
    }
  }

  /** `str(i)` for an integer. */
  function IntToString(i: int): (s: string)
    ensures |s| > 0
  {
    if i < 0 then "-" + NatToString(-i) else NatToString(i)
  }

  /** The characters `str(i)` is made of: digits and the minus sign. */
  predicate IntChars(s: string) {
    forall j :: 0 <= j < |s| ==> IsDigit(s[j]) || s[j] == '-'
  }

  /** `str(i)` is a word of digits and minus signs. */
  lemma IntToStringChars(x: int)
    ensures IntChars(IntToString(x)) && Word(IntToString(x))
  {
    var s := IntToString(x);
    if x < 0 {
      NatToStringDigits(-x);
      assert forall j :: 1 <= j < |s| ==> s[j] == NatToString(-x)[j - 1];
    } else {
      NatToStringDigits(x);
    }
  }

  predicate AllDigits(s: string) {
    forall i :: 0 <= i < |s| ==> IsDigit(s[i])
  }

  /** The value of a run of digits, underscores ignored. */
  function DigitsValue(s: string): nat
    requires forall i :: 0 <= i < |s| ==> IsDigit(s[i]) || s[i] == '_'
  {
    if |s| == 0 then 0
    else if s[|s| - 1] == '_' then DigitsValue(s[..|s| - 1])
    else DigitsValue(s[..|s| - 1]) * 10 + DigitValue(s[|s| - 1])
  }

  lemma {:induction false} DigitsValueOfNat(n: nat)
    ensures AllDigits(NatToString(n)) && DigitsValue(NatToString(n)) == n
  {
    NatToStringDigits(n);
    if n >= 10 {
      var s := NatToString(n);
      assert s[..|s| - 1] == NatToString(n / 10);
      DigitsValueOfNat(n / 10);
    }
  }

  /** Python's integer literal body `digit (["_"] digit)*`. */
  predicate DigitGroup(s: string) {
    && |s| > 0
    && IsDigit(s[0]) && IsDigit(s[|s| - 1])
    && (forall i :: 0 <= i < |s| ==> IsDigit(s[i]) || s[i] == '_')
    && (forall i :: 0 <= i < |s| - 1 ==> !(s[i] == '_' && s[i + 1] == '_'))
  }

  /**
   * `int(s)` for a string: surrounding whitespace is ignored, one optional
   * sign, then a digit group. `None` is the `ValueError` case.
   */
  function ParseInt(s: string): (r: Option<int>)
    ensures r.Some? ==> |Strip(s)| > 0
  {
    var t := Strip(s);
    if |t| > 0 && (t[0] == '+' || t[0] == '-') then
      var body := t[1..];
      if DigitGroup(body) then
        Some(if t[0] == '-' then -(DigitsValue(body) as int) else DigitsValue(body) as int)
      else None
    else if DigitGroup(t) then Some(DigitsValue(t))
    else None
  }

  /** `str(n)` is a digit group worth `n`. */
  lemma NatToStringGroup(n: nat)
    ensures DigitGroup(NatToString(n)) && DigitsValue(NatToString(n)) == n
  {
    DigitsValueOfNat(n);
  }

  /** `int(str(n)) == n` for a natural number. */
  lemma ParseIntOfNat(n: nat)
    ensures ParseInt(NatToString(n)) == Some(n)
  {
    var s := NatToString(n);
    NatToStringGroup(n);
    assert IsDigit(s[0]) && IsDigit(s[|s| - 1]);
    StripNoSpace(s);
    assert Strip(s) == s;
  }

  /** `int(str(-n)) == -n` for a positive number. */
  lemma ParseIntOfNegative(n: nat)
    requires n > 0
    ensures ParseInt("-" + NatToString(n)) == Some(-(n as int))
  {
    var d := NatToString(n);
    NatToStringGroup(n);
    ParseIntMinusGroup(d, n);
  }

  lemma ParseIntMinusGroup(d: string, n: nat)
    requires DigitGroup(d) && DigitsValue(d) == n
    ensures ParseInt("-" + d) == Some(-(n as int))
  {
    var s := "-" + d;
    assert s[1..] == d;
    assert s[|s| - 1] == d[|d| - 1];
    StripNoSpace(s);
    ParseIntMinus(s);
  }

  lemma ParseIntMinus(t: string)
    requires |t| > 0 && t[0] == '-' && DigitGroup(t[1..]) && Strip(t) == t
    ensures ParseInt(t) == Some(-(DigitsValue(t[1..]) as int))
  {
  }

  /** `int(str(i)) == i`. */
  lemma ParseIntOfString(i: int)
    ensures ParseInt(IntToString(i)) == Some(i)
  {
    if i < 0 {
      ParseIntOfNegative(-i);
    } else {
      ParseIntOfNat(i);
    }
  }

  /** `s.replace(pat, rep)`: leftmost, non-overlapping replacement of every occurrence. */
  function ReplaceAll(s: string, pat: string, rep: string): string
    requires |pat| > 0
    decreases |s|
  {
    if |s| == 0 then ""
    else if StartsWith(s, pat) then rep + ReplaceAll(s[|pat|..], pat, rep)
    else [s[0]] + ReplaceAll(s[1..], pat, rep)
  }
}

=== FILE: verdicts.dfy ===
/**
 * The result labels every runner in the code base stores, and the one
 * fact about the two verdict words that all the classifiers rely on.
 */
module Verdicts {
  import opened Outcomes
  import opened Text

  /** The `result` strings: `SAT`, `UNSAT`, `UNKNOWN`, `TIMEOUT`, `MEMOUT`, `ERROR`. */
  datatype Verdict = SAT | UNSAT | UNKNOWN | TIMEOUT | MEMOUT | ERROR

  /** The string stored for a verdict. */
  function Name(v: Verdict): (s: string)
    ensures |s| > 0
  {
    match v
    case SAT => "SAT"
    case UNSAT => "UNSAT"
    case UNKNOWN => "UNKNOWN"
    case TIMEOUT => "TIMEOUT"
    case MEMOUT => "MEMOUT"
    case ERROR => "ERROR"
  }

  /** Reading a stored string back; anything else is `None`. */
  function Parse(s: string): (v: Option<Verdict>)
    ensures v.Some? ==> Name(v.value) == s
  {
    if s == "SAT" then Some(SAT)
    else if s == "UNSAT" then Some(UNSAT)
    else if s == "UNKNOWN" then Some(UNKNOWN)
    else if s == "TIMEOUT" then Some(TIMEOUT)
    else if s == "MEMOUT" then Some(MEMOUT)
    else if s == "ERROR" then Some(ERROR)
    else None
  }

  /** The stored names are distinct and read back to their verdict. */
  lemma NameParse(v: Verdict)
    ensures Parse(Name(v)) == Some(v)
  {
  }

  /** `"SATISFIABLE" in u` whenever `"UNSATISFIABLE" in u`. */
  lemma ContainsUnsatisfiable(u: string)
    requires Contains(u, "UNSATISFIABLE")
    ensures Contains(u, "SATISFIABLE")
  {
    var i :| 0 <= i <= |u| && OccursAt(u, "UNSATISFIABLE", i);
    assert u[i + 2..i + 13] == u[i..i + 13][2..];
    assert OccursAt(u, "SATISFIABLE", i + 2);
  }
}
